=== FILE: README.md ===
# Anthroid in Dafny

Anthroid is an Android application that puts the `claude` agent on a phone and
gives it device tools. It also routes the traffic of chosen apps through an
upstream proxy, adding proxy authentication that those apps cannot supply
themselves. This project models the application's logic as pure Dafny
functions over immutable datatypes, and proves properties of that model.

The model has three parts.

- **The tunnel and the relay.**
  - `Tun2HttpVpnService` and `ProxyVpnService` are the HTTP and SOCKS5 VPN services, modelled as start/stop state machines. Android and the native engines answer through a `Platform` value, and every call the service makes is appended to an effect log.
  - `AuthProxyForwarder` is the local relay that adds `Proxy-Authorization: Basic` to an HTTP CONNECT handshake (section 9.3.6 of RFC 9110, section 2 of RFC 7617). Its control phase is a function from the bytes the client sends and the bytes the upstream proxy answers to the bytes written each way, plus the decision to relay or close.
  - `Base64` is the encoding of section 4 of RFC 4648, with its decoder.
  - `Bytes` holds UTF-8 and the ISO-8859-1 reading of bytes that the relay's `(char) b` loops perform.
- **The proxy configuration.**
  - `ProxyModels` holds `ProxyServer` and `ProxyConfig` with their JSON form.
  - `ProxyConfigManager` holds the list updates and the cached load/save of the configuration.
  - `AndroidTools` holds the tool dispatch and the `set_app_proxy` merge.
- **The agent side.**
  - `ClaudeViewModel` is the chat screen's state machine.
  - `ClaudeCliClient` parses the CLI's stream-json output; `ClaudeApiClient` folds the Messages API's server-sent-event stream.
  - `ConversationManager` summarises and loads saved transcripts.
  - `TerminalCommandBridge` does marker-based command execution in a terminal.
  - `QuickSendManager` keeps the message-frequency counter.
  - `AppSelectorAdapter` handles app selection.
  - `McpServer` (Kotlin, HTTP) and `AndroidMcp` (`android_mcp.py`, stdio) are the JSON-RPC 2.0 endpoints. Their error codes are those of section 5.1 of the JSON-RPC 2.0 Specification.
  - `AnthroidAccessibilityService` holds the accessibility tree searches.
  - `ScreenCaptureService` writes the WAV header.
  - `ImageUtils` does image sizing.
  - `TermuxInstaller` makes the bootstrap installer's decisions.

Shared definitions live in a few small modules:

- `Wrappers` (`Option`);
- `Strings` (the `java.lang.String`, `kotlin.text` and Python `str` operations the code uses);
- `Seqs` (order-preserving `filter`, `count`, `indexOfFirst`, `map`, a descending sort);
- `Json` (JSON values and the org.json accessors, with their defaults, the printing of scalars by getString/optString and the string-to-int coercion of getInt/optInt);
- `KotlinInt` (32-bit wrap-around and truncating division).

Modelling conventions:

- **Platform answers are parameters.** I/O, clocks, UUIDs, the file system, processes, sockets and platform services appear as parameters or as values describing their answers. Examples are whether a write succeeded, the lines a file holds, and what `JSONObject(text)` parses to, with `None` when it throws.
- **Integer width is explicit.** Kotlin `Int` arithmetic is written out where it matters: `Wrap32` for overflow and `Quot` for division that truncates toward zero.
- **Map order is explicit.** Kotlin's `mutableMapOf` iterates in insertion order, so it is modelled as a list of entries.

## Behaviour worth knowing

- **The relay's response bytes.** The forwarder reads the upstream response head one byte at a time as a `char` and writes the text back as UTF-8 (`AuthProxyForwarder.java:157-169`). Every byte at or above 0x80 therefore becomes two bytes. `AuthProxyForwarder.ResponseVerbatimIff` proves the head arrives byte for byte exactly when it is ASCII, and `Bytes.ReencodeExample` gives a concrete byte that changes.
- **The request line.** The forwarder trims the request line before relaying it (`AuthProxyForwarder.java:119`).
- **The `"200"` test.** The forwarder treats the upstream answer as a success when `"200"` occurs anywhere in the response head, not only in the status line (`AuthProxyForwarder.java:173`).
- **VPN service states.** Each VPN service keeps a single running flag and reports nothing to its caller; there is no separate starting or failed state. A failed start is undone by `stopVpn` (`Tun2HttpVpnService.java:195-198`, `ProxyVpnService.kt:156-158`).
- **`ProxyVpnService` after a failed configuration write.** The code returns after writing the engine configuration fails, without closing the interface it established (`ProxyVpnService.kt:133-159`). `ProxyVpnService.ConfigFailureKeepsInterface` states this.
- **Quick-send threshold.** `QuickSendManager`'s doc comment promises candidates used more than five times. The code keeps counts of five or more (`QuickSendManager.kt:90-96`). `QuickSendManager.LoneEntryOffered` shows an entry counted exactly five times being offered.
- **The voice-input prefix.** The literal that `QuickSendManager.kt` strips is the microphone emoji's UTF-8 bytes read as Windows-1252 text. The model uses that literal as written. `ClaudeFragment.kt` adds the same literal, so the two agree.
- **Advertised but not dispatched tools.** `McpServer` advertises `get_device_info` and four capture tools in `tools/list` that `AndroidTools.executeTool` does not dispatch. `McpServer.AdvertisedButUndispatched` proves they are listed but missing from the dispatch table. A call to one therefore answers `Unknown tool:` and is flagged as an error.
- **The notification's app list.** `Tun2HttpVpnService` appends ", " only when the text built so far is non-empty. An app whose label is empty therefore swallows the separator after it (`Tun2HttpVpnService.EmptyLabelSkipsSeparator`).
- **`showOverlay` and the interrupt flag.** `showOverlay` lowers the interrupt flag only when the service is running. An interrupt raised before a click or scroll is therefore reported only while the service is disabled.
- **Very thin images.** `ImageUtils.resizeIfNeeded` scales a very thin image to a side of zero. `Bitmap.createScaledBitmap` then throws, and `processImageForApi` returns null (`ImageUtils.ThinImageRejected`).
- **SYMLINKS.txt lines.** Java's `split` drops trailing empty pieces, so a line ending in `←` is accepted (`TermuxInstaller.TrailingSeparatorAccepted`).
- **`cleanupEmptyConversations`.** Unlike the listing functions, it also deletes empty `agent-*` transcripts (`ConversationManager.CleanupReachesAgentFiles`).

## Model

| member | source | states |
|---|---|---|
| AuthProxyForwarder.ReadUntil | app/src/main/java/tun/proxy/service/AuthProxyForwarder.java:110-117 | a byte-at-a-time read loop stops right after the first byte with which its stop condition holds, or at end of stream, and never earlier |
| AuthProxyForwarder.RequestLineFraming | app/src/main/java/tun/proxy/service/AuthProxyForwarder.java:110-117 | the request line read is exactly the stream up to and including its first CRLF, or the whole stream when there is none |
| AuthProxyForwarder.ResponseFraming | app/src/main/java/tun/proxy/service/AuthProxyForwarder.java:157-163 | the upstream response head read is exactly the stream up to and including its first blank line, or the whole stream |
| AuthProxyForwarder.HeaderLoopFraming | app/src/main/java/tun/proxy/service/AuthProxyForwarder.java:123-134 | the header loop stops at the first empty line; without one it reads to the end of the stream and keeps the text up to the last CRLF, dropping a partial last line |
| AuthProxyForwarder.HeadersFraming | app/src/main/java/tun/proxy/service/AuthProxyForwarder.java:123-134 | from the start of the header stream the loop yields the text before the first empty line and consumes that line too |
| AuthProxyForwarder.HeaderLoopIsScan | app/src/main/java/tun/proxy/service/AuthProxyForwarder.java:123-134 | the header loop, which tests whether the line read so far ends with CRLF and whether it is CRLF, yields the same split as a scan that looks only for a CR LF ending at the byte just read |
| AuthProxyForwarder.HeaderEndFirst | app/src/main/java/tun/proxy/service/AuthProxyForwarder.java:125-130 | every empty line of the header stream lies at or after the one that ends the loop |
| AuthProxyForwarder.CredentialsRoundTrip | app/src/main/java/tun/proxy/service/AuthProxyForwarder.java:144-145 | decoding the Basic credentials gives back exactly the UTF-8 bytes of `user:password` |
| AuthProxyForwarder.CredentialsExample | app/src/main/java/tun/proxy/service/AuthProxyForwarder.java:144-149 | an example: user "alice" with password "secret" is sent as `YWxpY2U6c2VjcmV0` |
| AuthProxyForwarder.ReadClient | app/src/main/java/tun/proxy/service/AuthProxyForwarder.java:106-134 | how the client's bytes split into the trimmed request line, the header text before the first empty line and the rest, read as ISO-8859-1 characters |
| AuthProxyForwarder.HandleConnection | app/src/main/java/tun/proxy/service/AuthProxyForwarder.java:102-229 | both sockets are always closed; a client whose read throws before its empty line gets nothing and nothing goes upstream; a failed connect sends nothing; otherwise the upstream receives the request line, the added Proxy-Authorization line, the client headers and a blank line; an upstream whose read throws before its blank line, or whose head is made only of CRLFs (Java's `split("\r\n")` then yields no piece 0 for the log line), leaves the client with nothing and ends in the catch block; otherwise the client receives the response head, and relaying starts exactly when that head contains "200", with the bytes left over on each side |
| AuthProxyForwarder.FaultAfterHeadsIsHarmless | app/src/main/java/tun/proxy/service/AuthProxyForwarder.java:209-228 | once both heads are complete, a read that throws changes nothing in the control phase; without a throwing read a connection ends in the catch block exactly when the upstream was reached and its head splits into no pieces |
| AuthProxyForwarder.EmptySplitHeads | app/src/main/java/tun/proxy/service/AuthProxyForwarder.java:157-166 | the response heads on which `split("\r\n")[0]` throws are exactly a lone CRLF and a lone blank line |
| AuthProxyForwarder.ResponseVerbatimIff | app/src/main/java/tun/proxy/service/AuthProxyForwarder.java:157-170 | the client receives the response head byte for byte exactly when it is ASCII; any byte at or above 0x80 reaches the client re-encoded |
| AuthProxyForwarder.HeadersForwardedVerbatim | app/src/main/java/tun/proxy/service/AuthProxyForwarder.java:147-153 | over ASCII input the client's header bytes reach the upstream unchanged after the request and authorization lines, a client's own Proxy-Authorization line included |
| AuthProxyForwarder.NewForwarder | app/src/main/java/tun/proxy/service/AuthProxyForwarder.java:35-42 | a new forwarder keeps its configuration and is not running, with no socket, executor or accept thread |
| AuthProxyForwarder.Stop | app/src/main/java/tun/proxy/service/AuthProxyForwarder.java:73-96 | stop leaves nothing running and no socket, executor or thread, and keeps the configuration |
| AuthProxyForwarder.Start | app/src/main/java/tun/proxy/service/AuthProxyForwarder.java:44-71 | start runs exactly when binding 127.0.0.1 on the local port succeeds and throws otherwise, leaving an unbound socket behind |
| AuthProxyForwarder.StopIdempotent | app/src/main/java/tun/proxy/service/AuthProxyForwarder.java:73-96 | a second stop changes nothing |
| AuthProxyForwarder.StartRestarts | app/src/main/java/tun/proxy/service/AuthProxyForwarder.java:44-47 | starting a running forwarder is stopping it and then starting it |
| Tun2HttpVpnService.NewService | app/src/main/java/tun/proxy/service/Tun2HttpVpnService.java:38-50 | a new service is not created or running, holds no interface or forwarder, and targets localhost:1091 with no credentials and no apps |
| Tun2HttpVpnService.StopVpn | app/src/main/java/tun/proxy/service/Tun2HttpVpnService.java:201-227 | stopVpn stops the engine exactly when the service was running with an interface, always drops the forwarder and the interface, and ends with the foreground notification removed and the service stopped; nothing else changes |
| Tun2HttpVpnService.StopVpnTwice | app/src/main/java/tun/proxy/service/Tun2HttpVpnService.java:201-227 | a second stopVpn only repeats the foreground removal and the self-stop |
| Tun2HttpVpnService.EffectiveMtu | app/src/main/java/tun/proxy/service/Tun2HttpVpnService.java:162-163 | the engine's MTU when positive, otherwise 1500 |
| Tun2HttpVpnService.AllowedApps | app/src/main/java/tun/proxy/service/Tun2HttpVpnService.java:239-249 | the allowed applications are exactly the requested packages that are installed |
| Tun2HttpVpnService.EstablishVpn | app/src/main/java/tun/proxy/service/Tun2HttpVpnService.java:229-260 | an interface exists exactly when establish yields a descriptor and at least one requested app is installed; it has address 10.1.10.1/32, the route 0.0.0.0/0, the given MTU and exactly the installed requested apps |
| Tun2HttpVpnService.AppendName | app/src/main/java/tun/proxy/service/Tun2HttpVpnService.java:281-285 | one step of the name builder adds ", " only after something already written |
| Tun2HttpVpnService.AppendNamesJoin | app/src/main/java/tun/proxy/service/Tun2HttpVpnService.java:276-287 | when no label is empty the builder loop is the ", "-join of the labels |
| Tun2HttpVpnService.EmptyLabelSkipsSeparator | app/src/main/java/tun/proxy/service/Tun2HttpVpnService.java:276-287 | an example: an empty first label swallows the separator, so labels "" and "B" give "B", not ", B" |
| Tun2HttpVpnService.NotificationText | app/src/main/java/tun/proxy/service/Tun2HttpVpnService.java:289-292 | the notification text is exactly the app names, " -> HTTP ", the proxy host and ":", followed by the port and " (auth)" when a username is set: it starts with the first part, ends with the second, and is no longer than both |
| Tun2HttpVpnService.NotificationTextJoin | app/src/main/java/tun/proxy/service/Tun2HttpVpnService.java:276-292 | when no label is empty the text is exactly the apps' labels (the package name where the lookup fails) joined by ", ", then " -> HTTP host:port", then " (auth)" when a username is set |
| Tun2HttpVpnService.AuthTagIff | app/src/main/java/tun/proxy/service/Tun2HttpVpnService.java:289-292 | the text ends in " (auth)" exactly when a username is set |
| Tun2HttpVpnService.Endpoint | app/src/main/java/tun/proxy/service/Tun2HttpVpnService.java:173-188 | the engine is pointed at 127.0.0.1:8888 exactly when both username and password are non-empty, otherwise at the configured proxy |
| Tun2HttpVpnService.Launch | app/src/main/java/tun/proxy/service/Tun2HttpVpnService.java:190-198 | the engine start is logged with the descriptor, rcode 3 and the endpoint; the service then runs exactly when jni_start returns, and a throwing jni_start ends in stopVpn |
| Tun2HttpVpnService.Connect | app/src/main/java/tun/proxy/service/Tun2HttpVpnService.java:173-198 | a forwarder that cannot bind ends in stopVpn with no engine start logged; without credentials the engine is started on the configured proxy |
| Tun2HttpVpnService.StartVpn | app/src/main/java/tun/proxy/service/Tun2HttpVpnService.java:149-152 | startVpn first stops a running session, then does the rest of its body |
| Tun2HttpVpnService.Begin | app/src/main/java/tun/proxy/service/Tun2HttpVpnService.java:153-199 | the body of startVpn only appends to the effect log; a stopped service ends up running only when it had target apps, the notification could be posted, and that notification is the first new effect |
| Tun2HttpVpnService.BeginNoApps | app/src/main/java/tun/proxy/service/Tun2HttpVpnService.java:153-157 | with no target apps startVpn only stops the service |
| Tun2HttpVpnService.BeginForegroundFails | app/src/main/java/tun/proxy/service/Tun2HttpVpnService.java:158-198 | an exception from building or posting the foreground notification is caught and ends in stopVpn |
| Tun2HttpVpnService.BeginPostsNotification | app/src/main/java/tun/proxy/service/Tun2HttpVpnService.java:158-160 | otherwise the foreground notification, with the text above, is the first thing startVpn does |
| Tun2HttpVpnService.BeginNoInterface | app/src/main/java/tun/proxy/service/Tun2HttpVpnService.java:166-171 | when no interface can be established the service stops itself with the interface cleared and nothing else done |
| Tun2HttpVpnService.ConnectOutcome | app/src/main/java/tun/proxy/service/Tun2HttpVpnService.java:173-198 | after the interface exists, the service runs exactly when the forwarder (if needed) binds and the engine starts; the last effect is the engine start with rcode 3 at the chosen endpoint, and a forwarder exists exactly when credentials are set |
| Tun2HttpVpnService.BeginOutcome | app/src/main/java/tun/proxy/service/Tun2HttpVpnService.java:153-198 | from a stopped service, startVpn ends running exactly when there are target apps, the foreground notification is posted, an interface is established, the forwarder (if needed) binds and the engine starts, and keeps the settings |
| Tun2HttpVpnService.StartVpnOutcome | app/src/main/java/tun/proxy/service/Tun2HttpVpnService.java:149-199 | startVpn from any consistent state runs exactly when a fresh start would succeed (the same five conditions), ends in the started shape (interface, engine start at the endpoint, forwarder exactly with credentials) when it does, and keeps the state consistent |
| Tun2HttpVpnService.RestartStopsEngineFirst | app/src/main/java/tun/proxy/service/Tun2HttpVpnService.java:150-152 | restarting a running service first stops the engine on the old descriptor |
| Tun2HttpVpnService.OnCreate | app/src/main/java/tun/proxy/service/Tun2HttpVpnService.java:96-102 | onCreate publishes the instance and initialises the engine, leaving the running flag alone |
| Tun2HttpVpnService.OnStartCommand | app/src/main/java/tun/proxy/service/Tun2HttpVpnService.java:105-132 | every call returns START_STICKY; a null intent or an unknown action changes nothing and STOP is stopVpn |
| Tun2HttpVpnService.ApplyExtras | app/src/main/java/tun/proxy/service/Tun2HttpVpnService.java:109-122 | missing extras fall back to localhost, 1091, empty credentials and no apps, and the published host, port and apps copy them |
| Tun2HttpVpnService.StartPublishes | app/src/main/java/tun/proxy/service/Tun2HttpVpnService.java:109-126 | a START intent publishes its host, port and apps and then runs exactly when startVpn with those settings succeeds |
| Tun2HttpVpnService.OnDestroy | app/src/main/java/tun/proxy/service/Tun2HttpVpnService.java:135-141 | after onDestroy nothing runs, the instance and published apps are cleared and the engine is finished last |
| Tun2HttpVpnService.OnRevoke | app/src/main/java/tun/proxy/service/Tun2HttpVpnService.java:144-147 | revocation stops the VPN |
| Tun2HttpVpnService.TargetApps | app/src/main/java/tun/proxy/service/Tun2HttpVpnService.java:83-85 | getTargetApps returns the published app list, whether or not an instance exists |
| Tun2HttpVpnService.ProxyInfo | app/src/main/java/tun/proxy/service/Tun2HttpVpnService.java:87-93 | "HTTP VPN not running" unless running, otherwise "HTTP proxy at host:port for " and the published apps joined by ", " |
| Tun2HttpVpnService.QueriesReportStart | app/src/main/java/tun/proxy/service/Tun2HttpVpnService.java:109-126 | after a START intent getTargetApps reports its apps at once, and getProxyInfo describes its host, port and apps exactly when the start succeeded |
| Tun2HttpVpnService.ConsistentPreserved | app/src/main/java/tun/proxy/service/Tun2HttpVpnService.java:95-147 | every lifecycle callback keeps the running flag, interface and forwarder consistent |
| Tun2HttpVpnService.DestroyReportsStopped | app/src/main/java/tun/proxy/service/Tun2HttpVpnService.java:87-93 | after onDestroy the service reports itself not running and targets no apps |
| ProxyVpnService.NewService | app/src/main/java/com/anthroid/vpn/ProxyVpnService.kt:79-83 | a new service is not created or running, has no interface, and targets localhost:1091 with no apps |
| ProxyVpnService.IsRunning | app/src/main/java/com/anthroid/vpn/ProxyVpnService.kt:52-67 | the service reports running exactly when it exists, its flag is set and its interface is present with a valid descriptor; a missing or broken interface clears the flag, and nothing else changes |
| ProxyVpnService.IsRunningStable | app/src/main/java/com/anthroid/vpn/ProxyVpnService.kt:52-67 | asking twice gives the same answer and the same state as asking once |
| ProxyVpnService.TargetApps | app/src/main/java/com/anthroid/vpn/ProxyVpnService.kt:68 | getTargetApps returns the published app list itself |
| ProxyVpnService.ProxyInfo | app/src/main/java/com/anthroid/vpn/ProxyVpnService.kt:69-75 | "SOCKS5 VPN not running" unless running, otherwise exactly "SOCKS5 proxy at host:port for " followed by the published apps joined by ", "; the query has the same side effect as isRunning |
| ProxyVpnService.StopVpn | app/src/main/java/com/anthroid/vpn/ProxyVpnService.kt:162-175 | stopVpn stops the tunnel engine exactly when the flag was set, always closes the interface, removes the foreground notification and stops the service |
| ProxyVpnService.StopVpnTwice | app/src/main/java/com/anthroid/vpn/ProxyVpnService.kt:162-175 | a second stopVpn only repeats the foreground removal and the self-stop |
| ProxyVpnService.EstablishVpn | app/src/main/java/com/anthroid/vpn/ProxyVpnService.kt:177-208 | an interface exists exactly when establish yields a descriptor and at least one requested app is installed; it has MTU 8500, address 10.0.0.2 and exactly the installed requested apps |
| ProxyVpnService.ConfigText | app/src/main/java/com/anthroid/vpn/ProxyVpnService.kt:210-225 | the tunnel configuration names the SOCKS5 port and quoted address, the MTU 8500 and the address 10.0.0.2 |
| ProxyVpnService.NotificationText | app/src/main/java/com/anthroid/vpn/ProxyVpnService.kt:242-248 | the notification text starts with the labels (package name when unknown) joined by ", ", then " -> SOCKS5 ", host and ":", and the rest of it is exactly the port |
| ProxyVpnService.UnlabelledNotification | app/src/main/java/com/anthroid/vpn/ProxyVpnService.kt:244-247 | with no label known, the notification lists the package names themselves |
| ProxyVpnService.StartVpn | app/src/main/java/com/anthroid/vpn/ProxyVpnService.kt:124-127 | startVpn first stops a running session and then runs the body on the stopped service; an idle service goes straight to the body |
| ProxyVpnService.Begin | app/src/main/java/com/anthroid/vpn/ProxyVpnService.kt:128-159 | the body of startVpn only appends to the effect log; a stopped service ends up running only when it had target apps, the notification could be posted, and that notification is the first new effect |
| ProxyVpnService.BeginNoApps | app/src/main/java/com/anthroid/vpn/ProxyVpnService.kt:128-132 | with no target apps the body only stops the service |
| ProxyVpnService.BeginForegroundFails | app/src/main/java/com/anthroid/vpn/ProxyVpnService.kt:133-158 | a notification that cannot be posted throws, and the catch runs stopVpn on the service |
| ProxyVpnService.BeginPostsNotification | app/src/main/java/com/anthroid/vpn/ProxyVpnService.kt:133-135 | otherwise the first effect of the body is posting the notification for the service's apps and proxy |
| ProxyVpnService.BeginNoInterface | app/src/main/java/com/anthroid/vpn/ProxyVpnService.kt:137-142 | when no interface is established the body posts the notification, stops the service and changes nothing else |
| ProxyVpnService.ConfigureKeepsLog | app/src/main/java/com/anthroid/vpn/ProxyVpnService.kt:144-155 | writing the configuration and starting the engine only append to the effect log |
| ProxyVpnService.ConfigureOutcome | app/src/main/java/com/anthroid/vpn/ProxyVpnService.kt:144-155 | with an interface, the service runs exactly when the configuration is written and the engine starts; on success the last effects are writing that configuration and starting the engine on the interface |
| ProxyVpnService.StartVpnOutcome | app/src/main/java/com/anthroid/vpn/ProxyVpnService.kt:124-160 | startVpn ends running exactly when the notification is posted, some target app is installed, establish yields a descriptor, the configuration is written and the engine starts; it keeps the settings and the state consistent, and a running service holds the new valid descriptor with MTU 8500, the last two effects being the configuration write for the service's proxy and the engine start on that descriptor |
| ProxyVpnService.ConfigFailureKeepsInterface | app/src/main/java/com/anthroid/vpn/ProxyVpnService.kt:137-149 | when the configuration cannot be written the service returns not running but keeps the interface it established open |
| ProxyVpnService.RestartStopsEngineFirst | app/src/main/java/com/anthroid/vpn/ProxyVpnService.kt:125-127 | restarting a running service first stops the engine |
| ProxyVpnService.OnCreate | app/src/main/java/com/anthroid/vpn/ProxyVpnService.kt:85-90 | onCreate publishes the instance and changes nothing else |
| ProxyVpnService.ApplyExtras | app/src/main/java/com/anthroid/vpn/ProxyVpnService.kt:94-100 | missing extras fall back to localhost, 1091 and no apps, and the published fields copy them |
| ProxyVpnService.OnStartCommand | app/src/main/java/com/anthroid/vpn/ProxyVpnService.kt:92-110 | every call returns START_STICKY; a null intent or unknown action changes nothing, STOP is stopVpn, and START publishes the intent's host, port and apps |
| ProxyVpnService.OnDestroy | app/src/main/java/com/anthroid/vpn/ProxyVpnService.kt:112-117 | after onDestroy nothing runs, no interface remains and the service reports "SOCKS5 VPN not running" |
| ProxyVpnService.OnRevoke | app/src/main/java/com/anthroid/vpn/ProxyVpnService.kt:119-122 | revocation stops the VPN |
| ProxyVpnService.StartPublishes | app/src/main/java/com/anthroid/vpn/ProxyVpnService.kt:94-104 | a START intent publishes its host, port and apps, keeps the created flag, and runs exactly when the start succeeds, then on a valid interface with the platform's descriptor |
| ProxyVpnService.QueriesReportStart | app/src/main/java/com/anthroid/vpn/ProxyVpnService.kt:68-75 | after a START on a created service getTargetApps gives the intent's apps, getProxyInfo gives the full text for the intent's proxy when the start succeeded with a readable descriptor, and "SOCKS5 VPN not running" when it failed |
| ProxyVpnService.ConsistentPreserved | app/src/main/java/com/anthroid/vpn/ProxyVpnService.kt:85-122 | every lifecycle callback and isRunning keep the running flag consistent with the interface |
| ProxyModels.TypeFromString | app/src/main/java/com/anthroid/vpn/models/ProxyServer.kt:23-28 | the type is HTTP exactly when the text upper-cases to "HTTP", and SOCKS5 otherwise |
| ProxyModels.TypeFromName | app/src/main/java/com/anthroid/vpn/models/ProxyServer.kt:18-28 | reading back a type's own name gives the same type |
| ProxyModels.TypeFromStringUpper | app/src/main/java/com/anthroid/vpn/models/ProxyServer.kt:23-28 | the type ignores the case of its name |
| ProxyModels.ServerToJson | app/src/main/java/com/anthroid/vpn/models/ProxyServer.kt:32-43 | a server becomes an object with exactly the eight keys id, name, host, port, type, username, password and enabled, the type written by name |
| ProxyModels.ServerFromJson | app/src/main/java/com/anthroid/vpn/models/ProxyServer.kt:50-63 | a server is read exactly when id, name and host are present as text and the port reads as an int, either a number or a text holding a decimal integer; missing type, username, password and enabled default to SOCKS5, "", "" and true |
| ProxyModels.ServerPortAsText | app/src/main/java/com/anthroid/vpn/models/ProxyServer.kt:55 | a port stored as the decimal text of an int reads back as the same server as the number itself, since getInt parses text |
| ProxyModels.ServerRoundTrip | app/src/main/java/com/anthroid/vpn/models/ProxyServer.kt:32-63 | reading back a written server gives the same server |
| ProxyModels.DisplayInfo | app/src/main/java/com/anthroid/vpn/models/ProxyServer.kt:45-48 | the display text is "host:port (" followed exactly by the type's name, ")" and " (auth)" when a user name is set |
| ProxyModels.DisplayHidesSecrets | app/src/main/java/com/anthroid/vpn/models/ProxyServer.kt:45-48 | the display text does not depend on the password, id, name or enabled flag |
| ProxyModels.DisplayAuthIff | app/src/main/java/com/anthroid/vpn/models/ProxyServer.kt:45-48 | the display text ends with " (auth)" exactly when the server has a user name |
| ProxyModels.EmptyConfig | app/src/main/java/com/anthroid/vpn/models/ProxyConfig.kt:64-70 | the empty configuration has no servers, no active server and no apps |
| ProxyModels.ServerObjects | app/src/main/java/com/anthroid/vpn/models/ProxyConfig.kt:19-21 | the servers array holds each server's object, in order |
| ProxyModels.ConfigToJson | app/src/main/java/com/anthroid/vpn/models/ProxyConfig.kt:17-27 | a configuration becomes an object with keys servers, activeServerId and globalAppList, the active id being JSON null exactly when there is none |
| ProxyModels.ServersOf | app/src/main/java/com/anthroid/vpn/models/ProxyConfig.kt:39-43 | the servers are read only when every item is an object, one server per item |
| ProxyModels.ActiveIdOf | app/src/main/java/com/anthroid/vpn/models/ProxyConfig.kt:45-49 | a JSON null or an empty text gives no active id; a non-empty string is kept |
| ProxyModels.ConfigFromJson | app/src/main/java/com/anthroid/vpn/models/ProxyConfig.kt:38-62 | a missing servers or app list reads as empty, and the active id follows ActiveIdOf |
| ProxyModels.ServersRoundTrip | app/src/main/java/com/anthroid/vpn/models/ProxyConfig.kt:19-21 | reading back the written servers gives the same list |
| ProxyModels.ConfigRoundTrip | app/src/main/java/com/anthroid/vpn/models/ProxyConfig.kt:17-62 | a configuration whose active id is absent or non-empty survives writing and reading back |
| ProxyModels.EmptyActiveIdBecomesNull | app/src/main/java/com/anthroid/vpn/models/ProxyConfig.kt:45-49 | an empty active id is read back as no active server |
| ProxyModels.ActiveServer | app/src/main/java/com/anthroid/vpn/models/ProxyConfig.kt:29-31 | the active server is the first listed server whose id is the active id and that is enabled, and none exactly when no server qualifies |
| ProxyModels.NoActiveServer | app/src/main/java/com/anthroid/vpn/models/ProxyConfig.kt:29-31 | with no active id, or when every server with that id is disabled, there is no active server |
| ProxyModels.EnabledServers | app/src/main/java/com/anthroid/vpn/models/ProxyConfig.kt:33-35 | the result is a subsequence of the configuration's servers, holds exactly the enabled ones, and is as long as the number of enabled entries, so each enabled entry appears once, in configuration order |
| Seqs.FilterUnique | app/src/main/java/com/anthroid/vpn/models/ProxyConfig.kt:33-35 | a subsequence whose elements all pass a test, and which is as long as the number of passing elements, is exactly Kotlin's `filter` of the list |
| ProxyConfigManager.ReadFile | app/src/main/java/com/anthroid/vpn/ProxyConfigManager.kt:48-66 | a missing, blank or unparsable file gives the empty configuration; otherwise the configuration the file holds |
| ProxyConfigManager.LoadConfig | app/src/main/java/com/anthroid/vpn/ProxyConfigManager.kt:45-67 | a cached configuration is returned unchanged; otherwise the file is read, and in both cases the result is cached |
| ProxyConfigManager.SaveConfig | app/src/main/java/com/anthroid/vpn/ProxyConfigManager.kt:72-80 | a successful write stores the configuration's JSON and caches it; a failed one changes nothing |
| ProxyConfigManager.ClearCache | app/src/main/java/com/anthroid/vpn/ProxyConfigManager.kt:163-165 | the cache is emptied and the file kept |
| ProxyConfigManager.SaveThenReload | app/src/main/java/com/anthroid/vpn/ProxyConfigManager.kt:45-80 | after saving, loading gives the saved configuration, from the cache or, after clearCache, from the file |
| ProxyConfigManager.Edit | app/src/main/java/com/anthroid/vpn/ProxyConfigManager.kt:85-153 | every editing operation loads, applies its change, saves, and returns the changed configuration, caching it when the write succeeds |
| ProxyConfigManager.AddServer | app/src/main/java/com/anthroid/vpn/ProxyConfigManager.kt:85-92 | the server is appended and nothing else changes |
| ProxyConfigManager.UpdateServer | app/src/main/java/com/anthroid/vpn/ProxyConfigManager.kt:97-105 | every server with the same id is replaced by the new one, the others and the rest of the configuration are kept |
| ProxyConfigManager.UpdateWithoutMatch | app/src/main/java/com/anthroid/vpn/ProxyConfigManager.kt:97-105 | updating a server whose id is unknown changes nothing |
| ProxyConfigManager.DeleteServer | app/src/main/java/com/anthroid/vpn/ProxyConfigManager.kt:110-120 | the remaining servers are a subsequence of the old ones, hold exactly those with other ids, and are as many as the entries with other ids, so each such entry is kept once, in order; the active id is cleared exactly when it was the deleted one, and the app list is kept |
| ProxyConfigManager.DeletedIsNotActive | app/src/main/java/com/anthroid/vpn/ProxyConfigManager.kt:110-120 | after deleting an id, no active server has that id |
| ProxyConfigManager.SetActiveServer | app/src/main/java/com/anthroid/vpn/ProxyConfigManager.kt:125-130 | the active id becomes the given one and nothing else changes |
| ProxyConfigManager.Toggle | app/src/main/java/com/anthroid/vpn/ProxyConfigManager.kt:137-139 | the server with the id has its enabled flag flipped, every other is kept |
| ProxyConfigManager.ToggleServerEnabled | app/src/main/java/com/anthroid/vpn/ProxyConfigManager.kt:135-143 | each server is toggled by id and nothing else changes |
| ProxyConfigManager.ToggleTwice | app/src/main/java/com/anthroid/vpn/ProxyConfigManager.kt:135-143 | toggling the same id twice restores the configuration |
| ProxyConfigManager.UpdateGlobalAppList | app/src/main/java/com/anthroid/vpn/ProxyConfigManager.kt:148-153 | the app list becomes the given one and nothing else changes |
| ProxyConfigManager.AddServerStored | app/src/main/java/com/anthroid/vpn/ProxyConfigManager.kt:85-92 | after a successful add the cache holds the loaded configuration with the server appended |
| ProxyConfigManager.FailedSaveKeepsFile | app/src/main/java/com/anthroid/vpn/ProxyConfigManager.kt:72-80 | when the write fails the file is unchanged and the cache holds the configuration that was loaded |
| AndroidTools.ExecuteTool | app/src/main/java/com/anthroid/claude/AndroidTools.kt:51-94 | a name outside the 34 tools, ignoring case, answers "Unknown tool: " and the name; a known tool answers what its handler returns, and "Error: " followed by the exception message ("null" when it has none) when the handler throws |
| AndroidTools.AndroidToolIffDispatched | app/src/main/java/com/anthroid/claude/AndroidTools.kt:51-108 | isAndroidTool accepts exactly the names executeTool dispatches, and any other name is answered "Unknown tool" whatever the input |
| AndroidTools.ToolCount | app/src/main/java/com/anthroid/claude/AndroidTools.kt:52-108 | the dispatch table and the isAndroidTool list each hold the same 34 names |
| AndroidTools.DispatchIgnoresCase | app/src/main/java/com/anthroid/claude/AndroidTools.kt:52 | an upper-cased tool name is dispatched like the name itself |
| AndroidTools.ChooseApps | app/src/main/java/com/anthroid/claude/AndroidTools.kt:342-358 | a non-empty apps array gives its entries, each read as getString would, in order, and is refused exactly when some entry is not a scalar; otherwise the global app list, and no apps at all when that is empty too |
| AndroidTools.MergeServer | app/src/main/java/com/anthroid/claude/AndroidTools.kt:371-397 | a server is added, named "host:port", exactly when no saved server has the same host, port and type; otherwise the first such server is kept, or has its credentials replaced exactly when a non-empty user differs from the saved one |
| AndroidTools.ApplyMerge | app/src/main/java/com/anthroid/claude/AndroidTools.kt:385-397 | keeping the existing server leaves the configuration unchanged |
| AndroidTools.ReadRequest | app/src/main/java/com/anthroid/claude/AndroidTools.kt:360-364 | host, user and password are the given texts and default to localhost and the empty text; a numeric port is taken as is, a port given as decimal text is parsed, and 1091 is the default; the type is the given one (SOCKS5 by default) upper-cased |
| AndroidTools.ServerType | app/src/main/java/com/anthroid/claude/AndroidTools.kt:372 | the saved type is HTTP exactly when the requested type is "HTTP" |
| AndroidTools.StartFor | app/src/main/java/com/anthroid/claude/AndroidTools.kt:402-423 | an HTTP request starts the HTTP tunnel with host, port, credentials and apps; any other type starts the SOCKS5 tunnel with host, port and apps |
| AndroidTools.StartedMessage | app/src/main/java/com/anthroid/claude/AndroidTools.kt:425-426 | the reply is "VPN proxy started: ", the apps joined by ", ", " -> " and the type, followed exactly by "host:port" and " (with auth)" when a user name was given |
| AndroidTools.SetAppProxy | app/src/main/java/com/anthroid/claude/AndroidTools.kt:340-427 | the model's tool raises exactly when an apps entry is a nested array or object; a start is requested exactly with VPN permission and some apps; the reply is then the started message, or executeTool's "Error: " text when startService throws |
| AndroidTools.StartFailureKeepsSave | app/src/main/java/com/anthroid/claude/AndroidTools.kt:398-423 | a startService that throws leaves the saved configuration and the requested start exactly as a successful one, and only the reply becomes the error text |
| AndroidTools.SetAppProxyRefusals | app/src/main/java/com/anthroid/claude/AndroidTools.kt:340-370 | with no apps it answers the no-apps error and without VPN permission the permission error, and a refusal never writes the configuration |
| AndroidTools.SetAppProxyStores | app/src/main/java/com/anthroid/claude/AndroidTools.kt:371-423 | a permitted request saves the merged server as the active one, writes that configuration, and starts the tunnel for the chosen apps |
| AndroidTools.NewEndpointAppended | app/src/main/java/com/anthroid/claude/AndroidTools.kt:375-389 | a new endpoint is appended to the saved servers as an enabled server with the requested credentials |
| AndroidTools.StartedMessageAuthIff | app/src/main/java/com/anthroid/claude/AndroidTools.kt:425-426 | the reply ends with " (with auth)" exactly when a user name was given |
| AndroidTools.StopAppProxy | app/src/main/java/com/anthroid/claude/AndroidTools.kt:432-449 | a running SOCKS5 tunnel is stopped first, else a running HTTP tunnel, else the reply is "VPN proxy is not running" and nothing is sent |
| AndroidTools.ProxyStatus | app/src/main/java/com/anthroid/claude/AndroidTools.kt:454-478 | the status reports running exactly when either tunnel runs, its type SOCKS5 before HTTP, and no type when neither runs |
| McpServer.ErrorObject | app/src/main/java/com/anthroid/mcp/McpServer.kt:334-343 | an error reply carries jsonrpc "2.0", the code and message under "error", and the id exactly when the request had one |
| McpServer.Wrap | app/src/main/java/com/anthroid/mcp/McpServer.kt:119-128 | a result holding "error" is sent as it is; any other is wrapped with the request's jsonrpc version, its id when present, and the result |
| McpServer.ToolContent | app/src/main/java/com/anthroid/mcp/McpServer.kt:325-331 | a tool reply holds exactly one text content item and the error flag |
| McpServer.ToolsCall | app/src/main/java/com/anthroid/mcp/McpServer.kt:292-332 | a missing or empty tool name is an error reply and notifies no one; otherwise the listener is told the name and the same error flag the reply carries |
| McpServer.ToolsCallClassifies | app/src/main/java/com/anthroid/mcp/McpServer.kt:309-331 | the reply carries the tool's text, flagged as an error exactly when it starts with "Error:" or "Unknown tool:", or is an object text containing "success": false |
| McpServer.UnknownOrThrowingToolIsError | app/src/main/java/com/anthroid/mcp/McpServer.kt:309-320 | an unknown tool, or one that throws, is always reported as an error |
| McpServer.RequiredNames | app/src/main/java/com/anthroid/mcp/McpServer.kt:357-365 | the required list names exactly the properties marked required |
| McpServer.PropertiesObject | app/src/main/java/com/anthroid/mcp/McpServer.kt:357-361 | the properties object has one key per property |
| McpServer.ToolDefToJson | app/src/main/java/com/anthroid/mcp/McpServer.kt:353-378 | a tool definition has keys name, description and inputSchema, and the schema has a "required" list exactly when some property is required |
| McpServer.ListedNames | app/src/main/java/com/anthroid/mcp/McpServer.kt:207-281 | tools/list advertises 28 tools, in the order listed |
| McpServer.ToolsList | app/src/main/java/com/anthroid/mcp/McpServer.kt:283-290 | tools/list returns one definition object per tool, in order |
| McpServer.AdvertisedButUndispatched | app/src/main/java/com/anthroid/mcp/McpServer.kt:218-280 | get_device_info and the four screen-capture tools are advertised but executeTool has no case for them, so calling them answers "Unknown tool" |
| McpServer.InitializeResult | app/src/main/java/com/anthroid/mcp/McpServer.kt:180-191 | initialize answers with the server's protocol version |
| McpServer.Dispatch | app/src/main/java/com/anthroid/mcp/McpServer.kt:107-117 | an unknown method is a -32601 "Method not found" error; initialize adds a new session and changes nothing else, no other method changes the sessions, and only tools/call notifies the listener |
| McpServer.HandlePost | app/src/main/java/com/anthroid/mcp/McpServer.kt:91-146 | every POST answers status OK with a JSON body, and a body that does not parse answers a -32700 "Parse error" with no id |
| McpServer.Serve | app/src/main/java/com/anthroid/mcp/McpServer.kt:71-172 | any path but /mcp is 404 "Not Found"; GET and other methods are 405, DELETE removes the named session, OPTIONS announces the allowed methods, and POST is handled as a JSON-RPC request |
| McpServer.UnknownMethod | app/src/main/java/com/anthroid/mcp/McpServer.kt:104-117 | posting an unknown method answers the method-not-found error with the request's id, and the sessions stay |
| McpServer.ResultWrapped | app/src/main/java/com/anthroid/mcp/McpServer.kt:101-128 | a known method's reply holds "result", the request's jsonrpc version (2.0 when absent), and an id exactly when the request had one |
| McpServer.InitializeThenDelete | app/src/main/java/com/anthroid/mcp/McpServer.kt:157-176 | a session created by initialize is removed by a DELETE that names it, leaving the other sessions |
| AndroidMcp.PyGet | android_mcp.py:176-178 | dict.get gives the stored value for a present key and the default otherwise |
| AndroidMcp.EscapeQuotes | android_mcp.py:37 | escaping never shortens the text, and a leading quote becomes a backslash |
| AndroidMcp.EscapeIsReplace | android_mcp.py:37 | the escaping is replace('"', '\\"') over the whole text |
| AndroidMcp.EscapedQuotesFollowBackslash | android_mcp.py:37 | in the escaped text every quote is preceded by a backslash, so the shell's double-quoted argument is not ended early |
| AndroidMcp.UnescapeEscape | android_mcp.py:37-44 | removing the backslash before each quote gives back the original JSON text |
| AndroidMcp.BroadcastCommand | android_mcp.py:44 | the command broadcasts com.anthroid.TOOL_CALL to com.anthroid with the tool name and the escaped input, each in double quotes |
| AndroidMcp.AwaitResult | android_mcp.py:48-58 | after 30 polls the result is the first file content seen, or "Error: Tool execution timeout" when none appeared |
| AndroidMcp.ListCommand | android_mcp.py:86-93 | "system" lists with -s, "user" with -3, anything else lists all packages |
| AndroidMcp.PackagesOf | android_mcp.py:96 | one package for each output line starting with "package:" |
| AndroidMcp.PackagesAreFilterMap | android_mcp.py:96 | the i-th package is the i-th output line starting with "package:", with "package:" removed, in output order |
| AndroidMcp.PackageLineStripped | android_mcp.py:96 | a package line loses exactly its "package:" prefix |
| AndroidMcp.PySliceTo | android_mcp.py:97 | packages[:limit] takes the first limit items, and for a negative limit drops that many from the end |
| AndroidMcp.ListApps | android_mcp.py:86-97 | the result is the package list cut by Python slicing: an integer limit is never exceeded, None means no limit, True keeps the first package and False none, and any other limit raises |
| AndroidMcp.ToolListNames | android_mcp.py:162-173 | get_tools() advertises exactly the nine names call_tool dispatches, in the same order, each with an object input schema |
| AndroidMcp.AdvertisedDefaultsApplied | android_mcp.py:148-170 | the defaults the set_app_proxy schema advertises for host, port and type are the values call_tool fills in |
| AndroidMcp.ProxyArgs | android_mcp.py:115-122 | the bridge receives apps, host, port and type, defaulting to [], localhost, 1091 and SOCKS5, with given values passed through |
| AndroidMcp.CallTool | android_mcp.py:132-160 | an unknown name answers "Unknown tool: " and the name; a tool that reads arguments raises on a non-object; the proxy tools go through the bridge with their arguments |
| AndroidMcp.HandleRequest | android_mcp.py:175-195 | a non-object request raises, notifications/initialized has no reply, and every reply carries jsonrpc "2.0" and the request's id, None when absent |
| AndroidMcp.OtherMethodsAnswered | android_mcp.py:182-195 | every request object whose method is neither notifications/initialized nor tools/call gets a reply |
| AndroidMcp.ToolsListAnswer | android_mcp.py:186-187 | tools/list answers the get_tools() entries, with name, description and input schema, under "tools" and echoes the id |
| AndroidMcp.UnknownMethodError | android_mcp.py:194-195 | any other method answers a -32601 error |
| AndroidMcp.InitializeEchoesId | android_mcp.py:182-183 | initialize answers with the request's id and protocol version 2024-11-05 |
| AndroidMcp.ToolsCallText | android_mcp.py:188-193 | tools/call answers one text content item holding the tool's result |
| AndroidMcp.LineOutput | android_mcp.py:200-208 | one input line writes at most one response |
| AndroidMcp.LineOutputAnswers | android_mcp.py:200-208 | a line writes a response exactly when it parses to a request object that gets a reply, and the response carries that request's id |
| AndroidMcp.Transcript | android_mcp.py:197-208 | the output never has more responses than there were input lines |
| AndroidMcp.NullEndsTranscript | android_mcp.py:199-203 | a line reading as JSON null ends the loop: nothing is written for the lines after it |
| AndroidMcp.OneResponsePerRequest | android_mcp.py:197-208 | when every line is a request that gets a reply, the output has one response per line, the i-th answering the i-th line and echoing its id |
| AndroidMcp.ReadLoop | android_mcp.py:197-208 | a loop that writes each line's output and stops at the first stopping line writes exactly the outputs of the lines before it, in order |
| AndroidMcp.TranscriptIsUntil | android_mcp.py:197-208 | the server's transcript is that loop's output with the null line as the stop and each line's response as its output |
| AndroidMcp.ServeLines | android_mcp.py:197-208 | the loop writes exactly the transcript; it stops at the first null line, and over lines that all get replies it writes one response per line, in order, each echoing its request's id |
| AndroidMcp.NotificationSilent | android_mcp.py:184-185 | a notifications/initialized line writes nothing |
| ClaudeViewModel.NewMessage | app/src/main/java/com/anthroid/claude/ClaudeViewModel.kt:845-856 | a new message has the given role, content and time, and is not streaming, failed or interrupted, with no tool and no images |
| ClaudeViewModel.Patch | app/src/main/java/com/anthroid/claude/ClaudeViewModel.kt:338-345 | a copy-by-id edit changes exactly the messages with that id, keeping the list's length |
| ClaudeViewModel.FindById | app/src/main/java/com/anthroid/claude/ClaudeViewModel.kt:299 | the message found has the id and is in the list; none means no message has it |
| ClaudeViewModel.WithoutId | app/src/main/java/com/anthroid/claude/ClaudeViewModel.kt:371 | filtering out an id removes every message with it and keeps every other, in order |
| ClaudeViewModel.FilterKeepsDistinct | app/src/main/java/com/anthroid/claude/ClaudeViewModel.kt:371 | filtering a list with distinct ids keeps them distinct |
| ClaudeViewModel.WithoutIdKeepsWf | app/src/main/java/com/anthroid/claude/ClaudeViewModel.kt:224 | removing a message keeps the view state well formed |
| ClaudeViewModel.CheckInstallation | app/src/main/java/com/anthroid/claude/ClaudeViewModel.kt:109-117 | the CLI is used exactly when it is installed and no API key is configured, the assistant counts as installed when either is available, and nothing else changes |
| ClaudeViewModel.ConfigureApi | app/src/main/java/com/anthroid/claude/ClaudeViewModel.kt:101-104 | after configureApi the CLI is used exactly when it is installed and the key is blank; the messages and the history are kept |
| ClaudeViewModel.AddPendingImage | app/src/main/java/com/anthroid/claude/ClaudeViewModel.kt:122-127 | the image is appended to the pending images |
| ClaudeViewModel.RemovePendingImage | app/src/main/java/com/anthroid/claude/ClaudeViewModel.kt:132-135 | exactly the images with other ids remain, in order |
| ClaudeViewModel.CountComplement | app/src/main/java/com/anthroid/claude/ClaudeViewModel.kt:133 | removing by id drops as many images as carry that id |
| ClaudeViewModel.ClearPendingImages | app/src/main/java/com/anthroid/claude/ClaudeViewModel.kt:140-142 | no image remains pending |
| ClaudeViewModel.MessageContent | app/src/main/java/com/anthroid/claude/ClaudeViewModel.kt:152-157 | a non-blank voice message gets the transcription note appended; any other content is sent as it is |
| ClaudeViewModel.SendMessage | app/src/main/java/com/anthroid/claude/ClaudeViewModel.kt:148-185 | blank text without images changes nothing; otherwise the user message carrying the pending images and an empty streaming assistant placeholder are appended, the placeholder becomes the streaming message, the images are cleared and processing starts |
| ClaudeViewModel.RouteFor | app/src/main/java/com/anthroid/claude/ClaudeViewModel.kt:189-239 | with images: the CLI exactly in CLI mode with the CLI installed, otherwise the API exactly when a key is configured, otherwise refused; without images: the CLI exactly in CLI mode and the API otherwise |
| ClaudeViewModel.RejectImages | app/src/main/java/com/anthroid/claude/ClaudeViewModel.kt:220-225 | refused images set the error, stop processing and remove the placeholder, keeping every other message |
| ClaudeViewModel.SessionFailed | app/src/main/java/com/anthroid/claude/ClaudeViewModel.kt:240-244 | an exception sets the error to its message and stops processing, leaving the messages |
| ClaudeViewModel.UpdateStreaming | app/src/main/java/com/anthroid/claude/ClaudeViewModel.kt:330-348 | only the streaming message gets the new content; without one nothing changes |
| ClaudeViewModel.FinalizeStreaming | app/src/main/java/com/anthroid/claude/ClaudeViewModel.kt:353-364 | the streaming message stops streaming, and the streaming id and response are cleared |
| ClaudeViewModel.RemoveStreaming | app/src/main/java/com/anthroid/claude/ClaudeViewModel.kt:369-374 | the streaming message is removed, every other message kept in order, and the streaming id and response cleared |
| ClaudeViewModel.ShowErrorMessage | app/src/main/java/com/anthroid/claude/ClaudeViewModel.kt:379-404 | an error replaces the streaming message with "Error: " and the message, or appends such an assistant message when none is streaming, and stops processing |
| ClaudeViewModel.ToolInputText | app/src/main/java/com/anthroid/claude/ClaudeViewModel.kt:411-433 | the tool message shows the command for bash and run_termux, "read clipboard" for read_clipboard, and the raw input when it is not JSON |
| ClaudeViewModel.OtherToolsShowInput | app/src/main/java/com/anthroid/claude/ClaudeViewModel.kt:429 | any other tool shows its raw input |
| ClaudeViewModel.HandleToolUse | app/src/main/java/com/anthroid/claude/ClaudeViewModel.kt:435-442 | a tool use appends one streaming tool message with the tool's name and input text, and changes nothing else |
| ClaudeViewModel.PlanFor | app/src/main/java/com/anthroid/claude/ClaudeViewModel.kt:444-478 | mcp__ tools wait for the server, the seven built-in tools and the device tools run locally, and any other tool is left streaming |
| ClaudeViewModel.ResultContent | app/src/main/java/com/anthroid/claude/ClaudeViewModel.kt:484 | the finished tool message shows its input, a result header and at most 500 result characters, with "..." when cut |
| ClaudeViewModel.CompleteTool | app/src/main/java/com/anthroid/claude/ClaudeViewModel.kt:481-487 | only the tool's own message stops streaming and shows the result |
| ClaudeViewModel.OnToolComplete | app/src/main/java/com/anthroid/claude/ClaudeViewModel.kt:66-93 | a server completion touches only tool messages whose name contains the tool's: an error marks them failed, a success stops their streaming and keeps their error flag |
| ClaudeViewModel.OnToolCompleteIdempotent | app/src/main/java/com/anthroid/claude/ClaudeViewModel.kt:66-93 | repeating the same completion changes nothing more |
| ClaudeViewModel.TimeOutTools | app/src/main/java/com/anthroid/claude/ClaudeViewModel.kt:267-274 | every streaming tool message stops and is marked failed, and other messages are kept |
| ClaudeViewModel.OnTextDelta | app/src/main/java/com/anthroid/claude/ClaudeViewModel.kt:262-289 | every streaming tool message is marked as an error and stops streaming; with no streaming message a new streaming assistant message is appended under the next id; the response grows by the delta and the streaming message shows it; every other message is unchanged |
| ClaudeViewModel.OnMessageEnd | app/src/main/java/com/anthroid/claude/ClaudeViewModel.kt:296-311 | a streaming message that is found and empty is removed; otherwise (found with content, or not found) it is finalized in place with every other message unchanged; no streaming message afterwards, and processing is not stopped |
| ClaudeViewModel.HandleEvent | app/src/main/java/com/anthroid/claude/ClaudeViewModel.kt:251-325 | only an error or the session end stops processing; an error sets the error and closes the streaming message, and the session end changes nothing else |
| ClaudeViewModel.DeltasAccumulate | app/src/main/java/com/anthroid/claude/ClaudeViewModel.kt:262-289 | a run of deltas leaves the response as their concatenation after the old one, shown in the same streaming message |
| ClaudeViewModel.CancelRequest | app/src/main/java/com/anthroid/claude/ClaudeViewModel.kt:726-748 | cancelling marks the streaming message interrupted, keeps its content and the other messages, and stops processing |
| ClaudeViewModel.ClearError | app/src/main/java/com/anthroid/claude/ClaudeViewModel.kt:753-755 | only the error is cleared |
| ClaudeViewModel.ClearMessages | app/src/main/java/com/anthroid/claude/ClaudeViewModel.kt:829-834 | the messages, the response and the API history are emptied |
| ClaudeViewModel.UiMessage | app/src/main/java/com/anthroid/claude/ClaudeViewModel.kt:774-803 | user lines and assistant lines with text or a tool are shown; a tool line is failed exactly when it was recorded failed or its text looks like a failure |
| ClaudeViewModel.UiMessages | app/src/main/java/com/anthroid/claude/ClaudeViewModel.kt:774-804 | at most one message per history entry, none streaming, with increasing ids numbered from the view model's next id |
| ClaudeViewModel.UiMessagesSound | app/src/main/java/com/anthroid/claude/ClaudeViewModel.kt:774-804 | every shown message is exactly the UiMessage of the history entry its id numbers |
| ClaudeViewModel.UiMessageAt | app/src/main/java/com/anthroid/claude/ClaudeViewModel.kt:774-804 | the shown message at any index has an id within the history's numbering and is the UiMessage of that entry |
| ClaudeViewModel.UiMessagesComplete | app/src/main/java/com/anthroid/claude/ClaudeViewModel.kt:774-804 | every history entry that is shown at all appears among the shown messages, so mapNotNull drops only the entries that show nothing |
| ClaudeViewModel.UiMessagesAppend | app/src/main/java/com/anthroid/claude/ClaudeViewModel.kt:774-804 | the conversion works entry by entry: a split history is shown as its first part's messages followed by the rest's, numbered on |
| ClaudeViewModel.UiMessagesSingle | app/src/main/java/com/anthroid/claude/ClaudeViewModel.kt:774-804 | one entry is shown as its UiMessage, or not at all |
| ClaudeViewModel.ResumeConversation | app/src/main/java/com/anthroid/claude/ClaudeViewModel.kt:762-813 | resuming replaces the messages by the converted history and clears the response |
| ClaudeCliClient.OptText | app/src/main/java/com/anthroid/claude/ClaudeCliClient.kt:214-224 | optString gives the fallback for a missing key, a string's own text, and the JSON text of an object or array |
| ClaudeCliClient.ParseAndEmit | app/src/main/java/com/anthroid/claude/ClaudeCliClient.kt:209-236 | a blank line emits nothing and a line that is not JSON is plain text; an object emits nothing exactly when its type is not one of the six known; each known type emits its event with content, id, name, input, message id or message read with the source's defaults |
| ClaudeCliClient.ParseDefaults | app/src/main/java/com/anthroid/claude/ClaudeCliClient.kt:215-226 | without content or message, text and text_delta events are empty and an error says "Unknown error" |
| ClaudeCliClient.StdoutEvents | app/src/main/java/com/anthroid/claude/ClaudeCliClient.kt:72-89 | the stdout reader emits at most one event per line, and nothing for blank lines |
| ClaudeCliClient.PlainLinesAreText | app/src/main/java/com/anthroid/claude/ClaudeCliClient.kt:232-235 | output that is not JSON reaches the caller line by line as text events |
| ClaudeCliClient.ToolResponse | app/src/main/java/com/anthroid/claude/ClaudeCliClient.kt:149-156 | a tool response is an object of type tool_result with the tool-use id and the result |
| ClaudeCliClient.SessionArgs | app/src/main/java/com/anthroid/claude/ClaudeCliClient.kt:48-57 | the command is the claude path with --output-format stream-json, followed by --conversation and the id exactly when one is resumed |
| ClaudeCliClient.Environment | app/src/main/java/com/anthroid/claude/ClaudeCliClient.kt:194-204 | the process gets exactly seven variables, every path among them inside the Termux prefix |
| ClaudeCliClient.Close | app/src/main/java/com/anthroid/claude/ClaudeCliClient.kt:177-189 | after close the writer and the process are gone; an exception from closing them is swallowed and changes nothing |
| ClaudeApiClient.Configure | app/src/main/java/com/anthroid/claude/ClaudeApiClient.kt:33-38 | configure keeps the key, model and history, and the base URL is the given one with exactly its trailing slashes removed |
| ClaudeApiClient.ConfigureIdempotent | app/src/main/java/com/anthroid/claude/ClaudeApiClient.kt:33-38 | configuring again with the trimmed URL changes nothing |
| ClaudeApiClient.RequestBody | app/src/main/java/com/anthroid/claude/ClaudeApiClient.kt:71-81 | the request has exactly the keys model, max_tokens, stream and messages, with the client's model, 4096 and true; message i is an object of role and content from which history entry i reads back |
| ClaudeApiClient.Step | app/src/main/java/com/anthroid/claude/ClaudeApiClient.kt:110-138 | handling one SSE event emits at most one event and keeps those already emitted |
| ClaudeApiClient.SseFold | app/src/main/java/com/anthroid/claude/ClaudeApiClient.kt:105-140 | reading the stream only appends to the emitted events |
| ClaudeApiClient.Replay | app/src/main/java/com/anthroid/claude/ClaudeApiClient.kt:123-129 | replaying emitted events only appends to the history |
| ClaudeApiClient.DeltaTextAppend | app/src/main/java/com/anthroid/claude/ClaudeApiClient.kt:115-121 | the accumulated reply grows by each text delta |
| ClaudeApiClient.ReplayAppend | app/src/main/java/com/anthroid/claude/ClaudeApiClient.kt:123-129 | each message end appends an assistant entry holding every delta text emitted so far |
| ClaudeApiClient.StepAgrees | app/src/main/java/com/anthroid/claude/ClaudeApiClient.kt:110-138 | after each event the reply text and history the reader keeps are what replaying its emitted events gives |
| ClaudeApiClient.SseFoldAgrees | app/src/main/java/com/anthroid/claude/ClaudeApiClient.kt:105-140 | the same holds after any run of lines, so the history can be rebuilt from the events the caller saw |
| ClaudeApiClient.DoneStops | app/src/main/java/com/anthroid/claude/ClaudeApiClient.kt:106-108 | nothing after a "data: [DONE]" line has any effect |
| ClaudeApiClient.Chat | app/src/main/java/com/anthroid/claude/ClaudeApiClient.kt:48-150 | without a key the only event is "API key not configured" and nothing changes; otherwise the user message is recorded first, a non-200 answer or an exception yields one error event, and a 200 stream starts with MessageStart, leaves the history its events replay to, and ends with "Request failed: " when a read throws before "[DONE]" |
| ClaudeApiClient.FailureEvents | app/src/main/java/com/anthroid/claude/ClaudeApiClient.kt:105-147 | a read that throws adds one "Request failed: " error event, unless the stream already gave "[DONE]", which ends the loop before the failing read |
| ClaudeApiClient.ReplayIgnoresFailure | app/src/main/java/com/anthroid/claude/ClaudeApiClient.kt:143-146 | the failure's error event adds nothing to the history |
| ClaudeApiClient.StreamFailureAppendsError | app/src/main/java/com/anthroid/claude/ClaudeApiClient.kt:105-147 | a stream that breaks after some lines sends exactly what those lines gave followed by the "Request failed: " event, and leaves the same history as a stream ending there; after "[DONE]" a failure changes nothing |
| ClaudeApiClient.OneReplyRecorded | app/src/main/java/com/anthroid/claude/ClaudeApiClient.kt:115-130 | a stream of text deltas ending in message_stop records the user message and then one assistant entry with the concatenated text |
| ClaudeApiClient.ReplayDeltasOnly | app/src/main/java/com/anthroid/claude/ClaudeApiClient.kt:115-122 | deltas without a message end add nothing to the history |
| ClaudeApiClient.ClearHistory | app/src/main/java/com/anthroid/claude/ClaudeApiClient.kt:155-157 | clearHistory empties the history and keeps the configuration |
| ConversationManager.LastDot | app/src/main/java/com/anthroid/claude/ConversationManager.kt:62 | the position found holds a '.' and no later one does, or there is no '.' at all |
| ConversationManager.NameSplitsAtLastDot | app/src/main/java/com/anthroid/claude/ConversationManager.kt:62 | the file's base name and extension rebuild its name around the last '.', the extension holds no '.', and a name without '.' has an empty extension |
| ConversationManager.TextItemsConcatenates | app/src/main/java/com/anthroid/claude/ConversationManager.kt:159-173 | the text of an array content is the concatenation of its text items' texts, in order |
| ConversationManager.ExtractMessageContent | app/src/main/java/com/anthroid/claude/ConversationManager.kt:153-176 | no message gives "", a string content is itself, an array content concatenates the text items, and any other content gives "" |
| ConversationManager.MessageLine | app/src/main/java/com/anthroid/claude/ConversationManager.kt:97-102 | a line counts as a message only when it is not blank, parses, and has type user or assistant |
| ConversationManager.UserText | app/src/main/java/com/anthroid/claude/ConversationManager.kt:117-125 | only a user message with non-empty content contributes a text |
| ConversationManager.UserTexts | app/src/main/java/com/anthroid/claude/ConversationManager.kt:117-125 | a file holds at most one user text per line |
| ConversationManager.UserTextsAppend | app/src/main/java/com/anthroid/claude/ConversationManager.kt:117-125 | the user texts of a file are collected line by line, in order |
| ConversationManager.ScanLineKeeps | app/src/main/java/com/anthroid/claude/ConversationManager.kt:96-129 | each line keeps the loop's facts: the message count, the latest time, and the first and last user texts |
| ConversationManager.ScanLines | app/src/main/java/com/anthroid/claude/ConversationManager.kt:95-130 | the scan counts the message lines, keeps the latest of their times (0 when none), and the first and last user texts |
| ConversationManager.ParseConversationFile | app/src/main/java/com/anthroid/claude/ConversationManager.kt:84-147 | an empty file or one with no messages gives no summary; otherwise the session id is the file's base name, the title the first user text cut to 50 characters ("Empty conversation" when none), the preview the last cut to 80, and the timestamp the latest message time |
| ConversationManager.ListedIsNotAgent | app/src/main/java/com/anthroid/claude/ConversationManager.kt:61-63 | a listed file never belongs to a sub-agent |
| ConversationManager.Summaries | app/src/main/java/com/anthroid/claude/ConversationManager.kt:67-76 | only files with messages are summarised, at most one per file, each under its file's session id |
| ConversationManager.GetConversations | app/src/main/java/com/anthroid/claude/ConversationManager.kt:52-79 | no directory gives no conversations; otherwise exactly the summaries of the listed files, newest first |
| ConversationManager.SummariesOfListed | app/src/main/java/com/anthroid/claude/ConversationManager.kt:61-72 | every listed conversation has messages and is not a sub-agent's |
| ConversationManager.ResultsOf | app/src/main/java/com/anthroid/claude/ConversationManager.kt:221-231 | the first pass records only tool results with a non-empty id |
| ConversationManager.ToolResults | app/src/main/java/com/anthroid/claude/ConversationManager.kt:211-238 | the same over a whole file |
| ConversationManager.ErrorMap | app/src/main/java/com/anthroid/claude/ConversationManager.kt:228 | the error map has an entry only for recorded ids |
| ConversationManager.ErrorMapLastWins | app/src/main/java/com/anthroid/claude/ConversationManager.kt:228 | for an id recorded more than once the last record wins |
| ConversationManager.ScanToolUses | app/src/main/java/com/anthroid/claude/ConversationManager.kt:264-283 | a message has a tool name exactly when its content has a tool_use item, the name being that of the last one, and is flagged as an error only then |
| ConversationManager.ToolUseOf | app/src/main/java/com/anthroid/claude/ConversationManager.kt:269-278 | a tool_use item gives its name (empty when missing); with a non-empty id its error flag is the one recorded for that id, false when none was; with an empty id the flag found so far is kept |
| ConversationManager.LoadLine | app/src/main/java/com/anthroid/claude/ConversationManager.kt:243-298 | a message line loads exactly when its message text is non-empty or its content holds a tool_use item, and then carries the line's uuid, type, text and parsed timestamp; other lines load as nothing; every user line with text loads |
| ConversationManager.LoadLines | app/src/main/java/com/anthroid/claude/ConversationManager.kt:243-300 | at most one message per line, each of a message type with content or a tool |
| ConversationManager.LoadConversation | app/src/main/java/com/anthroid/claude/ConversationManager.kt:200-303 | a missing file gives no messages; otherwise, with the error flags of the first pass, there is one message per line that loads, in file order, and the i-th message is exactly what the i-th such line loads as; the messages never outnumber the message lines |
| ConversationManager.LoadLinesIsCollect | app/src/main/java/com/anthroid/claude/ConversationManager.kt:243-300 | the second pass adds, line by line, the message each line loads as and skips the lines that load as nothing |
| Seqs.CollectIsFilterMap | app/src/main/java/com/anthroid/claude/ConversationManager.kt:243-300 | collecting the defined results keeps one result per element where the loader is defined, in order, each the loader's value there |
| ConversationManager.LoadLinesCount | app/src/main/java/com/anthroid/claude/ConversationManager.kt:243-300 | the loaded messages are no more than the file's message lines |
| ConversationManager.ToolErrorFlagged | app/src/main/java/com/anthroid/claude/ConversationManager.kt:270-279 | a tool use whose id the first pass recorded as an error is shown as an error |
| ConversationManager.GetStorageStats | app/src/main/java/com/anthroid/claude/ConversationManager.kt:322-340 | the statistics count the listed files, their total is the sum of the listed files' sizes, the empty count is the number of listed files of size 0, no more empty ones than files, and every file empty when no bytes are stored |
| ConversationManager.TotalSizeConcat | app/src/main/java/com/anthroid/claude/ConversationManager.kt:332 | the total size of a listing is the total of any split of it added up |
| ConversationManager.TotalSizeBounds | app/src/main/java/com/anthroid/claude/ConversationManager.kt:332 | every listed file's size counts toward the total |
| ConversationManager.EmptyWhenNoBytes | app/src/main/java/com/anthroid/claude/ConversationManager.kt:332-333 | files holding no bytes are all empty |
| ConversationManager.DeleteConversation | app/src/main/java/com/anthroid/claude/ConversationManager.kt:308-317 | deletion answers true exactly when the session's file exists and deleting it succeeds |
| ConversationManager.WithoutFile | app/src/main/java/com/anthroid/claude/ConversationManager.kt:308-313 | after a deletion the directory holds every other file |
| ConversationManager.ListedSessionFile | app/src/main/java/com/anthroid/claude/ConversationManager.kt:61-63 | the only listed file whose base name is a session id is that id followed by ".jsonl" |
| ConversationManager.DeletedNotListed | app/src/main/java/com/anthroid/claude/ConversationManager.kt:308-317 | once a session's file is deleted, getConversations no longer lists that session |
| ConversationManager.CleanupEmptyConversations | app/src/main/java/com/anthroid/claude/ConversationManager.kt:351-368 | the cleanup counts exactly the empty ".jsonl" files whose deletion succeeded, and 0 without a directory |
| ConversationManager.CleanupReachesAgentFiles | app/src/main/java/com/anthroid/claude/ConversationManager.kt:355-357 | unlike the listings, the cleanup also deletes a sub-agent's empty file |
| TerminalCommandBridge.Failure | app/src/main/java/com/anthroid/claude/TerminalCommandBridge.kt:301-304 | an error result fails with exit code -1, the message as output, and the given session id |
| TerminalCommandBridge.ToToolResult | app/src/main/java/com/anthroid/claude/TerminalCommandBridge.kt:309-316 | the tool text names the session, then "Output:" and the output on success or "Error: " and the message on failure |
| TerminalCommandBridge.DefaultSessionId | app/src/main/java/com/anthroid/claude/TerminalCommandBridge.kt:283-290 | the default id is "none" without sessions, else the first session's name, or "session-0" when it has none |
| TerminalCommandBridge.FindByName | app/src/main/java/com/anthroid/claude/TerminalCommandBridge.kt:277-281 | a session found by name carries that name and belongs to the service; one is found exactly when some session has the name, and it is the first such session's terminal |
| TerminalCommandBridge.Target | app/src/main/java/com/anthroid/claude/TerminalCommandBridge.kt:65-77 | a named session is looked up and reported under the requested name; otherwise the current session is used, reported under its own name or the default id |
| TerminalCommandBridge.ListSessions | app/src/main/java/com/anthroid/claude/TerminalCommandBridge.kt:262-275 | one entry per session, in order: a session with a terminal reports its name or "session-i", its title or "Terminal i", and whether it runs; one without reports "session-i", "Terminal i" and not running; an entry is current exactly when its terminal is the current one, both missing included; none without the service |
| TerminalCommandBridge.Marker | app/src/main/java/com/anthroid/claude/TerminalCommandBridge.kt:98 | the marker starts with ===ANTHROID_END_, ends with ===, and what lies between is exactly the first 8 characters of the id (the whole id when it is shorter) |
| TerminalCommandBridge.MarkerInjective | app/src/main/java/com/anthroid/claude/TerminalCommandBridge.kt:98 | two commands get the same marker exactly when their ids share the first 8 characters |
| TerminalCommandBridge.FullCommand | app/src/main/java/com/anthroid/claude/TerminalCommandBridge.kt:108 | the command written is the command, "; echo '", the marker, "'" and a newline |
| TerminalCommandBridge.NewContent | app/src/main/java/com/anthroid/claude/TerminalCommandBridge.kt:121-123 | the new output is the transcript after its length before the command, or nothing |
| TerminalCommandBridge.ExtractOutput | app/src/main/java/com/anthroid/claude/TerminalCommandBridge.kt:135-155 | the output is the trimmed text before the marker, without the leading lines that echo the command or the marker, and "" when every line is such an echo |
| TerminalCommandBridge.ExtractedIsTrimmed | app/src/main/java/com/anthroid/claude/TerminalCommandBridge.kt:137-149 | the captured output never starts or ends with whitespace |
| TerminalCommandBridge.BlankCommandReportsNothing | app/src/main/java/com/anthroid/claude/TerminalCommandBridge.kt:141-153 | for a blank command every line contains it, so the output is empty |
| TerminalCommandBridge.Await | app/src/main/java/com/anthroid/claude/TerminalCommandBridge.kt:117-157 | polling yields an output exactly when some poll shows the marker in the new content |
| TerminalCommandBridge.AwaitAt | app/src/main/java/com/anthroid/claude/TerminalCommandBridge.kt:117-157 | the output is the one extracted from the first poll that shows the marker, whatever later polls show |
| TerminalCommandBridge.ExecuteCommand | app/src/main/java/com/anthroid/claude/TerminalCommandBridge.kt:57-176 | without the service the result is "Termux service not available"; the command is written exactly when the target session runs and has an emulator; success means exit code 0 and a written command, and every failure has exit code -1; a written command succeeds exactly when some poll shows the marker, and otherwise reports the timeout; on success the output is the text extracted from the first poll showing the marker |
| TerminalCommandBridge.LimitLines | app/src/main/java/com/anthroid/claude/TerminalCommandBridge.kt:237-247 | with a positive limit below the line count the result's lines are exactly the last maxLines lines and the result is those lines joined by "\n" (no CR survives); otherwise the transcript is returned whole |
| TerminalCommandBridge.ReadTerminalSession | app/src/main/java/com/anthroid/claude/TerminalCommandBridge.kt:186-257 | reading succeeds exactly when the service, the session, its emulator and the transcript exist, and returns the line-limited transcript |
| TerminalCommandBridge.ReadingIgnoresRunning | app/src/main/java/com/anthroid/claude/TerminalCommandBridge.kt:79-83 | a stopped session with an emulator can still be read, while no command is written to it and none succeeds, whatever the polls show |
| QuickSendManager.CountOf | app/src/main/java/com/anthroid/claude/QuickSendManager.kt:79 | an untracked message counts 0, and a tracked one its entry's count |
| QuickSendManager.Clean | app/src/main/java/com/anthroid/claude/QuickSendManager.kt:69-72 | the counted text is the trimmed message, or, when that starts with the voice prefix, the rest after the prefix trimmed again |
| QuickSendManager.CleanIsTrimmed | app/src/main/java/com/anthroid/claude/QuickSendManager.kt:69-72 | the counted text never starts or ends with whitespace |
| QuickSendManager.TrimmedFixed | app/src/main/java/com/anthroid/claude/QuickSendManager.kt:69 | trimming a trimmed text changes nothing |
| QuickSendManager.VoicePrefixStripped | app/src/main/java/com/anthroid/claude/QuickSendManager.kt:70-72 | a dictated message is counted as the same text typed |
| QuickSendManager.OnePrefixOnly | app/src/main/java/com/anthroid/claude/QuickSendManager.kt:70-72 | only one voice prefix is removed, so a doubly prefixed message keeps the second |
| QuickSendManager.Bump | app/src/main/java/com/anthroid/claude/QuickSendManager.kt:25 | the message's count rises by one, every other count stays, and the table stays free of duplicates; a new message is added as the last entry with count 1, and a known one keeps every entry's text in its place, as the insertion-ordered mutableMapOf() does |
| QuickSendManager.BumpNew | app/src/main/java/com/anthroid/claude/QuickSendManager.kt:79-80 | an untracked message is appended with count 1, leaving every other count and adding only its text |
| QuickSendManager.BumpExisting | app/src/main/java/com/anthroid/claude/QuickSendManager.kt:79-80 | a tracked message has its entry's count raised in place: every entry keeps its text and position |
| QuickSendManager.Track | app/src/main/java/com/anthroid/claude/QuickSendManager.kt:67-83 | an empty text or one of 16 or more UTF-16 code units is ignored; any other raises its own count by one and no other, a first use being appended as the last entry and a repeated one leaving the entries' order |
| QuickSendManager.TrackKeepsWf | app/src/main/java/com/anthroid/claude/QuickSendManager.kt:75-80 | tracking keeps every entry distinct, non-empty, shorter than 16 UTF-16 code units and counted at least once |
| QuickSendManager.TrackAllKeepsWf | app/src/main/java/com/anthroid/claude/QuickSendManager.kt:67-83 | the same holds after any sequence of messages |
| QuickSendManager.GetCandidates | app/src/main/java/com/anthroid/claude/QuickSendManager.kt:90-96 | the candidates are tracked entries counted at least 5 times, most frequent first, as many as qualify up to 5; an entry left out is counted no more than any candidate |
| QuickSendManager.CandidatesKeepTrackOrder | app/src/main/java/com/anthroid/claude/QuickSendManager.kt:90-96 | the candidates are a sub-multiset of the qualifying entries, and candidates counted equally often appear in the order their messages were first tracked (a prefix of that order for each count) |
| Seqs.SortDescStable | app/src/main/java/com/anthroid/claude/QuickSendManager.kt:94 | sorting by descending count is stable: the elements with any one key keep their original order |
| Strings.Utf16Length | app/src/main/java/com/anthroid/claude/QuickSendManager.kt:75 | a String's length counts UTF-16 code units: between the character count and twice it, and equal to it exactly when no character lies outside the Basic Multilingual Plane |
| Strings.Utf16LengthAppend | app/src/main/java/com/anthroid/claude/QuickSendManager.kt:75 | code-unit lengths add up over concatenation |
| QuickSendManager.TopOfSorted | app/src/main/java/com/anthroid/claude/QuickSendManager.kt:94-95 | taking the first five of a sorted list keeps it sorted and leaves out none counted more than a kept one |
| QuickSendManager.CandidatesAreShort | app/src/main/java/com/anthroid/claude/QuickSendManager.kt:75-76 | every candidate is a non-empty text shorter than 16 UTF-16 code units, and so shorter than 16 characters |
| QuickSendManager.TrackAgain | app/src/main/java/com/anthroid/claude/QuickSendManager.kt:79-80 | tracking a message already counted n times makes its count n + 1 |
| QuickSendManager.LoneEntryOffered | app/src/main/java/com/anthroid/claude/QuickSendManager.kt:92 | a message counted exactly 5 times is offered, although the doc comment says more than 5 |
| QuickSendManager.ClearStats | app/src/main/java/com/anthroid/claude/QuickSendManager.kt:101-105 | after clearStats every count is 0 and nothing is offered |
| AppSelectorAdapter.ApplyFilter | app/src/main/java/com/anthroid/app/activities/AppSelectorAdapter.kt:46-56 | an empty query shows every app; otherwise a subsequence of the list holding exactly the matching apps, as long as the number of matching entries, so by Seqs.FilterUnique it is Kotlin's filter: every matching entry once, in list order |
| AppSelectorAdapter.ShownIsSubsequence | app/src/main/java/com/anthroid/app/activities/AppSelectorAdapter.kt:46-54 | the shown apps appear in the full list in the same order |
| AppSelectorAdapter.WithApps | app/src/main/java/com/anthroid/app/activities/AppSelectorAdapter.kt:30-33 | replacing the list re-applies the current search |
| AppSelectorAdapter.SetApps | app/src/main/java/com/anthroid/app/activities/AppSelectorAdapter.kt:30-33 | setApps stores the list and re-applies the search |
| AppSelectorAdapter.SetSelectedPackages | app/src/main/java/com/anthroid/app/activities/AppSelectorAdapter.kt:35-39 | exactly the apps whose package is listed become selected, nothing else changes |
| AppSelectorAdapter.Filter | app/src/main/java/com/anthroid/app/activities/AppSelectorAdapter.kt:41-44 | the query is stored lower-cased and the shown list is a subsequence of the apps, holding the matching ones and as many as match, so each matching entry once, in order |
| AppSelectorAdapter.SearchIgnoresCase | app/src/main/java/com/anthroid/app/activities/AppSelectorAdapter.kt:41-53 | an app is shown exactly when its name or package contains the query, ignoring case |
| AppSelectorAdapter.GetSelectedPackages | app/src/main/java/com/anthroid/app/activities/AppSelectorAdapter.kt:70-72 | the selected packages are exactly the packages of selected apps, one entry per selected app |
| AppSelectorAdapter.SelectedPackagesPerApp | app/src/main/java/com/anthroid/app/activities/AppSelectorAdapter.kt:70-72 | one app contributes its package exactly when selected, and the packages of a list are those of its first part followed by those of the rest, which fixes both contents and order |
| AppSelectorAdapter.GetSelectedCount | app/src/main/java/com/anthroid/app/activities/AppSelectorAdapter.kt:74-76 | the count is 0 exactly when no app is selected |
| AppSelectorAdapter.CountIsSelectedLength | app/src/main/java/com/anthroid/app/activities/AppSelectorAdapter.kt:70-76 | the count equals the number of selected packages |
| AppSelectorAdapter.SetThenGet | app/src/main/java/com/anthroid/app/activities/AppSelectorAdapter.kt:35-39 | after setSelectedPackages the selection is exactly the listed packages that are installed |
| AppSelectorAdapter.SelectionFollowsPackages | app/src/main/java/com/anthroid/app/activities/AppSelectorAdapter.kt:35-39 | any list whose flags are set by membership in the packages selects exactly the listed packages that occur in it |
| AppSelectorAdapter.SetAllFlags | app/src/main/java/com/anthroid/app/activities/AppSelectorAdapter.kt:58-68 | every app gets the same flag and the listener receives the new selection |
| AppSelectorAdapter.SelectAll | app/src/main/java/com/anthroid/app/activities/AppSelectorAdapter.kt:58-62 | every app is selected and the listener receives every package, in order |
| AppSelectorAdapter.ClearAll | app/src/main/java/com/anthroid/app/activities/AppSelectorAdapter.kt:64-68 | no app is selected and the listener receives the empty list |
| AppSelectorAdapter.ToggleSelection | app/src/main/java/com/anthroid/app/activities/AppSelectorAdapter.kt:111-120 | the first app with the package flips its flag and the listener is told; an unknown package changes nothing and tells no one |
| AppSelectorAdapter.ToggleTwice | app/src/main/java/com/anthroid/app/activities/AppSelectorAdapter.kt:111-120 | toggling the same app twice restores the list |
| AppSelectorAdapter.ToggleKeepsApps | app/src/main/java/com/anthroid/app/activities/AppSelectorAdapter.kt:111-120 | toggling keeps every package in its place |
| AnthroidAccessibilityService.Interrupt | app/src/main/java/com/anthroid/accessibility/AnthroidAccessibilityService.kt:43-47 | after interrupt() the flag is up |
| AnthroidAccessibilityService.CheckInterrupted | app/src/main/java/com/anthroid/accessibility/AnthroidAccessibilityService.kt:52-58 | the check reports exactly whether the flag was up, and leaves it down either way |
| AnthroidAccessibilityService.ShowOverlay | app/src/main/java/com/anthroid/accessibility/AnthroidAccessibilityService.kt:63-70 | the overlay lowers the flag when the service is running and changes nothing when it is not |
| AnthroidAccessibilityService.AtMostOncePerInterrupt | app/src/main/java/com/anthroid/accessibility/AnthroidAccessibilityService.kt:43-70 | over any sequence of interrupts, checks and overlays, checks report an interruption no more often than interrupt() was called (plus one for a flag already up) |
| AnthroidAccessibilityService.CheckTwice | app/src/main/java/com/anthroid/accessibility/AnthroidAccessibilityService.kt:52-58 | a second check straight after the first never reports an interruption |
| AnthroidAccessibilityService.CollectTexts | app/src/main/java/com/anthroid/accessibility/AnthroidAccessibilityService.kt:361-370 | no text collected from the tree is blank |
| AnthroidAccessibilityService.CollectTextsInPreorder | app/src/main/java/com/anthroid/accessibility/AnthroidAccessibilityService.kt:361-370 | the collected texts are exactly the non-blank texts and descriptions of the nodes in pre-order, text before description |
| AnthroidAccessibilityService.GetScreenText | app/src/main/java/com/anthroid/accessibility/AnthroidAccessibilityService.kt:82-95 | a disabled service and a missing window give their error messages; an empty collection gives the no-text message; otherwise the collected texts joined by newlines |
| AnthroidAccessibilityService.ScreenTextLines | app/src/main/java/com/anthroid/accessibility/AnthroidAccessibilityService.kt:82-95 | when no collected text contains a line break, splitting the screen text at newlines gives back the collected texts |
| AnthroidAccessibilityService.CollectElements | app/src/main/java/com/anthroid/accessibility/AnthroidAccessibilityService.kt:372-411 | every element's depth is at least the starting depth; an invisible node contributes nothing unless invisible nodes are included; at most one element per node |
| AnthroidAccessibilityService.CollectElementsIsPathFilter | app/src/main/java/com/anthroid/accessibility/AnthroidAccessibilityService.kt:372-411 | the elements are, in pre-order, one per meaningful node that is reached through visible nodes only (any node when invisible ones are included), each at the starting depth plus its number of ancestors |
| AnthroidAccessibilityService.ElementsOfWholeTree | app/src/main/java/com/anthroid/accessibility/AnthroidAccessibilityService.kt:372-411 | with invisible nodes included, exactly one element is reported per node that has text, a description, or is clickable or editable |
| AnthroidAccessibilityService.FindByText | app/src/main/java/com/anthroid/accessibility/AnthroidAccessibilityService.kt:413-453 | every reported node matches the text (equal when exact, contained ignoring case otherwise, in text or description) |
| AnthroidAccessibilityService.FindByTextIsPreorderFilter | app/src/main/java/com/anthroid/accessibility/AnthroidAccessibilityService.kt:413-453 | the reported nodes are exactly the matching nodes of the tree, in pre-order |
| AnthroidAccessibilityService.FindFirst | app/src/main/java/com/anthroid/accessibility/AnthroidAccessibilityService.kt:488-501 | a found node satisfies the predicate and lies in the tree; nothing is found exactly when no node of the tree satisfies it |
| AnthroidAccessibilityService.FindFirstIsFirstMatch | app/src/main/java/com/anthroid/accessibility/AnthroidAccessibilityService.kt:488-516 | the depth-first search returns the first node in pre-order satisfying the predicate, and nothing when none does |
| AnthroidAccessibilityService.FindFirstEditable | app/src/main/java/com/anthroid/accessibility/AnthroidAccessibilityService.kt:488-501 | the result is editable, and it is the first editable node in pre-order |
| AnthroidAccessibilityService.FindScrollable | app/src/main/java/com/anthroid/accessibility/AnthroidAccessibilityService.kt:503-516 | the result is scrollable, and it is the first scrollable node in pre-order |
| AnthroidAccessibilityService.NearestClickable | app/src/main/java/com/anthroid/accessibility/AnthroidAccessibilityService.kt:467-475 | the walk up the parents returns a clickable ancestor, and returns nothing only when no ancestor is clickable |
| AnthroidAccessibilityService.FindClickable | app/src/main/java/com/anthroid/accessibility/AnthroidAccessibilityService.kt:455-486 | a result is clickable and lies in the subtree or among the ancestors; no result means no matching node of the subtree is clickable and, when any node matches, no ancestor is clickable |
| AnthroidAccessibilityService.PathsArePreorder | app/src/main/java/com/anthroid/accessibility/AnthroidAccessibilityService.kt:455-486 | the search visits the nodes in pre-order, each with its chain of parents |
| AnthroidAccessibilityService.FirstTargetAt | app/src/main/java/com/anthroid/accessibility/AnthroidAccessibilityService.kt:459-476 | the answer is the target of the first visited node that has one: the node itself when it matches and is clickable, else its nearest clickable parent when it matches |
| AnthroidAccessibilityService.FirstTargetNone | app/src/main/java/com/anthroid/accessibility/AnthroidAccessibilityService.kt:455-486 | nothing is found exactly when no visited node has a target |
| AnthroidAccessibilityService.FindClickableIsFirstTarget | app/src/main/java/com/anthroid/accessibility/AnthroidAccessibilityService.kt:455-486 | the recursive search returns the target of the first node in pre-order that matches and is clickable or has a clickable parent; a matching node without one does not stop the search |
| AnthroidAccessibilityService.FirstMatchClickable | app/src/main/java/com/anthroid/accessibility/AnthroidAccessibilityService.kt:459-462 | when the first matching node in pre-order is clickable, it is the node found |
| AnthroidAccessibilityService.LabelInButton | app/src/main/java/com/anthroid/accessibility/AnthroidAccessibilityService.kt:464-476 | a matching non-clickable label inside a clickable container finds the container |
| AnthroidAccessibilityService.ClickByText | app/src/main/java/com/anthroid/accessibility/AnthroidAccessibilityService.kt:134-155 | the flag is down afterwards; the interrupted message appears exactly when the service is not running and the flag was up; otherwise the disabled, no-content, not-found, clicked and click-failed messages in their cases |
| AnthroidAccessibilityService.ScrollAction | app/src/main/java/com/anthroid/accessibility/AnthroidAccessibilityService.kt:343-347 | the backward action exactly for "down" or "backward" ignoring case, the forward action otherwise |
| AnthroidAccessibilityService.ScrollIgnoresCase | app/src/main/java/com/anthroid/accessibility/AnthroidAccessibilityService.kt:343 | the direction is matched after lower-casing, so its case never matters |
| AnthroidAccessibilityService.Scroll | app/src/main/java/com/anthroid/accessibility/AnthroidAccessibilityService.kt:331-357 | the interrupted message exactly when the service is not running and the flag was up; an action is performed exactly when there is a scrollable node, and it is the direction's action; the messages in the other cases |
| ScreenCaptureService.LittleEndianRoundTrip | app/src/main/java/com/anthroid/capture/ScreenCaptureService.kt:422-436 | reading back the n low bytes, least significant first, gives the value modulo 256 to the n, negative values included |
| ScreenCaptureService.IntToBytes | app/src/main/java/com/anthroid/capture/ScreenCaptureService.kt:422-429 | four bytes that read back as the Int's value modulo 2^32 |
| ScreenCaptureService.ShortToBytes | app/src/main/java/com/anthroid/capture/ScreenCaptureService.kt:431-436 | two bytes that read back as the value's low 16 bits |
| ScreenCaptureService.IntBytesInjective | app/src/main/java/com/anthroid/capture/ScreenCaptureService.kt:422-429 | two distinct Ints never give the same four bytes |
| ScreenCaptureService.ByteRate | app/src/main/java/com/anthroid/capture/ScreenCaptureService.kt:402 | the byte rate is a Kotlin Int, whatever the inputs |
| ScreenCaptureService.RatesWithoutOverflow | app/src/main/java/com/anthroid/capture/ScreenCaptureService.kt:402-403 | when no product overflows, the byte rate and block alignment are the plain quotients by 8 |
| ScreenCaptureService.RecordingRates | app/src/main/java/com/anthroid/capture/ScreenCaptureService.kt:328-330 | for the 44.1 kHz 16-bit stereo recording the service makes, 176400 bytes a second and 4 bytes a frame |
| ScreenCaptureService.TagsAreAscii | app/src/main/java/com/anthroid/capture/ScreenCaptureService.kt:407-418 | the chunk tags are the ASCII bytes of "RIFF", "WAVE", "fmt " and "data" |
| ScreenCaptureService.RiffHeader | app/src/main/java/com/anthroid/capture/ScreenCaptureService.kt:405-409 | RIFF tag, then the length 36 plus the audio length (wrapped like an Int), then the WAVE tag |
| ScreenCaptureService.FormatHead | app/src/main/java/com/anthroid/capture/ScreenCaptureService.kt:410-413 | fmt tag, chunk size 16, format 1 (PCM) and the channel count's low 16 bits |
| ScreenCaptureService.FormatRates | app/src/main/java/com/anthroid/capture/ScreenCaptureService.kt:414-417 | sample rate, byte rate, block alignment and sample width, each readable back at its width |
| ScreenCaptureService.DataHeader | app/src/main/java/com/anthroid/capture/ScreenCaptureService.kt:418-419 | data tag, then the audio length modulo 2^32 |
| ScreenCaptureService.WavHeader | app/src/main/java/com/anthroid/capture/ScreenCaptureService.kt:401-420 | 44 bytes: the RIFF header, the format chunk, the data header |
| ScreenCaptureService.ParseWavHeader | app/src/main/java/com/anthroid/capture/ScreenCaptureService.kt:401-420 | a reader accepts exactly the 44-byte headers with all four tags in place |
| ScreenCaptureService.WavHeaderRoundTrip | app/src/main/java/com/anthroid/capture/ScreenCaptureService.kt:401-420 | reading the written header gives back every field, each modulo the width it was written in |
| ImageUtils.CalculateSampleSize | app/src/main/java/com/anthroid/claude/ImageUtils.kt:74-81 | a power of two at which both sides, divided as Kotlin divides Ints, are at most twice the limit; it is the smallest such power, and it never exceeds 2^20, so the loop always ends |
| ImageUtils.FitsAtMaxSample | app/src/main/java/com/anthroid/claude/ImageUtils.kt:76-77 | every Kotlin Int side fits at a sample size of 2^20, which bounds the doubling loop |
| ImageUtils.ResizeIfNeeded | app/src/main/java/com/anthroid/claude/ImageUtils.kt:86-95 | an image within the limit is kept; a larger one has both sides scaled by limit over longer side, rounded toward zero; a side that scales to zero makes the image fail |
| ImageUtils.ResizedFits | app/src/main/java/com/anthroid/claude/ImageUtils.kt:86-95 | after resizing, both sides are positive and within the limit, and the longer side is exactly the limit |
| ImageUtils.ResizeIdempotent | app/src/main/java/com/anthroid/claude/ImageUtils.kt:86-95 | a resized image is not resized again |
| ImageUtils.ThinImageRejected | app/src/main/java/com/anthroid/claude/ImageUtils.kt:90-94 | an example: a 1 by 2048 image scales to a width of zero and is not sent |
| ImageUtils.GetMimeType | app/src/main/java/com/anthroid/claude/ImageUtils.kt:100-102 | the type the resolver reports, or "image/jpeg" when it reports none |
| ImageUtils.GetFilePath | app/src/main/java/com/anthroid/claude/ImageUtils.kt:107-113 | the path exactly for a "file" URI, nothing for any other scheme |
| TermuxInstaller.PackageNamesAreUtf8 | app/src/main/java/com/anthroid/app/TermuxInstaller.java:221-224 | the byte patterns replaced are the UTF-8 encodings of "com.termux" and "com.anthroid" |
| TermuxInstaller.IsElfBinary | app/src/main/java/com/anthroid/app/TermuxInstaller.java:623-629 | exactly the data of at least four bytes that starts with 0x7f 'E' 'L' 'F' |
| TermuxInstaller.IsTextFile | app/src/main/java/com/anthroid/app/TermuxInstaller.java:211-217 | exactly a shebang script (more than two bytes, starting "#!"), anything under etc/, or a file under bin/ below 64 KiB that is not ELF |
| TermuxInstaller.ElfBinaryIsNotText | app/src/main/java/com/anthroid/app/TermuxInstaller.java:211-217 | an ELF program outside etc/ is never rewritten |
| TermuxInstaller.ScriptIsText | app/src/main/java/com/anthroid/app/TermuxInstaller.java:212-213 | a shebang script is rewritten wherever it lies in the archive |
| TermuxInstaller.RewriteContent | app/src/main/java/com/anthroid/app/TermuxInstaller.java:219-226 | files that are not text, and files without "com.termux", are written unchanged; text files have every occurrence replaced |
| TermuxInstaller.RewriteIsComplete | app/src/main/java/com/anthroid/app/TermuxInstaller.java:222-224 | after the replacement no "com.termux" is left anywhere in the file |
| TermuxInstaller.RewriteIdempotent | app/src/main/java/com/anthroid/app/TermuxInstaller.java:219-226 | rewriting a rewritten file changes nothing |
| TermuxInstaller.NeedsExec | app/src/main/java/com/anthroid/app/TermuxInstaller.java:232-236 | mode 0700 exactly for names starting with bin/, libexec, lib/apt/apt-helper or lib/apt/methods |
| TermuxInstaller.ConfigIsNotExecutable | app/src/main/java/com/anthroid/app/TermuxInstaller.java:214-236 | configuration under etc/ is rewritten but never made executable |
| TermuxInstaller.ParseSymlinkLine | app/src/main/java/com/anthroid/app/TermuxInstaller.java:176-181 | a line is accepted exactly when splitting at the arrow gives two pieces; the link's name is placed under the staging prefix and its target holds no arrow; otherwise the malformed-line error naming the line |
| TermuxInstaller.SymlinkLineRoundTrip | app/src/main/java/com/anthroid/app/TermuxInstaller.java:176-181 | writing a link as target, arrow, name and reading it back gives the same link under the staging prefix |
| TermuxInstaller.TrailingSeparatorAccepted | app/src/main/java/com/anthroid/app/TermuxInstaller.java:176-177 | a line ending in an arrow is still accepted, because split drops trailing empty pieces |
| TermuxInstaller.EmptyNameRejected | app/src/main/java/com/anthroid/app/TermuxInstaller.java:176-178 | a line with nothing after its only arrow is rejected |
| TermuxInstaller.ParseSymlinks | app/src/main/java/com/anthroid/app/TermuxInstaller.java:172-188 | the first malformed line ends reading with its error; otherwise one link per line, each the parse of its line |
| TermuxInstaller.ExtractEntries | app/src/main/java/com/anthroid/app/TermuxInstaller.java:171-239 | extraction succeeds exactly when every SYMLINKS.txt entry parses; the files written are the rewritten, possibly executable non-directory entries in archive order; every link lies under the staging prefix |
| TermuxInstaller.InstallBootstrap | app/src/main/java/com/anthroid/app/TermuxInstaller.java:168-243 | extraction errors pass through; a successful extraction with no links fails with "No SYMLINKS.txt encountered" and one with links is the result; an archive without SYMLINKS.txt fails so |
| TermuxInstaller.SetupBootstrapIfNeeded | app/src/main/java/com/anthroid/app/TermuxInstaller.java:73-124 | a secondary user on Android 7 or later is refused; otherwise an inaccessible files directory is an error; the prefix is kept exactly when it is a non-empty directory with bin/bash; anything else installs |
| TermuxInstaller.MissingShellReinstalls | app/src/main/java/com/anthroid/app/TermuxInstaller.java:107-121 | a prefix without bin/bash is extracted again |
| TermuxInstaller.HookMentionsScript | app/src/main/java/com/anthroid/app/TermuxInstaller.java:599-603 | the appended hook mentions the first-boot script |
| TermuxInstaller.AddFirstBootHook | app/src/main/java/com/anthroid/app/TermuxInstaller.java:592-604 | the result always mentions the first-boot script; a .bashrc that already mentions it is left alone; otherwise the hook is appended to the old contents (or to nothing when the file does not exist) |
| TermuxInstaller.FirstBootHookIdempotent | app/src/main/java/com/anthroid/app/TermuxInstaller.java:592-604 | adding the hook twice is the same as adding it once |
| Base64.Encode | app/src/main/java/tun/proxy/service/AuthProxyForwarder.java:145 | the encoding's length is a multiple of four, and it is empty exactly when the bytes are |
| Base64.DecodeEncode | app/src/main/java/tun/proxy/service/AuthProxyForwarder.java:145 | decoding the NO_WRAP encoding gives back exactly the bytes encoded |
| Base64.EncodeLength | app/src/main/java/com/anthroid/claude/ImageUtils.kt:60 | n bytes encode to 4 times n/3 rounded up characters |
| Base64.EncodeInjective | app/src/main/java/tun/proxy/service/AuthProxyForwarder.java:145 | different byte strings never share an encoding |
| Base64.ValueOf | app/src/main/java/tun/proxy/service/AuthProxyForwarder.java:145 | a character has a value only when it is the alphabet character for that value |
| Bytes.Latin1 | app/src/main/java/tun/proxy/service/AuthProxyForwarder.java:112-113 | each byte read becomes the one char with the same code |
| Bytes.Latin1Injective | app/src/main/java/tun/proxy/service/AuthProxyForwarder.java:112-113 | different byte strings never read as the same text |
| Bytes.ReencodeLength | app/src/main/java/tun/proxy/service/AuthProxyForwarder.java:153 | after reading as chars and writing as UTF-8, every byte at or above 0x80 has become two bytes |
| Bytes.ReencodeIdentityIff | app/src/main/java/tun/proxy/service/AuthProxyForwarder.java:153 | the read-as-chars, write-as-UTF-8 trip reproduces the bytes exactly when every byte is ASCII |
| Bytes.ReencodeExample | app/src/main/java/tun/proxy/service/AuthProxyForwarder.java:169 | an example: the byte 0xE9 leaves the relay as 0xC3 0xA9 |
| KotlinInt.Wrap32 | app/src/main/java/com/anthroid/capture/ScreenCaptureService.kt:402-405 | the result is an Int congruent to the exact value modulo 2^32, and an Int that fits is unchanged |
| KotlinInt.QuotTruncates | app/src/main/java/com/anthroid/claude/ImageUtils.kt:76-77 | Int division by a positive divisor keeps the dividend's sign and rounds its magnitude down |
| Bytes.Utf8Char | app/src/main/java/tun/proxy/service/AuthProxyForwarder.java:153 | one to four bytes; a single byte, equal to its code, exactly for ASCII; otherwise no byte of the encoding is ASCII |

## Left out

Platform, I/O and library code:
- Socket I/O after the handshake is not modelled. This covers the relay threads, the 8 KiB copy loops, `join`, the executor and the 10-second connect timeout. They are concurrency and transport; the handshake ends in a relay-or-close outcome.
- The native engines are not modelled. This covers tun2http's `jni_*` calls, hev-socks5-tunnel's `TProxyStartService`, `VpnService.Builder.establish`, `PackageManager` lookups and notifications. Their answers are fields of a `Platform` value; their invocations are entries of an effect log.
- JSON text parsing and printing are not modelled, because they are library code. Documents are values of the `Json` datatype; `JSONObject(text)` is a parameter.
- ISO-8601 timestamp parsing in `ConversationManager` is a parameter, because it is `SimpleDateFormat` library code.
- Processes are not modelled. This covers starting the `claude` process, its stdin/stdout/stderr, `Process.destroy`, and the Python helper's shell commands and `am broadcast`. They are process I/O; stdout arrives as a list of lines, and a command's output as a value.
- HTTP connections in `ClaudeApiClient` and `McpServer` are not modelled. A request's outcome is a value: an exception before any answer, or a status code with the lines read and whether the next read threw. The server's socket loop is left out.
- The file system and `SharedPreferences` are not modelled. Directories are values; whether a write or delete succeeds is a parameter. `QuickSendManager.loadStats` and `saveStats` are left out.
- UUIDs, clocks, `delay` and polling are not modelled. Message ids come from a counter; the terminal bridge's marker is cut from a given UUID string; the polls made before a timeout are a list.
- `TermuxConstants` is not part of this model, so the staging prefix path is a parameter.
- `loadZipBytes` and the JNI `getZip` are not modelled. The archive is a list of entries, and a SYMLINKS.txt entry's lines come from a `linesOf` parameter standing for `BufferedReader.readLine`.
- Views, dialogs, icons, the overlay window, Markwon and every Activity and Fragment are not modelled. `AppSelectorAdapter` is modelled only for its selection and filtering state.

Operations not modelled, and why:
- `AnthroidAccessibilityService` operations left out:
  - `getScreenElements` and `findElementByText` JSON rendering: only the element lists they serialise are modelled.
  - Screen bounds, `clickAt`, `swipe`, `longPressAt` and the global actions `pressBack`, `pressHome`, `openRecents` and `openNotifications`: gestures and coordinates are floating-point platform calls.
  - `inputText`, `waitForElement`, `focusAndInput` and `getCurrentApp`: they wrap the same tree searches around platform actions and delays.
- `ScreenCaptureService` operations left out: the capture and `AudioRecord` parts and `writeAudioToFile`'s read loop. They are platform media I/O; only the header written in front of the audio is modelled.
- `ImageUtils.processImageForApi` operations left out: bitmap decoding, JPEG compression and its Base64 output, which are platform codecs. Its size decisions (`CalculateSampleSize`, `ResizeIfNeeded`) are modelled, and so is the null a failing resize yields.
- `ClaudeViewModel`'s own tool executors are not modelled. These are `bash`, `run_termux`, `read`, `write`, clipboard, `open_url`, `launch_app` and the others. They run shell commands or platform calls; the model records which executor a tool use is routed to, and what happens to the tool message when its result arrives.
- The chat back ends that `ClaudeViewModel` calls are not part of this model. These are `chat`, `chatStreaming`, `chatWithImages`, `sendToolResult`, `setConversationId` and `clearConversation`. A running session is the sequence of events it delivers.
- Kotlin's `lowercase()`, `uppercase()` and `ignoreCase` comparisons are modelled on ASCII letters plus the Kelvin sign (lower case) and the dotless i and long s (upper case) only. `Json.OptBoolean` follows Java's `equalsIgnoreCase`, which compares upper-case forms, so "falſe" with the long s reads as false (`Json.LongSReadsAsFalse`). The model is exact when one side of a comparison is an ASCII constant, such as a tool name. It is not exact for app labels and screen text, which the code compares after full Unicode case mapping; the members that do so are listed below.
- Kotlin's `length` and `take(n)` count UTF-16 units; the model's `|s|` and `Take` count characters. The two agree on text without characters outside the Basic Multilingual Plane. `QuickSendManager.Countable` does count UTF-16 units (`Strings.Utf16Length`); `take` is not modelled in UTF-16 units because its result can end in half a surrogate pair, which a Dafny string cannot hold.
- `ClaudeCliClient` parts left out: stderr lines turned into `Error` events, the `SessionEnded` event after the process exits, and `sendMessage`/`cancel`. They involve concurrent reader threads over process streams.
- `ProxyConfigManager.generateServerId` is not modelled. It is a UUID, so new ids are a parameter.

Contracts deliberately weaker than the code:
- `ImageUtils.ResizeIfNeeded` uses exact rational scaling, `side * 1024 / maxDim` rounded toward zero. The code multiplies by a float scale factor, whose rounding can differ by one pixel.
- `TermuxInstaller.RewriteContent` replaces `com.termux` on the file's bytes. The code decodes UTF-8, replaces, and encodes again. The two agree on valid UTF-8. On a text file holding invalid UTF-8 and `com.termux`, the code also turns each malformed sequence into U+FFFD, which the model does not.
- AuthProxyForwarder.HandleConnection: a write that throws (to the upstream, or of the response head to the client) is not modelled; it ends in the same catch block as a throwing read, after whatever bytes were written.
- SetAppProxy: an apps entry that is a nested array or object makes the model's tool raise (ChooseApps answers BadEntry). On Android, `getString` renders such an entry as its JSON text and never throws, so the real tool would go on with that text as a package name.
- Json.GetString: a nested array or object reads as not text (`None`), where org.json on Android renders it as JSON text. OptString inherits this and falls back.
- Json.IntFromText: only an optional sign and decimal digits are read; fractions, exponents, hexadecimal and `NaN`, which `Double.parseDouble` accepts, read as not a number.
- Json.GetInt: a JSON number outside the `int` range is kept whole, where org.json narrows it to 32 bits.
- Json.GetInt: the `Json` datatype has no non-integral number, so a document holding a value such as `1091.5` is not representable. org.json parses it as a Double, and getInt/optInt truncate it toward zero; this reaches the server port (ProxyServer.kt:56), the tool's proxy_port (AndroidTools.kt:361), days_ahead (ClaudeViewModel.kt:423) and numeric fields of the CLI's stream-json lines. Every contract that reads back or defaults a number is stated for integral numbers only.
- ApplyFilter: label matching lowercases with the ASCII-plus-Kelvin `Lower`, not Unicode `lowercase()`, so labels with other cased letters may match differently.
- Filter: inherits ApplyFilter's ASCII-plus-Kelvin case mapping.
- SearchIgnoresCase: proved for the ASCII-plus-Kelvin `Lower` only.
- FindByText: `ignoreCase` matching uses the ASCII-plus-Kelvin `Lower`, not Kotlin's Unicode case folding; FindClickable inherits this.
- ToolInputText: `take(50)` of the clipboard text counts characters, not UTF-16 units.
- ResultContent: `take(500)` and the `length > 500` test count characters, not UTF-16 units.
- ParseConversationFile: the title's `take(50)` and the preview's `take(80)` count characters, not UTF-16 units.
- `AuthProxyForwarder.HeadersForwardedVerbatim` assumes ASCII input. Over other bytes the forwarded headers are re-encoded exactly as `Bytes.ReencodeIdentityIff` describes.

=== FILE: accessibility_service.dfy ===
/**
 * AnthroidAccessibilityService: the screen-automation helpers. The screen
 * is a tree of nodes (AccessibilityNodeInfo); the searches walk it in
 * pre-order, children left to right. A child the framework cannot return
 * (`getChild(i) == null`) is skipped by every walk, so it is simply absent
 * from the tree here. The search for a clickable node also looks at a
 * node's ancestors, which the walk carries along, nearest first; the root
 * of the active window has none.
 *
 * Gestures, global actions, the overlay's view, screen bounds and the
 * service's lifetime are left out; whether the service is enabled, the
 * window's root and whether an action succeeded are parameters.
 */
module AnthroidAccessibilityService {
  import opened Wrappers
  import opened Strings
  import Seqs

  datatype Node = Node(
    text: Option<string>,
    description: Option<string>,
    className: Option<string>,
    viewId: Option<string>,
    clickable: bool,
    editable: bool,
    scrollable: bool,
    visible: bool,
    children: seq<Node>)

  /** Every node of the tree, in the order the searches visit them. */
  function Preorder(n: Node): seq<Node>
    decreases n
  {
    [n] + PreorderAll(n.children)
  }

  function PreorderAll(cs: seq<Node>): seq<Node>
    decreases cs
  {
    if |cs| == 0 then [] else Preorder(cs[0]) + PreorderAll(cs[1..])
  }

  // ---------------------------------------------------------------------
  // interrupt / checkInterrupted / showOverlay
  // ---------------------------------------------------------------------

  /** The shared interruption flag. */
  datatype Flags = Flags(interrupted: bool)

  /** interrupt(): raise the flag. */
  function Interrupt(f: Flags): (r: Flags)
    ensures r.interrupted
  {
    Flags(true)
  }

  /** checkInterrupted(): report the flag and lower it. */
  function CheckInterrupted(f: Flags): (r: (bool, Flags))
    ensures r.0 == f.interrupted && !r.1.interrupted
  {
    if f.interrupted then (true, Flags(false)) else (false, f)
  }

  /** showOverlay(text): lowers the flag, but only once it knows the service is running. */
  function ShowOverlay(f: Flags, enabled: bool): (r: Flags)
    ensures enabled ==> !r.interrupted
    ensures !enabled ==> r == f
  {
    if !enabled then f else Flags(false)
  }

  datatype FlagEvent = RaiseInterrupt | Check | Show(enabled: bool)

  predicate IsRaise(e: FlagEvent) {
    e.RaiseInterrupt?
  }

  /** Replay flag events; the number is how many checks reported an interruption. */
  function RunFlags(f: Flags, events: seq<FlagEvent>): (r: (Flags, nat))
    decreases |events|
  {
    if |events| == 0 then (f, 0)
    else
      var (g, hit) := match events[0]
        case RaiseInterrupt => (Interrupt(f), false)
        case Check => var c := CheckInterrupted(f); (c.1, c.0)
        case Show(enabled) => (ShowOverlay(f, enabled), false);
      var rest := RunFlags(g, events[1..]);
      (rest.0, rest.1 + if hit then 1 else 0)
  }

  /** A check reports an interruption at most once per interrupt() (plus one for a flag already up). */
  lemma {:induction false} AtMostOncePerInterrupt(f: Flags, events: seq<FlagEvent>)
    ensures RunFlags(f, events).1 + (if RunFlags(f, events).0.interrupted then 1 else 0)
              <= Seqs.Count(events, IsRaise) + (if f.interrupted then 1 else 0)
    decreases |events|
  {
    if |events| > 0 {
      var g := match events[0]
        case RaiseInterrupt => Interrupt(f)
        case Check => CheckInterrupted(f).1
        case Show(enabled) => ShowOverlay(f, enabled);
      AtMostOncePerInterrupt(g, events[1..]);
    }
  }

  /** A second check right after the first finds nothing. */
  lemma CheckTwice(f: Flags)
    ensures !CheckInterrupted(CheckInterrupted(f).1).0
  {
  }

  // ---------------------------------------------------------------------
  // collectTexts / getScreenText
  // ---------------------------------------------------------------------

  /** A node's own contribution: its text, then its description, each when not blank. */
  function NodeTexts(n: Node): (r: seq<string>)
    ensures forall t | t in r :: !IsBlank(t)
  {
    (match n.text case Some(t) => if IsBlank(t) then [] else [t] case None => [])
      + (match n.description case Some(d) => if IsBlank(d) then [] else [d] case None => [])
  }

  /** collectTexts(node, texts). */
  function CollectTexts(n: Node): (r: seq<string>)
    ensures forall t | t in r :: !IsBlank(t)
    decreases n
  {
    NodeTexts(n) + CollectTextsAll(n.children)
  }

  function CollectTextsAll(cs: seq<Node>): (r: seq<string>)
    ensures forall t | t in r :: !IsBlank(t)
    decreases cs
  {
    if |cs| == 0 then [] else CollectTexts(cs[0]) + CollectTextsAll(cs[1..])
  }

  /** The texts of a list of nodes, each node's in turn. */
  function TextsOf(ns: seq<Node>): seq<string>
    decreases |ns|
  {
    if |ns| == 0 then [] else NodeTexts(ns[0]) + TextsOf(ns[1..])
  }

  lemma {:induction false} TextsOfConcat(xs: seq<Node>, ys: seq<Node>)
    ensures TextsOf(xs + ys) == TextsOf(xs) + TextsOf(ys)
    decreases |xs|
  {
    if |xs| == 0 {
      assert xs + ys == ys;
    } else {
      assert (xs + ys)[0] == xs[0] && (xs + ys)[1..] == xs[1..] + ys;
      TextsOfConcat(xs[1..], ys);
    }
  }

  /** collectTexts visits the nodes in pre-order. */
  lemma {:induction false} CollectTextsInPreorder(n: Node)
    ensures CollectTexts(n) == TextsOf(Preorder(n))
    decreases n
  {
    CollectTextsAllInPreorder(n.children);
    TextsOfConcat([n], PreorderAll(n.children));
  }

  lemma {:induction false} CollectTextsAllInPreorder(cs: seq<Node>)
    ensures CollectTextsAll(cs) == TextsOf(PreorderAll(cs))
    decreases cs
  {
    if |cs| > 0 {
      CollectTextsInPreorder(cs[0]);
      CollectTextsAllInPreorder(cs[1..]);
      TextsOfConcat(Preorder(cs[0]), PreorderAll(cs[1..]));
    }
  }

  const NOT_ENABLED: string := "Error: Accessibility service not enabled"
  const NO_CONTENT: string := "Error: Cannot access screen content"
  const NO_TEXT: string := "No text found on screen"

  /** getScreenText(): the texts one per line, or a message when there are none. */
  function GetScreenText(enabled: bool, root: Option<Node>): (r: string)
    ensures !enabled ==> r == NOT_ENABLED
    ensures enabled && root.None? ==> r == NO_CONTENT
    ensures enabled && root.Some? && CollectTexts(root.value) == [] ==> r == NO_TEXT
    ensures enabled && root.Some? && CollectTexts(root.value) != [] ==> r == Join(CollectTexts(root.value), "\n")
  {
    if !enabled then NOT_ENABLED
    else match root
      case None => NO_CONTENT
      case Some(n) =>
        var texts := CollectTexts(n);
        if |texts| == 0 then NO_TEXT else Join(texts, "\n")
  }

  /** Texts without line breaks come back line by line. */
  lemma ScreenTextLines(root: Node)
    requires CollectTexts(root) != []
    requires forall t | t in CollectTexts(root) :: NoLineBreak(t)
    ensures Lines(GetScreenText(true, Some(root))) == CollectTexts(root)
  {
    var texts := CollectTexts(root);
    assert forall i | 0 <= i < |texts| :: texts[i] in texts;
    LinesOfJoin(texts);
  }

  // ---------------------------------------------------------------------
  // collectElements
  // ---------------------------------------------------------------------

  /** One entry of getScreenElements() (screen bounds left out). */
  datatype Element = Element(
    className: string, text: string, description: string, id: string,
    clickable: bool, editable: bool, scrollable: bool, depth: int)

  /** Nodes worth reporting: with text or a description, or clickable, or editable. */
  predicate Meaningful(n: Node) {
    n.text.Some? || n.description.Some? || n.clickable || n.editable
  }

  function ElementOf(n: Node, depth: int): Element {
    Element(n.className.GetOr("unknown"), n.text.GetOr(""), n.description.GetOr(""), n.viewId.GetOr(""),
            n.clickable, n.editable, n.scrollable, depth)
  }

  /** collectElements(node, elements, includeInvisible, depth). */
  function CollectElements(n: Node, includeInvisible: bool, depth: int): (r: seq<Element>)
    ensures forall e | e in r :: e.depth >= depth
    ensures !includeInvisible && !n.visible ==> r == []
    ensures |r| <= |Preorder(n)|
    decreases n
  {
    if !includeInvisible && !n.visible then []
    else
      (if Meaningful(n) then [ElementOf(n, depth)] else [])
        + CollectElementsAll(n.children, includeInvisible, depth + 1)
  }

  function CollectElementsAll(cs: seq<Node>, includeInvisible: bool, depth: int): (r: seq<Element>)
    ensures forall e | e in r :: e.depth >= depth
    ensures |r| <= |PreorderAll(cs)|
    decreases cs
  {
    if |cs| == 0 then []
    else CollectElements(cs[0], includeInvisible, depth) + CollectElementsAll(cs[1..], includeInvisible, depth)
  }

  /** With invisible nodes included, one element is reported per meaningful node of the tree. */
  lemma {:induction false} ElementsOfWholeTree(n: Node, depth: int)
    ensures |CollectElements(n, true, depth)| == Seqs.Count(Preorder(n), Meaningful)
    decreases n
  {
    ElementsOfWholeForest(n.children, depth + 1);
    CountConcat([n], PreorderAll(n.children));
  }

  lemma {:induction false} ElementsOfWholeForest(cs: seq<Node>, depth: int)
    ensures |CollectElementsAll(cs, true, depth)| == Seqs.Count(PreorderAll(cs), Meaningful)
    decreases cs
  {
    if |cs| > 0 {
      ElementsOfWholeTree(cs[0], depth);
      ElementsOfWholeForest(cs[1..], depth);
      CountConcat(Preorder(cs[0]), PreorderAll(cs[1..]));
    }
  }

  lemma CountConcat(xs: seq<Node>, ys: seq<Node>)
    ensures Seqs.Count(xs + ys, Meaningful) == Seqs.Count(xs, Meaningful) + Seqs.Count(ys, Meaningful)
  {
    Seqs.CountIsFilterLength(xs + ys, Meaningful);
    Seqs.CountIsFilterLength(xs, Meaningful);
    Seqs.CountIsFilterLength(ys, Meaningful);
    Seqs.FilterConcat(xs, ys, Meaningful);
  }

  /**
   * Whether collectElements reports a visited node: it is meaningful, and
   * unless invisible nodes are included, it and all its ancestors are visible.
   */
  function Reported(includeInvisible: bool): ((Node, seq<Node>)) -> bool {
    (p: (Node, seq<Node>)) => Meaningful(p.0) && (includeInvisible || (p.0.visible && forall a | a in p.1 :: a.visible))
  }

  /** The element for a node below `ancestors`, its depth counted from `base`. */
  function ElementAt(base: int): ((Node, seq<Node>)) -> Element {
    (p: (Node, seq<Node>)) => ElementOf(p.0, base + |p.1|)
  }

  /**
   * collectElements reports, in pre-order, one element per meaningful node
   * reached through visible nodes only (or every meaningful node when
   * invisible ones are included), each at the root's depth plus its number
   * of ancestors.
   */
  lemma CollectElementsIsPathFilter(n: Node, includeInvisible: bool, depth: int)
    ensures CollectElements(n, includeInvisible, depth)
            == Seqs.Map(Seqs.Filter(Paths(n, []), Reported(includeInvisible)), ElementAt(depth))
  {
    CollectBelow(n, includeInvisible, depth, []);
  }

  lemma {:induction false} CollectBelow(n: Node, includeInvisible: bool, base: int, ancestors: seq<Node>)
    requires includeInvisible || forall a | a in ancestors :: a.visible
    ensures CollectElements(n, includeInvisible, base + |ancestors|)
            == Seqs.Map(Seqs.Filter(Paths(n, ancestors), Reported(includeInvisible)), ElementAt(base))
    decreases n
  {
    var below := [n] + ancestors;
    var rest := PathsAll(n.children, below);
    if !includeInvisible && !n.visible {
      PathsThrough(n, ancestors);
      Seqs.FilterNone(Paths(n, ancestors), Reported(includeInvisible));
    } else {
      var reported := Reported(includeInvisible);
      assert includeInvisible || forall a | a in below :: a.visible;
      CollectAllBelow(n.children, includeInvisible, base, below);
      assert Paths(n, ancestors) == [(n, ancestors)] + rest;
      Seqs.FilterConcat([(n, ancestors)], rest, reported);
      assert reported((n, ancestors)) == Meaningful(n);
      var head := Seqs.Filter([(n, ancestors)], reported);
      Seqs.MapConcat(head, Seqs.Filter(rest, reported), ElementAt(base));
      assert Seqs.Map(head, ElementAt(base)) == if Meaningful(n) then [ElementOf(n, base + |ancestors|)] else [];
      assert base + |below| == base + |ancestors| + 1;
    }
  }

  lemma {:induction false} CollectAllBelow(cs: seq<Node>, includeInvisible: bool, base: int, ancestors: seq<Node>)
    requires includeInvisible || forall a | a in ancestors :: a.visible
    ensures CollectElementsAll(cs, includeInvisible, base + |ancestors|)
            == Seqs.Map(Seqs.Filter(PathsAll(cs, ancestors), Reported(includeInvisible)), ElementAt(base))
    decreases cs
  {
    if |cs| > 0 {
      CollectBelow(cs[0], includeInvisible, base, ancestors);
      CollectAllBelow(cs[1..], includeInvisible, base, ancestors);
      Seqs.FilterConcat(Paths(cs[0], ancestors), PathsAll(cs[1..], ancestors), Reported(includeInvisible));
      Seqs.MapConcat(Seqs.Filter(Paths(cs[0], ancestors), Reported(includeInvisible)),
                     Seqs.Filter(PathsAll(cs[1..], ancestors), Reported(includeInvisible)), ElementAt(base));
    }
  }

  /** Every path of a subtree is its root or passes through it. */
  lemma {:induction false} PathsThrough(n: Node, ancestors: seq<Node>)
    ensures forall i | 0 <= i < |Paths(n, ancestors)| :: Paths(n, ancestors)[i].0 == n || n in Paths(n, ancestors)[i].1
  {
    PathsAllBelow(n.children, [n] + ancestors, n);
  }

  lemma {:induction false} PathsAllBelow(cs: seq<Node>, ancestors: seq<Node>, a: Node)
    requires a in ancestors
    ensures forall i | 0 <= i < |PathsAll(cs, ancestors)| :: a in PathsAll(cs, ancestors)[i].1
    decreases cs
  {
    if |cs| > 0 {
      var below := [cs[0]] + ancestors;
      assert a in below;
      PathsAllBelow(cs[0].children, below, a);
      PathsAllBelow(cs[1..], ancestors, a);
      var h := Paths(cs[0], ancestors);
      var t := PathsAll(cs[1..], ancestors);
      assert h == [(cs[0], ancestors)] + PathsAll(cs[0].children, below);
      assert forall i | 0 <= i < |h| :: a in h[i].1;
      assert PathsAll(cs, ancestors) == h + t;
    }
  }

  // ---------------------------------------------------------------------
  // findByText
  // ---------------------------------------------------------------------

  /** Whether a node's text or description matches: equal when exact, else contained ignoring case. */
  function TextMatch(text: string, exact: bool): Node -> bool {
    (n: Node) =>
      var nodeText := n.text.GetOr("");
      var nodeDesc := n.description.GetOr("");
      if exact then nodeText == text || nodeDesc == text
      else ContainsIgnoreCase(nodeText, text) || ContainsIgnoreCase(nodeDesc, text)
  }

  /** findByText(node, text, exactMatch, results): every matching node. */
  function FindByText(n: Node, text: string, exact: bool): (r: seq<Node>)
    ensures forall m | m in r :: TextMatch(text, exact)(m)
    decreases n
  {
    (if TextMatch(text, exact)(n) then [n] else []) + FindByTextAll(n.children, text, exact)
  }

  function FindByTextAll(cs: seq<Node>, text: string, exact: bool): (r: seq<Node>)
    ensures forall m | m in r :: TextMatch(text, exact)(m)
    decreases cs
  {
    if |cs| == 0 then [] else FindByText(cs[0], text, exact) + FindByTextAll(cs[1..], text, exact)
  }

  /** findByText reports exactly the matching nodes, in pre-order. */
  lemma {:induction false} FindByTextIsPreorderFilter(n: Node, text: string, exact: bool)
    ensures FindByText(n, text, exact) == Seqs.Filter(Preorder(n), TextMatch(text, exact))
    decreases n
  {
    FindByTextAllIsPreorderFilter(n.children, text, exact);
    Seqs.FilterConcat([n], PreorderAll(n.children), TextMatch(text, exact));
  }

  lemma {:induction false} FindByTextAllIsPreorderFilter(cs: seq<Node>, text: string, exact: bool)
    ensures FindByTextAll(cs, text, exact) == Seqs.Filter(PreorderAll(cs), TextMatch(text, exact))
    decreases cs
  {
    if |cs| > 0 {
      FindByTextIsPreorderFilter(cs[0], text, exact);
      FindByTextAllIsPreorderFilter(cs[1..], text, exact);
      Seqs.FilterConcat(Preorder(cs[0]), PreorderAll(cs[1..]), TextMatch(text, exact));
    }
  }

  // ---------------------------------------------------------------------
  // findFirstEditable / findScrollable
  // ---------------------------------------------------------------------

  /** The first node in pre-order satisfying `p`. */
  function FindFirst(n: Node, p: Node -> bool): (r: Option<Node>)
    ensures r.Some? ==> p(r.value) && r.value in Preorder(n)
    ensures r.None? <==> forall m | m in Preorder(n) :: !p(m)
    decreases n
  {
    if p(n) then Some(n) else FindFirstAll(n.children, p)
  }

  function FindFirstAll(cs: seq<Node>, p: Node -> bool): (r: Option<Node>)
    ensures r.Some? ==> p(r.value) && r.value in PreorderAll(cs)
    ensures r.None? <==> forall m | m in PreorderAll(cs) :: !p(m)
    decreases cs
  {
    if |cs| == 0 then None
    else match FindFirst(cs[0], p)
      case Some(m) => Some(m)
      case None => FindFirstAll(cs[1..], p)
  }

  function Head(xs: seq<Node>): Option<Node> {
    if |xs| == 0 then None else Some(xs[0])
  }

  /** The search returns the first pre-order match, or nothing when no node matches. */
  lemma {:induction false} FindFirstIsFirstMatch(n: Node, p: Node -> bool)
    ensures FindFirst(n, p) == Head(Seqs.Filter(Preorder(n), p))
    decreases n
  {
    FindFirstAllIsFirstMatch(n.children, p);
    Seqs.FilterConcat([n], PreorderAll(n.children), p);
  }

  lemma {:induction false} FindFirstAllIsFirstMatch(cs: seq<Node>, p: Node -> bool)
    ensures FindFirstAll(cs, p) == Head(Seqs.Filter(PreorderAll(cs), p))
    decreases cs
  {
    if |cs| > 0 {
      FindFirstIsFirstMatch(cs[0], p);
      FindFirstAllIsFirstMatch(cs[1..], p);
      Seqs.FilterConcat(Preorder(cs[0]), PreorderAll(cs[1..]), p);
    }
  }

  function IsEditable(n: Node): bool {
    n.editable
  }

  function IsScrollable(n: Node): bool {
    n.scrollable
  }

  /** findFirstEditable(node). */
  function FindFirstEditable(n: Node): (r: Option<Node>)
    ensures r.Some? ==> r.value.editable
    ensures r == Head(Seqs.Filter(Preorder(n), IsEditable))
  {
    FindFirstIsFirstMatch(n, IsEditable);
    FindFirst(n, IsEditable)
  }

  /** findScrollable(node). */
  function FindScrollable(n: Node): (r: Option<Node>)
    ensures r.Some? ==> r.value.scrollable
    ensures r == Head(Seqs.Filter(Preorder(n), IsScrollable))
  {
    FindFirstIsFirstMatch(n, IsScrollable);
    FindFirst(n, IsScrollable)
  }

  // ---------------------------------------------------------------------
  // findClickableByText
  // ---------------------------------------------------------------------

  /** The nearest clickable node in a chain of ancestors, nearest first. */
  function NearestClickable(ancestors: seq<Node>): (r: Option<Node>)
    ensures r.Some? ==> r.value.clickable && r.value in ancestors
    ensures r.None? ==> forall a | a in ancestors :: !a.clickable
    decreases |ancestors|
  {
    if |ancestors| == 0 then None
    else if ancestors[0].clickable then Some(ancestors[0])
    else NearestClickable(ancestors[1..])
  }

  /**
   * findClickableByText(node, text): a matching clickable node, else the
   * nearest clickable ancestor of a matching node, else a search of the
   * children. Nothing is found only when no matching node in the subtree
   * is clickable or has a clickable ancestor.
   */
  function FindClickable(n: Node, text: string, ancestors: seq<Node>): (r: Option<Node>)
    ensures r.Some? ==> r.value.clickable && (r.value in Preorder(n) || r.value in ancestors)
    ensures r.None? ==> forall m | m in Preorder(n) :: TextMatch(text, false)(m) ==> !m.clickable
    ensures r.None? && (exists m | m in Preorder(n) :: TextMatch(text, false)(m)) ==>
              forall a | a in ancestors :: !a.clickable
    decreases n
  {
    var matched := TextMatch(text, false)(n);
    if matched && n.clickable then Some(n)
    else if matched && NearestClickable(ancestors).Some? then NearestClickable(ancestors)
    else
      var r := FindClickableAll(n.children, text, [n] + ancestors);
      assert forall a | a in ancestors :: a in [n] + ancestors;
      r
  }

  function FindClickableAll(cs: seq<Node>, text: string, ancestors: seq<Node>): (r: Option<Node>)
    ensures r.Some? ==> r.value.clickable && (r.value in PreorderAll(cs) || r.value in ancestors)
    ensures r.None? ==> forall m | m in PreorderAll(cs) :: TextMatch(text, false)(m) ==> !m.clickable
    ensures r.None? && (exists m | m in PreorderAll(cs) :: TextMatch(text, false)(m)) ==>
              forall a | a in ancestors :: !a.clickable
    decreases cs
  {
    if |cs| == 0 then None
    else match FindClickable(cs[0], text, ancestors)
      case Some(m) => Some(m)
      case None => FindClickableAll(cs[1..], text, ancestors)
  }

  /** A matching label inside a clickable container finds the container. */
  lemma LabelInButton(button: Node, caption: Node, text: string)
    requires button.clickable && !caption.clickable && caption.children == []
    requires TextMatch(text, false)(caption) && !TextMatch(text, false)(button)
    requires button.children == [caption]
    ensures FindClickable(button, text, []) == Some(button)
  {
    assert NearestClickable([button]) == Some(button);
    assert FindClickable(caption, text, [button]) == Some(button);
    assert [button] + [] == [button];
    assert FindClickableAll([caption], text, [button]) == Some(button);
  }

  /**
   * Every node of a tree in pre-order, paired with its chain of ancestors
   * (nearest first) on top of `ancestors`.
   */
  function Paths(n: Node, ancestors: seq<Node>): seq<(Node, seq<Node>)>
    decreases n
  {
    [(n, ancestors)] + PathsAll(n.children, [n] + ancestors)
  }

  function PathsAll(cs: seq<Node>, ancestors: seq<Node>): seq<(Node, seq<Node>)>
    decreases cs
  {
    if |cs| == 0 then [] else Paths(cs[0], ancestors) + PathsAll(cs[1..], ancestors)
  }

  function NodeOf(p: (Node, seq<Node>)): Node {
    p.0
  }

  /** The nodes of `Paths` are the pre-order walk. */
  lemma {:induction false} PathsArePreorder(n: Node, ancestors: seq<Node>)
    ensures Seqs.Map(Paths(n, ancestors), NodeOf) == Preorder(n)
    decreases n
  {
    PathsAllArePreorder(n.children, [n] + ancestors);
    Seqs.MapConcat([(n, ancestors)], PathsAll(n.children, [n] + ancestors), NodeOf);
  }

  lemma {:induction false} PathsAllArePreorder(cs: seq<Node>, ancestors: seq<Node>)
    ensures Seqs.Map(PathsAll(cs, ancestors), NodeOf) == PreorderAll(cs)
    decreases cs
  {
    if |cs| > 0 {
      PathsArePreorder(cs[0], ancestors);
      PathsAllArePreorder(cs[1..], ancestors);
      Seqs.MapConcat(Paths(cs[0], ancestors), PathsAll(cs[1..], ancestors), NodeOf);
    }
  }

  /**
   * What one visited node yields: itself when it matches and is clickable,
   * else its nearest clickable ancestor when it matches, else nothing.
   */
  function ClickTarget(text: string, p: (Node, seq<Node>)): Option<Node> {
    if !TextMatch(text, false)(p.0) then None
    else if p.0.clickable then Some(p.0)
    else NearestClickable(p.1)
  }

  /** The target of the first visited node that yields one. */
  function FirstTarget(text: string, ps: seq<(Node, seq<Node>)>): Option<Node>
    decreases |ps|
  {
    if |ps| == 0 then None
    else if ClickTarget(text, ps[0]).Some? then ClickTarget(text, ps[0])
    else FirstTarget(text, ps[1..])
  }

  /** When the `k`-th node is the first to yield a target, its target is the answer. */
  lemma {:induction false} FirstTargetAt(text: string, ps: seq<(Node, seq<Node>)>, k: nat)
    requires k < |ps| && ClickTarget(text, ps[k]).Some?
    requires forall j | 0 <= j < k :: ClickTarget(text, ps[j]).None?
    ensures FirstTarget(text, ps) == ClickTarget(text, ps[k])
    decreases k
  {
    if k > 0 {
      assert forall j | 0 <= j < k - 1 :: ps[1..][j] == ps[j + 1];
      FirstTargetAt(text, ps[1..], k - 1);
    }
  }

  /** Nothing is found exactly when no visited node yields a target. */
  lemma {:induction false} FirstTargetNone(text: string, ps: seq<(Node, seq<Node>)>)
    ensures FirstTarget(text, ps).None? <==> forall i | 0 <= i < |ps| :: ClickTarget(text, ps[i]).None?
    decreases |ps|
  {
    if |ps| > 0 {
      FirstTargetNone(text, ps[1..]);
      assert forall i | 1 <= i < |ps| :: ps[i] == ps[1..][i - 1];
    }
  }

  lemma {:induction false} FirstTargetConcat(text: string, xs: seq<(Node, seq<Node>)>, ys: seq<(Node, seq<Node>)>)
    ensures FirstTarget(text, xs + ys)
            == if FirstTarget(text, xs).Some? then FirstTarget(text, xs) else FirstTarget(text, ys)
    decreases |xs|
  {
    if |xs| > 0 {
      assert (xs + ys)[1..] == xs[1..] + ys;
      FirstTargetConcat(text, xs[1..], ys);
    } else {
      assert xs + ys == ys;
    }
  }

  /**
   * The recursive search returns the target of the first node in pre-order
   * that matches and is clickable or has a clickable ancestor: a matching
   * node without one does not stop the search.
   */
  lemma {:induction false} FindClickableIsFirstTarget(n: Node, text: string, ancestors: seq<Node>)
    ensures FindClickable(n, text, ancestors) == FirstTarget(text, Paths(n, ancestors))
    decreases n
  {
    FindClickableAllIsFirstTarget(n.children, text, [n] + ancestors);
    FirstTargetConcat(text, [(n, ancestors)], PathsAll(n.children, [n] + ancestors));
    assert FirstTarget(text, [(n, ancestors)]) == ClickTarget(text, (n, ancestors));
  }

  lemma {:induction false} FindClickableAllIsFirstTarget(cs: seq<Node>, text: string, ancestors: seq<Node>)
    ensures FindClickableAll(cs, text, ancestors) == FirstTarget(text, PathsAll(cs, ancestors))
    decreases cs
  {
    if |cs| > 0 {
      FindClickableIsFirstTarget(cs[0], text, ancestors);
      FindClickableAllIsFirstTarget(cs[1..], text, ancestors);
      FirstTargetConcat(text, Paths(cs[0], ancestors), PathsAll(cs[1..], ancestors));
    }
  }

  /** The `i`-th path of a whole tree holds the `i`-th node of its pre-order walk. */
  lemma PathNodes(root: Node)
    ensures |Paths(root, [])| == |Preorder(root)|
    ensures forall i | 0 <= i < |Preorder(root)| :: Paths(root, [])[i].0 == Preorder(root)[i]
  {
    PathsArePreorder(root, []);
    assert forall i | 0 <= i < |Paths(root, [])| :: Seqs.Map(Paths(root, []), NodeOf)[i] == NodeOf(Paths(root, [])[i]);
  }

  /** The first matching node in pre-order, when clickable, is the one found. */
  lemma FirstMatchClickable(root: Node, text: string)
    requires FindFirst(root, TextMatch(text, false)).Some?
    requires FindFirst(root, TextMatch(text, false)).value.clickable
    ensures FindClickable(root, text, []) == FindFirst(root, TextMatch(text, false))
  {
    var k := FirstMatchIndex(root, TextMatch(text, false));
    PathNodes(root);
    FirstMatchIsTarget(text, Paths(root, []), k);
    FindClickableIsFirstTarget(root, text, []);
  }

  /** Where in pre-order the node FindFirst returns sits: no earlier node matches. */
  lemma FirstMatchIndex(root: Node, p: Node -> bool) returns (k: nat)
    requires FindFirst(root, p).Some?
    ensures k < |Preorder(root)| && Preorder(root)[k] == FindFirst(root, p).value && p(Preorder(root)[k])
    ensures forall j | 0 <= j < k :: !p(Preorder(root)[j])
  {
    FindFirstIsFirstMatch(root, p);
    Seqs.FilterHead(Preorder(root), p);
    k :| 0 <= k < |Preorder(root)| && Preorder(root)[k] == Seqs.Filter(Preorder(root), p)[0] && p(Preorder(root)[k])
         && forall j | 0 <= j < k :: !p(Preorder(root)[j]);
  }

  /** A clickable matching node with no match before it is the first target. */
  lemma FirstMatchIsTarget(text: string, ps: seq<(Node, seq<Node>)>, k: nat)
    requires k < |ps| && TextMatch(text, false)(ps[k].0) && ps[k].0.clickable
    requires forall j | 0 <= j < k :: !TextMatch(text, false)(ps[j].0)
    ensures FirstTarget(text, ps) == Some(ps[k].0)
  {
    assert forall j | 0 <= j < k :: ClickTarget(text, ps[j]).None?;
    FirstTargetAt(text, ps, k);
  }

  // ---------------------------------------------------------------------
  // clickByText / scroll
  // ---------------------------------------------------------------------

  const INTERRUPTED: string := "Error: Operation interrupted"

  /**
   * clickByText(text). `clicked` is what performing the click returned.
   * The overlay lowers the flag before the check whenever the service is
   * running, so an earlier interrupt() only shows when it is not.
   */
  function ClickByText(f: Flags, enabled: bool, root: Option<Node>, text: string, clicked: bool)
    : (r: (string, Flags))
    ensures !r.1.interrupted
    ensures r.0 == INTERRUPTED <==> !enabled && f.interrupted
    ensures !enabled && !f.interrupted ==> r.0 == NOT_ENABLED
    ensures enabled && root.None? ==> r.0 == NO_CONTENT
    ensures enabled && root.Some? && FindClickable(root.value, text, []).None? ==> r.0 == "Element not found: " + text
    ensures enabled && root.Some? && FindClickable(root.value, text, []).Some? ==>
              r.0 == (if clicked then "Clicked: " else "Click failed: ") + text
  {
    var shown := ShowOverlay(f, enabled);
    var (stop, g) := CheckInterrupted(shown);
    if stop then (INTERRUPTED, g)
    else if !enabled then (NOT_ENABLED, g)
    else match root
      case None => (NO_CONTENT, g)
      case Some(n) =>
        match FindClickable(n, text, [])
        case Some(_) =>
          var msg := (if clicked then "Clicked: " else "Click failed: ") + text;
          assert msg[1] != INTERRUPTED[1];
          (msg, g)
        case None =>
          var msg := "Element not found: " + text;
          assert msg[1] != INTERRUPTED[1];
          (msg, g)
  }

  const ACTION_SCROLL_FORWARD: int := 0x1000
  const ACTION_SCROLL_BACKWARD: int := 0x2000

  /** The scroll action a direction asks for: backward for "down"/"backward", forward otherwise. */
  function ScrollAction(direction: string): (action: int)
    ensures action == ACTION_SCROLL_BACKWARD <==> Lower(direction) == "down" || Lower(direction) == "backward"
    ensures action == ACTION_SCROLL_FORWARD || action == ACTION_SCROLL_BACKWARD
  {
    match Lower(direction)
    case "up" => ACTION_SCROLL_FORWARD
    case "forward" => ACTION_SCROLL_FORWARD
    case "down" => ACTION_SCROLL_BACKWARD
    case "backward" => ACTION_SCROLL_BACKWARD
    case _ => ACTION_SCROLL_FORWARD
  }

  /** The direction is matched ignoring case. */
  lemma ScrollIgnoresCase(direction: string)
    ensures ScrollAction(direction) == ScrollAction(Lower(direction))
  {
    LowerIdempotent(direction);
  }

  lemma LowerIdempotent(s: string)
    ensures Lower(Lower(s)) == Lower(s)
  {
  }

  /** scroll(direction): the action performed on the first scrollable node, and the message. */
  function Scroll(f: Flags, enabled: bool, root: Option<Node>, direction: string, succeeded: bool)
    : (r: (string, Option<int>, Flags))
    ensures r.0 == INTERRUPTED <==> !enabled && f.interrupted
    ensures r.1.Some? <==> enabled && root.Some? && FindScrollable(root.value).Some?
    ensures r.1.Some? ==>
              r.1.value == ScrollAction(direction)
              && r.0 == (if succeeded then "Scrolled " + direction else "Scroll " + direction + " failed")
    ensures !enabled && !f.interrupted ==> r.0 == NOT_ENABLED
    ensures enabled && root.None? ==> r.0 == NO_CONTENT
    ensures enabled && root.Some? && r.1.None? ==> r.0 == "No scrollable element found"
  {
    var (stop, g) := CheckInterrupted(ShowOverlay(f, enabled));
    if stop then (INTERRUPTED, None, g)
    else if !enabled then (NOT_ENABLED, None, g)
    else match root
      case None => (NO_CONTENT, None, g)
      case Some(n) =>
        match FindScrollable(n)
        case None => ("No scrollable element found", None, g)
        case Some(_) =>
          var msg := if succeeded then "Scrolled " + direction else "Scroll " + direction + " failed";
          assert msg[1] != INTERRUPTED[1];
          (msg, Some(ScrollAction(direction)), g)
  }
}

=== FILE: android_mcp.dfy ===
/**
 * android_mcp.py: a stdio JSON-RPC 2.0 server (one request object per
 * line) exposing a few device tools to the agent. Modelled are
 * `handle_request`, `call_tool`'s dispatch and argument defaults, the
 * output parsing of `list_apps`, the quote escaping and result polling of
 * `call_android_tool`, and the `main` read loop.
 *
 * Python values are the `Json` datatype; shell commands, `json.dumps`,
 * `str()` of a non-text value and the broadcast bridge are parameters.
 */
module AndroidMcp {
  import opened Wrappers
  import opened Strings
  import opened Json
  import Seqs

  const PROTOCOL_VERSION: string := "2024-11-05"
  const METHOD_NOT_FOUND: int := -32601
  const POLL_ATTEMPTS: nat := 30
  const TIMEOUT_TEXT: string := "Error: Tool execution timeout"
  const PACKAGE_PREFIX: string := "package:"

  /** What the Python side needs from outside. */
  datatype PyEnv = PyEnv(
    shell: string -> string,
    dumps: Json -> string,
    show: Json -> string,
    bridge: (string, Json) -> string,
    native: (string, Fields) -> string)

  /** A Python computation: a value, or an exception. */
  datatype Py<T> = Value(value: T) | Raised

  /** dict.get(key, default). */
  function PyGet(o: Fields, key: string, default: Json): (v: Json)
    ensures key in o ==> v == o[key]
    ensures key !in o ==> v == default
  {
    if key in o then o[key] else default
  }

  /** str(v) for a value that may or may not be text. */
  function PyStr(env: PyEnv, v: Json): (t: string)
    ensures v.JString? ==> t == v.s
  {
    if v.JString? then v.s else env.show(v)
  }

  // ---------------------------------------------------------------------
  // call_android_tool
  // ---------------------------------------------------------------------

  /** `s.replace('"', '\\"')`, one character at a time. */
  function EscapeQuotes(s: string): (r: string)
    ensures |r| >= |s|
    ensures |s| > 0 ==> |r| > 0 && r[0] == (if s[0] == '"' then '\\' else s[0])
    decreases |s|
  {
    if |s| == 0 then ""
    else if s[0] == '"' then "\\\"" + EscapeQuotes(s[1..])
    else [s[0]] + EscapeQuotes(s[1..])
  }

  /** The escaping is exactly Python's replace of every quote. */
  lemma {:induction false} EscapeIsReplace(s: string)
    ensures EscapeQuotes(s) == ReplaceAll(s, "\"", "\\\"")
    decreases |s|
  {
    if |s| > 0 {
      EscapeIsReplace(s[1..]);
      assert s[..1] == [s[0]];
    }
  }

  /** Every quote sits right after a backslash. */
  predicate QuotesEscaped(r: string) {
    forall i | 0 <= i < |r| && r[i] == '"' :: i > 0 && r[i - 1] == '\\'
  }

  /** Escaped text has no bare quote left for the shell to take as the end of the argument. */
  lemma {:induction false} EscapedQuotesFollowBackslash(s: string)
    ensures QuotesEscaped(EscapeQuotes(s))
    decreases |s|
  {
    if |s| > 0 {
      EscapedQuotesFollowBackslash(s[1..]);
      var r := EscapeQuotes(s);
      var tail := EscapeQuotes(s[1..]);
      assert QuotesEscaped(tail);
      var k := if s[0] == '"' then 2 else 1;
      assert r == r[..k] + tail;
      assert r[0] == (if s[0] == '"' then '\\' else s[0]);
      assert k == 2 ==> r[1] == '"';
      forall i | 0 <= i < |r| && r[i] == '"'
        ensures i > 0 && r[i - 1] == '\\'
      {
        if i >= k {
          var j := i - k;
          assert r[i] == tail[j];
          assert tail[j] == '"';
          assert j > 0 && tail[j - 1] == '\\';
          assert r[i - 1] == tail[j - 1];
        }
      }
    }
  }

  /** Undo the escaping: every backslash-quote pair reads as a quote. */
  function UnescapeQuotes(r: string): (s: string)
    ensures |s| <= |r|
    decreases |r|
  {
    if |r| == 0 then ""
    else if |r| >= 2 && r[0] == '\\' && r[1] == '"' then "\"" + UnescapeQuotes(r[2..])
    else [r[0]] + UnescapeQuotes(r[1..])
  }

  /** Escaping loses nothing: the shell-level text can be read back to the JSON text. */
  lemma {:induction false} UnescapeEscape(s: string)
    ensures UnescapeQuotes(EscapeQuotes(s)) == s
    decreases |s|
  {
    if |s| > 0 {
      UnescapeEscape(s[1..]);
      var tail := EscapeQuotes(s[1..]);
      if s[0] == '"' {
        assert EscapeQuotes(s)[2..] == tail;
      } else {
        assert EscapeQuotes(s) == [s[0]] + tail;
        assert EscapeQuotes(s)[1..] == tail;
        if s[0] == '\\' && |tail| > 0 {
          assert tail[0] != '"';
        }
      }
    }
  }

  /** The broadcast command line for one tool call. */
  function BroadcastCommand(tool: string, inputJson: string): (cmd: string)
    ensures StartsWith(cmd, "am broadcast -a com.anthroid.TOOL_CALL --es tool \"" + tool + "\"")
    ensures EndsWith(cmd, "\"" + EscapeQuotes(inputJson) + "\" -p com.anthroid")
  {
    var head := "am broadcast -a com.anthroid.TOOL_CALL --es tool \"" + tool + "\"";
    var tail := "\"" + EscapeQuotes(inputJson) + "\" -p com.anthroid";
    var cmd := head + " --es input " + tail;
    assert cmd[..|head|] == head;
    assert cmd[|cmd| - |tail|..] == tail;
    cmd
  }

  /**
   * The wait for the result file: `polls[k]` is what the k-th check found
   * (None: no file yet, or it could not be read). The first file read wins;
   * after 30 empty checks the call times out.
   */
  function AwaitResult(polls: seq<Option<string>>): (r: string)
    requires |polls| == POLL_ATTEMPTS
    ensures (forall k | 0 <= k < |polls| :: polls[k].None?) ==> r == TIMEOUT_TEXT
    ensures forall k | 0 <= k < |polls| :: polls[k].Some? && (forall j | 0 <= j < k :: polls[j].None?)
              ==> r == polls[k].value
  {
    match Seqs.IndexOfFirst(polls, (p: Option<string>) => p.Some?)
    case None => TIMEOUT_TEXT
    case Some(k) => polls[k].value
  }

  // ---------------------------------------------------------------------
  // list_apps
  // ---------------------------------------------------------------------

  /** The `pm` command for a filter value. */
  function ListCommand(filter: Json): (cmd: string)
    ensures filter == JString("system") ==> cmd == "pm list packages -s"
    ensures filter == JString("user") ==> cmd == "pm list packages -3"
    ensures filter != JString("system") && filter != JString("user") ==> cmd == "pm list packages"
  {
    if filter == JString("system") then "pm list packages -s"
    else if filter == JString("user") then "pm list packages -3"
    else "pm list packages"
  }

  /** A line of `pm` output naming a package. */
  predicate IsPackageLine(line: string) {
    StartsWith(line, PACKAGE_PREFIX)
  }

  /** `line.replace("package:", "")`. */
  function StripPackage(line: string): string {
    ReplaceAll(line, PACKAGE_PREFIX, "")
  }

  /** The lines of `pm` output naming a package, with every "package:" removed. */
  function PackagesOf(lines: seq<string>): (r: seq<string>)
    ensures |r| == Seqs.Count(lines, IsPackageLine)
    decreases |lines|
  {
    if |lines| == 0 then []
    else
      var rest := PackagesOf(lines[1..]);
      if IsPackageLine(lines[0]) then [StripPackage(lines[0])] + rest else rest
  }

  /**
   * The list comprehension read as filter-then-map: the i-th package is the
   * i-th package line with its prefix removed, in the output's order.
   */
  lemma {:induction false} PackagesAreFilterMap(lines: seq<string>)
    ensures PackagesOf(lines) == Seqs.Map(Seqs.Filter(lines, IsPackageLine), StripPackage)
    decreases |lines|
  {
    if |lines| > 0 {
      PackagesAreFilterMap(lines[1..]);
      Seqs.MapFilterCons(lines, IsPackageLine, StripPackage);
    }
  }

  /** A package line loses its prefix, and nothing else when the prefix does not recur. */
  lemma PackageLineStripped(line: string)
    requires StartsWith(line, PACKAGE_PREFIX) && !Contains(line[|PACKAGE_PREFIX|..], PACKAGE_PREFIX)
    ensures ReplaceAll(line, PACKAGE_PREFIX, "") == line[|PACKAGE_PREFIX|..]
  {
    ReplaceAllAbsent(line[|PACKAGE_PREFIX|..], PACKAGE_PREFIX, "");
  }

  /** Python's `xs[:n]`: a negative bound counts from the end. */
  function PySliceTo<T>(xs: seq<T>, n: int): (r: seq<T>)
    ensures |r| <= |xs| && r == xs[..|r|]
    ensures n >= 0 ==> |r| == if n < |xs| then n else |xs|
    ensures n < 0 ==> |r| == if |xs| + n > 0 then |xs| + n else 0
  {
    if n >= 0 then (if n < |xs| then xs[..n] else xs)
    else if |xs| + n > 0 then xs[..|xs| + n] else []
  }

  /**
   * list_apps(filter, limit) given the shell output: the package lines in
   * order, cut to `limit`. None keeps them all, a boolean slices as the
   * integer 1 or 0 (Python's bool is an int), and any other value raises.
   */
  function ListApps(output: string, limit: Json): (r: Py<seq<string>>)
    ensures var packages := PackagesOf(SplitOn(PyStrip(output), '\n'));
      && (limit.JInt? ==> r == Value(PySliceTo(packages, limit.n)))
      && (limit.JNull? ==> r == Value(packages))
      && (limit == JBool(true) ==> r == Value(packages[..if |packages| > 0 then 1 else 0]))
      && (limit == JBool(false) ==> r == Value([]))
    ensures !limit.JInt? && !limit.JNull? && !limit.JBool? ==> r.Raised?
    ensures r.Value? && limit.JInt? && limit.n >= 0 ==> |r.value| <= limit.n
  {
    var packages := PackagesOf(SplitOn(PyStrip(output), '\n'));
    match limit
    case JInt(n) => Value(PySliceTo(packages, n))
    case JNull => Value(packages)
    case JBool(b) => Value(PySliceTo(packages, if b then 1 else 0))
    case _ => Raised
  }

  // ---------------------------------------------------------------------
  // call_tool
  // ---------------------------------------------------------------------

  const TOOL_NAMES: seq<string> := [
    "show_notification", "open_url", "launch_app", "list_apps", "get_location",
    "query_calendar", "set_app_proxy", "stop_app_proxy", "get_proxy_status"]

  // ---------------------------------------------------------------------
  // get_tools
  // ---------------------------------------------------------------------

  /** A schema property `{"type": t}`. */
  function Typed(t: string): Json {
    JObject(map["type" := JString(t)])
  }

  /** An object schema; a `required` list is written only when non-empty. */
  function ObjectSchema(properties: Fields, required: seq<string>): (r: Json)
    ensures r.JObject? && "type" in r.fields && "properties" in r.fields
    ensures r.fields["type"] == JString("object") && r.fields["properties"] == JObject(properties)
    ensures "required" in r.fields <==> |required| > 0
  {
    var base := map["type" := JString("object"), "properties" := JObject(properties)];
    JObject(if |required| == 0 then base else base["required" := JArray(StringArray(required))])
  }

  /** One entry of get_tools(). */
  function Descriptor(name: string, description: string, schema: Json): (r: Json)
    ensures r.JObject? && "name" in r.fields && "inputSchema" in r.fields
    ensures r.fields["name"] == JString(name) && r.fields["inputSchema"] == schema
  {
    JObject(map["name" := JString(name), "description" := JString(description), "inputSchema" := schema])
  }

  function SetAppProxySchema(): Json {
    ObjectSchema(map[
      "apps" := JObject(map["type" := JString("array"), "items" := Typed("string"),
        "description" := JString("Package names of apps to route through proxy (e.g., ['com.browser.app'])")]),
      "proxy_host" := JObject(map["type" := JString("string"), "description" := JString("Proxy server address"),
        "default" := JString("localhost")]),
      "proxy_port" := JObject(map["type" := JString("integer"), "description" := JString("Proxy server port"),
        "default" := JInt(1091)]),
      "proxy_type" := JObject(map["type" := JString("string"), "enum" := JArray(StringArray(["SOCKS5", "HTTP"])),
        "description" := JString("Proxy protocol type"), "default" := JString("SOCKS5")])],
      ["apps"])
  }

  /** The description get_tools() gives a tool. */
  function Description(name: string): string {
    if name == "show_notification" then "Show a notification/toast"
    else if name == "open_url" then "Open a URL in browser"
    else if name == "launch_app" then "Launch an app"
    else if name == "list_apps" then "List installed apps"
    else if name == "get_location" then "Get device location"
    else if name == "query_calendar" then "Query calendar events"
    else if name == "set_app_proxy" then
      "Set up VPN proxy for specified apps. Routes traffic of specified apps through a proxy server."
    else if name == "stop_app_proxy" then "Stop VPN proxy service"
    else "Get current VPN proxy status (running state, target apps, proxy server)"
  }

  /** The input schema get_tools() gives a tool: an object schema in every case. */
  function InputSchema(name: string): (r: Json)
    ensures r.JObject? && "type" in r.fields && r.fields["type"] == JString("object")
  {
    if name == "show_notification" then
      ObjectSchema(map["title" := Typed("string"), "message" := Typed("string")], ["message"])
    else if name == "open_url" then ObjectSchema(map["url" := Typed("string")], ["url"])
    else if name == "launch_app" then ObjectSchema(map["package" := Typed("string")], ["package"])
    else if name == "list_apps" then
      ObjectSchema(map["filter" := JObject(map["type" := JString("string"),
                                               "enum" := JArray(StringArray(["user", "system", "all"]))]),
                       "limit" := Typed("integer")], [])
    else if name == "set_app_proxy" then SetAppProxySchema()
    else ObjectSchema(map[], [])
  }

  /** The get_tools() entry of one tool. */
  function DescriptorOf(name: string): (r: Json)
    ensures r.JObject? && "name" in r.fields && r.fields["name"] == JString(name)
  {
    Descriptor(name, Description(name), InputSchema(name))
  }

  /** get_tools(): one entry per tool, in the dispatch order. */
  function ToolList(): (r: seq<Json>)
    ensures |r| == |TOOL_NAMES|
  {
    Seqs.Map(TOOL_NAMES, DescriptorOf)
  }

  /** The arguments set_app_proxy forwards, with its defaults. */
  function ProxyArgs(args: Fields): (o: Fields)
    ensures o.Keys == {"apps", "proxy_host", "proxy_port", "proxy_type"}
    ensures "apps" !in args ==> o["apps"] == JArray([])
    ensures "proxy_host" !in args ==> o["proxy_host"] == JString("localhost")
    ensures "proxy_port" !in args ==> o["proxy_port"] == JInt(1091)
    ensures "proxy_type" !in args ==> o["proxy_type"] == JString("SOCKS5")
    ensures forall k | k in args && k in o :: o[k] == args[k]
  {
    map["apps" := PyGet(args, "apps", JArray([])),
        "proxy_host" := PyGet(args, "proxy_host", JString("localhost")),
        "proxy_port" := PyGet(args, "proxy_port", JInt(1091)),
        "proxy_type" := PyGet(args, "proxy_type", JString("SOCKS5"))]
  }

  /** The "default" a tool's schema advertises for a property, JSON null when none. */
  function DefaultOf(schema: Json, property: string): Json {
    if schema.JObject? && "properties" in schema.fields && schema.fields["properties"].JObject?
       && property in schema.fields["properties"].fields
       && schema.fields["properties"].fields[property].JObject?
       && "default" in schema.fields["properties"].fields[property].fields
    then schema.fields["properties"].fields[property].fields["default"]
    else JNull
  }

  /** The defaults set_app_proxy advertises are the ones call_tool fills in. */
  lemma AdvertisedDefaultsApplied()
    ensures DefaultOf(InputSchema("set_app_proxy"), "proxy_host") == ProxyArgs(map[])["proxy_host"]
    ensures DefaultOf(InputSchema("set_app_proxy"), "proxy_port") == ProxyArgs(map[])["proxy_port"]
    ensures DefaultOf(InputSchema("set_app_proxy"), "proxy_type") == ProxyArgs(map[])["proxy_type"]
  {
    var schema := SetAppProxySchema();
    assert InputSchema("set_app_proxy") == schema;
    var props := schema.fields["properties"].fields;
    assert props["proxy_host"].fields["default"] == JString("localhost");
    assert props["proxy_port"].fields["default"] == JInt(1091);
    assert props["proxy_type"].fields["default"] == JString("SOCKS5");
    var args: Fields := map[];
    assert "proxy_host" !in args && "proxy_port" !in args && "proxy_type" !in args;
  }

  /** The name an entry advertises (a non-entry has none). */
  function AdvertisedName(tool: Json): Json {
    if tool.JObject? && "name" in tool.fields then tool.fields["name"] else JNull
  }

  /** The advertised tools are exactly the dispatched names, in order, each with an object schema. */
  lemma ToolListNames()
    ensures Seqs.Map(ToolList(), AdvertisedName) == Seqs.Map(TOOL_NAMES, (n: string) => JString(n))
    ensures forall i | 0 <= i < |TOOL_NAMES| :: ToolList()[i].fields["inputSchema"].fields["type"] == JString("object")
  {
    var r := ToolList();
    forall i | 0 <= i < |TOOL_NAMES|
      ensures AdvertisedName(r[i]) == JString(TOOL_NAMES[i])
    {
    }
  }

  /** The tools whose code reads the arguments (and so raise on a non-object). */
  predicate ReadsArgs(name: string) {
    name in ["show_notification", "open_url", "launch_app", "list_apps", "set_app_proxy"]
  }

  /** call_tool(name, args). */
  function CallTool(env: PyEnv, name: Json, args: Json): (r: Py<string>)
    ensures !(name.JString? && name.s in TOOL_NAMES) ==> r == Value("Unknown tool: " + PyStr(env, name))
    ensures name.JString? && ReadsArgs(name.s) && !args.JObject? ==> r.Raised?
    ensures name == JString("stop_app_proxy") ==> r == Value(env.bridge("stop_app_proxy", JObject(map[])))
    ensures name == JString("set_app_proxy") && args.JObject? ==>
              r == Value(env.bridge("set_app_proxy", JObject(ProxyArgs(args.fields))))
  {
    if !(name.JString? && name.s in TOOL_NAMES) then Value("Unknown tool: " + PyStr(env, name))
    else if ReadsArgs(name.s) && !args.JObject? then Raised
    else
      match name.s
      case "set_app_proxy" => Value(env.bridge("set_app_proxy", JObject(ProxyArgs(args.fields))))
      case "stop_app_proxy" => Value(env.bridge("stop_app_proxy", JObject(map[])))
      case "get_proxy_status" => Value(env.bridge("get_proxy_status", JObject(map[])))
      case "list_apps" =>
        var listed := ListApps(env.shell(ListCommand(PyGet(args.fields, "filter", JString("user")))),
                               PyGet(args.fields, "limit", JInt(50)));
        (match listed
         case Value(packages) => Value(env.dumps(JArray(StringArray(packages))))
         case Raised => Raised)
      case other => Value(env.native(other, if args.JObject? then args.fields else map[]))
  }

  // ---------------------------------------------------------------------
  // handle_request and main
  // ---------------------------------------------------------------------

  /** What handle_request gives back: a response, None (no reply), or an exception. */
  datatype Outcome = Reply(response: Fields) | NoReply | Failed

  function Envelope(id: Json, key: string, body: Json): (o: Fields)
    ensures o.Keys == {"jsonrpc", "id", key} || key in {"jsonrpc", "id"}
  {
    map["jsonrpc" := JString("2.0"), "id" := id, key := body]
  }

  /** handle_request(request). */
  function HandleRequest(env: PyEnv, request: Json): (r: Outcome)
    ensures !request.JObject? ==> r.Failed?
    ensures request.JObject? && PyGet(request.fields, "method", JString("")) == JString("notifications/initialized")
            ==> r.NoReply?
    ensures r.Reply? ==> "jsonrpc" in r.response && "id" in r.response
                         && r.response["jsonrpc"] == JString("2.0")
                         && r.response["id"] == PyGet(request.fields, "id", JNull)
  {
    if !request.JObject? then Failed
    else
      var o := request.fields;
      var verb := PyGet(o, "method", JString(""));
      var id := PyGet(o, "id", JNull);
      var params := PyGet(o, "params", JObject(map[]));
      if verb == JString("initialize") then
        Reply(Envelope(id, "result", JObject(map[
          "protocolVersion" := JString(PROTOCOL_VERSION),
          "capabilities" := JObject(map["tools" := JObject(map[])]),
          "serverInfo" := JObject(map["name" := JString("android-tools"), "version" := JString("1.0.0")])])))
      else if verb == JString("notifications/initialized") then NoReply
      else if verb == JString("tools/list") then
        Reply(Envelope(id, "result", JObject(map["tools" := JArray(ToolList())])))
      else if verb == JString("tools/call") then
        if !params.JObject? then Failed
        else
          match CallTool(env, PyGet(params.fields, "name", JString("")), PyGet(params.fields, "arguments", JObject(map[])))
          case Raised => Failed
          case Value(text) =>
            Reply(Envelope(id, "result", JObject(map["content" := JArray([
              JObject(map["type" := JString("text"), "text" := JString(text)])])])))
      else
        Reply(Envelope(id, "error", JObject(map["code" := JInt(METHOD_NOT_FOUND),
                                              "message" := JString("Unknown method: " + PyStr(env, verb))])))
  }

  /** Any method outside the four handled ones is answered with -32601. */
  lemma UnknownMethodError(env: PyEnv, o: Fields)
    requires var m := PyGet(o, "method", JString(""));
      m !in [JString("initialize"), JString("notifications/initialized"), JString("tools/list"), JString("tools/call")]
    ensures var r := HandleRequest(env, JObject(o));
      r.Reply? && "error" in r.response && r.response["error"].JObject?
      && r.response["error"].fields["code"] == JInt(METHOD_NOT_FOUND)
  {
  }

  /** initialize reports protocol version 2024-11-05 and echoes the id. */
  lemma InitializeEchoesId(env: PyEnv, o: Fields)
    requires PyGet(o, "method", JString("")) == JString("initialize")
    ensures var r := HandleRequest(env, JObject(o));
      r.Reply? && r.response["id"] == PyGet(o, "id", JNull)
      && r.response["result"].fields["protocolVersion"] == JString(PROTOCOL_VERSION)
  {
  }

  /** Every request object other than the notification and tools/call gets a reply. */
  lemma OtherMethodsAnswered(env: PyEnv, o: Fields)
    requires PyGet(o, "method", JString("")) !in [JString("notifications/initialized"), JString("tools/call")]
    ensures HandleRequest(env, JObject(o)).Reply?
  {
  }

  /** tools/list answers get_tools() under "tools" and echoes the id. */
  lemma ToolsListAnswer(env: PyEnv, o: Fields)
    requires PyGet(o, "method", JString("")) == JString("tools/list")
    ensures var r := HandleRequest(env, JObject(o));
      r.Reply? && r.response["id"] == PyGet(o, "id", JNull)
      && r.response["result"] == JObject(map["tools" := JArray(ToolList())])
  {
  }

  /** tools/call answers the tool's text as one text content item. */
  lemma ToolsCallText(env: PyEnv, o: Fields, params: Fields)
    requires PyGet(o, "method", JString("")) == JString("tools/call")
    requires PyGet(o, "params", JObject(map[])) == JObject(params)
    requires CallTool(env, PyGet(params, "name", JString("")), PyGet(params, "arguments", JObject(map[]))).Value?
    ensures var text := CallTool(env, PyGet(params, "name", JString("")), PyGet(params, "arguments", JObject(map[]))).value;
      HandleRequest(env, JObject(o)).response["result"]
        == JObject(map["content" := JArray([JObject(map["type" := JString("text"), "text" := JString(text)])])])
  {
  }

  /** A line that json.loads reads as `null`: read_jsonrpc returns None and main stops. */
  predicate EndsInput(parse: string -> Option<Json>, line: string) {
    parse(PyStrip(line)) == Some(JNull)
  }

  /** The object a line parses to, or nothing. */
  function RequestOf(parse: string -> Option<Json>, line: string): Fields {
    match parse(PyStrip(line))
    case Some(JObject(o)) => o
    case _ => map[]
  }

  /** A line that parses to a request object whose handling writes a response. */
  predicate Answers(env: PyEnv, parse: string -> Option<Json>, line: string) {
    var p := parse(PyStrip(line));
    p.Some? && p.value.JObject? && HandleRequest(env, p.value).Reply?
  }

  /** The response handle_request gives the line's request, or nothing. */
  function ResponseTo(env: PyEnv, parse: string -> Option<Json>, line: string): Fields {
    match HandleRequest(env, JObject(RequestOf(parse, line)))
    case Reply(response) => response
    case _ => map[]
  }

  /** The id the line's request carries, None when absent. */
  function IdOf(parse: string -> Option<Json>, line: string): Json {
    PyGet(RequestOf(parse, line), "id", JNull)
  }

  /** What one input line produces on stdout: the response, when there is one. */
  function LineOutput(env: PyEnv, parse: string -> Option<Json>, line: string): (r: seq<Fields>)
    ensures |r| <= 1
  {
    match parse(PyStrip(line))
    case None => []
    case Some(request) =>
      match HandleRequest(env, request)
      case Reply(response) => [response]
      case _ => []
  }

  /** A line writes one response exactly when its request gets a reply, and that response echoes the request's id. */
  lemma LineOutputAnswers(env: PyEnv, parse: string -> Option<Json>, line: string)
    ensures var r := LineOutput(env, parse, line);
      && (|r| == 1 <==> Answers(env, parse, line))
      && (|r| == 1 ==> r[0] == ResponseTo(env, parse, line) && "id" in r[0] && r[0]["id"] == IdOf(parse, line))
  {
  }

  /**
   * Everything main() writes for the input lines, in order: it reads until
   * end of input or a `null` line, whichever comes first.
   */
  function Transcript(env: PyEnv, parse: string -> Option<Json>, lines: seq<string>): (r: seq<Fields>)
    ensures |r| <= |lines|
    decreases |lines|
  {
    if |lines| == 0 || EndsInput(parse, lines[0]) then []
    else LineOutput(env, parse, lines[0]) + Transcript(env, parse, lines[1..])
  }

  /** Nothing is written for the lines after a `null` line. */
  lemma {:induction false} NullEndsTranscript(env: PyEnv, parse: string -> Option<Json>, lines: seq<string>, k: nat)
    requires k < |lines| && EndsInput(parse, lines[k])
    ensures Transcript(env, parse, lines) == Transcript(env, parse, lines[..k])
    decreases k
  {
    var head := lines[..k];
    if k == 0 {
      assert head == [];
    } else if EndsInput(parse, lines[0]) {
      assert head[0] == lines[0];
    } else {
      NullEndsTranscript(env, parse, lines[1..], k - 1);
      assert head[0] == lines[0] && head[1..] == lines[1..][..k - 1];
      var out := LineOutput(env, parse, lines[0]);
      assert Transcript(env, parse, lines) == out + Transcript(env, parse, lines[1..]);
      assert Transcript(env, parse, head) == out + Transcript(env, parse, head[1..]);
    }
  }

  /** When every line is a request that gets a reply, the i-th response answers the i-th line, echoing its id. */
  lemma {:induction false} OneResponsePerRequest(env: PyEnv, parse: string -> Option<Json>, lines: seq<string>)
    requires forall i | 0 <= i < |lines| :: Answers(env, parse, lines[i])
    ensures var t := Transcript(env, parse, lines);
      && |t| == |lines|
      && forall i | 0 <= i < |lines| :: t[i] == ResponseTo(env, parse, lines[i])
                                         && "id" in t[i] && t[i]["id"] == IdOf(parse, lines[i])
    decreases |lines|
  {
    if |lines| > 0 {
      assert Answers(env, parse, lines[0]);
      assert !EndsInput(parse, lines[0]);
      LineOutputAnswers(env, parse, lines[0]);
      OneResponsePerRequest(env, parse, lines[1..]);
      var t := Transcript(env, parse, lines);
      var rest := Transcript(env, parse, lines[1..]);
      assert t == LineOutput(env, parse, lines[0]) + rest;
      forall i | 0 <= i < |lines|
        ensures t[i] == ResponseTo(env, parse, lines[i])
        ensures "id" in t[i] && t[i]["id"] == IdOf(parse, lines[i])
      {
        if i > 0 {
          assert t[i] == rest[i - 1] && lines[i] == lines[1..][i - 1];
        }
      }
    }
  }

  /** Whether a line is the `null` that ends the read loop. */
  function StopFn(parse: string -> Option<Json>): string -> bool {
    (line: string) => EndsInput(parse, line)
  }

  /** What one line writes. */
  function OutFn(env: PyEnv, parse: string -> Option<Json>): string -> seq<Fields> {
    (line: string) => LineOutput(env, parse, line)
  }

  /** The outputs of the lines before the first one that stops the loop. */
  function Until<T, U>(xs: seq<T>, stop: T -> bool, out: T -> seq<U>): seq<U>
    decreases |xs|
  {
    if |xs| == 0 || stop(xs[0]) then [] else out(xs[0]) + Until(xs[1..], stop, out)
  }

  /** A read loop that writes each line's output until a line stops it. */
  method ReadLoop<T, U>(xs: seq<T>, stop: T -> bool, out: T -> seq<U>) returns (written: seq<U>)
    ensures written == Until(xs, stop, out)
  {
    written := [];
    var i := 0;
    while i < |xs| && !stop(xs[i])
      invariant 0 <= i <= |xs|
      invariant Until(xs, stop, out) == written + Until(xs[i..], stop, out)
      decreases |xs| - i
    {
      assert xs[i..][0] == xs[i] && xs[i..][1..] == xs[i + 1..];
      written := written + out(xs[i]);
      i := i + 1;
    }
    if i == |xs| {
      assert xs[i..] == [];
    }
  }

  /** The transcript is the generic loop's output. */
  lemma {:induction false} TranscriptIsUntil(env: PyEnv, parse: string -> Option<Json>, lines: seq<string>)
    ensures Transcript(env, parse, lines) == Until(lines, StopFn(parse), OutFn(env, parse))
    decreases |lines|
  {
    if |lines| > 0 {
      TranscriptIsUntil(env, parse, lines[1..]);
      UntilStep(env, parse, lines);
    }
  }

  /** The generic loop's first step on the server's lines. */
  lemma UntilStep(env: PyEnv, parse: string -> Option<Json>, lines: seq<string>)
    requires |lines| > 0
    ensures Until(lines, StopFn(parse), OutFn(env, parse))
            == if EndsInput(parse, lines[0]) then []
               else LineOutput(env, parse, lines[0]) + Until(lines[1..], StopFn(parse), OutFn(env, parse))
  {
    assert StopFn(parse)(lines[0]) == EndsInput(parse, lines[0]);
    assert OutFn(env, parse)(lines[0]) == LineOutput(env, parse, lines[0]);
  }

  /**
   * main(): reads lines until end of input (an empty read) or a `null`
   * line; a line that does not parse, or whose handling raises, is logged
   * and skipped. `lines` are the lines before end of input; `parse` is
   * json.loads, None where it raises.
   */
  method ServeLines(env: PyEnv, parse: string -> Option<Json>, lines: seq<string>) returns (written: seq<Fields>)
    ensures written == Transcript(env, parse, lines)
    ensures |written| <= |lines|
    ensures forall k | 0 <= k < |lines| && EndsInput(parse, lines[k]) :: written == Transcript(env, parse, lines[..k])
    ensures (forall i | 0 <= i < |lines| :: Answers(env, parse, lines[i])) ==>
              |written| == |lines| &&
              forall i | 0 <= i < |lines| :: "id" in written[i] && written[i]["id"] == IdOf(parse, lines[i])
  {
    written := ReadLoop(lines, StopFn(parse), OutFn(env, parse));
    TranscriptIsUntil(env, parse, lines);
    TranscriptFacts(env, parse, lines);
  }

  /** What a caller can rely on about the transcript: it stops at `null` and answers each request in turn. */
  lemma TranscriptFacts(env: PyEnv, parse: string -> Option<Json>, lines: seq<string>)
    ensures var t := Transcript(env, parse, lines);
      && (forall k | 0 <= k < |lines| && EndsInput(parse, lines[k]) :: t == Transcript(env, parse, lines[..k]))
      && ((forall i | 0 <= i < |lines| :: Answers(env, parse, lines[i])) ==>
            |t| == |lines| &&
            forall i | 0 <= i < |lines| :: "id" in t[i] && t[i]["id"] == IdOf(parse, lines[i]))
  {
    forall k | 0 <= k < |lines| && EndsInput(parse, lines[k])
      ensures Transcript(env, parse, lines) == Transcript(env, parse, lines[..k])
    {
      NullEndsTranscript(env, parse, lines, k);
    }
    if forall i | 0 <= i < |lines| :: Answers(env, parse, lines[i]) {
      OneResponsePerRequest(env, parse, lines);
    }
  }

  /** A notification line produces no output. */
  lemma NotificationSilent(env: PyEnv, parse: string -> Option<Json>, line: string, o: Fields)
    requires parse(PyStrip(line)) == Some(JObject(o))
    requires PyGet(o, "method", JString("")) == JString("notifications/initialized")
    ensures LineOutput(env, parse, line) == []
  {
  }
}

=== FILE: android_tools.dfy ===
/**
 * AndroidTools: the agent's device tools. Modelled here are the dispatch
 * of `executeTool` (name lookup, the unknown-tool reply, exceptions turned
 * into "Error: ..." text), `isAndroidTool`, and the two proxy tools:
 * `setAppProxy`, which merges the requested proxy into the stored
 * configuration and starts the matching VPN service, and `stopAppProxy`.
 * The individual device tools are parameters of the dispatch.
 */
module AndroidTools {
  import opened Wrappers
  import opened Strings
  import opened Json
  import opened ProxyModels
  import Seqs
  import PCM = ProxyConfigManager
  import Http = Tun2HttpVpnService
  import Socks = ProxyVpnService

  /** The names `executeTool` dispatches, in the order of its `when`. */
  const DISPATCH_NAMES: seq<string> := [
    "open_url", "launch_app", "send_intent", "list_apps", "get_app_info",
    "show_notification", "geocode", "reverse_geocode", "get_location",
    "query_calendar", "add_calendar_event", "query_media",
    "read_clipboard", "write_clipboard",
    "set_app_proxy", "stop_app_proxy", "get_proxy_status",
    "get_screen_text", "get_screen_elements", "find_element",
    "click_element", "click_position", "input_text", "swipe",
    "long_press", "press_back", "press_home", "open_recents",
    "open_notifications", "scroll", "get_accessibility_status",
    "wait_for_element", "focus_and_input", "get_current_app"]

  /** The list `isAndroidTool` checks against. */
  const ANDROID_TOOL_NAMES: seq<string> := [
    "open_url", "launch_app", "send_intent", "list_apps", "get_app_info",
    "show_notification", "geocode", "reverse_geocode", "get_location",
    "query_calendar", "add_calendar_event", "query_media",
    "read_clipboard", "write_clipboard",
    "set_app_proxy", "stop_app_proxy", "get_proxy_status",
    "get_screen_text", "get_screen_elements", "find_element",
    "click_element", "click_position", "input_text", "swipe",
    "long_press", "press_back", "press_home", "open_recents",
    "open_notifications", "scroll", "get_accessibility_status",
    "wait_for_element", "focus_and_input", "get_current_app"]

  /** What running one tool does: return text, or throw with a (possibly null) message. */
  datatype ToolRun = Returned(text: string) | Threw(message: Option<string>)

  /** isAndroidTool(name). */
  predicate IsAndroidTool(name: string) {
    Lower(name) in ANDROID_TOOL_NAMES
  }

  /**
   * executeTool(name, input): dispatch on the lower-cased name; `run` is
   * what the selected tool does with the input.
   */
  function ExecuteTool(name: string, input: string, run: (string, string) -> ToolRun): (r: string)
    ensures Lower(name) !in DISPATCH_NAMES ==> r == "Unknown tool: " + name
    ensures Lower(name) in DISPATCH_NAMES && run(Lower(name), input).Returned?
            ==> r == run(Lower(name), input).text
    ensures Lower(name) in DISPATCH_NAMES && run(Lower(name), input).Threw?
            ==> r == "Error: " + run(Lower(name), input).message.GetOr("null")
  {
    var key := Lower(name);
    if key in DISPATCH_NAMES then
      match run(key, input)
      case Returned(t) => t
      case Threw(m) => "Error: " + m.GetOr("null")
    else "Unknown tool: " + name
  }

  /** isAndroidTool holds exactly for the names executeTool dispatches, in any case. */
  lemma AndroidToolIffDispatched(name: string)
    ensures IsAndroidTool(name) <==> Lower(name) in DISPATCH_NAMES
    ensures !IsAndroidTool(name) ==> forall input, run :: ExecuteTool(name, input, run) == "Unknown tool: " + name
  {
    assert ANDROID_TOOL_NAMES == DISPATCH_NAMES;
  }

  /** There are 34 tools. */
  lemma ToolCount()
    ensures |DISPATCH_NAMES| == 34 && |ANDROID_TOOL_NAMES| == 34
  {
  }

  /** An upper-case spelling of a dispatched ASCII tool name reaches the same tool. */
  lemma DispatchIgnoresCase(name: string, input: string, run: (string, string) -> ToolRun)
    requires forall i | 0 <= i < |name| :: 'a' <= name[i] <= 'z' || 'A' <= name[i] <= 'Z' || name[i] == '_'
    requires Lower(name) in DISPATCH_NAMES
    ensures ExecuteTool(Upper(name), input, run) == ExecuteTool(name, input, run)
  {
    var key := Lower(name);
    forall i | 0 <= i < |name|
      ensures Lower(Upper(name))[i] == key[i]
    {
      assert Upper(name)[i] == UpperChar(name[i]);
    }
    assert Lower(Upper(name)) == key;
    assert ExecuteTool(Upper(name), input, run) == ExecuteTool(name, input, run) by {
      assert key in DISPATCH_NAMES;
    }
  }

  // ---------------------------------------------------------------------
  // setAppProxy
  // ---------------------------------------------------------------------

  const NO_APPS_ERROR: string :=
    "Error: No apps specified and global app list is empty. Configure apps in Settings > VPN Proxy > Manage Proxy Servers."
  const PERMISSION_ERROR: string :=
    "Error: VPN permission not granted. User needs to enable VPN in Settings > VPN Proxy first."

  /** Where the target apps come from. */
  datatype AppsChoice = Apps(list: seq<string>) | NoApps | BadEntry

  /** A non-empty `apps` array wins; otherwise the global list; BadEntry when an entry is not text. */
  function ChooseApps(input: Fields, config: ProxyConfig): (r: AppsChoice)
    ensures OptArray(input, "apps").Some? && |OptArray(input, "apps").value| > 0 ==>
              r != NoApps && (r.Apps? ==> |r.list| == |OptArray(input, "apps").value|)
    ensures (OptArray(input, "apps").None? || |OptArray(input, "apps").value| == 0) ==>
              r == (if |config.globalAppList| == 0 then NoApps else Apps(config.globalAppList))
    ensures r.Apps? ==> |r.list| > 0
    ensures OptArray(input, "apps").Some? && |OptArray(input, "apps").value| > 0 ==>
              var arr := OptArray(input, "apps").value;
              && (r.Apps? ==> forall i | 0 <= i < |arr| :: ScalarText(arr[i]) == Some(r.list[i]))
              && (r.BadEntry? <==> exists i | 0 <= i < |arr| :: ScalarText(arr[i]).None?)
  {
    var arr := OptArray(input, "apps");
    if arr.Some? && |arr.value| > 0 then
      match StringsOf(arr.value)
      case Some(list) => Apps(list)
      case None => BadEntry
    else if |config.globalAppList| == 0 then NoApps
    else Apps(config.globalAppList)
  }

  /** How the requested proxy is merged into the server list. */
  datatype Merge = AddNew(server: ProxyServer) | Replace(server: ProxyServer) | Keep(server: ProxyServer)

  predicate SameEndpoint(s: ProxyServer, host: string, port: int, t: ProxyType) {
    s.host == host && s.port == port && s.ptype == t
  }

  /**
   * The first server on the same (host, port, type) is reused, with its
   * credentials replaced when a different non-empty username is given; with
   * none, a new enabled server named "host:port" is added.
   */
  function MergeServer(config: ProxyConfig, host: string, port: int, t: ProxyType,
                       user: string, pass: string, newId: string): (r: Merge)
    ensures r.AddNew? <==> forall i | 0 <= i < |config.servers| :: !SameEndpoint(config.servers[i], host, port, t)
    ensures r.AddNew? ==> r.server == ProxyServer(newId, host + ":" + IntToString(port), host, port, t, user, pass, true)
    ensures !r.AddNew? ==> exists i | 0 <= i < |config.servers| ::
              (forall j | 0 <= j < i :: !SameEndpoint(config.servers[j], host, port, t))
              && SameEndpoint(config.servers[i], host, port, t)
              && (r.Keep? ==> r.server == config.servers[i])
              && (r.Replace? ==> r.server == config.servers[i].(username := user, password := pass))
    ensures r.Replace? <==> !r.AddNew? && user != "" && r.server.username == user
                            && exists i | 0 <= i < |config.servers| :: config.servers[i].id == r.server.id
                                && SameEndpoint(config.servers[i], host, port, t)
                                && config.servers[i].username != user
                                && forall j | 0 <= j < i :: !SameEndpoint(config.servers[j], host, port, t)
  {
    match Seqs.IndexOfFirst(config.servers, (s: ProxyServer) => SameEndpoint(s, host, port, t))
    case None => AddNew(ProxyServer(newId, host + ":" + IntToString(port), host, port, t, user, pass, true))
    case Some(i) =>
      var e := config.servers[i];
      if user != "" && e.username != user then Replace(e.(username := user, password := pass))
      else Keep(e)
  }

  function ApplyMerge(c: ProxyConfig, mg: Merge): (r: ProxyConfig)
    ensures mg.Keep? ==> r == c
  {
    match mg
    case AddNew(s) => PCM.AddServer(c, s)
    case Replace(s) => PCM.UpdateServer(c, s)
    case Keep(_) => c
  }

  /** The service start setAppProxy requests. */
  datatype StartRequest = StartHttp(http: Http.Intent) | StartSocks(socks: Socks.Intent)

  datatype SetProxyResult = SetProxyResult(message: string, manager: PCM.Manager, start: Option<StartRequest>)

  /** The requested proxy settings, with their defaults. */
  datatype Request = Request(host: string, port: int, typeText: string, user: string, pass: string)

  function ReadRequest(input: Fields): (q: Request)
    ensures "proxy_host" !in input ==> q.host == Http.DEFAULT_HOST
    ensures "proxy_port" !in input ==> q.port == Http.DEFAULT_PORT
    ensures "proxy_port" in input && input["proxy_port"].JInt? ==> q.port == input["proxy_port"].n
    ensures ("proxy_port" in input && input["proxy_port"].JString? && IntFromText(input["proxy_port"].s).Some?)
              ==> q.port == IntFromText(input["proxy_port"].s).value
    ensures "proxy_type" !in input ==> q.typeText == "SOCKS5"
    ensures q.typeText == Upper(q.typeText)
    ensures "proxy_user" !in input ==> q.user == ""
    ensures "proxy_pass" !in input ==> q.pass == ""
    ensures "proxy_host" in input && input["proxy_host"].JString? ==> q.host == input["proxy_host"].s
    ensures "proxy_user" in input && input["proxy_user"].JString? ==> q.user == input["proxy_user"].s
    ensures "proxy_pass" in input && input["proxy_pass"].JString? ==> q.pass == input["proxy_pass"].s
    ensures q.typeText == Upper(OptString(input, "proxy_type", "SOCKS5"))
  {
    UpperIdempotent(OptString(input, "proxy_type", "SOCKS5"));
    UpperFixed("SOCKS5");
    Request(OptString(input, "proxy_host", "localhost"), OptInt(input, "proxy_port", 1091),
            Upper(OptString(input, "proxy_type", "SOCKS5")),
            OptString(input, "proxy_user", ""), OptString(input, "proxy_pass", ""))
  }

  function ServerType(q: Request): (t: ProxyType)
    ensures t == HTTP <==> q.typeText == "HTTP"
  {
    if q.typeText == "HTTP" then HTTP else SOCKS5
  }

  /** The intent for the service that matches the proxy type; only HTTP carries credentials. */
  function StartFor(q: Request, apps: seq<string>): (r: StartRequest)
    ensures r.StartHttp? <==> q.typeText == "HTTP"
    ensures r.StartHttp? ==> r.http.user == Some(q.user) && r.http.pass == Some(q.pass)
                             && r.http.action == Some(Http.ACTION_START) && r.http.apps == Some(apps)
    ensures r.StartSocks? ==> r.socks.action == Some(Socks.ACTION_START) && r.socks.apps == Some(apps)
    ensures r.StartHttp? ==> r.http.host == Some(q.host) && r.http.port == Some(q.port)
    ensures r.StartSocks? ==> r.socks.host == Some(q.host) && r.socks.port == Some(q.port)
  {
    if q.typeText == "HTTP" then
      StartHttp(Http.Intent(Some(Http.ACTION_START), Some(q.host), Some(q.port), Some(q.user), Some(q.pass), Some(apps)))
    else StartSocks(Socks.Intent(Some(Socks.ACTION_START), Some(q.host), Some(q.port), Some(apps)))
  }

  /**
   * The success reply: the apps joined by ", ", the upper-cased type, then
   * "host:port" and " (with auth)" when a username was given.
   */
  function StartedMessage(q: Request, apps: seq<string>): (msg: string)
    ensures StartsWith(msg, "VPN proxy started: " + Join(apps, ", ") + " -> " + q.typeText + " ")
    ensures msg[|"VPN proxy started: " + Join(apps, ", ") + " -> " + q.typeText + " "|..]
            == q.host + ":" + IntToString(q.port) + (if q.user != "" then " (with auth)" else "")
  {
    var head := "VPN proxy started: " + Join(apps, ", ") + " -> " + q.typeText + " ";
    var tail := q.host + ":" + IntToString(q.port) + (if q.user != "" then " (with auth)" else "");
    assert (head + tail)[..|head|] == head && (head + tail)[|head|..] == tail;
    head + tail
  }

  /**
   * setAppProxy(input). `prepared` says whether VpnService.prepare returned
   * null (permission already granted), `newId` is the generated server id and
   * `writeOk` whether the configuration file writes succeed. `startError` is
   * None when startService returns and Some(message) when it throws; the
   * exception then reaches executeTool's catch after the configuration has
   * been saved. None: the tool throws before anything is saved (an `apps`
   * entry that is not text).
   */
  function SetAppProxy(input: Fields, m: PCM.Manager, prepared: bool, newId: string, writeOk: bool,
                       startError: Option<Option<string>>)
    : (r: Option<SetProxyResult>)
    ensures r.None? <==> ChooseApps(input, PCM.LoadConfig(m).0).BadEntry?
    ensures r.Some? && r.value.start.Some? <==> prepared && ChooseApps(input, PCM.LoadConfig(m).0).Apps?
    ensures r.Some? && r.value.start.Some? && startError.None? ==>
              r.value.message == StartedMessage(ReadRequest(input), ChooseApps(input, PCM.LoadConfig(m).0).list)
    ensures r.Some? && r.value.start.Some? && startError.Some? ==>
              r.value.message == "Error: " + startError.value.GetOr("null")
  {
    var loaded := PCM.LoadConfig(m);
    var config := loaded.0;
    match ChooseApps(input, config)
    case BadEntry => None
    case NoApps => Some(SetProxyResult(NO_APPS_ERROR, loaded.1, None))
    case Apps(apps) =>
      var q := ReadRequest(input);
      if !prepared then Some(SetProxyResult(PERMISSION_ERROR, loaded.1, None))
      else
        var mg := MergeServer(config, q.host, q.port, ServerType(q), q.user, q.pass, newId);
        var m2 := if mg.Keep? then loaded.1 else PCM.Edit(loaded.1, c => ApplyMerge(c, mg), writeOk).1;
        var m3 := PCM.Edit(m2, c => PCM.SetActiveServer(c, Some(mg.server.id)), writeOk).1;
        var message := match startError
          case None => StartedMessage(q, apps)
          case Some(e) => "Error: " + e.GetOr("null");
        Some(SetProxyResult(message, m3, Some(StartFor(q, apps))))
  }

  /** No apps anywhere, or no VPN permission: an error, no service start, and the file untouched. */
  lemma SetAppProxyRefusals(input: Fields, m: PCM.Manager, prepared: bool, newId: string, writeOk: bool,
                            startError: Option<Option<string>>)
    ensures var r := SetAppProxy(input, m, prepared, newId, writeOk, startError);
      r.Some? && r.value.start.None? ==>
        r.value.manager.file == m.file
        && (r.value.message == NO_APPS_ERROR || r.value.message == PERMISSION_ERROR)
    ensures var r := SetAppProxy(input, m, prepared, newId, writeOk, startError);
      ChooseApps(input, PCM.LoadConfig(m).0) == NoApps ==> r == Some(SetProxyResult(NO_APPS_ERROR, PCM.LoadConfig(m).1, None))
    ensures var r := SetAppProxy(input, m, prepared, newId, writeOk, startError);
      !prepared && ChooseApps(input, PCM.LoadConfig(m).0).Apps? ==>
        r == Some(SetProxyResult(PERMISSION_ERROR, PCM.LoadConfig(m).1, None))
  {
  }

  /**
   * A successful setAppProxy with working writes stores the merged server
   * list with the chosen server active, and asks for the service matching
   * the proxy type.
   */
  lemma SetAppProxyStores(input: Fields, m: PCM.Manager, newId: string)
    requires ChooseApps(input, PCM.LoadConfig(m).0).Apps?
    ensures var r := SetAppProxy(input, m, true, newId, true, None);
      var config := PCM.LoadConfig(m).0;
      var q := ReadRequest(input);
      var mg := MergeServer(config, q.host, q.port, ServerType(q), q.user, q.pass, newId);
      r.Some? && r.value.start == Some(StartFor(q, ChooseApps(input, config).list))
      && r.value.manager.cache == Some(PCM.SetActiveServer(ApplyMerge(config, mg), Some(mg.server.id)))
      && r.value.manager.cache.value.activeServerId == Some(mg.server.id)
      && r.value.manager.file == PCM.Stored(false, Some(ConfigToJson(r.value.manager.cache.value)))
  {
    var loaded := PCM.LoadConfig(m);
    var config := loaded.0;
    var q := ReadRequest(input);
    var mg := MergeServer(config, q.host, q.port, ServerType(q), q.user, q.pass, newId);
    var m2 := if mg.Keep? then loaded.1 else PCM.Edit(loaded.1, c => ApplyMerge(c, mg), true).1;
    assert m2.cache == Some(ApplyMerge(config, mg));
    assert PCM.LoadConfig(m2).0 == ApplyMerge(config, mg);
  }

  /**
   * A service start that throws leaves the saved configuration exactly as a
   * successful one does; only the reply changes, to executeTool's error text.
   */
  lemma StartFailureKeepsSave(input: Fields, m: PCM.Manager, newId: string, writeOk: bool, e: Option<string>)
    requires ChooseApps(input, PCM.LoadConfig(m).0).Apps?
    ensures var ok := SetAppProxy(input, m, true, newId, writeOk, None);
      var failed := SetAppProxy(input, m, true, newId, writeOk, Some(e));
      ok.Some? && failed.Some?
      && failed.value.manager == ok.value.manager && failed.value.start == ok.value.start
      && failed.value.message == "Error: " + e.GetOr("null")
      && ok.value.message == StartedMessage(ReadRequest(input), ChooseApps(input, PCM.LoadConfig(m).0).list)
  {
    var loaded := PCM.LoadConfig(m);
    var q := ReadRequest(input);
    var mg := MergeServer(loaded.0, q.host, q.port, ServerType(q), q.user, q.pass, newId);
    var m2 := if mg.Keep? then loaded.1 else PCM.Edit(loaded.1, c => ApplyMerge(c, mg), writeOk).1;
    var m3 := PCM.Edit(m2, c => PCM.SetActiveServer(c, Some(mg.server.id)), writeOk).1;
    var apps := ChooseApps(input, loaded.0).list;
    assert SetAppProxy(input, m, true, newId, writeOk, None) == Some(SetProxyResult(StartedMessage(q, apps), m3, Some(StartFor(q, apps))));
    assert SetAppProxy(input, m, true, newId, writeOk, Some(e)) == Some(SetProxyResult("Error: " + e.GetOr("null"), m3, Some(StartFor(q, apps))));
  }

  /** A new endpoint is appended as a server named "host:port" with the requested credentials. */
  lemma NewEndpointAppended(config: ProxyConfig, q: Request, newId: string)
    requires forall i | 0 <= i < |config.servers| :: !SameEndpoint(config.servers[i], q.host, q.port, ServerType(q))
    ensures var mg := MergeServer(config, q.host, q.port, ServerType(q), q.user, q.pass, newId);
      ApplyMerge(config, mg).servers == config.servers
        + [ProxyServer(newId, q.host + ":" + IntToString(q.port), q.host, q.port, ServerType(q), q.user, q.pass, true)]
  {
  }

  /** The reply carries the " (with auth)" tag exactly when a username was given. */
  lemma StartedMessageAuthIff(q: Request, apps: seq<string>)
    ensures EndsWith(StartedMessage(q, apps), " (with auth)") <==> q.user != ""
  {
    var msg := StartedMessage(q, apps);
    if q.user == "" {
      var tail := IntToString(q.port);
      assert msg[|msg| - 1] == tail[|tail| - 1];
      if |msg| >= 12 {
        assert msg[|msg| - 12..][11] == msg[|msg| - 1];
      }
    }
  }

  // ---------------------------------------------------------------------
  // stopAppProxy
  // ---------------------------------------------------------------------

  datatype StopRequest = StopSocks | StopHttp

  /**
   * stopAppProxy(): the SOCKS5 service is asked first; at most one service
   * is sent a STOP intent per call.
   */
  function StopAppProxy(socks: Socks.Service, http: Http.Service): (r: (string, Option<StopRequest>, Socks.Service))
    ensures Socks.IsRunning(socks).0 ==> r.0 == "SOCKS5 VPN proxy stopped" && r.1 == Some(StopSocks)
    ensures !Socks.IsRunning(socks).0 && Http.IsRunning(http) ==> r.0 == "HTTP VPN proxy stopped" && r.1 == Some(StopHttp)
    ensures !Socks.IsRunning(socks).0 && !Http.IsRunning(http) ==> r.0 == "VPN proxy is not running" && r.1.None?
    ensures r.2 == Socks.IsRunning(socks).1
  {
    var q := Socks.IsRunning(socks);
    if q.0 then ("SOCKS5 VPN proxy stopped", Some(StopSocks), q.1)
    else if Http.IsRunning(http) then ("HTTP VPN proxy stopped", Some(StopHttp), q.1)
    else ("VPN proxy is not running", None, q.1)
  }

  /** getProxyStatus(), before pretty-printing. */
  function ProxyStatus(socks: Socks.Service, http: Http.Service): (r: Fields)
    ensures "running" in r && r["running"].JBool?
    ensures r["running"] == JBool(Socks.IsRunning(socks).0 || Http.IsRunning(http))
    ensures Socks.IsRunning(socks).0 ==> "type" in r && r["type"] == JString("SOCKS5")
    ensures !Socks.IsRunning(socks).0 && Http.IsRunning(http) ==> "type" in r && r["type"] == JString("HTTP")
    ensures !r["running"].b ==> "type" !in r
  {
    var q := Socks.IsRunning(socks);
    if q.0 then
      map["running" := JBool(true), "type" := JString("SOCKS5"),
          "info" := JString(Socks.ProxyInfo(q.1).0), "target_apps" := JArray(StringArray(q.1.currentApps))]
    else if Http.IsRunning(http) then
      map["running" := JBool(true), "type" := JString("HTTP"),
          "info" := JString(Http.ProxyInfo(http)), "target_apps" := JArray(StringArray(Http.TargetApps(http)))]
    else map["running" := JBool(false), "info" := JString("VPN proxy not running")]
  }
}

=== FILE: app_selector_adapter.dfy ===
/**
 * AppSelectorAdapter: the selection and search logic behind the list of
 * installed apps the user may allow. The adapter keeps every app, the apps
 * the current search shows, and the lower-cased search text; every change
 * re-applies the search. Views, icons and the PackageManager are left out;
 * the selection callback becomes the list the change reports.
 */
module AppSelectorAdapter {
  import opened Wrappers
  import opened Strings
  import Seqs

  /** AppInfo, without its icon. */
  datatype App = App(packageName: string, appName: string, isSelected: bool)

  datatype Adapter = Adapter(allApps: seq<App>, filteredApps: seq<App>, searchQuery: string)

  /** The result of an action: the adapter, and what onSelectionChanged received, if it was called. */
  datatype Outcome = Outcome(adapter: Adapter, notified: Option<seq<string>>)

  function PackageName(a: App): string {
    a.packageName
  }

  function IsSelected(a: App): bool {
    a.isSelected
  }

  /** Whether an app matches an already lower-cased, non-empty query. */
  function Matches(query: string): App -> bool {
    (a: App) => Contains(Lower(a.appName), query) || Contains(Lower(a.packageName), query)
  }

  /** applyFilter(): all apps for an empty query, otherwise those whose name or package contains it. */
  function ApplyFilter(allApps: seq<App>, query: string): (r: seq<App>)
    ensures query == "" ==> r == allApps
    ensures query != "" ==> forall a :: a in r <==> a in allApps && Matches(query)(a)
    ensures Seqs.IsSubsequence(r, allApps)
    ensures query != "" ==> |r| == Seqs.Count(allApps, Matches(query))
  {
    if query == "" then
      Seqs.SubsequenceRefl(allApps);
      allApps
    else
      Seqs.FilterIsSubsequence(allApps, Matches(query));
      Seqs.CountIsFilterLength(allApps, Matches(query));
      Seqs.Filter(allApps, Matches(query))
  }

  /** The shown list is the search applied to the full list. */
  predicate Wf(a: Adapter) {
    a.filteredApps == ApplyFilter(a.allApps, a.searchQuery)
  }

  /** The shown apps always appear, in the same order, in the full list. */
  lemma ShownIsSubsequence(a: Adapter)
    requires Wf(a)
    ensures Seqs.IsSubsequence(a.filteredApps, a.allApps)
  {
  }

  /** Replace the full list, keeping the search. */
  function WithApps(a: Adapter, apps: seq<App>): (r: Adapter)
    ensures Wf(r) && r.allApps == apps && r.searchQuery == a.searchQuery
  {
    Adapter(apps, ApplyFilter(apps, a.searchQuery), a.searchQuery)
  }

  /** setApps(apps). */
  function SetApps(a: Adapter, apps: seq<App>): (r: Adapter)
    ensures Wf(r) && r.allApps == apps && r.searchQuery == a.searchQuery
  {
    WithApps(a, apps)
  }

  /** setSelectedPackages(packages): exactly the listed packages become selected. */
  function SetSelectedPackages(a: Adapter, packages: seq<string>): (r: Adapter)
    ensures Wf(r) && r.searchQuery == a.searchQuery && |r.allApps| == |a.allApps|
    ensures forall i | 0 <= i < |r.allApps| ::
              r.allApps[i] == a.allApps[i].(isSelected := a.allApps[i].packageName in packages)
  {
    var selected := set p | p in packages;
    WithApps(a, Seqs.Map(a.allApps, (app: App) => app.(isSelected := app.packageName in selected)))
  }

  /** filter(query): the search text is kept lower-cased. */
  function Filter(a: Adapter, query: string): (r: Adapter)
    ensures Wf(r) && r.allApps == a.allApps && r.searchQuery == Lower(query)
    ensures query == "" ==> r.filteredApps == a.allApps
    ensures query != "" ==> forall app :: app in r.filteredApps <==>
              app in a.allApps && (Contains(Lower(app.appName), Lower(query)) || Contains(Lower(app.packageName), Lower(query)))
    ensures query != "" ==> Seqs.IsSubsequence(r.filteredApps, a.allApps)
                            && |r.filteredApps| == Seqs.Count(a.allApps, Matches(Lower(query)))
  {
    var q := Lower(query);
    Adapter(a.allApps, ApplyFilter(a.allApps, q), q)
  }

  /** A search matches an app exactly when its name or package contains the query, ignoring case. */
  lemma SearchIgnoresCase(a: Adapter, query: string, app: App)
    requires query != "" && app in a.allApps
    ensures app in Filter(a, query).filteredApps <==>
              ContainsIgnoreCase(app.appName, query) || ContainsIgnoreCase(app.packageName, query)
  {
  }

  /** getSelectedPackages(): the selected packages, in list order. */
  function GetSelectedPackages(a: Adapter): (r: seq<string>)
    ensures forall p :: p in r <==> exists i | 0 <= i < |a.allApps| :: a.allApps[i].isSelected && a.allApps[i].packageName == p
    ensures |r| == Seqs.Count(a.allApps, IsSelected)
  {
    Seqs.CountIsFilterLength(a.allApps, IsSelected);
    var chosen := Seqs.Filter(a.allApps, IsSelected);
    var r := Seqs.Map(chosen, PackageName);
    forall p | p in r
      ensures exists i | 0 <= i < |a.allApps| :: a.allApps[i].isSelected && a.allApps[i].packageName == p
    {
      var k :| 0 <= k < |r| && r[k] == p;
      assert chosen[k] in a.allApps;
    }
    forall p | exists i | 0 <= i < |a.allApps| :: a.allApps[i].isSelected && a.allApps[i].packageName == p
      ensures p in r
    {
      var i :| 0 <= i < |a.allApps| && a.allApps[i].isSelected && a.allApps[i].packageName == p;
      var app := a.allApps[i];
      assert app in chosen;
      var k :| 0 <= k < |chosen| && chosen[k] == app;
      assert r[k] == p;
    }
    r
  }

  /**
   * getSelectedPackages works app by app: a single app contributes its
   * package exactly when it is selected, and a list split in two gives the
   * packages of the first part followed by those of the second.
   */
  lemma SelectedPackagesPerApp(a: Adapter, xs: seq<App>, ys: seq<App>, app: App)
    ensures GetSelectedPackages(a.(allApps := [app])) == if app.isSelected then [app.packageName] else []
    ensures GetSelectedPackages(a.(allApps := xs + ys))
            == GetSelectedPackages(a.(allApps := xs)) + GetSelectedPackages(a.(allApps := ys))
  {
    assert Seqs.Filter([app], IsSelected) == if app.isSelected then [app] else [];
    Seqs.FilterConcat(xs, ys, IsSelected);
    Seqs.MapConcat(Seqs.Filter(xs, IsSelected), Seqs.Filter(ys, IsSelected), PackageName);
  }

  /** getSelectedCount(). */
  function GetSelectedCount(a: Adapter): (n: nat)
    ensures n == 0 <==> forall i | 0 <= i < |a.allApps| :: !a.allApps[i].isSelected
  {
    Seqs.Count(a.allApps, IsSelected)
  }

  /** The count agrees with the list of selected packages. */
  lemma CountIsSelectedLength(a: Adapter)
    ensures GetSelectedCount(a) == |GetSelectedPackages(a)|
  {
    Seqs.CountIsFilterLength(a.allApps, IsSelected);
  }

  /** After setSelectedPackages(p), the selected packages are the known ones listed in p. */
  lemma SetThenGet(a: Adapter, packages: seq<string>)
    ensures forall p :: p in GetSelectedPackages(SetSelectedPackages(a, packages)) <==>
              p in packages && p in Seqs.Map(a.allApps, PackageName)
  {
    var r := SetSelectedPackages(a, packages);
    SelectionFollowsPackages(a.allApps, r, packages);
  }

  /** The selection of a list re-flagged by `packages` is the listed packages that occur in it. */
  lemma SelectionFollowsPackages(apps: seq<App>, r: Adapter, packages: seq<string>)
    requires |r.allApps| == |apps|
    requires forall i | 0 <= i < |apps| :: r.allApps[i] == apps[i].(isSelected := apps[i].packageName in packages)
    ensures forall p :: p in GetSelectedPackages(r) <==> p in packages && p in Seqs.Map(apps, PackageName)
  {
    forall p
      ensures p in GetSelectedPackages(r) <==> p in packages && p in Seqs.Map(apps, PackageName)
    {
      if p in packages && p in Seqs.Map(apps, PackageName) {
        var i :| 0 <= i < |apps| && Seqs.Map(apps, PackageName)[i] == p;
        assert r.allApps[i].isSelected && r.allApps[i].packageName == p;
      }
      if p in GetSelectedPackages(r) {
        var i :| 0 <= i < |r.allApps| && r.allApps[i].isSelected && r.allApps[i].packageName == p;
        assert Seqs.Map(apps, PackageName)[i] == p;
      }
    }
  }

  /** Set every flag to `value`, leaving the apps themselves as they were. */
  function SetAllFlags(a: Adapter, value: bool): (r: Outcome)
    ensures Wf(r.adapter) && r.adapter.searchQuery == a.searchQuery && |r.adapter.allApps| == |a.allApps|
    ensures forall i | 0 <= i < |a.allApps| :: r.adapter.allApps[i] == a.allApps[i].(isSelected := value)
    ensures r.notified == Some(GetSelectedPackages(r.adapter))
  {
    var b := WithApps(a, Seqs.Map(a.allApps, (app: App) => app.(isSelected := value)));
    Outcome(b, Some(GetSelectedPackages(b)))
  }

  /** selectAll(): every app selected, and the listener is told every package. */
  function SelectAll(a: Adapter): (r: Outcome)
    ensures |r.adapter.allApps| == |a.allApps| && Wf(r.adapter)
    ensures forall i | 0 <= i < |a.allApps| :: r.adapter.allApps[i] == a.allApps[i].(isSelected := true)
    ensures r.notified == Some(Seqs.Map(a.allApps, PackageName))
  {
    var r := SetAllFlags(a, true);
    Seqs.FilterAll(r.adapter.allApps, IsSelected);
    assert Seqs.Map(r.adapter.allApps, PackageName) == Seqs.Map(a.allApps, PackageName);
    r
  }

  /** clearAll(): nothing selected, and the listener is told so. */
  function ClearAll(a: Adapter): (r: Outcome)
    ensures |r.adapter.allApps| == |a.allApps| && Wf(r.adapter)
    ensures forall i | 0 <= i < |a.allApps| :: r.adapter.allApps[i] == a.allApps[i].(isSelected := false)
    ensures r.notified == Some([])
  {
    var r := SetAllFlags(a, false);
    Seqs.CountIsFilterLength(r.adapter.allApps, IsSelected);
    r
  }

  /** toggleSelection(app): flip the first app with the same package name, if there is one. */
  function ToggleSelection(a: Adapter, packageName: string): (r: Outcome)
    ensures r.adapter.searchQuery == a.searchQuery && |r.adapter.allApps| == |a.allApps|
    ensures Wf(a) ==> Wf(r.adapter)
    ensures match Seqs.IndexOfFirst(a.allApps, (app: App) => app.packageName == packageName)
            case None => r == Outcome(a, None)
            case Some(k) =>
              Wf(r.adapter)
              && r.adapter.allApps == a.allApps[k := a.allApps[k].(isSelected := !a.allApps[k].isSelected)]
              && r.notified == Some(GetSelectedPackages(r.adapter))
  {
    match Seqs.IndexOfFirst(a.allApps, (app: App) => app.packageName == packageName)
    case None => Outcome(a, None)
    case Some(k) =>
      var b := WithApps(a, a.allApps[k := a.allApps[k].(isSelected := !a.allApps[k].isSelected)]);
      Outcome(b, Some(GetSelectedPackages(b)))
  }

  /** Toggling the same app twice restores the list. */
  lemma ToggleTwice(a: Adapter, packageName: string)
    ensures ToggleSelection(ToggleSelection(a, packageName).adapter, packageName).adapter.allApps == a.allApps
  {
    var b := ToggleSelection(a, packageName).adapter;
    Seqs.IndexOfFirstAgree(a.allApps, b.allApps, (app: App) => app.packageName == packageName);
  }

  /** Toggling changes one flag and nothing else: the packages, names and order stay. */
  lemma ToggleKeepsApps(a: Adapter, packageName: string)
    ensures Seqs.Map(ToggleSelection(a, packageName).adapter.allApps, PackageName) == Seqs.Map(a.allApps, PackageName)
  {
  }
}

=== FILE: auth_proxy_forwarder.dfy ===
/**
 * The local forwarder that adds HTTP proxy authentication
 * (tun.proxy.service.AuthProxyForwarder).
 *
 * A client connection carries an HTTP CONNECT request (section 9.3.6 of
 * RFC 9110). The forwarder reads the request line and the header block
 * byte by byte, connects to the upstream proxy, sends the request with a
 * `Proxy-Authorization: Basic` header added (section 2 of RFC 7617), copies
 * the upstream's response head back to the client and starts relaying only
 * when that head contains "200".
 *
 * Sockets are byte sequences here: what the client sends, what the upstream
 * proxy answers, and whether the TCP connect succeeds are parameters. Every
 * loop appends `(char) b` for each byte read, so the text the loops inspect
 * is the ISO-8859-1 reading of the bytes; positions in that text and in the
 * byte stream coincide.
 */
module AuthProxyForwarder {
  import opened Wrappers
  import opened Strings
  import opened Bytes
  import Base64

  const CRLF: string := "\r\n"
  const BLANK_LINE: string := "\r\n\r\n"
  const LOOPBACK: string := "127.0.0.1"
  const AUTH_PREFIX: string := "Proxy-Authorization: Basic "

  // ---------------------------------------------------------------------
  // Framing loops
  // ---------------------------------------------------------------------

  /**
   * A read loop whose buffer starts empty and gains one character per byte:
   * it stops right after the byte with which `stop` first holds of the
   * buffer, or at end of stream. `i` characters have been read so far; the
   * result is how many are read in total.
   */
  function ReadUntil(t: string, i: nat, stop: string -> bool): (n: nat)
    requires i <= |t|
    ensures i <= n <= |t|
    ensures n == |t| || stop(t[..n])
    ensures i < |t| ==> i < n
    ensures forall j | i < j < n :: !stop(t[..j])
    decreases |t| - i
  {
    if i == |t| then |t|
    else if stop(t[..i + 1]) then i + 1
    else ReadUntil(t, i + 1, stop)
  }

  /** Stop condition of the request-line loop (`endsWith("\r\n")`). */
  predicate EndsWithCrlf(s: string) {
    EndsWith(s, CRLF)
  }

  /** Stop condition of the response loop (`contains("\r\n\r\n")`). */
  predicate HasBlankLine(s: string) {
    Contains(s, BLANK_LINE)
  }

  /** Reference framing: up to the end of the first occurrence of `w`, or everything. */
  function FirstEnd(t: string, w: string): (n: nat)
    ensures n <= |t|
  {
    match IndexOf(t, w)
    case Some(k) => k + |w|
    case None => |t|
  }

  /** The request line is everything up to and including the first CRLF, or the whole stream. */
  lemma RequestLineFraming(t: string)
    ensures ReadUntil(t, 0, EndsWithCrlf) == FirstEnd(t, CRLF)
  {
    var n := ReadUntil(t, 0, EndsWithCrlf);
    match IndexOf(t, CRLF)
    case Some(k) =>
      var e := k + 2;
      assert t[..e][k..e] == CRLF;
      assert EndsWithCrlf(t[..e]);
      forall j | 0 < j < e
        ensures !EndsWithCrlf(t[..j])
      {
        if EndsWithCrlf(t[..j]) {
          assert t[..j][j - 2..j] == t[j - 2..j];
          assert OccursAt(t, CRLF, j - 2);
        }
      }
    case None =>
      if n < |t| {
        assert t[..n][n - 2..n] == t[n - 2..n];
        assert OccursAt(t, CRLF, n - 2);
      }
  }

  /** The response head is everything up to and including the first blank line, or the whole stream. */
  lemma ResponseFraming(t: string)
    ensures ReadUntil(t, 0, HasBlankLine) == FirstEnd(t, BLANK_LINE)
  {
    match IndexOf(t, BLANK_LINE)
    case Some(k) =>
      var e := k + 4;
      assert OccursAt(t[..e], BLANK_LINE, k) by {
        assert t[..e][k..e] == t[k..e];
      }
      OccursAtContains(t[..e], BLANK_LINE, k);
      forall j | 0 < j < e
        ensures !HasBlankLine(t[..j])
      {
        if HasBlankLine(t[..j]) {
          OccursInPrefix(t, BLANK_LINE, j, IndexOf(t[..j], BLANK_LINE).value);
        }
      }
      ReadUntilAt(t, HasBlankLine, e);
    case None =>
      forall j | 0 < j <= |t|
        ensures !HasBlankLine(t[..j])
      {
        if HasBlankLine(t[..j]) {
          OccursInPrefix(t, BLANK_LINE, j, IndexOf(t[..j], BLANK_LINE).value);
        }
      }
      ReadUntilNone(t, HasBlankLine);
  }

  /** An occurrence inside a prefix is an occurrence in the whole text. */
  lemma OccursInPrefix(t: string, p: string, j: nat, k: int)
    requires j <= |t| && OccursAt(t[..j], p, k)
    ensures OccursAt(t, p, k) && k + |p| <= j
  {
    assert t[..j][k..k + |p|] == t[k..k + |p|];
  }

  /** The read loop stops at the first prefix that satisfies `stop`. */
  lemma ReadUntilAt(t: string, stop: string -> bool, e: nat)
    requires 0 < e <= |t| && stop(t[..e])
    requires forall j | 0 < j < e :: !stop(t[..j])
    ensures ReadUntil(t, 0, stop) == e
  {
  }

  /** The read loop reads everything when no prefix satisfies `stop`. */
  lemma ReadUntilNone(t: string, stop: string -> bool)
    requires forall j | 0 < j <= |t| :: !stop(t[..j])
    ensures ReadUntil(t, 0, stop) == |t|
  {
  }

  /**
   * The header loop. `start` is where the current line begins and `i` how
   * far the stream has been read; the header text accumulated so far is
   * `t[..start]`. Each line that ends in CRLF is appended to the headers
   * unless it is exactly CRLF, which ends the loop; a partial line at end of
   * stream is dropped. Returns the length of the header text and how many
   * characters were read.
   */
  function HeaderLoop(t: string, start: nat, i: nat): (r: (nat, nat))
    requires start <= i <= |t|
    ensures start <= r.0 <= r.1 <= |t|
    decreases |t| - i
  {
    if i == |t| then (start, |t|)
    else if EndsWith(t[start..i + 1], CRLF) then
      if t[start..i + 1] == CRLF then (start, i + 1)
      else HeaderLoop(t, i + 1, i + 1)
    else HeaderLoop(t, start, i + 1)
  }

  /**
   * The header loop with its two tests read off the characters: by LineEnd,
   * the line `t[start..i + 1]` ends in CRLF exactly when a CRLF sits at
   * `i - 1`, and is CRLF itself exactly when it also has two characters.
   */
  function HeaderScan(t: string, start: nat, i: nat): (r: (nat, nat))
    requires start <= i <= |t|
    decreases |t| - i
  {
    if i == |t| then (start, |t|)
    else if start + 1 <= i && OccursAt(t, CRLF, i - 1) then
      if i == start + 1 then (start, i + 1)
      else HeaderScan(t, i + 1, i + 1)
    else HeaderScan(t, start, i + 1)
  }

  lemma {:induction false} HeaderLoopIsScan(t: string, start: nat, i: nat)
    requires start <= i <= |t|
    ensures HeaderLoop(t, start, i) == HeaderScan(t, start, i)
    decreases |t| - i
  {
    if i < |t| {
      LineEnd(t, start, i);
      if start + 1 <= i && OccursAt(t, CRLF, i - 1) {
        assert EndsWith(t[start..i + 1], CRLF);
        if i != start + 1 {
          assert t[start..i + 1] != CRLF;
          HeaderLoopIsScan(t, i + 1, i + 1);
        }
      } else {
        assert !EndsWith(t[start..i + 1], CRLF);
        HeaderLoopIsScan(t, start, i + 1);
      }
    }
  }

  /** An empty line starts at `p`: a CRLF at `p`, at the start of the text or right after another CRLF. */
  predicate BlankLineAt(t: string, p: int) {
    OccursAt(t, CRLF, p) && (p == 0 || OccursAt(t, CRLF, p - 2))
  }

  /** Reference framing of the header block: where its terminating empty line starts. */
  function HeaderEnd(t: string): (r: Option<nat>)
    ensures r.Some? ==> BlankLineAt(t, r.value)
  {
    if StartsWith(t, CRLF) then
      assert OccursAt(t, CRLF, 0);
      Some(0)
    else
      match IndexOf(t, BLANK_LINE)
      case Some(k) =>
        assert t[k + 2..k + 4] == t[k..k + 4][2..];
        assert t[k..k + 2] == t[k..k + 4][..2];
        Some(k + 2)
      case None => None
  }

  /** Every empty line lies at or after the position the reference picks. */
  lemma HeaderEndFirst(t: string, p: nat)
    requires BlankLineAt(t, p)
    ensures HeaderEnd(t).Some? && HeaderEnd(t).value <= p
  {
    if p > 0 && !StartsWith(t, CRLF) {
      assert t[p - 2..p + 2] == t[p - 2..p] + t[p..p + 2];
      assert OccursAt(t, BLANK_LINE, p - 2);
    } else if p == 0 {
      assert t[..2] == t[0..2];
    }
  }

  /** What the header loop yields, against the reference framing. */
  predicate HeaderOutcome(t: string, r: (nat, nat)) {
    match HeaderEnd(t)
    case Some(j) => r == (j, j + 2)
    case None =>
      r.1 == |t| && (r.0 == 0 || OccursAt(t, CRLF, r.0 - 2))
      && forall k | r.0 <= k <= |t| :: !OccursAt(t, CRLF, k)
  }

  /** Invariant of the header loop: lines so far end in CRLF and none of them was empty. */
  predicate HeaderInvariant(t: string, start: nat, i: nat) {
    && start <= i <= |t|
    && (start == 0 || OccursAt(t, CRLF, start - 2))
    && (forall k | start <= k && k + 2 <= i :: !OccursAt(t, CRLF, k))
    && (HeaderEnd(t).Some? ==> HeaderEnd(t).value >= start)
  }

  lemma HeaderLoopAtEnd(t: string, start: nat)
    requires HeaderInvariant(t, start, |t|)
    ensures HeaderOutcome(t, (start, |t|))
  {
    forall p | p >= start
      ensures !BlankLineAt(t, p)
    {
      if p + 2 <= |t| {
        assert !OccursAt(t, CRLF, p);
      }
    }
  }

  lemma HeaderLoopAtBlank(t: string, start: nat)
    requires HeaderInvariant(t, start, start + 1) && start + 1 < |t|
    requires t[start..start + 2] == CRLF
    ensures HeaderOutcome(t, (start, start + 2))
  {
    assert BlankLineAt(t, start);
    HeaderEndFirst(t, start);
  }

  /**
   * The header loop stops exactly at the first empty line; without one it
   * reads to the end of the stream and keeps the text up to the last CRLF.
   */
  lemma {:induction false} HeaderLoopFraming(t: string, start: nat, i: nat)
    requires HeaderInvariant(t, start, i)
    ensures HeaderOutcome(t, HeaderScan(t, start, i))
    decreases |t| - i
  {
    if i == |t| {
      HeaderLoopAtEnd(t, start);
    } else if i == start + 1 && OccursAt(t, CRLF, i - 1) {
      HeaderStepBlank(t, start, i);
    } else {
      var s, j := HeaderStep(t, start, i);
      HeaderLoopFraming(t, s, j);
    }
  }

  /**
   * One byte of the header loop that does not end it: the loop goes on from
   * `next` with its invariant kept.
   */
  lemma HeaderStep(t: string, start: nat, i: nat) returns (s: nat, j: nat)
    requires HeaderInvariant(t, start, i) && i < |t|
    requires !(i == start + 1 && OccursAt(t, CRLF, i - 1))
    ensures s <= j == i + 1 && HeaderInvariant(t, s, j)
    ensures HeaderScan(t, start, i) == HeaderScan(t, s, j)
  {
    if start + 1 < i && OccursAt(t, CRLF, i - 1) {
      HeaderStepLine(t, start, i);
      s, j := i + 1, i + 1;
    } else {
      HeaderStepChar(t, start, i);
      s, j := start, i + 1;
    }
  }

  /** The line just read is the empty line: the loop stops there. */
  lemma HeaderStepBlank(t: string, start: nat, i: nat)
    requires HeaderInvariant(t, start, i) && i < |t|
    requires i == start + 1 && OccursAt(t, CRLF, i - 1)
    ensures HeaderOutcome(t, HeaderScan(t, start, i))
  {
    assert HeaderScan(t, start, i) == (start, start + 2);
    HeaderLoopAtBlank(t, start);
  }

  /** A non-empty line ended: the next line starts right after it. */
  lemma HeaderStepLine(t: string, start: nat, i: nat)
    requires HeaderInvariant(t, start, i) && start + 1 < i < |t|
    requires OccursAt(t, CRLF, i - 1)
    ensures HeaderInvariant(t, i + 1, i + 1)
    ensures HeaderScan(t, start, i) == HeaderScan(t, i + 1, i + 1)
  {
    HeaderAdvance(t, start, i);
  }

  /** The line goes on: one more character is read. */
  lemma HeaderStepChar(t: string, start: nat, i: nat)
    requires HeaderInvariant(t, start, i) && i < |t|
    requires !(start + 1 <= i && OccursAt(t, CRLF, i - 1))
    ensures HeaderInvariant(t, start, i + 1)
    ensures HeaderScan(t, start, i) == HeaderScan(t, start, i + 1)
  {
  }

  /** The line `t[start..i + 1]` ends in CRLF exactly when a CRLF sits at `i - 1`; it is CRLF itself when it has two characters. */
  lemma LineEnd(t: string, start: nat, i: nat)
    requires start <= i < |t|
    ensures EndsWith(t[start..i + 1], CRLF) <==> start + 1 <= i && OccursAt(t, CRLF, i - 1)
    ensures t[start..i + 1] == CRLF <==> i == start + 1 && OccursAt(t, CRLF, i - 1)
  {
    var line := t[start..i + 1];
    if start + 1 <= i {
      assert line[|line| - 2..] == t[i - 1..i + 1];
    }
  }

  /** After a non-empty line ends at `i + 1`, no empty line can start before `i + 1`. */
  lemma HeaderAdvance(t: string, start: nat, i: nat)
    requires HeaderInvariant(t, start, i) && start + 1 < i < |t|
    requires OccursAt(t, CRLF, i - 1)
    ensures HeaderInvariant(t, i + 1, i + 1)
  {
    forall p | start <= p <= i
      ensures !BlankLineAt(t, p)
    {
      if p + 2 <= i {
        assert !OccursAt(t, CRLF, p);
      } else if p == i {
        CrlfNoOverlap(t, i - 1);
      } else if p - 2 >= start {
        assert !OccursAt(t, CRLF, p - 2);
      } else if start >= 2 {
        CrlfNoOverlap(t, start - 2);
      }
    }
  }

  /** Two CRLFs cannot overlap: the character after a CR-LF's CR is LF. */
  lemma CrlfNoOverlap(t: string, q: int)
    requires OccursAt(t, CRLF, q)
    ensures !OccursAt(t, CRLF, q + 1)
  {
    assert t[q + 1] == t[q..q + 2][1];
  }

  /** The header loop from the start of the header stream, against the reference. */
  lemma HeadersFraming(t: string)
    ensures var r := HeaderLoop(t, 0, 0);
            && r.0 <= r.1 <= |t|
            && match HeaderEnd(t)
               case Some(j) => r == (j, j + 2)
               case None => r.1 == |t|
  {
    HeaderLoopIsScan(t, 0, 0);
    HeaderLoopFraming(t, 0, 0);
    assert HeaderOutcome(t, HeaderScan(t, 0, 0));
  }

  // ---------------------------------------------------------------------
  // The control phase of one connection
  // ---------------------------------------------------------------------

  /** The RFC 7617 credentials: base 64 of the UTF-8 bytes of `user:pass`. */
  function Credentials(user: string, pass: string): string {
    Base64.Encode(Utf8(user + ":" + pass))
  }

  /** The request sent upstream. */
  function ProxyRequest(firstLine: string, user: string, pass: string, headers: string): string {
    firstLine + CRLF + AUTH_PREFIX + Credentials(user, pass) + CRLF + headers + CRLF
  }

  /** The upstream proxy can always read the exact user and password back from the header. */
  lemma CredentialsRoundTrip(user: string, pass: string)
    ensures Base64.Decode(Credentials(user, pass)) == Some(Utf8(user + ":" + pass))
  {
    Base64.DecodeEncode(Utf8(user + ":" + pass));
  }

  /** Example: the credentials for user "alice" with password "secret". */
  lemma CredentialsExample(user: string, pass: string)
    requires user == "alice" && pass == "secret"
    ensures Credentials(user, pass) == "YWxpY2U6c2VjcmV0"
  {
    assert user + ":" + pass == "alice:secret";
    Utf8Example(user + ":" + pass);
    Base64.EncodeExample(Utf8(user + ":" + pass));
  }

  /** How a handled connection ends. */
  datatype Exit =
    | ConnectFailed
      /** A read threw before the head it was reading was complete; the catch ends the connection. */
    | Failed
      /** The response head did not contain "200"; nothing is relayed. */
    | Refused
      /** Raw relay of whatever each side sends after the control phase. */
    | Relayed(clientRest: seq<Byte>, upstreamRest: seq<Byte>)

  datatype Session = Session(
    toUpstream: seq<Byte>,
    toClient: seq<Byte>,
    exit: Exit,
    clientClosed: bool,
    upstreamClosed: bool)

  /**
   * How the client's bytes split: the request line ends at `lineEnd`, the
   * header text runs from there to `headersEnd`, and `consumed` bytes were
   * read in all (the empty line included, when there is one).
   */
  datatype ClientRead = ClientRead(firstLine: string, headers: string, lineEnd: nat, headersEnd: nat, consumed: nat)

  function ReadClient(client: seq<Byte>): (r: ClientRead)
    ensures r.lineEnd == FirstEnd(Latin1(client), CRLF)
    ensures r.lineEnd <= r.headersEnd <= r.consumed <= |client|
    ensures r.firstLine == JavaTrim(Latin1(client[..r.lineEnd]))
    ensures r.headers == Latin1(client[r.lineEnd..r.headersEnd])
    ensures match HeaderEnd(Latin1(client[r.lineEnd..]))
            case Some(j) => r.headersEnd == r.lineEnd + j && r.consumed == r.headersEnd + 2
            case None => r.consumed == |client|
  {
    var t := Latin1(client);
    var n := ReadUntil(t, 0, EndsWithCrlf);
    RequestLineFraming(t);
    var hr := HeaderLoop(Latin1(client[n..]), 0, 0);
    HeadersFraming(Latin1(client[n..]));
    ClientRead(JavaTrim(Latin1(client[..n])), Latin1(client[n..n + hr.0]), n, n + hr.0, n + hr.1)
  }

  /**
   * Where a stream stops: at its end (read returns -1), or with an I/O
   * exception from the read after the bytes given.
   */
  datatype Fault = NoFault | ClientReadFails | UpstreamReadFails

  /** The client's bytes end before the empty line, and the next read throws. */
  predicate ClientCut(client: seq<Byte>, fault: Fault) {
    fault == ClientReadFails && HeaderEnd(Latin1(client[ReadClient(client).lineEnd..])).None?
  }

  /** The upstream's bytes end before the blank line, and the next read throws. */
  predicate UpstreamCut(upstream: seq<Byte>, fault: Fault) {
    fault == UpstreamReadFails && !Contains(Latin1(upstream), BLANK_LINE)
  }

  /** Nothing but CRLF pairs; the empty text included. */
  predicate OnlyLineBreaks(s: string)
    decreases |s|
  {
    s == [] || (|s| >= 2 && s[..2] == CRLF && OnlyLineBreaks(s[2..]))
  }

  /**
   * `s.split("\r\n")` yields no pieces. Java's split drops trailing empty
   * strings, so a non-empty text made of CRLFs alone splits into an empty
   * array and taking its piece 0 throws; every other text, the empty one
   * included, has a piece 0.
   */
  predicate SplitIsEmpty(s: string) {
    s != [] && OnlyLineBreaks(s)
  }

  /**
   * The response heads on which logging the status line throws are exactly
   * a lone CRLF (the stream ends after it) and a lone blank line.
   */
  lemma {:induction false} EmptySplitHeads(upstream: seq<Byte>)
    ensures var u := Latin1(upstream);
            var h := u[..FirstEnd(u, BLANK_LINE)];
            SplitIsEmpty(h) <==> h == CRLF || h == BLANK_LINE
  {
    var u := Latin1(upstream);
    var m := FirstEnd(u, BLANK_LINE);
    var h := u[..m];
    LineBreakHeads();
    if SplitIsEmpty(h) {
      LineBreaksShape(h);
      if |h| >= 4 {
        assert u[..4] == h[..4];
        StartsWithBlankLine(u);
        assert h == h[..4];
      }
    }
  }

  lemma LineBreakHeads()
    ensures OnlyLineBreaks(CRLF) && OnlyLineBreaks(BLANK_LINE)
  {
    assert OnlyLineBreaks(CRLF[2..]);
    assert OnlyLineBreaks(BLANK_LINE[2..][2..]);
    assert OnlyLineBreaks(BLANK_LINE[2..]);
  }

  /** A run of CRLFs has even length and starts with one, or two once it is long enough. */
  lemma {:induction false} LineBreaksShape(h: string)
    requires OnlyLineBreaks(h)
    ensures |h| % 2 == 0
    ensures |h| >= 2 ==> h[..2] == CRLF
    ensures |h| >= 4 ==> h[..4] == BLANK_LINE
    decreases |h|
  {
    if h != [] {
      LineBreaksShape(h[2..]);
      if |h| >= 4 {
        assert h[..4] == h[..2] + h[2..][..2];
      }
    }
  }

  /** A stream that starts with the blank line has a four-character head. */
  lemma StartsWithBlankLine(u: string)
    requires |u| >= 4 && u[..4] == BLANK_LINE
    ensures FirstEnd(u, BLANK_LINE) == 4
  {
    assert OccursAt(u, BLANK_LINE, 0);
  }

  /**
   * handleConnection. `connectOk` says whether the TCP connect to the
   * upstream proxy succeeds; `upstream` is what that proxy sends; `fault`
   * says which stream, if any, throws instead of ending after its bytes.
   * Every path closes both sockets (the finally block).
   */
  function HandleConnection(client: seq<Byte>, connectOk: bool, upstream: seq<Byte>, fault: Fault,
                            user: string, pass: string): (r: Session)
    ensures r.clientClosed && r.upstreamClosed
    ensures ClientCut(client, fault) ==> r == Session([], [], Failed, true, true)
    ensures !ClientCut(client, fault) ==> (!connectOk <==> r.exit == ConnectFailed)
    ensures !connectOk ==> r.toUpstream == [] && r.toClient == []
    ensures !ClientCut(client, fault) && connectOk ==>
              var c := ReadClient(client);
              r.toUpstream == Utf8(ProxyRequest(c.firstLine, user, pass, c.headers))
    ensures !ClientCut(client, fault) && connectOk && UpstreamCut(upstream, fault) ==>
              r.toClient == [] && r.exit == Failed
    ensures !ClientCut(client, fault) && connectOk && !UpstreamCut(upstream, fault) ==>
              var u := Latin1(upstream);
              SplitIsEmpty(u[..FirstEnd(u, BLANK_LINE)]) ==> r.toClient == [] && r.exit == Failed
    ensures !ClientCut(client, fault) && connectOk && !UpstreamCut(upstream, fault) ==>
              var u := Latin1(upstream);
              var m := FirstEnd(u, BLANK_LINE);
              !SplitIsEmpty(u[..m]) ==>
              r.toClient == Utf8(u[..m])
              && (r.exit.Relayed? <==> Contains(u[..m], "200"))
              && (r.exit.Relayed? ==>
                    r.exit == Relayed(client[ReadClient(client).consumed..], upstream[m..]))
  {
    if ClientCut(client, fault) then
      Session([], [], Failed, true, true)
    else if !connectOk then
      Session([], [], ConnectFailed, true, true)
    else
      var c := ReadClient(client);
      var request := ProxyRequest(c.firstLine, user, pass, c.headers);
      var u := Latin1(upstream);
      var m := ReadUntil(u, 0, HasBlankLine);
      ResponseFraming(u);
      var response := u[..m];
      if UpstreamCut(upstream, fault) then
        Session(Utf8(request), [], Failed, true, true)
      else if SplitIsEmpty(response) then
        Session(Utf8(request), [], Failed, true, true)
      else if !Contains(response, "200") then
        Session(Utf8(request), Utf8(response), Refused, true, true)
      else
        Session(Utf8(request), Utf8(response), Relayed(client[c.consumed..], upstream[m..]), true, true)
  }

  /**
   * A read that throws only matters while a head is incomplete: once the
   * client's empty line and the upstream's blank line have arrived, the
   * control phase goes exactly as when both streams simply end; without a
   * fault a connection ends in Failed exactly when the upstream answered a
   * head that logging its status line cannot split.
   */
  lemma {:induction false} FaultAfterHeadsIsHarmless(client: seq<Byte>, connectOk: bool, upstream: seq<Byte>,
                                                   fault: Fault, user: string, pass: string)
    requires HeaderEnd(Latin1(client[ReadClient(client).lineEnd..])).Some?
    requires Contains(Latin1(upstream), BLANK_LINE)
    ensures HandleConnection(client, connectOk, upstream, fault, user, pass)
            == HandleConnection(client, connectOk, upstream, NoFault, user, pass)
    ensures HandleConnection(client, connectOk, upstream, NoFault, user, pass).exit.Failed?
            <==> connectOk && SplitIsEmpty(Latin1(upstream)[..FirstEnd(Latin1(upstream), BLANK_LINE)])
  {
    assert !ClientCut(client, fault) && !UpstreamCut(upstream, fault);
    if connectOk {
      var u := Latin1(upstream);
      var m := ReadUntil(u, 0, HasBlankLine);
      var r := HandleConnection(client, connectOk, upstream, fault, user, pass);
      assert r.exit == (if SplitIsEmpty(u[..m]) then Failed
                        else if !Contains(u[..m], "200") then Refused
                        else Relayed(client[ReadClient(client).consumed..], upstream[m..]));
    }
  }

  /**
   * When the upstream's response head is ASCII, the client receives it byte
   * for byte; a byte at or above 0x80 in it reaches the client altered.
   */
  lemma ResponseVerbatimIff(upstream: seq<Byte>)
    ensures var m := FirstEnd(Latin1(upstream), BLANK_LINE);
            Utf8(Latin1(upstream)[..m]) == upstream[..m] <==> AllAscii(upstream[..m])
  {
    var m := FirstEnd(Latin1(upstream), BLANK_LINE);
    assert Latin1(upstream)[..m] == Latin1(upstream[..m]);
    ReencodeIdentityIff(upstream[..m]);
  }

  /**
   * Over ASCII input the client's header lines reach the upstream proxy byte
   * for byte, after the request line and the added authorization line
   * (a client's own Proxy-Authorization line included).
   */
  lemma HeadersForwardedVerbatim(client: seq<Byte>, upstream: seq<Byte>, user: string, pass: string)
    requires AllAscii(client)
    ensures var c := ReadClient(client);
            HandleConnection(client, true, upstream, NoFault, user, pass).toUpstream
            == Utf8(c.firstLine + CRLF + AUTH_PREFIX + Credentials(user, pass) + CRLF)
               + client[c.lineEnd..c.headersEnd] + [13, 10]
  {
    var c := ReadClient(client);
    var hb := client[c.lineEnd..c.headersEnd];
    AsciiSlice(client, c.lineEnd, c.headersEnd);
    RequestBytes(c.firstLine, user, pass, hb);
  }

  lemma AsciiSlice(bs: seq<Byte>, a: nat, b: nat)
    requires AllAscii(bs) && a <= b <= |bs|
    ensures AllAscii(bs[a..b])
  {
    assert forall i | 0 <= i < b - a :: bs[a..b][i] == bs[a + i];
  }

  lemma RequestBytes(firstLine: string, user: string, pass: string, hb: seq<Byte>)
    requires AllAscii(hb)
    ensures Utf8(ProxyRequest(firstLine, user, pass, Latin1(hb)))
            == Utf8(firstLine + CRLF + AUTH_PREFIX + Credentials(user, pass) + CRLF) + hb + [13, 10]
  {
    var head := firstLine + CRLF + AUTH_PREFIX + Credentials(user, pass) + CRLF;
    var headers := Latin1(hb);
    assert ProxyRequest(firstLine, user, pass, headers) == head + headers + CRLF;
    Utf8Append(head + headers, CRLF);
    Utf8Append(head, headers);
    ReencodeIdentityIff(hb);
    Utf8Ascii(CRLF);
  }

  // ---------------------------------------------------------------------
  // start / stop
  // ---------------------------------------------------------------------

  /** The server socket field: null, created but not bound, or bound to a port. */
  datatype Listener = NoListener | Unbound | Bound(port: int)

  datatype Forwarder = Forwarder(
    upstreamHost: string,
    upstreamPort: int,
    username: string,
    password: string,
    localPort: int,
    listener: Listener,
    hasExecutor: bool,
    hasAcceptThread: bool,
    running: bool)

  /** A freshly constructed forwarder. */
  function NewForwarder(host: string, port: int, user: string, pass: string, localPort: int): (f: Forwarder)
    ensures !f.running && f.listener == NoListener && !f.hasExecutor && !f.hasAcceptThread
    ensures f.upstreamHost == host && f.upstreamPort == port && f.localPort == localPort
    ensures f.username == user && f.password == pass
  {
    Forwarder(host, port, user, pass, localPort, NoListener, false, false, false)
  }

  /** Fields fixed at construction. */
  predicate SameConfig(f: Forwarder, g: Forwarder) {
    f.upstreamHost == g.upstreamHost && f.upstreamPort == g.upstreamPort
    && f.username == g.username && f.password == g.password && f.localPort == g.localPort
  }

  function Stop(f: Forwarder): (g: Forwarder)
    ensures !g.running && g.listener == NoListener && !g.hasExecutor && !g.hasAcceptThread
    ensures SameConfig(f, g)
  {
    f.(running := false, listener := NoListener, hasExecutor := false, hasAcceptThread := false)
  }

  /**
   * start(). `bindOk` says whether binding 127.0.0.1:localPort succeeds; the
   * boolean result is true when start() throws.
   */
  function Start(f: Forwarder, bindOk: bool): (r: (Forwarder, bool))
    ensures SameConfig(f, r.0)
    ensures r.0.running <==> bindOk
    ensures r.1 <==> !bindOk
    ensures bindOk ==> r.0.listener == Bound(f.localPort) && r.0.hasExecutor && r.0.hasAcceptThread
    ensures !bindOk ==> r.0.listener == Unbound
  {
    var g := if f.running then Stop(f) else f;
    var g := g.(listener := Unbound);
    if !bindOk then (g, true)
    else (g.(listener := Bound(f.localPort), hasExecutor := true, running := true, hasAcceptThread := true), false)
  }

  /** A second stop() has no further effect. */
  lemma StopIdempotent(f: Forwarder)
    ensures Stop(Stop(f)) == Stop(f)
  {
  }

  /** Starting a running forwarder is the same as stopping it and then starting it. */
  lemma StartRestarts(f: Forwarder, bindOk: bool)
    requires f.running
    ensures Start(f, bindOk) == Start(Stop(f), bindOk)
  {
  }
}

=== FILE: base64.dfy ===
/**
 * The base 64 encoding of section 4 of RFC 4648, with '=' padding and no
 * line breaks (android.util.Base64 with the NO_WRAP flag), and a decoder
 * for it that serves as the encoder's inverse.
 */
module Base64 {
  import opened Wrappers
  import opened Bytes

  type Sextet = n: int | 0 <= n < 64

  /** The alphabet of Table 1 in RFC 4648. */
  function CharOf(n: Sextet): char {
    if n < 26 then ('A' as int + n) as char
    else if n < 52 then ('a' as int + (n - 26)) as char
    else if n < 62 then ('0' as int + (n - 52)) as char
    else if n == 62 then '+'
    else '/'
  }

  /** The value of an alphabet character; None for anything else, '=' included. */
  function ValueOf(c: char): (r: Option<Sextet>)
    ensures r.Some? ==> CharOf(r.value) == c
  {
    if 'A' <= c <= 'Z' then Some(c as int - 'A' as int)
    else if 'a' <= c <= 'z' then Some(c as int - 'a' as int + 26)
    else if '0' <= c <= '9' then Some(c as int - '0' as int + 52)
    else if c == '+' then Some(62)
    else if c == '/' then Some(63)
    else None
  }

  lemma ValueOfCharOf(n: Sextet)
    ensures ValueOf(CharOf(n)) == Some(n)
  {
  }

  predicate IsAlphabet(c: char) {
    ValueOf(c).Some?
  }

  /** Three octets become four characters. */
  function EncodeBlock(a: Byte, b: Byte, c: Byte): string {
    [CharOf(a / 4), CharOf((a % 4) * 16 + b / 16), CharOf((b % 16) * 4 + c / 64), CharOf(c % 64)]
  }

  /** Base64.encodeToString(bytes, NO_WRAP). */
  function Encode(bs: seq<Byte>): (r: string)
    ensures |r| % 4 == 0
    ensures |r| == 0 <==> |bs| == 0
    decreases |bs|
  {
    if |bs| == 0 then ""
    else if |bs| == 1 then
      [CharOf(bs[0] / 4), CharOf((bs[0] % 4) * 16), '=', '=']
    else if |bs| == 2 then
      [CharOf(bs[0] / 4), CharOf((bs[0] % 4) * 16 + bs[1] / 16), CharOf((bs[1] % 16) * 4), '=']
    else
      EncodeBlock(bs[0], bs[1], bs[2]) + Encode(bs[3..])
  }

  /** Four sextets carry three octets. */
  function DecodeBlock(w: Sextet, x: Sextet, y: Sextet, z: Sextet): seq<Byte> {
    [w * 4 + x / 16, (x % 16) * 16 + y / 4, (y % 4) * 64 + z]
  }

  /** A quantum of four alphabet characters, no padding. */
  function DecodeQuad(q: string): Option<seq<Byte>>
    requires |q| == 4
  {
    if IsAlphabet(q[0]) && IsAlphabet(q[1]) && IsAlphabet(q[2]) && IsAlphabet(q[3]) then
      Some(DecodeBlock(ValueOf(q[0]).value, ValueOf(q[1]).value, ValueOf(q[2]).value, ValueOf(q[3]).value))
    else None
  }

  /** The last quantum, which may end in one or two '=' characters. */
  function DecodeLast(q: string): Option<seq<Byte>>
    requires |q| == 4
  {
    if q[3] != '=' then DecodeQuad(q)
    else if !IsAlphabet(q[0]) || !IsAlphabet(q[1]) then None
    else
      var w := ValueOf(q[0]).value;
      var x := ValueOf(q[1]).value;
      if q[2] == '=' then Some([w * 4 + x / 16])
      else if !IsAlphabet(q[2]) then None
      else Some([w * 4 + x / 16, (x % 16) * 16 + ValueOf(q[2]).value / 4])
  }

  /** Decoder for padded text; None for text that no encoding produces in this shape. */
  function Decode(s: string): Option<seq<Byte>>
    decreases |s|
  {
    if |s| == 0 then Some([])
    else if |s| < 4 then None
    else if |s| == 4 then DecodeLast(s)
    else
      match DecodeQuad(s[..4])
      case None => None
      case Some(head) =>
        match Decode(s[4..])
        case None => None
        case Some(rest) => Some(head + rest)
  }

  lemma BlockRoundTrip(a: Byte, b: Byte, c: Byte)
    ensures DecodeBlock(a / 4, (a % 4) * 16 + b / 16, (b % 16) * 4 + c / 64, c % 64) == [a, b, c]
  {
    var x := (a % 4) * 16 + b / 16;
    var y := (b % 16) * 4 + c / 64;
    assert x / 16 == a % 4 && x % 16 == b / 16;
    assert y / 4 == b % 16 && y % 4 == c / 64;
  }

  lemma QuadRoundTrip(a: Byte, b: Byte, c: Byte)
    ensures DecodeQuad(EncodeBlock(a, b, c)) == Some([a, b, c])
    ensures EncodeBlock(a, b, c)[3] != '='
  {
    var q := EncodeBlock(a, b, c);
    ValueOfCharOf(a / 4);
    ValueOfCharOf((a % 4) * 16 + b / 16);
    ValueOfCharOf((b % 16) * 4 + c / 64);
    ValueOfCharOf(c % 64);
    BlockRoundTrip(a, b, c);
    assert IsAlphabet(q[3]);
  }

  lemma RoundTripOne(a: Byte)
    ensures Decode(Encode([a])) == Some([a])
  {
    ValueOfCharOf(a / 4);
    ValueOfCharOf((a % 4) * 16);
  }

  lemma RoundTripTwo(a: Byte, b: Byte)
    ensures Decode(Encode([a, b])) == Some([a, b])
  {
    var x := (a % 4) * 16 + b / 16;
    var y := (b % 16) * 4;
    ValueOfCharOf(a / 4);
    ValueOfCharOf(x);
    ValueOfCharOf(y);
    var e := Encode([a, b]);
    assert e == [CharOf(a / 4), CharOf(x), CharOf(y), '='];
    assert IsAlphabet(e[2]);
    assert x / 16 == a % 4 && x % 16 == b / 16 && y / 4 == b % 16;
    assert DecodeLast(e) == Some([(a / 4) * 4 + x / 16, (x % 16) * 16 + y / 4]);
  }

  lemma DecodeCons(q: string, rest: string)
    requires |q| == 4 && |rest| > 0
    ensures Decode(q + rest) == match DecodeQuad(q)
                                case None => None
                                case Some(h) => match Decode(rest)
                                                case None => None
                                                case Some(r) => Some(h + r)
  {
    var s := q + rest;
    assert s[..4] == q;
    assert s[4..] == rest;
  }

  lemma RoundTripThree(a: Byte, b: Byte, c: Byte)
    ensures Decode(Encode([a, b, c])) == Some([a, b, c])
  {
    var bs: seq<Byte> := [a, b, c];
    assert bs[3..] == [];
    assert Encode(bs) == EncodeBlock(a, b, c);
    QuadRoundTrip(a, b, c);
  }

  lemma RoundTripCons(head: seq<Byte>, tail: seq<Byte>)
    requires |head| == 3 && |tail| > 0
    requires Decode(Encode(tail)) == Some(tail)
    ensures Decode(Encode(head + tail)) == Some(head + tail)
  {
    var q := EncodeBlock(head[0], head[1], head[2]);
    var bs := head + tail;
    assert bs[3..] == tail;
    assert Encode(bs) == q + Encode(tail);
    QuadRoundTrip(head[0], head[1], head[2]);
    assert [head[0], head[1], head[2]] == head;
    DecodeCons(q, Encode(tail));
  }

  /** Decoding the encoding gives back the original octets. */
  lemma {:induction false} DecodeEncode(bs: seq<Byte>)
    ensures Decode(Encode(bs)) == Some(bs)
    decreases |bs|
  {
    if |bs| == 1 {
      RoundTripOne(bs[0]);
      assert bs == [bs[0]];
    } else if |bs| == 2 {
      RoundTripTwo(bs[0], bs[1]);
      assert bs == [bs[0], bs[1]];
    } else if |bs| == 3 {
      RoundTripThree(bs[0], bs[1], bs[2]);
      assert bs == [bs[0], bs[1], bs[2]];
    } else if |bs| > 3 {
      DecodeEncode(bs[3..]);
      RoundTripCons(bs[..3], bs[3..]);
      assert bs == bs[..3] + bs[3..];
    }
  }

  /** Every started group of three octets yields four characters. */
  lemma {:induction false} EncodeLength(bs: seq<Byte>)
    ensures |Encode(bs)| == 4 * ((|bs| + 2) / 3)
    decreases |bs|
  {
    if |bs| >= 3 {
      EncodeLength(bs[3..]);
      assert (|bs| + 2) / 3 == (|bs[3..]| + 2) / 3 + 1;
    }
  }

  /** Different octet strings never share an encoding. */
  lemma EncodeInjective(a: seq<Byte>, b: seq<Byte>)
    requires Encode(a) == Encode(b)
    ensures a == b
  {
    DecodeEncode(a);
    DecodeEncode(b);
  }

  /** Example: "alice:secret" in ASCII encodes to YWxpY2U6c2VjcmV0. */
  lemma EncodeExample(b0: seq<Byte>)
    requires b0 == [97, 108, 105, 99, 101, 58, 115, 101, 99, 114, 101, 116]
    ensures Encode(b0) == "YWxpY2U6c2VjcmV0"
  {
    assert b0[3..] == [99, 101, 58, 115, 101, 99, 114, 101, 116];
    EncodeExampleTail();
    assert EncodeBlock(97, 108, 105) == "YWxp";
    assert Encode(b0) == EncodeBlock(97, 108, 105) + Encode(b0[3..]);
  }

  /** Example, continued: the last nine bytes. */
  lemma EncodeExampleTail()
    ensures Encode([99, 101, 58, 115, 101, 99, 114, 101, 116]) == "Y2U6c2VjcmV0"
  {
    var b3: seq<Byte> := [99, 101, 58, 115, 101, 99, 114, 101, 116];
    assert b3[3..] == [115, 101, 99, 114, 101, 116];
    EncodeExampleLast();
    assert EncodeBlock(99, 101, 58) == "Y2U6";
    assert Encode(b3) == EncodeBlock(99, 101, 58) + Encode(b3[3..]);
  }

  /** Example, continued: the last six bytes. */
  lemma EncodeExampleLast()
    ensures Encode([115, 101, 99, 114, 101, 116]) == "c2VjcmV0"
  {
    var b6: seq<Byte> := [115, 101, 99, 114, 101, 116];
    var b9: seq<Byte> := [114, 101, 116];
    assert b6[3..] == b9 && b9[3..] == [];
    assert EncodeBlock(115, 101, 99) == "c2Vj";
    assert EncodeBlock(114, 101, 116) == "cmV0";
    assert Encode(b9) == "cmV0";
  }
}

=== FILE: bytes.dfy ===
/**
 * Octets and the two character encodings the proxy relay converts between:
 * ISO-8859-1 (Java's `(char) b` on a byte read from a socket) and UTF-8
 * (`String.getBytes(StandardCharsets.UTF_8)`).
 */
module Bytes {

  type Byte = b: int | 0 <= b < 256

  predicate IsAsciiByte(b: Byte) {
    b < 0x80
  }

  predicate AllAscii(bs: seq<Byte>) {
    forall i | 0 <= i < |bs| :: IsAsciiByte(bs[i])
  }

  predicate IsAsciiString(s: string) {
    forall i | 0 <= i < |s| :: s[i] as int < 0x80
  }

  /** Number of bytes at or above 0x80. */
  function HighCount(bs: seq<Byte>): (n: nat)
    ensures n <= |bs|
    ensures n == 0 <==> AllAscii(bs)
  {
    if |bs| == 0 then 0
    else (if IsAsciiByte(bs[0]) then 0 else 1) + HighCount(bs[1..])
  }

  // ---------------------------------------------------------------------
  // UTF-8 (RFC 3629)
  // ---------------------------------------------------------------------

  /** The UTF-8 encoding of one Unicode scalar value. */
  function Utf8Char(c: char): (r: seq<Byte>)
    ensures 1 <= |r| <= 4
    ensures |r| == 1 <==> c as int < 0x80
    ensures |r| == 1 ==> r[0] == c as int
    ensures |r| > 1 ==> forall i | 0 <= i < |r| :: !IsAsciiByte(r[i])
  {
    var n := c as int;
    if n < 0x80 then [n]
    else if n < 0x800 then [0xC0 + n / 64, 0x80 + n % 64]
    else if n < 0x10000 then [0xE0 + n / 4096, 0x80 + (n / 64) % 64, 0x80 + n % 64]
    else [0xF0 + n / 262144, 0x80 + (n / 4096) % 64, 0x80 + (n / 64) % 64, 0x80 + n % 64]
  }

  /** String.getBytes(UTF_8). */
  function Utf8(s: string): (r: seq<Byte>)
    ensures |r| >= |s|
  {
    if |s| == 0 then [] else Utf8Char(s[0]) + Utf8(s[1..])
  }

  lemma {:induction false} Utf8Append(a: string, b: string)
    ensures Utf8(a + b) == Utf8(a) + Utf8(b)
    decreases |a|
  {
    if |a| > 0 {
      assert (a + b)[0] == a[0] && (a + b)[1..] == a[1..] + b;
      Utf8Append(a[1..], b);
      assert Utf8(a + b) == Utf8Char(a[0]) + Utf8(a[1..] + b);
    } else {
      assert a + b == b;
    }
  }

  /** An ASCII string encodes to exactly its code points, one byte each. */
  lemma {:induction false} Utf8Ascii(s: string)
    requires IsAsciiString(s)
    ensures |Utf8(s)| == |s|
    ensures forall i | 0 <= i < |s| :: Utf8(s)[i] == s[i] as int
    decreases |s|
  {
    if |s| > 0 {
      Utf8Ascii(s[1..]);
    }
  }

  // ---------------------------------------------------------------------
  // ISO-8859-1: one byte, one char
  // ---------------------------------------------------------------------

  /** Appending `(char) b` for each byte read. */
  function Latin1(bs: seq<Byte>): (s: string)
    ensures |s| == |bs|
    ensures forall i | 0 <= i < |bs| :: s[i] as int == bs[i]
  {
    seq(|bs|, i requires 0 <= i < |bs| => bs[i] as char)
  }

  /** Latin-1 is injective: different byte strings decode to different text. */
  lemma Latin1Injective(a: seq<Byte>, b: seq<Byte>)
    requires Latin1(a) == Latin1(b)
    ensures a == b
  {
    assert |a| == |b|;
    forall i | 0 <= i < |a|
      ensures a[i] == b[i]
    {
      assert Latin1(a)[i] == Latin1(b)[i];
    }
  }

  lemma Latin1Append(a: seq<Byte>, b: seq<Byte>)
    ensures Latin1(a + b) == Latin1(a) + Latin1(b)
  {
  }

  /** Each byte at or above 0x80 becomes two bytes after the Latin-1 / UTF-8 trip. */
  lemma {:induction false} ReencodeLength(bs: seq<Byte>)
    ensures |Utf8(Latin1(bs))| == |bs| + HighCount(bs)
    decreases |bs|
  {
    if |bs| > 0 {
      assert Latin1(bs)[1..] == Latin1(bs[1..]);
      ReencodeLength(bs[1..]);
    }
  }

  /**
   * Decoding as Latin-1 then encoding as UTF-8 reproduces the bytes exactly
   * when, and only when, every byte is ASCII.
   */
  lemma {:induction false} ReencodeIdentityIff(bs: seq<Byte>)
    ensures Utf8(Latin1(bs)) == bs <==> AllAscii(bs)
    decreases |bs|
  {
    ReencodeLength(bs);
    if AllAscii(bs) && |bs| > 0 {
      assert Latin1(bs)[1..] == Latin1(bs[1..]);
      ReencodeIdentityIff(bs[1..]);
    }
  }

  /** Example: 0xE9 ("é" in Latin-1) leaves the relay as 0xC3 0xA9. */
  lemma ReencodeExample()
    ensures Utf8(Latin1([0xE9])) == [0xC3, 0xA9]
  {
    assert Latin1([0xE9]) == ['é'];
  }

  /** Example: the UTF-8 bytes of "alice:secret". */
  lemma Utf8Example(s: string)
    requires s == "alice:secret"
    ensures Utf8(s) == [97, 108, 105, 99, 101, 58, 115, 101, 99, 114, 101, 116]
  {
    Utf8Ascii(s);
  }
}

=== FILE: claude_api_client.dfy ===
/**
 * ClaudeApiClient: the HTTP fallback that talks to the Messages API and
 * folds its server-sent-event stream into chat events, keeping the
 * conversation history it resends with every request.
 *
 * The connection is left out: a request's outcome is given as a value
 * (an exception's message, or a status code with the error text or the
 * stream's lines), and `JSONObject(data)` is a parameter.
 */
module ClaudeApiClient {
  import opened Wrappers
  import opened Strings
  import opened Json
  import Cli = ClaudeCliClient

  const DATA_PREFIX: string := "data: "
  const DONE: string := "[DONE]"
  const MAX_TOKENS: int := 4096
  const API_VERSION: string := "2023-06-01"

  /** One history entry: {role, content}. */
  datatype Entry = Entry(role: string, content: string)

  datatype Client = Client(apiKey: string, baseUrl: string, model: string, history: seq<Entry>)

  /**
   * What the HTTP exchange gave: an exception before any answer, or a status
   * code with the error body's text and the lines read from the stream.
   * `failure` is None when readLine reached the end after `lines`, and
   * Some(message) when the next readLine threw.
   */
  datatype Exchange =
    | Threw(message: Option<string>)
    | Answered(code: int, errorText: string, lines: seq<string>, failure: Option<Option<string>>)

  predicate IsSlash(c: char) { c == '/' }

  /** configure(apiKey, baseUrl, model): every trailing '/' is dropped from the base URL. */
  function Configure(c: Client, apiKey: string, baseUrl: string, model: string): (r: Client)
    ensures r.apiKey == apiKey && r.model == model && r.history == c.history
    ensures !EndsWith(r.baseUrl, "/")
    ensures StartsWith(baseUrl, r.baseUrl)
    ensures forall i | |r.baseUrl| <= i < |baseUrl| :: baseUrl[i] == '/'
  {
    var trimmed := TrimEnd(baseUrl, IsSlash);
    assert |trimmed| > 0 ==> trimmed[|trimmed| - 1..] == [trimmed[|trimmed| - 1]];
    c.(apiKey := apiKey, baseUrl := trimmed, model := model)
  }

  /** Trimming the base URL again changes nothing. */
  lemma ConfigureIdempotent(c: Client, apiKey: string, baseUrl: string, model: string)
    ensures var once := Configure(c, apiKey, baseUrl, model);
      Configure(once, apiKey, once.baseUrl, model) == once
  {
    var t := TrimEnd(baseUrl, IsSlash);
    if |t| > 0 {
      assert !IsSlash(t[|t| - 1]);
    }
  }

  /** isConfigured(): an API key that is not blank. */
  predicate IsConfigured(c: Client) {
    !IsBlank(c.apiKey)
  }

  /** Reads a history entry back from its JSON object: its role and content texts. */
  function ReadEntry(v: Json): Option<Entry> {
    if !v.JObject? then None
    else match (GetString(v.fields, "role"), GetString(v.fields, "content"))
      case (Some(role), Some(content)) => Some(Entry(role, content))
      case _ => None
  }

  /** The request body: the whole history, streamed. */
  function RequestBody(c: Client): (o: Fields)
    ensures o.Keys == {"model", "max_tokens", "stream", "messages"}
    ensures o["messages"].JArray? && |o["messages"].items| == |c.history|
    ensures o["stream"] == JBool(true)
    ensures o["model"] == JString(c.model) && o["max_tokens"] == JInt(MAX_TOKENS)
    ensures forall i | 0 <= i < |c.history| ::
              o["messages"].items[i].JObject? && o["messages"].items[i].fields.Keys == {"role", "content"}
              && ReadEntry(o["messages"].items[i]) == Some(c.history[i])
  {
    map["model" := JString(c.model), "max_tokens" := JInt(MAX_TOKENS), "stream" := JBool(true),
        "messages" := JArray(seq(|c.history|, i requires 0 <= i < |c.history| =>
          JObject(map["role" := JString(c.history[i].role), "content" := JString(c.history[i].content)])))]
  }

  // ---------------------------------------------------------------------
  // The event stream
  // ---------------------------------------------------------------------

  /** The fold's state: events sent, text accumulated, history. */
  datatype Fold = Fold(events: seq<Cli.Event>, text: string, history: seq<Entry>)

  /** What one SSE data payload does to the fold. */
  function Step(f: Fold, event: Fields): (r: Fold)
    ensures |f.events| <= |r.events| <= |f.events| + 1 && r.events[..|f.events|] == f.events
  {
    match OptString(event, "type", "")
    case "content_block_delta" =>
      var t := match OptObject(event, "delta") case Some(d) => OptString(d, "text", "") case None => "";
      if t != "" then Fold(f.events + [Cli.TextDelta(t)], f.text + t, f.history) else f
    case "message_stop" =>
      Fold(f.events + [Cli.MessageEnd], f.text, f.history + [Entry("assistant", f.text)])
    case "error" =>
      var m := match OptObject(event, "error") case Some(e) => OptString(e, "message", "Unknown error") case None => "Unknown error";
      Fold(f.events + [Cli.Error(m)], f.text, f.history)
    case _ => f
  }

  /**
   * The read loop: only "data: " lines count, "[DONE]" ends the stream, and
   * a payload that does not parse is skipped.
   */
  function SseFold(f: Fold, lines: seq<string>, parse: string -> Option<Fields>): (r: Fold)
    ensures |r.events| >= |f.events| && r.events[..|f.events|] == f.events
    decreases |lines|
  {
    if |lines| == 0 then f
    else if !StartsWith(lines[0], DATA_PREFIX) then SseFold(f, lines[1..], parse)
    else
      var data := lines[0][|DATA_PREFIX|..];
      if data == DONE then f
      else match parse(data)
        case None => SseFold(f, lines[1..], parse)
        case Some(event) => SseFold(Step(f, event), lines[1..], parse)
  }

  /** The text of the deltas among some events, in order. */
  function DeltaText(events: seq<Cli.Event>): (t: string)
    decreases |events|
  {
    if |events| == 0 then ""
    else (if events[0].TextDelta? then events[0].delta else "") + DeltaText(events[1..])
  }

  /**
   * An independent reading of the same stream: replaying the sent events,
   * each end of message records the text of every delta sent before it.
   */
  function Replay(events: seq<Cli.Event>, text: string, history: seq<Entry>): (h: seq<Entry>)
    ensures |h| >= |history| && h[..|history|] == history
    decreases |events|
  {
    if |events| == 0 then history
    else match events[0]
      case TextDelta(t) => Replay(events[1..], text + t, history)
      case MessageEnd => Replay(events[1..], text, history + [Entry("assistant", text)])
      case _ => Replay(events[1..], text, history)
  }

  lemma DeltaTextAppend(events: seq<Cli.Event>, e: Cli.Event)
    ensures DeltaText(events + [e]) == DeltaText(events) + (if e.TextDelta? then e.delta else "")
    decreases |events|
  {
    if |events| > 0 {
      assert (events + [e])[1..] == events[1..] + [e];
      DeltaTextAppend(events[1..], e);
    }
  }

  /** What one more event adds to a replayed history, given the text of the deltas before it. */
  function Recorded(h: seq<Entry>, t: string, e: Cli.Event): seq<Entry> {
    if e.MessageEnd? then h + [Entry("assistant", t)] else h
  }

  lemma {:induction false} ReplayAppend(events: seq<Cli.Event>, e: Cli.Event, text: string, history: seq<Entry>)
    ensures Replay(events + [e], text, history)
            == Recorded(Replay(events, text, history), text + DeltaText(events), e)
    decreases |events|
  {
    if |events| == 0 {
      assert events + [e] == [e] && [e][1..] == [];
      assert text + DeltaText(events) == text;
    } else {
      var rest := events[1..];
      assert (events + [e])[1..] == rest + [e] && (events + [e])[0] == events[0];
      if events[0].TextDelta? {
        var t := events[0].delta;
        assert text + DeltaText(events) == (text + t) + DeltaText(rest);
        ReplayAppend(rest, e, text + t, history);
      } else {
        assert DeltaText(events) == DeltaText(rest);
        if events[0].MessageEnd? {
          ReplayAppend(rest, e, text, history + [Entry("assistant", text)]);
        } else {
          ReplayAppend(rest, e, text, history);
        }
      }
    }
  }

  /** A fold whose text and history agree with its events. */
  predicate Agrees(f: Fold, text0: string, history0: seq<Entry>) {
    f.text == text0 + DeltaText(f.events) && f.history == Replay(f.events, text0, history0)
  }

  lemma StepAgrees(f: Fold, event: Fields, text0: string, history0: seq<Entry>)
    requires Agrees(f, text0, history0)
    ensures Agrees(Step(f, event), text0, history0)
  {
    var r := Step(f, event);
    if |r.events| > |f.events| {
      var e := r.events[|f.events|];
      assert r.events == f.events + [e];
      DeltaTextAppend(f.events, e);
      ReplayAppend(f.events, e, text0, history0);
    } else {
      assert r.events == f.events;
    }
  }

  lemma {:induction false} SseFoldAgrees(f: Fold, lines: seq<string>, parse: string -> Option<Fields>,
                                         text0: string, history0: seq<Entry>)
    requires Agrees(f, text0, history0)
    ensures Agrees(SseFold(f, lines, parse), text0, history0)
    decreases |lines|
  {
    if |lines| > 0 && StartsWith(lines[0], DATA_PREFIX) {
      var data := lines[0][|DATA_PREFIX|..];
      if data != DONE {
        match parse(data)
        case None => SseFoldAgrees(f, lines[1..], parse, text0, history0);
        case Some(event) =>
          StepAgrees(f, event, text0, history0);
          SseFoldAgrees(Step(f, event), lines[1..], parse, text0, history0);
      }
    } else if |lines| > 0 {
      SseFoldAgrees(f, lines[1..], parse, text0, history0);
    }
  }

  /** Nothing after "[DONE]" is read. */
  lemma {:induction false} DoneStops(f: Fold, before: seq<string>, after: seq<string>, parse: string -> Option<Fields>)
    ensures SseFold(f, before + [DATA_PREFIX + DONE] + after, parse)
            == SseFold(f, before + [DATA_PREFIX + DONE], parse)
    decreases |before|
  {
    if |before| == 0 {
      var line := DATA_PREFIX + DONE;
      assert ([line] + after)[0] == line && [line][0] == line;
      assert line[..|DATA_PREFIX|] == DATA_PREFIX && line[|DATA_PREFIX|..] == DONE;
    } else {
      assert (before + [DATA_PREFIX + DONE] + after)[1..] == before[1..] + [DATA_PREFIX + DONE] + after;
      assert (before + [DATA_PREFIX + DONE])[1..] == before[1..] + [DATA_PREFIX + DONE];
      var head := before[0];
      if StartsWith(head, DATA_PREFIX) && head[|DATA_PREFIX|..] != DONE {
        match parse(head[|DATA_PREFIX|..])
        case None => DoneStops(f, before[1..], after, parse);
        case Some(event) => DoneStops(Step(f, event), before[1..], after, parse);
      } else if !StartsWith(head, DATA_PREFIX) {
        DoneStops(f, before[1..], after, parse);
      }
    }
  }

  /** Whether the stream holds the "[DONE]" line, which ends the read loop. */
  predicate SawDone(lines: seq<string>) {
    exists i | 0 <= i < |lines| :: lines[i] == DATA_PREFIX + DONE
  }

  /** A read failure is only reached when the loop did not stop at "[DONE]". */
  function FailureEvents(lines: seq<string>, failure: Option<Option<string>>): (evs: seq<Cli.Event>)
    ensures failure.None? || SawDone(lines) ==> evs == []
    ensures failure.Some? && !SawDone(lines) ==> evs == [Cli.Error("Request failed: " + failure.value.GetOr("null"))]
  {
    if failure.Some? && !SawDone(lines) then [Cli.Error("Request failed: " + failure.value.GetOr("null"))] else []
  }

  /** The failure's error event records nothing in a replayed history. */
  lemma ReplayIgnoresFailure(evs: seq<Cli.Event>, lines: seq<string>, failure: Option<Option<string>>, h: seq<Entry>)
    ensures Replay(evs + FailureEvents(lines, failure), "", h) == Replay(evs, "", h)
  {
    var tail := FailureEvents(lines, failure);
    if tail == [] {
      assert evs + tail == evs;
    } else {
      assert tail == [tail[0]] && !tail[0].MessageEnd?;
      ReplayAppend(evs, tail[0], "", h);
    }
  }

  // ---------------------------------------------------------------------
  // chat and clearHistory
  // ---------------------------------------------------------------------

  /**
   * chat(userMessage): the events sent, and the client afterwards. The
   * user message joins the history before the request goes out.
   */
  function Chat(c: Client, userMessage: string, exchange: Exchange, parse: string -> Option<Fields>)
    : (r: (seq<Cli.Event>, Client))
    ensures !IsConfigured(c) ==> r == ([Cli.Error("API key not configured")], c)
    ensures IsConfigured(c) ==>
              |r.1.history| > |c.history| && r.1.history[..|c.history| + 1] == c.history + [Entry("user", userMessage)]
    ensures IsConfigured(c) && exchange.Answered? && exchange.code != 200 ==>
              r.0 == [Cli.Error("API error (" + IntToString(exchange.code) + "): " + exchange.errorText)]
              && r.1.history == c.history + [Entry("user", userMessage)]
    ensures IsConfigured(c) && exchange.Threw? ==>
              r.0 == [Cli.Error("Request failed: " + exchange.message.GetOr("null"))]
    ensures IsConfigured(c) && exchange.Answered? && exchange.code == 200 ==>
              |r.0| >= 1 && r.0[0] == Cli.MessageStart("")
              && r.1.history == Replay(r.0[1..], "", c.history + [Entry("user", userMessage)])
    ensures IsConfigured(c) && exchange.Answered? && exchange.code == 200
            && exchange.failure.Some? && !SawDone(exchange.lines) ==>
              r.0[|r.0| - 1] == Cli.Error("Request failed: " + exchange.failure.value.GetOr("null"))
    ensures r.1.apiKey == c.apiKey && r.1.baseUrl == c.baseUrl && r.1.model == c.model
  {
    if !IsConfigured(c) then ([Cli.Error("API key not configured")], c)
    else
      var asked := c.(history := c.history + [Entry("user", userMessage)]);
      match exchange
      case Threw(m) => ([Cli.Error("Request failed: " + m.GetOr("null"))], asked)
      case Answered(code, errorText, lines, failure) =>
        if code != 200 then ([Cli.Error("API error (" + IntToString(code) + "): " + errorText)], asked)
        else
          var start := Fold([Cli.MessageStart("")], "", asked.history);
          assert Agrees(start, "", asked.history) by {
            assert start.events[1..] == [];
            assert Replay(start.events, "", asked.history) == Replay(start.events[1..], "", asked.history);
          }
          var f := SseFold(start, lines, parse);
          SseFoldAgrees(start, lines, parse, "", asked.history);
          var events := f.events + FailureEvents(lines, failure);
          assert events[1..] == f.events[1..] + FailureEvents(lines, failure);
          ReplayIgnoresFailure(f.events[1..], lines, failure, asked.history);
          assert Replay(f.events, "", asked.history) == Replay(f.events[1..], "", asked.history);
          (events, asked.(history := f.history))
  }

  /**
   * A stream that breaks after some lines sends what those lines gave, then
   * "Request failed: …", and keeps whatever history they recorded; a stream
   * that already gave "[DONE]" never reads far enough to fail.
   */
  lemma StreamFailureAppendsError(c: Client, userMessage: string, code: int, errorText: string, lines: seq<string>,
                                  m: Option<string>, parse: string -> Option<Fields>)
    requires IsConfigured(c) && code == 200
    ensures var ok := Chat(c, userMessage, Answered(code, errorText, lines, None), parse);
      var broken := Chat(c, userMessage, Answered(code, errorText, lines, Some(m)), parse);
      broken.1 == ok.1
      && (!SawDone(lines) ==> broken.0 == ok.0 + [Cli.Error("Request failed: " + m.GetOr("null"))])
      && (SawDone(lines) ==> broken.0 == ok.0)
  {
    var asked := c.(history := c.history + [Entry("user", userMessage)]);
    var f := SseFold(Fold([Cli.MessageStart("")], "", asked.history), lines, parse);
    assert Chat(c, userMessage, Answered(code, errorText, lines, None), parse) == (f.events + [], asked.(history := f.history));
    assert f.events + [] == f.events;
  }

  /** One streamed reply: its deltas, then message_stop, record one assistant entry holding all of them. */
  lemma OneReplyRecorded(c: Client, userMessage: string, deltas: seq<string>, parse: string -> Option<Fields>)
    requires IsConfigured(c)
    requires |deltas| > 0 && forall i | 0 <= i < |deltas| :: deltas[i] != ""
    ensures var evs := seq(|deltas|, i requires 0 <= i < |deltas| => Cli.TextDelta(deltas[i])) + [Cli.MessageEnd];
      Replay(evs, "", c.history + [Entry("user", userMessage)])
        == c.history + [Entry("user", userMessage), Entry("assistant", DeltaText(evs))]
  {
    var h := c.history + [Entry("user", userMessage)];
    var ds := seq(|deltas|, i requires 0 <= i < |deltas| => Cli.TextDelta(deltas[i]));
    ReplayAppend(ds, Cli.MessageEnd, "", h);
    DeltaTextAppend(ds, Cli.MessageEnd);
    ReplayDeltasOnly(ds, "", h);
    assert "" + DeltaText(ds) == DeltaText(ds);
    assert DeltaText(ds) + "" == DeltaText(ds);
  }

  /** Replaying deltas alone records nothing. */
  lemma {:induction false} ReplayDeltasOnly(ds: seq<Cli.Event>, text: string, h: seq<Entry>)
    requires forall i | 0 <= i < |ds| :: ds[i].TextDelta?
    ensures Replay(ds, text, h) == h
    decreases |ds|
  {
    if |ds| > 0 {
      ReplayDeltasOnly(ds[1..], text + ds[0].delta, h);
    }
  }

  /** clearHistory(). */
  function ClearHistory(c: Client): (r: Client)
    ensures r.history == [] && r.apiKey == c.apiKey && r.baseUrl == c.baseUrl && r.model == c.model
  {
    c.(history := [])
  }
}

=== FILE: claude_cli_client.dfy ===
/**
 * ClaudeCliClient: runs the `claude` command-line program and turns its
 * stream-json output into chat events. Modelled are the event type, the
 * line parser `parseAndEmit`, the tool-result message, the session
 * argument list and environment, the stdout event stream, and `close`.
 *
 * The process itself is left out; a line reaches the parser together with
 * what `JSONObject(line)` makes of it (None when it throws), and the text
 * org.json renders for a nested value is a parameter.
 */
module ClaudeCliClient {
  import opened Wrappers
  import opened Strings
  import opened Json

  const PREFIX_PATH: string := "/data/data/com.anthroid/files/usr"
  const CLAUDE_PATH: string := PREFIX_PATH + "/bin/claude"

  /** The "type" values parseAndEmit understands. */
  const EVENT_TYPES: set<string> := {"text", "text_delta", "tool_use", "message_start", "message_end", "error"}

  /** ClaudeEvent. */
  datatype Event =
    | MessageStart(messageId: string)
    | Text(content: string)
    | TextDelta(delta: string)
    | ToolUse(id: string, name: string, input: string)
    | MessageEnd
    | Error(message: string)
    | SessionEnded(exitCode: int)

  /** optString(key, fallback) when nested values are rendered as their JSON text. */
  function OptText(o: Fields, key: string, fallback: string, render: Json -> string): (t: string)
    ensures key !in o ==> t == fallback
    ensures key in o && o[key].JString? ==> t == o[key].s
    ensures key in o && (o[key].JObject? || o[key].JArray?) ==> t == render(o[key])
  {
    if key in o && (o[key].JObject? || o[key].JArray?) then render(o[key]) else OptString(o, key, fallback)
  }

  /** A non-blank line that parsed as an object whose "type" is `t`. */
  predicate JsonOfType(line: string, parsed: Option<Fields>, t: string) {
    !IsBlank(line) && parsed.Some? && OptString(parsed.value, "type", "") == t
  }

  /**
   * parseAndEmit(line): nothing for a blank line, the line itself as text
   * when it is not a JSON object, and otherwise the event its "type" names
   * (nothing for an unknown type).
   */
  function ParseAndEmit(line: string, parsed: Option<Fields>, render: Json -> string): (r: Option<Event>)
    ensures IsBlank(line) ==> r.None?
    ensures !IsBlank(line) && parsed.None? ==> r == Some(Text(line))
    ensures !IsBlank(line) && parsed.Some? ==>
              (r.None? <==> OptString(parsed.value, "type", "") !in EVENT_TYPES)
    ensures JsonOfType(line, parsed, "error") ==>
              r == Some(Error(OptString(parsed.value, "message", "Unknown error")))
    ensures JsonOfType(line, parsed, "text") ==> r == Some(Text(OptString(parsed.value, "content", "")))
    ensures JsonOfType(line, parsed, "text_delta") ==> r == Some(TextDelta(OptString(parsed.value, "content", "")))
    ensures JsonOfType(line, parsed, "tool_use") ==>
              r == Some(ToolUse(OptString(parsed.value, "id", ""), OptString(parsed.value, "name", ""),
                                OptText(parsed.value, "input", "", render)))
    ensures JsonOfType(line, parsed, "message_start") ==>
              r == Some(MessageStart(OptString(parsed.value, "message_id", "")))
    ensures JsonOfType(line, parsed, "message_end") ==> r == Some(MessageEnd)
  {
    if IsBlank(line) then None
    else match parsed
      case None => Some(Text(line))
      case Some(json) =>
        match OptString(json, "type", "")
        case "text" => Some(Text(OptString(json, "content", "")))
        case "text_delta" => Some(TextDelta(OptString(json, "content", "")))
        case "tool_use" =>
          Some(ToolUse(OptString(json, "id", ""), OptString(json, "name", ""), OptText(json, "input", "", render)))
        case "message_start" => Some(MessageStart(OptString(json, "message_id", "")))
        case "message_end" => Some(MessageEnd)
        case "error" => Some(Error(OptString(json, "message", "Unknown error")))
        case _ => None
  }

  /** A JSON line with no "content" gives empty text; an error with no "message" gives "Unknown error". */
  lemma ParseDefaults(line: string, json: Fields, render: Json -> string)
    requires !IsBlank(line) && "content" !in json && "message" !in json
    ensures OptString(json, "type", "") == "text_delta" ==> ParseAndEmit(line, Some(json), render) == Some(TextDelta(""))
    ensures OptString(json, "type", "") == "text" ==> ParseAndEmit(line, Some(json), render) == Some(Text(""))
    ensures OptString(json, "type", "") == "error" ==> ParseAndEmit(line, Some(json), render) == Some(Error("Unknown error"))
  {
  }

  /** The events a run of stdout lines produces, in order. */
  function StdoutEvents(lines: seq<string>, parse: string -> Option<Fields>, render: Json -> string): (r: seq<Event>)
    ensures |r| <= |lines|
    ensures (forall i | 0 <= i < |lines| :: IsBlank(lines[i])) ==> r == []
    decreases |lines|
  {
    if |lines| == 0 then []
    else
      var head := ParseAndEmit(lines[0], parse(lines[0]), render);
      (if head.Some? then [head.value] else []) + StdoutEvents(lines[1..], parse, render)
  }

  /** Every line that is not JSON becomes exactly one text event carrying it. */
  lemma {:induction false} PlainLinesAreText(lines: seq<string>, parse: string -> Option<Fields>, render: Json -> string)
    requires forall i | 0 <= i < |lines| :: !IsBlank(lines[i]) && parse(lines[i]).None?
    ensures StdoutEvents(lines, parse, render) == seq(|lines|, i requires 0 <= i < |lines| => Text(lines[i]))
    decreases |lines|
  {
    if |lines| > 0 {
      PlainLinesAreText(lines[1..], parse, render);
    }
  }

  /** sendToolResponse(id, result): the line written to the process. */
  function ToolResponse(toolUseId: string, result: string): (o: Fields)
    ensures o.Keys == {"type", "tool_use_id", "content"}
    ensures GetString(o, "type") == Some("tool_result")
    ensures GetString(o, "tool_use_id") == Some(toolUseId) && GetString(o, "content") == Some(result)
  {
    map["type" := JString("tool_result"), "tool_use_id" := JString(toolUseId), "content" := JString(result)]
  }

  /** startSession(conversationId): the command line. */
  function SessionArgs(conversationId: Option<string>): (args: seq<string>)
    ensures |args| >= 3 && args[..3] == [CLAUDE_PATH, "--output-format", "stream-json"]
    ensures conversationId.None? ==> |args| == 3
    ensures conversationId.Some? ==> args[3..] == ["--conversation", conversationId.value]
  {
    [CLAUDE_PATH, "--output-format", "stream-json"]
      + (match conversationId case None => [] case Some(id) => ["--conversation", id])
  }

  /** buildEnvironment(): everything points into the app's prefix. */
  function Environment(): (env: map<string, string>)
    ensures env.Keys == {"HOME", "PREFIX", "PATH", "LD_LIBRARY_PATH", "TMPDIR", "LANG", "TERM"}
    ensures env["PREFIX"] == PREFIX_PATH
    ensures forall k | k in env && k !in {"LANG", "TERM"} :: StartsWith(env[k], PREFIX_PATH)
  {
    var m := map["HOME" := PREFIX_PATH + "/../home", "PREFIX" := PREFIX_PATH, "PATH" := PREFIX_PATH + "/bin",
                 "LD_LIBRARY_PATH" := PREFIX_PATH + "/lib", "TMPDIR" := PREFIX_PATH + "/tmp",
                 "LANG" := "en_US.UTF-8", "TERM" := "xterm-256color"];
    assert (PREFIX_PATH + "/../home")[..|PREFIX_PATH|] == PREFIX_PATH;
    assert (PREFIX_PATH + "/bin")[..|PREFIX_PATH|] == PREFIX_PATH;
    assert (PREFIX_PATH + "/lib")[..|PREFIX_PATH|] == PREFIX_PATH;
    assert (PREFIX_PATH + "/tmp")[..|PREFIX_PATH|] == PREFIX_PATH;
    m
  }

  /** The client's process handles. */
  datatype Client = Client(process: Option<int>, writer: Option<int>)

  /**
   * close(): the handles are dropped whether or not closing them throws;
   * an exception from closing is logged and swallowed, so it does not show.
   */
  function Close(c: Client): (r: Client)
    ensures r.process.None? && r.writer.None?
  {
    c.(process := None, writer := None)
  }
}

=== FILE: claude_view_model.dfy ===
/**
 * ClaudeViewModel: the chat screen's state and how user actions and the
 * events of a session change it.
 *
 * Message and image ids are UUIDs in the application; here a message id is
 * drawn from a counter (`nextId`), which makes every new id fresh. The
 * clock, the CLI's availability and the parsing of a tool's input are
 * parameters; a running session is the sequence of events it delivers.
 */
module ClaudeViewModel {
  import opened Wrappers
  import opened Strings
  import opened Json
  import Seqs
  import Cli = ClaudeCliClient
  import Api = ClaudeApiClient
  import Conv = ConversationManager
  import Tools = AndroidTools

  const VOICE_NOTE: string :=
    "\n[Note: This message was transcribed from voice input using speech recognition. "
    + "Please be tolerant of potential transcription errors.]"
  const IMAGES_UNSUPPORTED: string := "Images require Claude CLI or API key to be configured"
  const RESULT_HEADER: string := "\n\n\U{1F4E4} Result:\n"
  const RESULT_PREVIEW: nat := 500
  const MCP_PREFIX: string := "mcp__"

  /** The tools the view model runs itself, by lower-cased name. */
  const BUILTIN_TOOLS: set<string> :=
    {"run_termux", "bash", "read", "write", "read_terminal", "read_clipboard", "write_clipboard"}

  datatype Role = User | Assistant | System | Tool

  datatype Image = Image(id: string, uri: string, mimeType: string)

  datatype Message = Message(
    id: nat, role: Role, content: string, timestamp: int,
    isStreaming: bool, isError: bool, isInterrupted: bool,
    toolName: Option<string>, toolInput: Option<string>, images: seq<Image>)

  function NewMessage(id: nat, role: Role, content: string, now: int): (m: Message)
    ensures m.id == id && m.role == role && m.content == content && m.timestamp == now
    ensures !m.isStreaming && !m.isError && !m.isInterrupted && m.toolName.None? && m.images == []
  {
    Message(id, role, content, now, false, false, false, None, None, [])
  }

  datatype ViewModel = ViewModel(
    messages: seq<Message>,
    response: string,
    processing: bool,
    error: Option<string>,
    installed: bool,
    pendingImages: seq<Image>,
    useCli: bool,
    streamingId: Option<nat>,
    nextId: nat,
    api: Api.Client)

  /** Every id is below the counter and no two messages share one. */
  predicate Wf(vm: ViewModel) {
    && (forall i | 0 <= i < |vm.messages| :: vm.messages[i].id < vm.nextId)
    && (forall i, j | 0 <= i < j < |vm.messages| :: vm.messages[i].id != vm.messages[j].id)
    && (vm.streamingId.Some? ==> vm.streamingId.value < vm.nextId)
  }

  // ---------------------------------------------------------------------
  // Editing the message list
  // ---------------------------------------------------------------------

  /** The changes the view model makes to one message. */
  datatype Change =
    | SetContent(content: string)
    | Finish
    | Interrupt
    | ShowFailure(content: string)
    | TimeOut

  function Apply(m: Message, c: Change): (r: Message)
    ensures r.id == m.id && r.role == m.role && r.toolName == m.toolName
    ensures !c.SetContent? ==> !r.isStreaming
  {
    match c
    case SetContent(s) => m.(content := s)
    case Finish => m.(isStreaming := false)
    case Interrupt => m.(isStreaming := false, isInterrupted := true)
    case ShowFailure(s) => m.(content := s, isStreaming := false, isError := true)
    case TimeOut => m.(isStreaming := false, isError := true)
  }

  /** `map { if (it.id == id) change(it) else it }`. */
  function Patch(msgs: seq<Message>, id: nat, c: Change): (r: seq<Message>)
    ensures |r| == |msgs|
    ensures forall i | 0 <= i < |msgs| :: r[i] == (if msgs[i].id == id then Apply(msgs[i], c) else msgs[i])
  {
    seq(|msgs|, i requires 0 <= i < |msgs| => if msgs[i].id == id then Apply(msgs[i], c) else msgs[i])
  }

  predicate HasId(msgs: seq<Message>, id: nat) {
    exists i | 0 <= i < |msgs| :: msgs[i].id == id
  }

  /** `find { it.id == id }`. */
  function FindById(msgs: seq<Message>, id: nat): (r: Option<Message>)
    ensures r.Some? ==> r.value in msgs && r.value.id == id
    ensures r.None? ==> !HasId(msgs, id)
    decreases |msgs|
  {
    if |msgs| == 0 then None
    else if msgs[0].id == id then Some(msgs[0])
    else
      var rest := FindById(msgs[1..], id);
      assert forall i | 1 <= i < |msgs| :: msgs[i] == msgs[1..][i - 1];
      rest
  }

  function WithoutId(msgs: seq<Message>, id: Option<nat>): (r: seq<Message>)
    ensures id.Some? ==> !HasId(r, id.value)
    ensures forall m | m in msgs && Some(m.id) != id :: m in r
    ensures Seqs.IsSubsequence(r, msgs)
  {
    Seqs.FilterIsSubsequence(msgs, (m: Message) => Some(m.id) != id);
    Seqs.Filter(msgs, (m: Message) => Some(m.id) != id)
  }


  predicate DistinctIds(msgs: seq<Message>) {
    forall i, j | 0 <= i < j < |msgs| :: msgs[i].id != msgs[j].id
  }

  /** Dropping messages keeps the ids distinct. */
  lemma {:induction false} FilterKeepsDistinct(msgs: seq<Message>, keep: Message -> bool)
    requires DistinctIds(msgs)
    ensures DistinctIds(Seqs.Filter(msgs, keep))
    decreases |msgs|
  {
    if |msgs| > 0 {
      var tail := msgs[1..];
      assert DistinctIds(tail) by {
        forall i, j | 0 <= i < j < |tail| ensures tail[i].id != tail[j].id {
          assert tail[i] == msgs[i + 1] && tail[j] == msgs[j + 1];
        }
      }
      FilterKeepsDistinct(tail, keep);
      if keep(msgs[0]) {
        var rest := Seqs.Filter(tail, keep);
        var r := [msgs[0]] + rest;
        forall j | 0 <= j < |rest| ensures rest[j].id != msgs[0].id {
          assert rest[j] in tail;
          var k :| 0 <= k < |tail| && tail[k] == rest[j];
          assert tail[k] == msgs[k + 1];
        }
        forall i, j | 0 <= i < j < |r| ensures r[i].id != r[j].id {
          assert r[j] == rest[j - 1];
          if i > 0 {
            assert r[i] == rest[i - 1];
          }
        }
      }
    }
  }

  /** Removing one id keeps the view model well formed. */
  lemma WithoutIdKeepsWf(vm: ViewModel, id: Option<nat>)
    ensures Wf(vm) ==> Wf(vm.(messages := WithoutId(vm.messages, id)))
  {
    if Wf(vm) {
      FilterKeepsDistinct(vm.messages, (m: Message) => Some(m.id) != id);
    }
  }

  // ---------------------------------------------------------------------
  // Availability and pending images
  // ---------------------------------------------------------------------

  /**
   * checkClaudeInstallation(): the API is preferred when configured; the
   * CLI is used only without it.
   */
  function CheckInstallation(vm: ViewModel, cliAvailable: bool): (r: ViewModel)
    ensures r.useCli <==> cliAvailable && !Api.IsConfigured(vm.api)
    ensures r.installed <==> cliAvailable || Api.IsConfigured(vm.api)
    ensures r == vm.(useCli := r.useCli, installed := r.installed)
  {
    var useCli := cliAvailable && !Api.IsConfigured(vm.api);
    vm.(useCli := useCli, installed := useCli || Api.IsConfigured(vm.api))
  }

  /** configureApi(apiKey, baseUrl, model), then the availability check. */
  function ConfigureApi(vm: ViewModel, apiKey: string, baseUrl: string, model: string, cliAvailable: bool)
    : (r: ViewModel)
    ensures r.installed <==> cliAvailable || !IsBlank(apiKey)
    ensures r.useCli <==> cliAvailable && IsBlank(apiKey)
    ensures r.api.apiKey == apiKey && r.api.history == vm.api.history
    ensures r.messages == vm.messages && r.streamingId == vm.streamingId
  {
    CheckInstallation(vm.(api := Api.Configure(vm.api, apiKey, baseUrl, model)), cliAvailable)
  }

  function AddPendingImage(vm: ViewModel, image: Image): (r: ViewModel)
    ensures r.pendingImages == vm.pendingImages + [image]
    ensures r.messages == vm.messages
  {
    vm.(pendingImages := vm.pendingImages + [image])
  }

  /** removePendingImage(id): every image with that id goes, the rest stay in order. */
  function RemovePendingImage(vm: ViewModel, imageId: string): (r: ViewModel)
    ensures forall im | im in r.pendingImages :: im.id != imageId
    ensures forall im | im in vm.pendingImages && im.id != imageId :: im in r.pendingImages
    ensures Seqs.IsSubsequence(r.pendingImages, vm.pendingImages)
    ensures |r.pendingImages| == |vm.pendingImages| - Seqs.Count(vm.pendingImages, (im: Image) => im.id == imageId)
    ensures r.messages == vm.messages
  {
    var keep := (im: Image) => im.id != imageId;
    Seqs.FilterIsSubsequence(vm.pendingImages, keep);
    CountComplement(vm.pendingImages, imageId);
    vm.(pendingImages := Seqs.Filter(vm.pendingImages, keep))
  }

  lemma {:induction false} CountComplement(xs: seq<Image>, imageId: string)
    ensures |Seqs.Filter(xs, (im: Image) => im.id != imageId)|
            == |xs| - Seqs.Count(xs, (im: Image) => im.id == imageId)
    decreases |xs|
  {
    if |xs| > 0 {
      CountComplement(xs[1..], imageId);
    }
  }

  function ClearPendingImages(vm: ViewModel): (r: ViewModel)
    ensures r.pendingImages == [] && r.messages == vm.messages
  {
    vm.(pendingImages := [])
  }

  // ---------------------------------------------------------------------
  // sendMessage
  // ---------------------------------------------------------------------

  /** The text stored for the user: a voice note is appended to spoken, non-blank input. */
  function MessageContent(content: string, isFromVoice: bool): (r: string)
    ensures isFromVoice && !IsBlank(content) ==> r == content + VOICE_NOTE
    ensures !(isFromVoice && !IsBlank(content)) ==> r == content
  {
    if isFromVoice && !IsBlank(content) then content + VOICE_NOTE else content
  }

  /**
   * sendMessage(content, isFromVoice): the synchronous part. The pending
   * images move onto the user message and a streaming placeholder follows.
   */
  function SendMessage(vm: ViewModel, content: string, isFromVoice: bool, now: int): (r: ViewModel)
    ensures IsBlank(content) && |vm.pendingImages| == 0 ==> r == vm
    ensures !(IsBlank(content) && |vm.pendingImages| == 0) ==>
              && |r.messages| == |vm.messages| + 2
              && r.messages[..|vm.messages|] == vm.messages
              && r.messages[|vm.messages|].role == User
              && r.messages[|vm.messages|].content == MessageContent(content, isFromVoice)
              && r.messages[|vm.messages|].images == vm.pendingImages
              && !r.messages[|vm.messages|].isStreaming
              && r.messages[|vm.messages| + 1].role == Assistant
              && r.messages[|vm.messages| + 1].content == ""
              && r.messages[|vm.messages| + 1].isStreaming
              && r.streamingId == Some(r.messages[|vm.messages| + 1].id)
              && r.pendingImages == [] && r.processing && r.response == "" && r.error.None?
    ensures Wf(vm) ==> Wf(r)
  {
    if IsBlank(content) && |vm.pendingImages| == 0 then vm
    else
      var user := NewMessage(vm.nextId, User, MessageContent(content, isFromVoice), now).(images := vm.pendingImages);
      var assistant := NewMessage(vm.nextId + 1, Assistant, "", now).(isStreaming := true);
      var msgs := vm.messages + [user, assistant];
      assert msgs[..|vm.messages|] == vm.messages;
      vm.(messages := msgs, pendingImages := [], streamingId := Some(assistant.id), nextId := vm.nextId + 2,
          processing := true, response := "", error := None)
  }

  /** Where the launched session goes. */
  datatype Route = CliWithImages | ApiWithImages | ImagesUnsupported | CliText | ApiText

  function RouteFor(hasImages: bool, useCli: bool, cliInstalled: bool, apiConfigured: bool): (r: Route)
    ensures r == ImagesUnsupported <==> hasImages && !(useCli && cliInstalled) && !apiConfigured
    ensures !hasImages ==> (r == CliText <==> useCli) && (r == ApiText <==> !useCli)
    ensures r == CliWithImages || r == CliText ==> useCli
    ensures hasImages ==> (r == CliWithImages <==> useCli && cliInstalled)
    ensures hasImages ==> (r == ApiWithImages <==> !(useCli && cliInstalled) && apiConfigured)
    ensures !hasImages <==> r == CliText || r == ApiText
  {
    if hasImages then
      if useCli && cliInstalled then CliWithImages
      else if apiConfigured then ApiWithImages
      else ImagesUnsupported
    else if useCli then CliText
    else ApiText
  }

  /** The launch with images and no back end: error, stop, and drop the placeholder. */
  function RejectImages(vm: ViewModel): (r: ViewModel)
    ensures r.error == Some(IMAGES_UNSUPPORTED) && !r.processing
    ensures vm.streamingId.Some? ==> !HasId(r.messages, vm.streamingId.value)
    ensures forall m | m in vm.messages && Some(m.id) != vm.streamingId :: m in r.messages
    ensures r.streamingId == vm.streamingId
    ensures Wf(vm) ==> Wf(r)
  {
    var msgs := WithoutId(vm.messages, vm.streamingId);
    WithoutIdKeepsWf(vm, vm.streamingId);
    vm.(error := Some(IMAGES_UNSUPPORTED), processing := false, messages := msgs)
  }

  /** An exception in the session: its message becomes the error and processing stops. */
  function SessionFailed(vm: ViewModel, message: Option<string>): (r: ViewModel)
    ensures r.error == message && !r.processing
    ensures r.messages == vm.messages && r.streamingId == vm.streamingId
  {
    vm.(error := message, processing := false)
  }

  // ---------------------------------------------------------------------
  // The streaming message
  // ---------------------------------------------------------------------

  /** updateStreamingMessage(content). */
  function UpdateStreaming(vm: ViewModel, content: string): (r: ViewModel)
    ensures vm.streamingId.None? ==> r == vm
    ensures |r.messages| == |vm.messages|
    ensures forall i | 0 <= i < |vm.messages| ::
              r.messages[i] == (if Some(vm.messages[i].id) == vm.streamingId
                                then vm.messages[i].(content := content) else vm.messages[i])
    ensures r == vm.(messages := r.messages)
  {
    match vm.streamingId
    case None => vm
    case Some(id) => vm.(messages := Patch(vm.messages, id, SetContent(content)))
  }

  /** finalizeStreamingMessage(). */
  function FinalizeStreaming(vm: ViewModel): (r: ViewModel)
    ensures vm.streamingId.None? ==> r == vm
    ensures vm.streamingId.Some? ==> r.streamingId.None? && r.response == ""
    ensures |r.messages| == |vm.messages|
    ensures forall i | 0 <= i < |vm.messages| ::
              r.messages[i] == (if Some(vm.messages[i].id) == vm.streamingId
                                then vm.messages[i].(isStreaming := false) else vm.messages[i])
    ensures r.processing == vm.processing
  {
    match vm.streamingId
    case None => vm
    case Some(id) => vm.(messages := Patch(vm.messages, id, Finish), streamingId := None, response := "")
  }

  /** removeStreamingMessage(). */
  function RemoveStreaming(vm: ViewModel): (r: ViewModel)
    ensures vm.streamingId.None? ==> r == vm
    ensures vm.streamingId.Some? ==> r.streamingId.None? && r.response == "" && !HasId(r.messages, vm.streamingId.value)
    ensures forall m | m in vm.messages && Some(m.id) != vm.streamingId :: m in r.messages
    ensures Seqs.IsSubsequence(r.messages, vm.messages)
    ensures r.processing == vm.processing
  {
    match vm.streamingId
    case None =>
      Seqs.FilterIsSubsequence(vm.messages, (m: Message) => true);
      Seqs.SubsequenceRefl(vm.messages);
      vm
    case Some(id) => vm.(messages := WithoutId(vm.messages, vm.streamingId), streamingId := None, response := "")
  }

  /** showErrorMessage(message): the placeholder turns into the error, or a new error message is added. */
  function ShowErrorMessage(vm: ViewModel, message: string, now: int): (r: ViewModel)
    ensures !r.processing && r.streamingId.None?
    ensures vm.streamingId.Some? ==>
              |r.messages| == |vm.messages| && r.response == ""
              && forall i | 0 <= i < |vm.messages| && Some(vm.messages[i].id) == vm.streamingId ::
                   r.messages[i].content == "Error: " + message && r.messages[i].isError && !r.messages[i].isStreaming
    ensures vm.streamingId.None? ==>
              |r.messages| == |vm.messages| + 1 && r.messages[..|vm.messages|] == vm.messages
              && r.messages[|vm.messages|].content == "Error: " + message
              && r.messages[|vm.messages|].isError && r.messages[|vm.messages|].role == Assistant
    ensures Wf(vm) ==> Wf(r)
  {
    match vm.streamingId
    case Some(id) =>
      vm.(messages := Patch(vm.messages, id, ShowFailure("Error: " + message)), streamingId := None,
          response := "", processing := false)
    case None =>
      var failure := NewMessage(vm.nextId, Assistant, "Error: " + message, now).(isError := true);
      var msgs := vm.messages + [failure];
      assert msgs[..|vm.messages|] == vm.messages;
      vm.(messages := msgs, nextId := vm.nextId + 1, processing := false)
  }

  // ---------------------------------------------------------------------
  // Tool use
  // ---------------------------------------------------------------------

  /**
   * The text shown for a tool call. `parsed` is `JSONObject(input)` (None
   * when it throws) and `coordinates` renders reverse_geocode's
   * latitude and longitude.
   */
  function ToolInputText(name: string, input: string, parsed: Option<Fields>, coordinates: Fields -> string)
    : (r: string)
    ensures parsed.None? ==> r == input
    ensures parsed.Some? && Lower(name) in {"bash", "run_termux"} ==> r == OptString(parsed.value, "command", input)
    ensures parsed.Some? && Lower(name) == "read_clipboard" ==> r == "read clipboard"
  {
    match parsed
    case None => input
    case Some(json) =>
      var lowered := Lower(name);
      if lowered == "bash" || lowered == "run_termux" then OptString(json, "command", input)
      else if lowered == "read" || lowered == "write" then OptString(json, "file_path", input)
      else if lowered == "open_url" then OptString(json, "url", input)
      else if lowered == "launch_app" || lowered == "get_app_info" then OptString(json, "package", input)
      else if lowered == "show_notification" then OptString(json, "title", "") + ": " + OptString(json, "message", input)
      else if lowered == "geocode" then OptString(json, "address", input)
      else if lowered == "reverse_geocode" then coordinates(json)
      else if lowered == "get_location" then OptString(json, "provider", "network")
      else if lowered == "query_calendar" then "next " + IntToString(OptInt(json, "days_ahead", 7)) + " days"
      else if lowered == "add_calendar_event" then OptString(json, "title", input)
      else if lowered == "query_media" then OptString(json, "type", "images")
      else if lowered == "read_terminal" then "session: " + OptString(json, "session_id", "current")
      else if lowered == "read_clipboard" then "read clipboard"
      else if lowered == "write_clipboard" then Take(OptString(json, "text", input), 50) + "..."
      else input
  }

  const SUMMARISED_TOOLS: set<string> :=
    {"bash", "run_termux", "read", "write", "open_url", "launch_app", "get_app_info", "show_notification",
     "geocode", "reverse_geocode", "get_location", "query_calendar", "add_calendar_event", "query_media",
     "read_terminal", "read_clipboard", "write_clipboard"}

  /** A tool without a summary of its own shows its raw input. */
  lemma OtherToolsShowInput(name: string, input: string, parsed: Option<Fields>, coordinates: Fields -> string)
    requires Lower(name) !in SUMMARISED_TOOLS
    ensures ToolInputText(name, input, parsed, coordinates) == input
  {
  }

  /** handleToolUse: the tool message added while the tool runs. */
  function HandleToolUse(vm: ViewModel, name: string, inputText: string, now: int): (r: ViewModel)
    ensures |r.messages| == |vm.messages| + 1 && r.messages[..|vm.messages|] == vm.messages
    ensures var m := r.messages[|vm.messages|];
      m.role == Tool && m.isStreaming && m.content == inputText
      && m.toolName == Some(name) && m.toolInput == Some(inputText) && m.id == vm.nextId
    ensures r == vm.(messages := r.messages, nextId := vm.nextId + 1)
    ensures Wf(vm) ==> Wf(r)
  {
    var m := NewMessage(vm.nextId, Tool, inputText, now).(toolName := Some(name), toolInput := Some(inputText),
                                                         isStreaming := true);
    var msgs := vm.messages + [m];
    assert msgs[..|vm.messages|] == vm.messages;
    vm.(messages := msgs, nextId := vm.nextId + 1)
  }

  /** What happens after the tool message is shown. */
  datatype ToolPlan = AwaitServer | LeaveStreaming | RunBuiltin(tool: string) | RunAndroid

  function PlanFor(name: string): (p: ToolPlan)
    ensures p == AwaitServer <==> StartsWith(name, MCP_PREFIX)
    ensures p.RunBuiltin? ==> p.tool == Lower(name) && p.tool in BUILTIN_TOOLS
    ensures p == LeaveStreaming <==>
              !StartsWith(name, MCP_PREFIX) && Lower(name) !in BUILTIN_TOOLS && !Tools.IsAndroidTool(name)
  {
    if StartsWith(name, MCP_PREFIX) then AwaitServer
    else if Lower(name) in BUILTIN_TOOLS then RunBuiltin(Lower(name))
    else if Tools.IsAndroidTool(name) then RunAndroid
    else LeaveStreaming
  }

  /** The tool message's text once the result is in: at most 500 characters of it. */
  function ResultContent(inputText: string, result: string): (r: string)
    ensures StartsWith(r, inputText + RESULT_HEADER)
    ensures |r| <= |inputText| + |RESULT_HEADER| + RESULT_PREVIEW + 3
    ensures |result| <= RESULT_PREVIEW ==> r == inputText + RESULT_HEADER + result
    ensures |result| > RESULT_PREVIEW ==> r == inputText + RESULT_HEADER + result[..RESULT_PREVIEW] + "..."
  {
    var r := inputText + RESULT_HEADER + Take(result, RESULT_PREVIEW) + (if |result| > RESULT_PREVIEW then "..." else "");
    assert r[..|inputText + RESULT_HEADER|] == inputText + RESULT_HEADER;
    r
  }

  /** The tool message with the given id is done and shows the result. */
  function CompleteTool(vm: ViewModel, toolMessageId: nat, inputText: string, result: string): (r: ViewModel)
    ensures |r.messages| == |vm.messages|
    ensures forall i | 0 <= i < |vm.messages| && vm.messages[i].id == toolMessageId ::
              !r.messages[i].isStreaming && r.messages[i].content == ResultContent(inputText, result)
    ensures forall i | 0 <= i < |vm.messages| && vm.messages[i].id != toolMessageId :: r.messages[i] == vm.messages[i]
    ensures Wf(vm) ==> Wf(r)
  {
    var msgs := seq(|vm.messages|, i requires 0 <= i < |vm.messages| =>
      if vm.messages[i].id == toolMessageId
      then vm.messages[i].(isStreaming := false, content := ResultContent(inputText, result))
      else vm.messages[i]);
    vm.(messages := msgs)
  }

  predicate NamesTool(m: Message, toolName: string) {
    m.role == Tool && m.toolName.Some? && Contains(m.toolName.value, toolName)
  }

  /** McpServer.onToolComplete(toolName, isError): the matching tool messages settle. */
  function OnToolComplete(vm: ViewModel, toolName: string, isError: bool): (r: ViewModel)
    ensures |r.messages| == |vm.messages|
    ensures forall i | 0 <= i < |vm.messages| ::
              r.messages[i].id == vm.messages[i].id && r.messages[i].content == vm.messages[i].content
    ensures forall i | 0 <= i < |vm.messages| && !NamesTool(vm.messages[i], toolName) :: r.messages[i] == vm.messages[i]
    ensures forall i | 0 <= i < |vm.messages| && NamesTool(vm.messages[i], toolName) ::
              && (isError ==> r.messages[i].isError)
              && (isError && !vm.messages[i].isError ==> !r.messages[i].isStreaming)
              && (!isError ==> !r.messages[i].isStreaming && r.messages[i].isError == vm.messages[i].isError)
    ensures r == vm.(messages := r.messages)
  {
    var msgs := seq(|vm.messages|, i requires 0 <= i < |vm.messages| =>
      var m := vm.messages[i];
      if isError && NamesTool(m, toolName) && !m.isError then Apply(m, TimeOut)
      else if !isError && NamesTool(m, toolName) && m.isStreaming then Apply(m, Finish)
      else m);
    vm.(messages := msgs)
  }

  /** Reporting the same completion twice changes nothing more. */
  lemma OnToolCompleteIdempotent(vm: ViewModel, toolName: string, isError: bool)
    ensures OnToolComplete(OnToolComplete(vm, toolName, isError), toolName, isError) == OnToolComplete(vm, toolName, isError)
  {
    var once := OnToolComplete(vm, toolName, isError);
    var twice := OnToolComplete(once, toolName, isError);
    assert forall i | 0 <= i < |vm.messages| :: NamesTool(once.messages[i], toolName) == NamesTool(vm.messages[i], toolName);
    assert twice.messages == once.messages;
  }

  // ---------------------------------------------------------------------
  // handleEvent
  // ---------------------------------------------------------------------

  /** Every streaming tool message is marked timed out. */
  function TimeOutTools(msgs: seq<Message>): (r: seq<Message>)
    ensures |r| == |msgs|
    ensures forall i | 0 <= i < |msgs| :: r[i].id == msgs[i].id && r[i].role == msgs[i].role
                                          && r[i].content == msgs[i].content
    ensures forall i | 0 <= i < |msgs| && r[i].role == Tool :: !r[i].isStreaming
    ensures forall i | 0 <= i < |msgs| && msgs[i].role == Tool && msgs[i].isStreaming :: r[i].isError
    ensures forall i | 0 <= i < |msgs| && msgs[i].role != Tool :: r[i] == msgs[i]
  {
    seq(|msgs|, i requires 0 <= i < |msgs| =>
      if msgs[i].role == Tool && msgs[i].isStreaming then Apply(msgs[i], TimeOut) else msgs[i])
  }

  /** A text delta: tools time out, a placeholder is made if none streams, and the response grows. */
  function OnTextDelta(vm: ViewModel, delta: string, now: int): (r: ViewModel)
    ensures r.response == (if vm.streamingId.None? then "" else vm.response) + delta
    ensures r.streamingId.Some? && (vm.streamingId.Some? ==> r.streamingId == vm.streamingId)
    ensures vm.streamingId.None? ==> r.streamingId == Some(vm.nextId) && |r.messages| == |vm.messages| + 1
    ensures vm.streamingId.Some? ==> |r.messages| == |vm.messages|
    ensures forall i | 0 <= i < |r.messages| && r.messages[i].role == Tool :: !r.messages[i].isStreaming
    ensures forall i | 0 <= i < |r.messages| && Some(r.messages[i].id) == r.streamingId ::
              r.messages[i].content == r.response
    ensures vm.streamingId.None? ==>
              r.messages[|vm.messages|] == NewMessage(vm.nextId, Assistant, delta, now).(isStreaming := true)
    ensures forall i | 0 <= i < |vm.messages| && vm.messages[i].role == Tool && vm.messages[i].isStreaming ::
              r.messages[i].isError && r.messages[i].id == vm.messages[i].id
    ensures forall i | 0 <= i < |vm.messages| && vm.messages[i].role != Tool ::
              r.messages[i] == (if Some(vm.messages[i].id) == r.streamingId
                                then vm.messages[i].(content := r.response) else vm.messages[i])
    ensures forall i | 0 <= i < |vm.messages| && vm.messages[i].role == Tool && !vm.messages[i].isStreaming
                     && Some(vm.messages[i].id) != r.streamingId :: r.messages[i] == vm.messages[i]
    ensures r.processing == vm.processing && r.error == vm.error
    ensures Wf(vm) ==> Wf(r)
  {
    var placed := PlaceStreaming(vm, now);
    var grown := placed.(response := placed.response + delta);
    SameIdsKeepWf(grown, UpdateStreaming(grown, grown.response).messages);
    UpdateStreaming(grown, grown.response)
  }

  /** The first half of a text delta: tools time out and a streaming message is made if none exists. */
  function PlaceStreaming(vm: ViewModel, now: int): (r: ViewModel)
    ensures r.response == (if vm.streamingId.None? then "" else vm.response)
    ensures r.streamingId.Some? && (vm.streamingId.Some? ==> r.streamingId == vm.streamingId)
    ensures vm.streamingId.None? ==> r.streamingId == Some(vm.nextId) && |r.messages| == |vm.messages| + 1
    ensures vm.streamingId.Some? ==> |r.messages| == |vm.messages|
    ensures forall i | 0 <= i < |r.messages| && r.messages[i].role == Tool :: !r.messages[i].isStreaming
    ensures r.messages == TimeOutTools(vm.messages)
              + (if vm.streamingId.None? then [NewMessage(vm.nextId, Assistant, "", now).(isStreaming := true)] else [])
    ensures r.processing == vm.processing && r.error == vm.error
    ensures Wf(vm) ==> Wf(r)
  {
    var msgs := TimeOutTools(vm.messages);
    SameIdsKeepWf(vm, msgs);
    if vm.streamingId.Some? then vm.(messages := msgs)
    else
      var placeholder := NewMessage(vm.nextId, Assistant, "", now).(isStreaming := true);
      AppendFreshKeepsWf(vm.(messages := msgs), placeholder);
      vm.(messages := msgs + [placeholder], streamingId := Some(vm.nextId), nextId := vm.nextId + 1, response := "")
  }

  /** Replacing messages by ones with the same ids, in the same order, keeps the ids well formed. */
  lemma SameIdsKeepWf(vm: ViewModel, msgs: seq<Message>)
    requires |msgs| == |vm.messages|
    requires forall i | 0 <= i < |msgs| :: msgs[i].id == vm.messages[i].id
    ensures Wf(vm) ==> Wf(vm.(messages := msgs))
  {
  }

  /** Appending a message that takes the next id, and making it the streaming one, keeps the ids well formed. */
  lemma AppendFreshKeepsWf(vm: ViewModel, m: Message)
    requires m.id == vm.nextId
    ensures Wf(vm) ==> Wf(vm.(messages := vm.messages + [m], streamingId := Some(vm.nextId), nextId := vm.nextId + 1))
  {
  }

  /** The streaming message is present and still has no content. */
  predicate StreamingIsEmpty(vm: ViewModel) {
    && vm.streamingId.Some?
    && FindById(vm.messages, vm.streamingId.value).Some?
    && FindById(vm.messages, vm.streamingId.value).value.content == ""
  }

  /** A message end: an empty placeholder is dropped, anything else (a missing one included) is finalized. */
  function OnMessageEnd(vm: ViewModel): (r: ViewModel)
    ensures r.streamingId.None? && r.processing == vm.processing && r.error == vm.error
    ensures vm.streamingId.Some? ==> r.response == ""
    ensures vm.streamingId.None? ==> r == vm
    ensures StreamingIsEmpty(vm) ==> r == RemoveStreaming(vm)
    ensures vm.streamingId.Some? && !StreamingIsEmpty(vm) ==> r == FinalizeStreaming(vm)
    ensures StreamingIsEmpty(vm) ==> !HasId(r.messages, vm.streamingId.value)
    ensures vm.streamingId.Some? && !StreamingIsEmpty(vm) ==>
              |r.messages| == |vm.messages| && forall i | 0 <= i < |vm.messages| ::
                r.messages[i] == (if Some(vm.messages[i].id) == vm.streamingId
                                  then vm.messages[i].(isStreaming := false) else vm.messages[i])
    ensures |r.messages| <= |vm.messages|
    ensures Wf(vm) ==> Wf(r)
  {
    match vm.streamingId
    case None => vm
    case Some(id) =>
      RemoveKeepsWf(vm);
      FinalizeKeepsWf(vm);
      match FindById(vm.messages, id)
      case Some(m) => if m.content == "" then RemoveStreaming(vm) else FinalizeStreaming(vm)
      case None => FinalizeStreaming(vm)
  }

  lemma FinalizeKeepsWf(vm: ViewModel)
    ensures Wf(vm) ==> Wf(FinalizeStreaming(vm))
  {
    SameIdsKeepWf(vm, FinalizeStreaming(vm).messages);
  }

  lemma RemoveKeepsWf(vm: ViewModel)
    ensures Wf(vm) ==> Wf(RemoveStreaming(vm))
    ensures |RemoveStreaming(vm).messages| <= |vm.messages|
  {
    WithoutIdKeepsWf(vm, vm.streamingId);
    Seqs.SubsequenceLength(RemoveStreaming(vm).messages, vm.messages);
  }

  /** handleEvent(event). `inputText` is what the tool message shows for a tool use. */
  function HandleEvent(vm: ViewModel, e: Cli.Event, now: int, inputText: string): (r: ViewModel)
    ensures r.processing != vm.processing ==> (e.Error? || e.SessionEnded?) && !r.processing
    ensures e.SessionEnded? ==> r == vm.(processing := false)
    ensures e.Error? ==> r.error == Some(e.message) && r.streamingId.None?
    ensures e.MessageEnd? ==> r.streamingId.None?
    ensures Wf(vm) ==> Wf(r)
  {
    match e
    case MessageStart(_) => vm
    case Text(content) => UpdateStreaming(vm.(response := content), content)
    case TextDelta(delta) => OnTextDelta(vm, delta, now)
    case ToolUse(_, name, _) => HandleToolUse(vm, name, inputText, now)
    case MessageEnd => OnMessageEnd(vm)
    case Error(message) => ShowErrorMessage(vm.(error := Some(message)), message, now)
    case SessionEnded(_) => vm.(processing := false)
  }

  /** A run of text events while a message streams. */
  function HandleDeltas(vm: ViewModel, deltas: seq<string>, now: int): (r: ViewModel)
    decreases |deltas|
  {
    if |deltas| == 0 then vm
    else HandleDeltas(HandleEvent(vm, Cli.TextDelta(deltas[0]), now, ""), deltas[1..], now)
  }

  function Concat(parts: seq<string>): string
    decreases |parts|
  {
    if |parts| == 0 then "" else parts[0] + Concat(parts[1..])
  }

  /**
   * While a message streams, its content and the response are exactly the
   * deltas received, appended in order, and processing is untouched.
   */
  lemma {:induction false} DeltasAccumulate(vm: ViewModel, deltas: seq<string>, now: int)
    requires vm.streamingId.Some?
    requires forall i | 0 <= i < |vm.messages| && Some(vm.messages[i].id) == vm.streamingId ::
               vm.messages[i].content == vm.response
    ensures var r := HandleDeltas(vm, deltas, now);
      r.response == vm.response + Concat(deltas) && r.streamingId == vm.streamingId
      && r.processing == vm.processing && |r.messages| == |vm.messages|
      && forall i | 0 <= i < |r.messages| && Some(r.messages[i].id) == r.streamingId ::
           r.messages[i].content == r.response
    decreases |deltas|
  {
    if |deltas| > 0 {
      var next := HandleEvent(vm, Cli.TextDelta(deltas[0]), now, "");
      DeltasAccumulate(next, deltas[1..], now);
      assert Concat(deltas) == deltas[0] + Concat(deltas[1..]);
    }
  }

  // ---------------------------------------------------------------------
  // cancelRequest, clearError, new conversation, resume
  // ---------------------------------------------------------------------

  /** cancelRequest(): the streaming message is interrupted and processing stops. */
  function CancelRequest(vm: ViewModel): (r: ViewModel)
    ensures !r.processing && r.streamingId.None?
    ensures |r.messages| == |vm.messages|
    ensures forall i | 0 <= i < |vm.messages| && Some(vm.messages[i].id) == vm.streamingId ::
              r.messages[i].isInterrupted && !r.messages[i].isStreaming && r.messages[i].content == vm.messages[i].content
    ensures forall i | 0 <= i < |vm.messages| && Some(vm.messages[i].id) != vm.streamingId ::
              r.messages[i] == vm.messages[i]
    ensures vm.streamingId.Some? ==> r.response == ""
    ensures Wf(vm) ==> Wf(r)
  {
    match vm.streamingId
    case None => vm.(processing := false)
    case Some(id) =>
      vm.(messages := Patch(vm.messages, id, Interrupt), streamingId := None, response := "", processing := false)
  }

  function ClearError(vm: ViewModel): (r: ViewModel)
    ensures r.error.None? && r == vm.(error := None)
  {
    vm.(error := None)
  }

  /** startNewConversation() and clearMessages(): no messages, no response, no API history. */
  function ClearMessages(vm: ViewModel): (r: ViewModel)
    ensures r.messages == [] && r.response == "" && r.api.history == []
    ensures r.processing == vm.processing && r.streamingId == vm.streamingId && r.nextId == vm.nextId
    ensures Wf(vm) ==> Wf(r)
  {
    vm.(messages := [], response := "", api := Api.ClearHistory(vm.api))
  }

  /** A saved tool result that reads as a failure. */
  predicate LooksFailed(content: string) {
    Contains(content, "\"success\": false") || Contains(content, "\"success\":false") || StartsWith(content, "Error:")
  }

  /** One saved message on screen, if it is shown. */
  function UiMessage(m: Conv.ConversationMessage, id: nat): (r: Option<Message>)
    ensures r.Some? ==> r.value.id == id && !r.value.isStreaming
    ensures r.Some? <==> m.kind == "user" || (m.kind == "assistant" && (m.toolName.Some? || m.content != ""))
    ensures r.Some? ==> r.value.content == m.content && r.value.timestamp == m.timestamp
    ensures r.Some? && r.value.role == Tool ==> (r.value.isError <==> m.isError || LooksFailed(m.content))
    ensures m.kind == "assistant" && m.toolName.Some? ==> r.Some? && r.value.role == Tool
  {
    if m.kind == "user" then Some(NewMessage(id, User, m.content, m.timestamp))
    else if m.kind == "assistant" then
      if m.toolName.Some? then
        Some(NewMessage(id, Tool, m.content, m.timestamp).(toolName := m.toolName, toolInput := m.toolInput,
                                                           isError := m.isError || LooksFailed(m.content)))
      else if m.content != "" then Some(NewMessage(id, Assistant, m.content, m.timestamp))
      else None
    else None
  }

  function UiMessages(history: seq<Conv.ConversationMessage>, nextId: nat): (r: seq<Message>)
    ensures |r| <= |history|
    ensures forall i | 0 <= i < |r| :: nextId <= r[i].id < nextId + |history| && !r[i].isStreaming
    ensures forall i, j | 0 <= i < j < |r| :: r[i].id < r[j].id
    decreases |history|
  {
    if |history| == 0 then []
    else
      var rest := UiMessages(history[1..], nextId + 1);
      match UiMessage(history[0], nextId)
      case Some(m) => [m] + rest
      case None => rest
  }

  /**
   * The conversion works entry by entry: the entries of a split history are
   * shown as the first part's followed by the rest's, numbered on from it.
   */
  lemma {:induction false} UiMessagesAppend(h1: seq<Conv.ConversationMessage>, h2: seq<Conv.ConversationMessage>, n: nat)
    ensures UiMessages(h1 + h2, n) == UiMessages(h1, n) + UiMessages(h2, n + |h1|)
    decreases |h1|
  {
    if |h1| == 0 {
      assert h1 + h2 == h2;
    } else {
      assert (h1 + h2)[1..] == h1[1..] + h2;
      UiMessagesAppend(h1[1..], h2, n + 1);
    }
  }

  /** Every shown message is the UiMessage of the entry its id numbers. */
  lemma UiMessagesSound(history: seq<Conv.ConversationMessage>, n: nat)
    ensures forall i | 0 <= i < |UiMessages(history, n)| ::
              var m := UiMessages(history, n)[i]; UiMessage(history[m.id - n], m.id) == Some(m)
  {
    forall i | 0 <= i < |UiMessages(history, n)|
      ensures var m := UiMessages(history, n)[i]; UiMessage(history[m.id - n], m.id) == Some(m)
    {
      UiMessageAt(history, n, i);
    }
  }

  /** The shown message at one index is the UiMessage of the entry its id numbers. */
  lemma {:induction false} UiMessageAt(history: seq<Conv.ConversationMessage>, n: nat, i: nat)
    requires i < |UiMessages(history, n)|
    ensures var m := UiMessages(history, n)[i]; n <= m.id < n + |history| && UiMessage(history[m.id - n], m.id) == Some(m)
    decreases |history|
  {
    var head := UiMessage(history[0], n);
    var rest := UiMessages(history[1..], n + 1);
    var m := UiMessages(history, n)[i];
    if head.Some? && i == 0 {
      assert m == head.value && m.id == n;
      assert history[m.id - n] == history[0];
    } else {
      var j := if head.Some? then i - 1 else i;
      assert m == rest[j];
      UiMessageAt(history[1..], n + 1, j);
      var k := m.id - (n + 1);
      assert history[1..][k] == history[k + 1];
    }
  }

  /** Every entry that is shown at all is among the shown messages. */
  lemma {:induction false} UiMessagesComplete(history: seq<Conv.ConversationMessage>, n: nat)
    ensures forall k | 0 <= k < |history| && UiMessage(history[k], n + k).Some? ::
              UiMessage(history[k], n + k).value in UiMessages(history, n)
    decreases |history|
  {
    if |history| > 0 {
      var r := UiMessages(history, n);
      var rest := UiMessages(history[1..], n + 1);
      var head := UiMessage(history[0], n);
      UiMessagesComplete(history[1..], n + 1);
      assert r == (if head.Some? then [head.value] else []) + rest;
      forall k | 0 <= k < |history| && UiMessage(history[k], n + k).Some?
        ensures UiMessage(history[k], n + k).value in r
      {
        if k > 0 {
          assert history[k] == history[1..][k - 1];
        }
      }
    }
  }

  /** One saved entry is shown as its UiMessage, or not at all. */
  lemma UiMessagesSingle(m: Conv.ConversationMessage, n: nat)
    ensures UiMessages([m], n) == (if UiMessage(m, n).Some? then [UiMessage(m, n).value] else [])
  {
    assert [m][1..] == [];
  }

  /** resumeConversation(sessionId): the screen shows the saved messages that have something to show. */
  function ResumeConversation(vm: ViewModel, history: seq<Conv.ConversationMessage>): (r: ViewModel)
    ensures r.messages == UiMessages(history, vm.nextId) && r.response == ""
    ensures forall i | 0 <= i < |r.messages| :: !r.messages[i].isStreaming
    ensures Wf(vm) ==> Wf(r)
  {
    vm.(messages := UiMessages(history, vm.nextId), response := "", nextId := vm.nextId + |history|)
  }
}

=== FILE: conversation_manager.dfy ===
/**
 * ConversationManager: summaries and transcripts of the `claude` program's
 * saved conversations, one JSON-lines file per session.
 *
 * The directory is a value: `None` when it does not exist (or cannot be
 * listed), otherwise its files, each with a name, a length in bytes and
 * its lines. `JSONObject(line)` is a parameter (None when it throws), and
 * so are the ISO-8601 timestamp reader and org.json's rendering of a
 * nested object.
 */
module ConversationManager {
  import opened Wrappers
  import opened Strings
  import opened Json
  import Seqs

  const CLAUDE_HOME: string := "/data/data/com.anthroid/files/home/.claude"
  const PROJECTS_DIR: string := CLAUDE_HOME + "/projects/-data-data-com-anthroid-files"
  const TITLE_LENGTH: nat := 50
  const PREVIEW_LENGTH: nat := 80
  const EMPTY_TITLE: string := "Empty conversation"

  /** The line types that are messages. */
  const MESSAGE_TYPES: set<string> := {"user", "assistant"}

  datatype Conversation = Conversation(
    sessionId: string, title: string, lastMessage: string,
    timestamp: int, messageCount: nat, fileSize: nat)

  datatype ConversationMessage = ConversationMessage(
    uuid: string, kind: string, content: string, timestamp: int,
    toolName: Option<string>, toolInput: Option<string>, isError: bool)

  /** A file of the projects directory. */
  datatype File = File(name: string, size: nat, lines: seq<string>)

  // ---------------------------------------------------------------------
  // File names
  // ---------------------------------------------------------------------

  /** Position of the last '.' in a name. */
  function LastDot(name: string): (r: Option<nat>)
    ensures r.Some? ==> r.value < |name| && name[r.value] == '.'
    ensures r.Some? ==> forall j | r.value < j < |name| :: name[j] != '.'
    ensures r.None? ==> forall j | 0 <= j < |name| :: name[j] != '.'
    decreases |name|
  {
    if |name| == 0 then None
    else if name[|name| - 1] == '.' then Some(|name| - 1)
    else LastDot(name[..|name| - 1])
  }

  /** File.extension: the text after the last '.', or "". */
  function Extension(name: string): string {
    match LastDot(name)
    case None => ""
    case Some(k) => name[k + 1..]
  }

  /** File.nameWithoutExtension: the text before the last '.', or the whole name. */
  function NameWithoutExtension(name: string): string {
    match LastDot(name)
    case None => name
    case Some(k) => name[..k]
  }

  /** The two halves rebuild the name, the extension holds no '.', and the base is a prefix. */
  lemma NameSplitsAtLastDot(name: string)
    ensures LastDot(name).Some? ==> NameWithoutExtension(name) + "." + Extension(name) == name
    ensures LastDot(name).None? ==> NameWithoutExtension(name) == name && Extension(name) == ""
    ensures '.' !in Extension(name)
    ensures StartsWith(name, NameWithoutExtension(name))
  {
    match LastDot(name)
    case None =>
    case Some(k) =>
      assert name == name[..k] + "." + name[k + 1..];
      var ext := name[k + 1..];
      forall j | 0 <= j < |ext|
        ensures ext[j] != '.'
      {
        assert ext[j] == name[k + 1 + j];
      }
  }

  /** The files the listings consider: ".jsonl", and not a sub-agent's. */
  predicate Listed(f: File) {
    Extension(f.name) == "jsonl" && !StartsWith(f.name, "agent-")
  }

  // ---------------------------------------------------------------------
  // extractMessageContent
  // ---------------------------------------------------------------------

  predicate IsTextItem(item: Json) {
    item.JObject? && OptString(item.fields, "type", "") == "text"
  }

  function ItemText(item: Json): string {
    if item.JObject? then OptString(item.fields, "text", "") else ""
  }

  /** The StringBuilder loop over a content array. */
  function TextItems(items: seq<Json>): string
    decreases |items|
  {
    if |items| == 0 then ""
    else (if IsTextItem(items[0]) then ItemText(items[0]) else "") + TextItems(items[1..])
  }

  /** The loop concatenates, in order, the texts of exactly the "text" items. */
  lemma {:induction false} TextItemsConcatenates(items: seq<Json>)
    ensures TextItems(items) == Join(Seqs.Map(Seqs.Filter(items, IsTextItem), ItemText), "")
    decreases |items|
  {
    if |items| > 0 {
      TextItemsConcatenates(items[1..]);
      Seqs.MapFilterCons(items, IsTextItem, ItemText);
      JoinEmptyAfterOne(if IsTextItem(items[0]) then [ItemText(items[0])] else [],
                        Seqs.Map(Seqs.Filter(items[1..], IsTextItem), ItemText));
    }
  }

  /** Joining with no separator after at most one leading piece. */
  lemma JoinEmptyAfterOne(pre: seq<string>, rest: seq<string>)
    requires |pre| <= 1
    ensures Join(pre + rest, "") == (if |pre| == 1 then pre[0] else "") + Join(rest, "")
  {
    if |pre| == 0 {
      assert pre + rest == rest;
    } else if |rest| == 0 {
      assert pre + rest == pre;
    } else {
      assert pre == [pre[0]];
      JoinCons(pre[0], rest, "");
    }
  }

  predicate IsTextOrArray(v: Json) { v.JString? || v.JArray? }

  /**
   * extractMessageContent(message): a string content as it is, an array's
   * "text" items joined, and "" for anything else or a missing message.
   */
  function ExtractMessageContent(message: Option<Fields>): (r: string)
    ensures message.None? ==> r == ""
    ensures message.Some? && "content" in message.value && message.value["content"].JString? ==>
              r == message.value["content"].s
    ensures message.Some? && "content" in message.value && message.value["content"].JArray? ==>
              r == Join(Seqs.Map(Seqs.Filter(message.value["content"].items, IsTextItem), ItemText), "")
    ensures message.Some? && !(Has(message.value, "content") && IsTextOrArray(message.value["content"])) ==> r == ""
  {
    match message
    case None => ""
    case Some(m) =>
      match Opt(m, "content")
      case Some(JString(s)) => s
      case Some(JArray(items)) => TextItemsConcatenates(items); TextItems(items)
      case _ => ""
  }

  // ---------------------------------------------------------------------
  // parseConversationFile
  // ---------------------------------------------------------------------

  /** A line that counts as a message: not blank, an object, typed user or assistant. */
  function MessageLine(line: string, parse: string -> Option<Fields>): (r: Option<Fields>)
    ensures r.Some? ==> !IsBlank(line) && parse(line) == r && OptString(r.value, "type", "") in MESSAGE_TYPES
  {
    if IsBlank(line) then None
    else match parse(line)
      case None => None
      case Some(json) => if OptString(json, "type", "") in MESSAGE_TYPES then Some(json) else None
  }

  function IsMessage(parse: string -> Option<Fields>): string -> bool {
    line => MessageLine(line, parse).Some?
  }

  /** The time a message line carries, 0 when it has none. */
  function LineTime(line: string, parse: string -> Option<Fields>, parseTime: string -> int): int {
    match MessageLine(line, parse)
    case None => 0
    case Some(json) =>
      var text := OptString(json, "timestamp", "");
      if text != "" then parseTime(text) else 0
  }

  /** The non-empty content of a user line. */
  function UserText(line: string, parse: string -> Option<Fields>): (r: Option<string>)
    ensures r.Some? ==> r.value != ""
  {
    match MessageLine(line, parse)
    case None => None
    case Some(json) =>
      if OptString(json, "type", "") != "user" then None
      else
        var content := ExtractMessageContent(OptObject(json, "message"));
        if content != "" then Some(content) else None
  }

  /** The non-empty user contents of some lines, in order. */
  function UserTexts(lines: seq<string>, parse: string -> Option<Fields>): (t: seq<string>)
    ensures |t| <= |lines|
    decreases |lines|
  {
    if |lines| == 0 then []
    else (match UserText(lines[0], parse) case Some(c) => [c] case None => []) + UserTexts(lines[1..], parse)
  }

  lemma {:induction false} UserTextsAppend(lines: seq<string>, line: string, parse: string -> Option<Fields>)
    ensures UserTexts(lines + [line], parse)
            == UserTexts(lines, parse) + (match UserText(line, parse) case Some(c) => [c] case None => [])
    decreases |lines|
  {
    if |lines| == 0 {
      assert (lines + [line])[1..] == [];
    } else {
      assert (lines + [line])[1..] == lines[1..] + [line];
      UserTextsAppend(lines[1..], line, parse);
    }
  }

  /** The loop's variables: messageCount, lastTimestamp, firstUserMessage, lastUserMessage. */
  datatype Scan = Scan(count: nat, latest: int, first: Option<string>, last: Option<string>)

  /** One line of the loop. */
  function ScanLine(s: Scan, line: string, parse: string -> Option<Fields>, parseTime: string -> int): Scan {
    var time := LineTime(line, parse, parseTime);
    var text := UserText(line, parse);
    Scan(s.count + (if MessageLine(line, parse).Some? then 1 else 0),
         if time > s.latest then time else s.latest,
         if s.first.Some? then s.first else text,
         if text.Some? then text else s.last)
  }

  /** What the loop has established after some lines. */
  predicate ScanAgrees(s: Scan, lines: seq<string>, parse: string -> Option<Fields>, parseTime: string -> int) {
    && s.count == Seqs.Count(lines, IsMessage(parse))
    && LatestAgrees(s.latest, lines, parse, parseTime)
    && TextsAgree(s, UserTexts(lines, parse))
  }

  /** `latest` is the largest line time, or 0 when every line time is at most 0. */
  predicate LatestAgrees(latest: int, lines: seq<string>, parse: string -> Option<Fields>, parseTime: string -> int) {
    && latest >= 0
    && (forall i | 0 <= i < |lines| :: LineTime(lines[i], parse, parseTime) <= latest)
    && (latest == 0 || exists i | 0 <= i < |lines| :: LineTime(lines[i], parse, parseTime) == latest)
  }

  /** `first` and `last` are the first and last user texts, if any. */
  predicate TextsAgree(s: Scan, t: seq<string>) {
    && (s.first.None? <==> |t| == 0) && (s.last.None? <==> |t| == 0)
    && (|t| > 0 ==> s.first == Some(t[0]) && s.last == Some(t[|t| - 1]))
  }

  lemma ScanLineKeeps(s: Scan, init: seq<string>, line: string, parse: string -> Option<Fields>, parseTime: string -> int)
    requires ScanAgrees(s, init, parse, parseTime)
    ensures ScanAgrees(ScanLine(s, line, parse, parseTime), init + [line], parse, parseTime)
  {
    Seqs.CountAppend(init, line, IsMessage(parse));
    UserTextsAppend(init, line, parse);
    LatestKeeps(s.latest, init, line, parse, parseTime);
  }

  lemma LatestKeeps(latest: int, init: seq<string>, line: string, parse: string -> Option<Fields>, parseTime: string -> int)
    requires LatestAgrees(latest, init, parse, parseTime)
    ensures var time := LineTime(line, parse, parseTime);
            LatestAgrees(if time > latest then time else latest, init + [line], parse, parseTime)
  {
    var lines := init + [line];
    var time := LineTime(line, parse, parseTime);
    var r := if time > latest then time else latest;
    assert lines[|init|] == line;
    forall i | 0 <= i < |lines|
      ensures LineTime(lines[i], parse, parseTime) <= r
    {
      if i < |init| {
        assert lines[i] == init[i];
      }
    }
    if r != 0 {
      if r == latest {
        var i :| 0 <= i < |init| && LineTime(init[i], parse, parseTime) == latest;
        assert lines[i] == init[i];
      } else {
        assert LineTime(lines[|init|], parse, parseTime) == r;
      }
    }
  }

  /** The loop over a file's lines. */
  function ScanLines(lines: seq<string>, parse: string -> Option<Fields>, parseTime: string -> int): (s: Scan)
    ensures ScanAgrees(s, lines, parse, parseTime)
    decreases |lines|
  {
    if |lines| == 0 then Scan(0, 0, None, None)
    else
      var init := lines[..|lines| - 1];
      var line := lines[|lines| - 1];
      assert lines == init + [line];
      var prev := ScanLines(init, parse, parseTime);
      ScanLineKeeps(prev, init, line, parse, parseTime);
      ScanLine(prev, line, parse, parseTime)
  }

  /**
   * parseConversationFile(file): None for an empty file or one without a
   * user or assistant line; otherwise the summary.
   */
  function ParseConversationFile(file: File, parse: string -> Option<Fields>, parseTime: string -> int)
    : (r: Option<Conversation>)
    ensures r.None? <==> file.size == 0 || Seqs.Count(file.lines, IsMessage(parse)) == 0
    ensures r.Some? ==> r.value.sessionId == NameWithoutExtension(file.name) && r.value.fileSize == file.size
    ensures r.Some? ==> r.value.messageCount == Seqs.Count(file.lines, IsMessage(parse))
    ensures r.Some? ==> var t := UserTexts(file.lines, parse);
      r.value.title == (if |t| == 0 then EMPTY_TITLE else Take(t[0], TITLE_LENGTH))
      && r.value.lastMessage == (if |t| == 0 then "" else Take(t[|t| - 1], PREVIEW_LENGTH))
    ensures r.Some? ==> LatestAgrees(r.value.timestamp, file.lines, parse, parseTime)
  {
    if file.size == 0 then None
    else
      var s := ScanLines(file.lines, parse, parseTime);
      if s.count == 0 then None
      else
        Some(Conversation(
          NameWithoutExtension(file.name),
          match s.first case Some(t) => Take(t, TITLE_LENGTH) case None => EMPTY_TITLE,
          match s.last case Some(t) => Take(t, PREVIEW_LENGTH) case None => "",
          s.latest, s.count, file.size))
  }

  // ---------------------------------------------------------------------
  // getConversations
  // ---------------------------------------------------------------------

  function TimeOf(c: Conversation): int {
    c.timestamp
  }

  function SessionIdOf(f: File): string {
    NameWithoutExtension(f.name)
  }

  /** A listed file's session id does not look like a sub-agent's. */
  lemma ListedIsNotAgent(f: File)
    requires Listed(f)
    ensures !StartsWith(SessionIdOf(f), "agent-")
  {
    NameSplitsAtLastDot(f.name);
  }

  /** The summaries kept for some files: parsed, and with at least one message. */
  function Summaries(files: seq<File>, parse: string -> Option<Fields>, parseTime: string -> int)
    : (r: seq<Conversation>)
    ensures |r| <= |files|
    ensures forall c | c in r :: c.messageCount > 0
    ensures forall c | c in r :: c.sessionId in Seqs.Map(files, SessionIdOf)
    decreases |files|
  {
    if |files| == 0 then []
    else
      var rest := Summaries(files[1..], parse, parseTime);
      match ParseConversationFile(files[0], parse, parseTime)
      case Some(c) => if c.messageCount > 0 then [c] + rest else rest
      case None => rest
  }

  /**
   * getConversations(): the summaries of the listed files, most recent
   * first; nothing when the directory is missing.
   */
  function GetConversations(dir: Option<seq<File>>, parse: string -> Option<Fields>, parseTime: string -> int)
    : (r: seq<Conversation>)
    ensures dir.None? ==> r == []
    ensures Seqs.SortedDesc(r, TimeOf)
    ensures dir.Some? ==> multiset(r) == multiset(Summaries(Seqs.Filter(dir.value, Listed), parse, parseTime))
    ensures forall c | c in r :: c.messageCount > 0 && !StartsWith(c.sessionId, "agent-")
  {
    match dir
    case None => []
    case Some(files) =>
      var listed := Seqs.Filter(files, Listed);
      var r := Seqs.SortDesc(Summaries(listed, parse, parseTime), TimeOf);
      SummariesOfListed(listed, parse, parseTime, r);
      r
  }

  lemma SummariesOfListed(listed: seq<File>, parse: string -> Option<Fields>, parseTime: string -> int,
                          r: seq<Conversation>)
    requires forall f | f in listed :: Listed(f)
    requires multiset(r) == multiset(Summaries(listed, parse, parseTime))
    ensures forall c | c in r :: c.messageCount > 0 && !StartsWith(c.sessionId, "agent-")
  {
    var ids := Seqs.Map(listed, SessionIdOf);
    forall c | c in r
      ensures c.messageCount > 0 && !StartsWith(c.sessionId, "agent-")
    {
      assert c in multiset(r);
      var i :| 0 <= i < |ids| && ids[i] == c.sessionId;
      ListedIsNotAgent(listed[i]);
    }
  }

  // ---------------------------------------------------------------------
  // loadConversation
  // ---------------------------------------------------------------------

  /** The object items of a line's message content array. */
  function ContentItems(json: Fields): seq<Json> {
    match OptObject(json, "message")
    case None => []
    case Some(m) => OptArray(m, "content").GetOr([])
  }

  /** The first pass over one array: (tool_use_id, is_error) per tool_result with an id. */
  function ResultsOf(items: seq<Json>): (r: seq<(string, bool)>)
    ensures forall j | 0 <= j < |r| :: r[j].0 != ""
    decreases |items|
  {
    if |items| == 0 then []
    else
      var head := match items[0]
        case JObject(item) =>
          var id := OptString(item, "tool_use_id", "");
          if OptString(item, "type", "") == "tool_result" && id != ""
          then [(id, OptBoolean(item, "is_error", false))] else []
        case _ => [];
      head + ResultsOf(items[1..])
  }

  /** The first pass: every parsed line, whatever its type, in file order. */
  function ToolResults(lines: seq<string>, parse: string -> Option<Fields>): (r: seq<(string, bool)>)
    ensures forall j | 0 <= j < |r| :: r[j].0 != ""
    decreases |lines|
  {
    if |lines| == 0 then []
    else
      var head := if IsBlank(lines[0]) then [] else
        match parse(lines[0]) case None => [] case Some(json) => ResultsOf(ContentItems(json));
      head + ToolResults(lines[1..], parse)
  }

  /** toolErrorMap: each pair overwrites the entry for its id. */
  function ErrorMap(pairs: seq<(string, bool)>): (m: map<string, bool>)
    ensures forall k | k in m :: exists j | 0 <= j < |pairs| :: pairs[j].0 == k
    decreases |pairs|
  {
    if |pairs| == 0 then map[]
    else ErrorMap(pairs[..|pairs| - 1])[pairs[|pairs| - 1].0 := pairs[|pairs| - 1].1]
  }

  /** Last write wins: an id maps to the flag of its last pair. */
  lemma {:induction false} ErrorMapLastWins(pairs: seq<(string, bool)>, j: nat)
    requires j < |pairs|
    requires forall j2 | j < j2 < |pairs| :: pairs[j2].0 != pairs[j].0
    ensures pairs[j].0 in ErrorMap(pairs) && ErrorMap(pairs)[pairs[j].0] == pairs[j].1
    decreases |pairs|
  {
    if j < |pairs| - 1 {
      var init := pairs[..|pairs| - 1];
      assert forall j2 | j < j2 < |init| :: init[j2] == pairs[j2];
      ErrorMapLastWins(init, j);
    }
  }

  /** What the scan of one array for tool_use items found. */
  datatype ToolUse = ToolUse(name: Option<string>, input: Option<string>, isError: bool)

  predicate IsToolUseItem(item: Json) {
    item.JObject? && OptString(item.fields, "type", "") == "tool_use"
  }

  /** The second pass over one array: the last tool_use item's name and input win. */
  function ScanToolUses(items: seq<Json>, errors: map<string, bool>, render: Json -> string): (t: ToolUse)
    ensures match Seqs.IndexOfLast(items, IsToolUseItem)
            case None => t == ToolUse(None, None, false)
            case Some(j) => t.name == Some(OptString(items[j].fields, "name", ""))
    ensures t.isError ==> t.name.Some?
    decreases |items|
  {
    if |items| == 0 then ToolUse(None, None, false)
    else
      var item := items[|items| - 1];
      var prev := ScanToolUses(items[..|items| - 1], errors, render);
      if IsToolUseItem(item) then ToolUseOf(item.fields, errors, render, prev.isError) else prev
  }

  /**
   * A tool_use item: its name, its rendered input, and the flag recorded
   * for its id; an item without an id keeps the flag found so far.
   */
  function ToolUseOf(item: Fields, errors: map<string, bool>, render: Json -> string, prevError: bool): (t: ToolUse)
    ensures t.name == Some(OptString(item, "name", ""))
    ensures OptString(item, "id", "") == "" ==> t.isError == prevError
    ensures OptString(item, "id", "") != "" ==>
              t.isError == (OptString(item, "id", "") in errors && errors[OptString(item, "id", "")])
  {
    var id := OptString(item, "id", "");
    var input := match OptObject(item, "input") case Some(o) => Some(render(JObject(o))) case None => None;
    var isError := if id != "" then (if id in errors then errors[id] else false) else prevError;
    ToolUse(Some(OptString(item, "name", "")), input, isError)
  }

  /** The second pass over one line: a message iff it has text or a tool use. */
  function LoadLine(line: string, parse: string -> Option<Fields>, parseTime: string -> int,
                    errors: map<string, bool>, render: Json -> string): (r: Option<ConversationMessage>)
    ensures r.Some? ==> MessageLine(line, parse).Some?
    ensures r.Some? ==> r.value.kind in MESSAGE_TYPES
    ensures r.Some? ==> r.value.content != "" || r.value.toolName.Some?
    ensures r.Some? ==> (r.value.isError ==> r.value.toolName.Some?)
    ensures MessageLine(line, parse).Some? && UserText(line, parse).Some? ==> r.Some?
    ensures MessageLine(line, parse).Some? ==>
              var json := MessageLine(line, parse).value;
              (r.Some? <==> ExtractMessageContent(OptObject(json, "message")) != ""
                            || exists k | 0 <= k < |ContentItems(json)| :: IsToolUseItem(ContentItems(json)[k]))
    ensures r.Some? ==>
              var json := MessageLine(line, parse).value;
              && r.value.uuid == OptString(json, "uuid", "") && r.value.kind == OptString(json, "type", "")
              && r.value.content == ExtractMessageContent(OptObject(json, "message"))
              && r.value.timestamp == parseTime(OptString(json, "timestamp", ""))
  {
    match MessageLine(line, parse)
    case None => None
    case Some(json) =>
      var message := OptObject(json, "message");
      var content := ExtractMessageContent(message);
      var tool := ScanToolUses(ContentItems(json), errors, render);
      if content != "" || tool.name.Some? then
        Some(ConversationMessage(OptString(json, "uuid", ""), OptString(json, "type", ""), content,
                                 parseTime(OptString(json, "timestamp", "")), tool.name, tool.input, tool.isError))
      else None
  }

  function LoadLines(lines: seq<string>, parse: string -> Option<Fields>, parseTime: string -> int,
                     errors: map<string, bool>, render: Json -> string): (r: seq<ConversationMessage>)
    ensures |r| <= |lines|
    ensures forall m | m in r :: m.kind in MESSAGE_TYPES && (m.content != "" || m.toolName.Some?)
                                 && (m.isError ==> m.toolName.Some?)
    decreases |lines|
  {
    if |lines| == 0 then []
    else
      (match LoadLine(lines[0], parse, parseTime, errors, render) case Some(m) => [m] case None => [])
        + LoadLines(lines[1..], parse, parseTime, errors, render)
  }

  /** The second pass's view of one line. */
  function LoadFn(parse: string -> Option<Fields>, parseTime: string -> int,
                  errors: map<string, bool>, render: Json -> string): string -> Option<ConversationMessage> {
    (line: string) => LoadLine(line, parse, parseTime, errors, render)
  }

  /** The second pass is Kotlin's mapNotNull of the line loader. */
  lemma {:induction false} LoadLinesIsCollect(lines: seq<string>, parse: string -> Option<Fields>,
                                              parseTime: string -> int, errors: map<string, bool>,
                                              render: Json -> string)
    ensures LoadLines(lines, parse, parseTime, errors, render)
            == Seqs.Collect(lines, LoadFn(parse, parseTime, errors, render))
    decreases |lines|
  {
    if |lines| > 0 {
      LoadLinesIsCollect(lines[1..], parse, parseTime, errors, render);
    }
  }

  /**
   * loadConversation(sessionId): a first pass collects the tool_result
   * flags, a second builds the messages; nothing when the file is missing.
   */
  function LoadConversation(file: Option<seq<string>>, parse: string -> Option<Fields>,
                            parseTime: string -> int, render: Json -> string): (r: seq<ConversationMessage>)
    ensures file.None? ==> r == []
    ensures file.Some? ==> |r| <= Seqs.Count(file.value, IsMessage(parse))
    ensures file.Some? ==>
              var errors := ErrorMap(ToolResults(file.value, parse));
              var q := Seqs.Filter(file.value, Seqs.IsDefined(LoadFn(parse, parseTime, errors, render)));
              |r| == |q| && forall i | 0 <= i < |q| :: LoadLine(q[i], parse, parseTime, errors, render) == Some(r[i])
    ensures forall m | m in r :: m.kind in MESSAGE_TYPES && (m.content != "" || m.toolName.Some?)
                                 && (m.isError ==> m.toolName.Some?)
  {
    match file
    case None => []
    case Some(lines) =>
      var errors := ErrorMap(ToolResults(lines, parse));
      LoadLinesCount(lines, parse, parseTime, errors, render);
      LoadLinesIsCollect(lines, parse, parseTime, errors, render);
      Seqs.CollectIsFilterMap(lines, LoadFn(parse, parseTime, errors, render));
      LoadLines(lines, parse, parseTime, errors, render)
  }

  /** Only message lines become messages. */
  lemma {:induction false} LoadLinesCount(lines: seq<string>, parse: string -> Option<Fields>, parseTime: string -> int,
                                          errors: map<string, bool>, render: Json -> string)
    ensures |LoadLines(lines, parse, parseTime, errors, render)| <= Seqs.Count(lines, IsMessage(parse))
    decreases |lines|
  {
    if |lines| > 0 {
      LoadLinesCount(lines[1..], parse, parseTime, errors, render);
    }
  }

  /** A tool use whose id has a later tool_result marked as an error loads as an error. */
  lemma ToolErrorFlagged(items: seq<Json>, errors: map<string, bool>, render: Json -> string)
    requires |items| > 0 && IsToolUseItem(items[|items| - 1])
    requires var id := OptString(items[|items| - 1].fields, "id", ""); id != "" && id in errors && errors[id]
    ensures ScanToolUses(items, errors, render).isError
  {
  }

  // ---------------------------------------------------------------------
  // getStorageStats and cleanupEmptyConversations
  // ---------------------------------------------------------------------

  datatype StorageStats = StorageStats(conversationCount: nat, totalSizeBytes: nat, emptyConversations: nat)

  predicate IsEmptyFile(f: File) { f.size == 0 }

  /** The sum of the files' sizes. */
  function TotalSize(files: seq<File>): nat
    decreases |files|
  {
    if |files| == 0 then 0 else files[0].size + TotalSize(files[1..])
  }

  /** Sizes add up over a split of the listing. */
  lemma {:induction false} TotalSizeConcat(xs: seq<File>, ys: seq<File>)
    ensures TotalSize(xs + ys) == TotalSize(xs) + TotalSize(ys)
    decreases |xs|
  {
    if |xs| > 0 {
      assert (xs + ys)[1..] == xs[1..] + ys;
      TotalSizeConcat(xs[1..], ys);
    } else {
      assert xs + ys == ys;
    }
  }

  /** Every file's size is part of the total. */
  lemma {:induction false} TotalSizeBounds(files: seq<File>, i: nat)
    requires i < |files|
    ensures files[i].size <= TotalSize(files)
    decreases i
  {
    if i > 0 {
      TotalSizeBounds(files[1..], i - 1);
    }
  }

  /** getStorageStats(): over the listed files only. */
  function GetStorageStats(dir: Option<seq<File>>): (r: StorageStats)
    ensures dir.None? ==> r == StorageStats(0, 0, 0)
    ensures dir.Some? ==> r.conversationCount == |Seqs.Filter(dir.value, Listed)|
    ensures dir.Some? ==> r.totalSizeBytes == TotalSize(Seqs.Filter(dir.value, Listed))
    ensures dir.Some? ==> r.emptyConversations == Seqs.Count(Seqs.Filter(dir.value, Listed), IsEmptyFile)
    ensures r.emptyConversations <= r.conversationCount
    ensures r.totalSizeBytes == 0 ==> r.emptyConversations == r.conversationCount
  {
    match dir
    case None => StorageStats(0, 0, 0)
    case Some(files) =>
      var listed := Seqs.Filter(files, Listed);
      EmptyWhenNoBytes(listed);
      StorageStats(|listed|, TotalSize(listed), Seqs.Count(listed, IsEmptyFile))
  }

  lemma {:induction false} EmptyWhenNoBytes(files: seq<File>)
    ensures TotalSize(files) == 0 ==> Seqs.Count(files, IsEmptyFile) == |files|
    decreases |files|
  {
    if |files| > 0 {
      EmptyWhenNoBytes(files[1..]);
    }
  }

  /** The file that holds a session. */
  function SessionFile(sessionId: string): string {
    sessionId + ".jsonl"
  }

  /**
   * deleteConversation(sessionId): false when the session's file does not
   * exist, otherwise what File.delete() answers; `deletes(name)` is that
   * answer.
   */
  function DeleteConversation(dir: Option<seq<File>>, sessionId: string, deletes: string -> bool): (r: bool)
    ensures r <==> dir.Some? && deletes(SessionFile(sessionId))
                   && exists i | 0 <= i < |dir.value| :: dir.value[i].name == SessionFile(sessionId)
  {
    match dir
    case None => false
    case Some(files) =>
      if exists i | 0 <= i < |files| :: files[i].name == SessionFile(sessionId) then deletes(SessionFile(sessionId))
      else false
  }

  /** The directory after the session's file has been deleted. */
  function WithoutFile(files: seq<File>, name: string): (r: seq<File>)
    ensures forall f :: f in r <==> f in files && f.name != name
  {
    Seqs.Filter(files, (f: File) => f.name != name)
  }

  /** The only listed file of a session is the session's own ".jsonl" file. */
  lemma ListedSessionFile(f: File, sessionId: string)
    requires Listed(f) && SessionIdOf(f) == sessionId
    ensures f.name == SessionFile(sessionId)
  {
    NameSplitsAtLastDot(f.name);
  }

  /** Once its file is deleted, a session is no longer among the conversations. */
  lemma DeletedNotListed(files: seq<File>, sessionId: string, parse: string -> Option<Fields>, parseTime: string -> int)
    ensures forall c | c in GetConversations(Some(WithoutFile(files, SessionFile(sessionId))), parse, parseTime) ::
              c.sessionId != sessionId
  {
    var rest := WithoutFile(files, SessionFile(sessionId));
    var listed := Seqs.Filter(rest, Listed);
    var r := GetConversations(Some(rest), parse, parseTime);
    forall c | c in r
      ensures c.sessionId != sessionId
    {
      assert c in multiset(r);
      assert c in Summaries(listed, parse, parseTime);
      var ids := Seqs.Map(listed, SessionIdOf);
      var k :| 0 <= k < |ids| && ids[k] == c.sessionId;
      assert listed[k] in listed;
      if c.sessionId == sessionId {
        ListedSessionFile(listed[k], sessionId);
        assert false;
      }
    }
  }

  /** An empty ".jsonl" file whose deletion succeeds; sub-agent files included. */
  function Removed(deletes: string -> bool): File -> bool {
 (f: File) => Extension(f.name) == "jsonl" && f.size == 0 && deletes(f.name)
  }

  /**
   * cleanupEmptyConversations(): deletes the empty ".jsonl" files and
   * counts those whose deletion succeeded. `deletes(name)` is File.delete().
   */
  method CleanupEmptyConversations(dir: Option<seq<File>>, deletes: string -> bool) returns (deleted: nat)
    ensures dir.None? ==> deleted == 0
    ensures dir.Some? ==> deleted == Seqs.Count(dir.value, Removed(deletes))
  {
    deleted := 0;
    if dir.None? {
      return;
    }
    var files := dir.value;
    var i := 0;
    while i < |files|
      invariant 0 <= i <= |files|
      invariant deleted == Seqs.Count(files[..i], Removed(deletes))
      decreases |files| - i
    {
      var f := files[i];
      assert files[..i + 1] == files[..i] + [f];
      Seqs.CountAppend(files[..i], f, Removed(deletes));
      if Extension(f.name) == "jsonl" && f.size == 0 {
        if deletes(f.name) {
          deleted := deleted + 1;
        }
      }
      i := i + 1;
    }
    assert files[..|files|] == files;
  }

  /** Unlike the listings, the cleanup reaches a sub-agent's empty file. */
  lemma CleanupReachesAgentFiles(f: File, deletes: string -> bool)
    requires StartsWith(f.name, "agent-") && Extension(f.name) == "jsonl" && f.size == 0 && deletes(f.name)
    ensures !Listed(f)
    ensures Seqs.Count([f], Removed(deletes)) == 1
  {
    assert [f][1..] == [];
  }
}

=== FILE: image_utils.dfy ===
/**
 * ImageUtils: the size arithmetic used before an attached image is sent to
 * Claude. A large image is first decoded at a power-of-two sample size that
 * brings each side down to at most twice the limit, then scaled so that its
 * longer side is the limit. Decoding, JPEG compression, Base64 and the
 * content resolver are left out; the resolver's answers become parameters.
 */
module ImageUtils {
  import opened Wrappers
  import opened KotlinInt

  /** The longest side, in pixels, of an image sent to the API. */
  const MAX_IMAGE_DIMENSION: int := 1024

  const JPEG_QUALITY: int := 85

  const DEFAULT_MIME_TYPE: string := "image/jpeg"

  /** 2 to the power k. */
  function Pow2(k: nat): (r: nat)
    ensures r >= 1
  {
    if k == 0 then 1 else 2 * Pow2(k - 1)
  }

  predicate IsPowerOfTwo(n: int) {
    exists k: nat :: k <= 20 && Pow2(k) == n
  }

  /** A side that does not need further down-sampling. */
  predicate FitsSample(side: int, s: int)
    requires s > 0
  {
    Quot(side, s) <= MAX_IMAGE_DIMENSION * 2
  }

  /** The largest sample size that can ever be needed for a Kotlin Int side. */
  const MAX_SAMPLE: int := 0x10_0000

  /** Any Kotlin Int side fits at the largest sample size. */
  lemma FitsAtMaxSample(side: int)
    requires IsInt32(side)
    ensures FitsSample(side, MAX_SAMPLE)
  {
    if side >= 0 {
      assert side < 2048 * MAX_SAMPLE;
    }
  }

  /**
   * calculateSampleSize(width, height): the smallest power of two at which
   * both sides, divided as Kotlin divides Ints, are at most twice the limit.
   */
  method CalculateSampleSize(width: int, height: int) returns (s: int)
    requires IsInt32(width) && IsInt32(height)
    ensures IsPowerOfTwo(s) && 1 <= s <= MAX_SAMPLE && IsInt32(s)
    ensures FitsSample(width, s) && FitsSample(height, s)
    ensures s > 1 ==> s % 2 == 0 && !(FitsSample(width, s / 2) && FitsSample(height, s / 2))
    ensures FitsSample(width, 1) && FitsSample(height, 1) ==> s == 1
  {
    s := 1;
    ghost var k: nat := 0;
    while !(FitsSample(width, s) && FitsSample(height, s))
      invariant k <= 20 && s == Pow2(k) && s <= MAX_SAMPLE
      invariant k > 0 ==> !(FitsSample(width, Pow2(k - 1)) && FitsSample(height, Pow2(k - 1)))
      invariant k > 0 ==> !(FitsSample(width, 1) && FitsSample(height, 1))
      decreases 20 - k
    {
      if k == 20 {
        assert s == MAX_SAMPLE by { Pow2Twenty(); }
        FitsAtMaxSample(width);
        FitsAtMaxSample(height);
        assert false;
      }
      Pow2Below(k);
      s := s * 2;
      k := k + 1;
    }
    if k > 0 {
      Pow2Half(k);
    }
  }

  /** A positive power of two is even, and halving it steps down one power. */
  lemma Pow2Half(k: nat)
    requires k > 0
    ensures Pow2(k) % 2 == 0 && Pow2(k) / 2 == Pow2(k - 1)
  {
  }

  lemma {:induction false} Pow2Add(a: nat, b: nat)
    ensures Pow2(a + b) == Pow2(a) * Pow2(b)
    decreases a
  {
    if a > 0 {
      Pow2Add(a - 1, b);
    }
  }

  lemma Pow2Twenty()
    ensures Pow2(20) == MAX_SAMPLE
  {
    assert Pow2(5) == 32;
    Pow2Add(5, 5);
    Pow2Add(10, 10);
  }

  /** Below the twentieth power of two, the next power is still at most 2^20. */
  lemma {:induction false} Pow2Below(k: nat)
    requires k < 20
    ensures Pow2(k) * 2 <= MAX_SAMPLE
    decreases 20 - k
  {
    if k < 19 {
      Pow2Below(k + 1);
    } else {
      Pow2Twenty();
    }
  }

  /** The dimensions of an image, in pixels. */
  datatype Size = Size(width: int, height: int)

  function MaxDim(sz: Size): int {
    if sz.width >= sz.height then sz.width else sz.height
  }

  /** The scaled side, `side * limit / maxDim` rounded toward zero, in exact arithmetic. */
  function ScaleSide(side: nat, maxDim: int): (r: nat)
    requires maxDim > 0
    ensures r * maxDim <= side * MAX_IMAGE_DIMENSION < (r + 1) * maxDim
  {
    (side * MAX_IMAGE_DIMENSION) / maxDim
  }

  /**
   * resizeIfNeeded(bitmap): the size of the bitmap that is compressed. An
   * image whose longer side is within the limit is kept; otherwise both sides
   * are scaled by the same factor so that the longer side becomes the limit.
   * Bitmap.createScaledBitmap refuses a side of zero, which a very thin image
   * scales to; the exception ends processImageForApi with null, which is None
   * here.
   */
  function ResizeIfNeeded(sz: Size): (r: Option<Size>)
    requires sz.width > 0 && sz.height > 0
    ensures MaxDim(sz) <= MAX_IMAGE_DIMENSION ==> r == Some(sz)
    ensures MaxDim(sz) > MAX_IMAGE_DIMENSION ==>
              var w := ScaleSide(sz.width, MaxDim(sz));
              var h := ScaleSide(sz.height, MaxDim(sz));
              && w * MaxDim(sz) <= sz.width * MAX_IMAGE_DIMENSION < (w + 1) * MaxDim(sz)
              && h * MaxDim(sz) <= sz.height * MAX_IMAGE_DIMENSION < (h + 1) * MaxDim(sz)
              && (r.Some? <==> w > 0 && h > 0)
              && (r.Some? ==> r == Some(Size(w, h)))
  {
    var m := MaxDim(sz);
    if m <= MAX_IMAGE_DIMENSION then Some(sz)
    else
      var w := ScaleSide(sz.width, m);
      var h := ScaleSide(sz.height, m);
      if w > 0 && h > 0 then Some(Size(w, h)) else None
  }

  /** After resizing, the longer side is exactly the limit and no side exceeds it. */
  lemma ResizedFits(sz: Size)
    requires sz.width > 0 && sz.height > 0
    ensures ResizeIfNeeded(sz).Some? ==>
              var r := ResizeIfNeeded(sz).value;
              && 0 < r.width <= MAX_IMAGE_DIMENSION && 0 < r.height <= MAX_IMAGE_DIMENSION
              && (MaxDim(sz) > MAX_IMAGE_DIMENSION ==> MaxDim(r) == MAX_IMAGE_DIMENSION)
  {
    var m := MaxDim(sz);
    if m > MAX_IMAGE_DIMENSION && ResizeIfNeeded(sz).Some? {
      var r := ResizeIfNeeded(sz).value;
      ScaleSideBounded(sz.width, m);
      ScaleSideBounded(sz.height, m);
      if sz.width == m {
        assert r.width == MAX_IMAGE_DIMENSION by { ScaleSideOfMax(m); }
      } else {
        assert r.height == MAX_IMAGE_DIMENSION by { ScaleSideOfMax(m); }
      }
    }
  }

  lemma ScaleSideBounded(side: nat, m: int)
    requires 0 < side <= m
    ensures ScaleSide(side, m) <= MAX_IMAGE_DIMENSION
  {
  }

  lemma ScaleSideOfMax(m: int)
    requires m > 0
    ensures ScaleSide(m, m) == MAX_IMAGE_DIMENSION
  {
    assert m * MAX_IMAGE_DIMENSION == MAX_IMAGE_DIMENSION * m;
  }

  /** A resized image needs no further resizing: resizing is idempotent. */
  lemma ResizeIdempotent(sz: Size)
    requires sz.width > 0 && sz.height > 0
    ensures ResizeIfNeeded(sz).Some? ==> ResizeIfNeeded(ResizeIfNeeded(sz).value) == ResizeIfNeeded(sz)
  {
    ResizedFits(sz);
  }

  /** Example: a 1x2048 image scales to a width of zero, so it is not sent at all. */
  lemma ThinImageRejected()
    ensures ResizeIfNeeded(Size(1, 2048)).None?
  {
    assert ScaleSide(1, 2048) == 0;
  }

  /** getMimeType(uri): the type the content resolver reports, or JPEG when it reports none. */
  function GetMimeType(resolved: Option<string>): (r: string)
    ensures resolved.Some? ==> r == resolved.value
    ensures resolved.None? ==> r == DEFAULT_MIME_TYPE
  {
    resolved.GetOr(DEFAULT_MIME_TYPE)
  }

  /** getFilePath(uri): the path of a `file` URI, and nothing for any other scheme. */
  function GetFilePath(scheme: Option<string>, path: Option<string>): (r: Option<string>)
    ensures r.Some? ==> scheme == Some("file") && r == path
    ensures scheme == Some("file") ==> r == path
    ensures scheme != Some("file") ==> r.None?
  {
    if scheme == Some("file") then path else None
  }
}

=== FILE: json.dfy ===
/**
 * JSON values and the org.json accessors (Android's implementation) the
 * application reads them with. A thrown JSONException is `None`.
 * Text parsing and printing are not part of this model: documents are
 * values of the `Json` datatype.
 */
module Json {
  import opened Wrappers
  import opened Strings

  datatype Json =
    | JNull
    | JBool(b: bool)
    | JInt(n: int)
    | JString(s: string)
    | JArray(items: seq<Json>)
    | JObject(fields: map<string, Json>)

  type Fields = map<string, Json>

  /** `opt(name)`: the raw member, or Java null when absent. */
  function Opt(o: Fields, key: string): Option<Json> {
    if key in o then Some(o[key]) else None
  }

  /** `has(name)`. */
  predicate Has(o: Fields, key: string) {
    key in o
  }

  /** `isNull(name)`: absent, or present as JSON null. */
  predicate IsNull(o: Fields, key: string) {
    key !in o || o[key] == JNull
  }

  /** Android's JSON.toString coercion: strings as they are, other scalars printed. */
  function ScalarText(v: Json): Option<string> {
    match v
    case JString(s) => Some(s)
    case JNull => Some("null")
    case JBool(b) => Some(if b then "true" else "false")
    case JInt(n) => Some(IntToString(n))
    case _ => None
  }

  /** `getString(name)`: throws when absent or not coercible. */
  function GetString(o: Fields, key: string): (r: Option<string>)
    ensures key in o && o[key].JString? ==> r == Some(o[key].s)
    ensures key !in o ==> r.None?
  {
    if key in o then ScalarText(o[key]) else None
  }

  /** `optString(name, fallback)`; note that an explicit JSON null reads as "null". */
  function OptString(o: Fields, key: string, fallback: string): (r: string)
    ensures key in o && o[key].JString? ==> r == o[key].s
    ensures key !in o ==> r == fallback
    ensures key in o && o[key] == JNull ==> r == "null"
  {
    GetString(o, key).GetOr(fallback)
  }

  /** The bounds of a Java `int`. */
  const INT_MIN: int := -0x8000_0000
  const INT_MAX: int := 0x7fff_ffff

  /** A Java `(int)` cast of an integral double: out-of-range values saturate. */
  function SaturateInt(x: int): (r: int)
    ensures INT_MIN <= r <= INT_MAX
    ensures INT_MIN <= x <= INT_MAX ==> r == x
    ensures x > INT_MAX ==> r == INT_MAX
    ensures x < INT_MIN ==> r == INT_MIN
  {
    if x > INT_MAX then INT_MAX else if x < INT_MIN then INT_MIN else x
  }

  predicate AllDigits(s: string) {
    forall i | 0 <= i < |s| :: '0' <= s[i] <= '9'
  }

  /** An optional sign followed by one or more decimal digits. */
  function SignedDecimal(s: string): (r: Option<int>)
    ensures r.Some? ==> |s| > 0
  {
    if |s| == 0 then None
    else if s[0] == '-' || s[0] == '+' then
      if |s| > 1 && AllDigits(s[1..]) then
        var m: int := ParseDigits(s[1..]);
        Some(if s[0] == '-' then -m else m)
      else None
    else if AllDigits(s) then Some(ParseDigits(s) as int)
    else None
  }

  /**
   * Android's JSON.toInteger for a string member, `(int) Double.parseDouble(s)`,
   * for the integer texts: surrounding control characters and spaces are
   * trimmed and a value outside the `int` range saturates.
   */
  function IntFromText(s: string): (r: Option<int>)
    ensures r.Some? ==> INT_MIN <= r.value <= INT_MAX
  {
    match SignedDecimal(JavaTrim(s))
    case Some(v) => Some(SaturateInt(v))
    case None => None
  }

  /** java.lang.String.trim() leaves alone a text whose ends are printable. */
  lemma JavaTrimUntrimmed(s: string)
    requires |s| > 0 && s[0] as int > 0x20 && s[|s| - 1] as int > 0x20
    ensures JavaTrim(s) == s
  {
    assert TrimStart(s, IsJavaTrimmable) == s;
    assert TrimEnd(s, IsJavaTrimmable) == s;
  }

  /** The decimal rendering of an integer is a signed decimal of the same value. */
  lemma SignedDecimalOfInt(n: int)
    ensures SignedDecimal(IntToString(n)) == Some(n)
  {
    var t := IntToString(n);
    if n < 0 {
      var d := NatToString(-n);
      assert t == "-" + d && t[1..] == d;
      ParseNatToString(-n);
    } else {
      ParseNatToString(n);
    }
  }

  /** Every `int`, printed in decimal, reads back as itself. */
  lemma IntFromTextOfInt(n: int)
    requires INT_MIN <= n <= INT_MAX
    ensures IntFromText(IntToString(n)) == Some(n)
  {
    var t := IntToString(n);
    assert t[0] == '-' || '0' <= t[0] <= '9' by {
      if n >= 0 { assert t == NatToString(n); }
    }
    JavaTrimUntrimmed(t);
    SignedDecimalOfInt(n);
  }

  /** A member written as a number or as its decimal text reads back the same. */
  lemma GetIntReadsText(o: Fields, key: string, n: int)
    requires INT_MIN <= n <= INT_MAX
    ensures GetInt(o[key := JInt(n)], key) == Some(n)
    ensures GetInt(o[key := JString(IntToString(n))], key) == Some(n)
  {
    var o1 := o[key := JString(IntToString(n))];
    assert key in o1 && o1[key] == JString(IntToString(n));
    IntFromTextOfInt(n);
  }

  /**
   * `getInt(name)`: Android's JSON.toInteger. Numbers are taken whole, numeric
   * strings are parsed, and anything else throws.
   */
  function GetInt(o: Fields, key: string): (r: Option<int>)
    ensures key !in o ==> r.None?
    ensures key in o && o[key].JInt? ==> r == Some(o[key].n)
    ensures key in o && o[key].JString? ==> r == IntFromText(o[key].s)
    ensures key in o && !o[key].JInt? && !o[key].JString? ==> r.None?
  {
    if key !in o then None
    else match o[key]
      case JInt(n) => Some(n)
      case JString(s) => IntFromText(s)
      case _ => None
  }

  /** `optInt(name, fallback)`: the same coercion, with the fallback where getInt throws. */
  function OptInt(o: Fields, key: string, fallback: int): (r: int)
    ensures key in o && o[key].JInt? ==> r == o[key].n
    ensures key in o && o[key].JString? && IntFromText(o[key].s).Some? ==> r == IntFromText(o[key].s).value
    ensures GetInt(o, key).None? ==> r == fallback
  {
    GetInt(o, key).GetOr(fallback)
  }

  /**
   * `optBoolean(name, fallback)`: booleans, or the strings "true"/"false"
   * compared with Java's `equalsIgnoreCase`, which matches two characters
   * when their upper-case forms agree (so the long s 'ſ' counts as 's').
   */
  function OptBoolean(o: Fields, key: string, fallback: bool): (r: bool)
    ensures key in o && o[key].JBool? ==> r == o[key].b
    ensures key !in o ==> r == fallback
    ensures key in o && o[key].JString? ==>
              r == (if Upper(o[key].s) == "TRUE" then true else if Upper(o[key].s) == "FALSE" then false else fallback)
    ensures key in o && !o[key].JBool? && !o[key].JString? ==> r == fallback
  {
    if key !in o then fallback
    else match o[key]
      case JBool(b) => b
      case JString(s) =>
        if Upper(s) == "TRUE" then true
        else if Upper(s) == "FALSE" then false
        else fallback
      case _ => fallback
  }

  /** An example: "falſe", spelt with the long s, reads as false, and so does "FALSE". */
  lemma LongSReadsAsFalse()
    ensures OptBoolean(map["enabled" := JString("fal\U{017F}e")], "enabled", true) == false
    ensures OptBoolean(map["enabled" := JString("FALSE")], "enabled", true) == false
  {
  }

  /** `optJSONArray(name)`. */
  function OptArray(o: Fields, key: string): (r: Option<seq<Json>>)
    ensures r.Some? <==> key in o && o[key].JArray?
    ensures r.Some? ==> r.value == o[key].items
  {
    if key in o && o[key].JArray? then Some(o[key].items) else None
  }

  /** `optJSONObject(name)`. */
  function OptObject(o: Fields, key: string): (r: Option<Fields>)
    ensures r.Some? <==> key in o && o[key].JObject?
    ensures r.Some? ==> r.value == o[key].fields
  {
    if key in o && o[key].JObject? then Some(o[key].fields) else None
  }

  /** JSONArray.getString(i) for every element; throws if any element is not coercible. */
  function StringsOf(items: seq<Json>): (r: Option<seq<string>>)
    ensures r.Some? ==> |r.value| == |items|
    ensures r.Some? ==> forall i | 0 <= i < |items| :: items[i].JString? ==> r.value[i] == items[i].s
    ensures (forall i | 0 <= i < |items| :: items[i].JString?) ==> r.Some?
    ensures r.Some? ==> forall i | 0 <= i < |items| :: ScalarText(items[i]) == Some(r.value[i])
    ensures r.None? <==> exists i | 0 <= i < |items| :: ScalarText(items[i]).None?
  {
    if |items| == 0 then Some([])
    else
      assert forall i | 1 <= i < |items| :: items[i] == items[1..][i - 1];
      match (ScalarText(items[0]), StringsOf(items[1..]))
      case (Some(h), Some(t)) => Some([h] + t)
      case _ => None
  }

  /** A JSONArray built from strings. */
  function StringArray(xs: seq<string>): (r: seq<Json>)
    ensures |r| == |xs| && forall i | 0 <= i < |xs| :: r[i] == JString(xs[i])
  {
    seq(|xs|, i requires 0 <= i < |xs| => JString(xs[i]))
  }

  /** Reading back an array of strings gives the strings. */
  lemma StringsOfStringArray(xs: seq<string>)
    ensures StringsOf(StringArray(xs)) == Some(xs)
  {
    var r := StringsOf(StringArray(xs));
    assert r.Some?;
    assert r.value == xs;
  }
}

=== FILE: kotlin_int.dfy ===
/**
 * Kotlin/Java 32-bit `Int` arithmetic over Dafny's unbounded integers:
 * results wrap modulo 2^32 into the signed range, and `/` truncates
 * toward zero where Dafny's rounds down.
 */
module KotlinInt {
  const TWO_32: int := 0x1_0000_0000

  /** A Kotlin Int. */
  predicate IsInt32(x: int) {
    -0x8000_0000 <= x < 0x8000_0000
  }

  /** The Int a mathematical value wraps to. */
  function Wrap32(x: int): (r: int)
    ensures IsInt32(r) && (r - x) % TWO_32 == 0
    ensures IsInt32(x) ==> r == x
  {
    var u := x % TWO_32;
    if u >= 0x8000_0000 then u - TWO_32 else u
  }

  /** Kotlin's Int division by a positive divisor, which truncates toward zero. */
  function Quot(a: int, d: int): int
    requires d > 0
  {
    if a >= 0 then a / d else -((-a) / d)
  }

  /** The quotient has the sign of the dividend and rounds its magnitude down. */
  lemma QuotTruncates(a: int, d: int)
    requires d > 0
    ensures a >= 0 ==> 0 <= Quot(a, d) && Quot(a, d) * d <= a < (Quot(a, d) + 1) * d
    ensures a < 0 ==> Quot(a, d) <= 0 && -Quot(a, d) * d <= -a < (-Quot(a, d) + 1) * d
  {
    if a >= 0 {
      DivBounds(a, d);
    } else {
      DivBounds(-a, d);
    }
  }

  /** Euclidean division of a natural number rounds down. */
  lemma DivBounds(n: nat, d: int)
    requires d > 0
    ensures 0 <= n / d && (n / d) * d <= n < (n / d + 1) * d
  {
    var m := n / d;
    assert n == d * m + n % d;
    assert (m + 1) * d == m * d + d;
  }
}

=== FILE: mcp_server.dfy ===
/**
 * McpServer: the device's Model Context Protocol endpoint, JSON-RPC 2.0
 * over HTTP POST at `/mcp`. Modelled are the request routing, the JSON-RPC
 * wrapping and error objects (codes from section 5.1 of the JSON-RPC 2.0
 * Specification), the session map, the tool-call error classification and
 * the JSON form of a tool definition.
 *
 * The request body reaches the model already parsed (or the message of the exception
 * `JSONObject(body)` threw); session ids, clocks and the tool runner are
 * parameters.
 */
module McpServer {
  import opened Wrappers
  import opened Strings
  import opened Json
  import Tools = AndroidTools

  const MCP_PATH: string := "/mcp"
  const PROTOCOL_VERSION: string := "2024-11-05"
  const METHOD_NOT_FOUND: int := -32601
  const PARSE_ERROR: int := -32700

  const STATUS_OK: int := 200
  const STATUS_NOT_FOUND: int := 404
  const STATUS_METHOD_NOT_ALLOWED: int := 405

  datatype HttpMethod = POST | GET | DELETE | OPTIONS | OtherMethod(name: string)

  datatype Body = Text(text: string) | JsonBody(doc: Fields)

  /** A POST body: the parsed request object, or the message of the exception parsing threw. */
  datatype Request = Parsed(doc: Fields) | Unparsable(message: Option<string>)

  datatype Response = Response(status: int, body: Body, headers: map<string, string>)

  /** The server's state: session id to creation time. */
  datatype Server = Server(sessions: map<string, int>)

  /** A tool completion reported to `onToolComplete`. */
  datatype Completion = Completion(tool: string, isError: bool)

  /** What a request may need from the outside. */
  datatype Env = Env(
    newSessionId: string,
    now: int,
    run: (string, string) -> Tools.ToolRun,
    render: Fields -> string)

  // ---------------------------------------------------------------------
  // JSON-RPC objects
  // ---------------------------------------------------------------------

  /** createErrorResponse(id, code, message). */
  function ErrorObject(id: Option<Json>, code: int, message: string): (o: Fields)
    ensures "error" in o && o["error"] == JObject(map["code" := JInt(code), "message" := JString(message)])
    ensures "jsonrpc" in o && o["jsonrpc"] == JString("2.0")
    ensures "id" in o <==> id.Some?
    ensures id.Some? ==> o["id"] == id.value
  {
    var base := map["jsonrpc" := JString("2.0"),
                    "error" := JObject(map["code" := JInt(code), "message" := JString(message)])];
    match id
    case None => base
    case Some(v) => base["id" := v]
  }

  /** A result that is already an error object goes out unchanged; any other is wrapped. */
  function Wrap(version: string, id: Option<Json>, result: Fields): (o: Fields)
    ensures "error" in result ==> o == result
    ensures "error" !in result ==> o.Keys == {"jsonrpc", "result"} + (if id.Some? then {"id"} else {})
    ensures "error" !in result ==> o["jsonrpc"] == JString(version) && o["result"] == JObject(result)
    ensures "error" !in result && id.Some? ==> o["id"] == id.value
  {
    if "error" in result then result
    else
      var base := map["jsonrpc" := JString(version), "result" := JObject(result)];
      match id
      case None => base
      case Some(v) => base["id" := v]
  }

  // ---------------------------------------------------------------------
  // Tool calls
  // ---------------------------------------------------------------------

  /** The error test applied to a tool's text result. */
  predicate IsErrorText(t: string) {
    StartsWith(t, "Error:") || StartsWith(t, "Unknown tool:")
    || (StartsWith(t, "{") && Contains(t, "\"success\": false"))
  }

  /** The single text content item a tool call returns. */
  function ToolContent(text: string, isError: bool): (o: Fields)
    ensures o.Keys == {"content", "isError"} && o["isError"] == JBool(isError)
    ensures o["content"] == JArray([JObject(map["type" := JString("text"), "text" := JString(text)])])
  {
    map["content" := JArray([JObject(map["type" := JString("text"), "text" := JString(text)])]),
        "isError" := JBool(isError)]
  }

  /**
   * handleToolsCall(params): an empty name is an error without running
   * anything; otherwise the tool runs and its text is classified, and the
   * completion is reported with the same flag.
   */
  function ToolsCall(params: Fields, env: Env): (r: (Fields, Option<Completion>))
    ensures OptString(params, "name", "") == "" ==> r == (ToolContent("Error: tool name is required", true), None)
    ensures r.0.Keys == {"content", "isError"} && r.0["isError"].JBool?
    ensures OptString(params, "name", "") != "" ==>
              r.1 == Some(Completion(OptString(params, "name", ""), r.0["isError"].b))
  {
    var name := OptString(params, "name", "");
    if name == "" then (ToolContent("Error: tool name is required", true), None)
    else
      var arguments := OptObject(params, "arguments").GetOr(map[]);
      var result := Tools.ExecuteTool(name, env.render(arguments), env.run);
      var isError := IsErrorText(result);
      (ToolContent(result, isError), Some(Completion(name, isError)))
  }

  /** A tool call reports an error exactly when its text passes the error test. */
  lemma ToolsCallClassifies(params: Fields, env: Env)
    requires OptString(params, "name", "") != ""
    ensures var r := ToolsCall(params, env);
      var text := Tools.ExecuteTool(OptString(params, "name", ""),
                                    env.render(OptObject(params, "arguments").GetOr(map[])), env.run);
      r.0 == ToolContent(text, IsErrorText(text)) && r.1.value.isError == IsErrorText(text)
  {
  }

  /** Unknown names, and tools that throw, are reported as errors. */
  lemma UnknownOrThrowingToolIsError(params: Fields, env: Env)
    requires OptString(params, "name", "") != ""
    requires var name := OptString(params, "name", "");
      Lower(name) !in Tools.DISPATCH_NAMES
      || env.run(Lower(name), env.render(OptObject(params, "arguments").GetOr(map[]))).Threw?
    ensures ToolsCall(params, env).0["isError"] == JBool(true)
  {
    var name := OptString(params, "name", "");
    var text := Tools.ExecuteTool(name, env.render(OptObject(params, "arguments").GetOr(map[])), env.run);
    if Lower(name) !in Tools.DISPATCH_NAMES {
      assert text == "Unknown tool: " + name;
      assert StartsWith(text, "Unknown tool:") by {
        assert text[..13] == "Unknown tool:";
      }
    } else {
      assert StartsWith(text, "Error: ");
      assert StartsWith(text, "Error:") by {
        assert text[..6] == "Error: "[..6];
      }
    }
  }

  // ---------------------------------------------------------------------
  // Tool definitions
  // ---------------------------------------------------------------------

  datatype PropDef = PropDef(ptype: string, description: string, required: bool)

  /** A tool definition; its properties keep their declaration order and have distinct names. */
  datatype ToolDef = ToolDef(name: string, description: string, properties: seq<(string, PropDef)>)

  predicate DistinctNames(props: seq<(string, PropDef)>) {
    forall i, j | 0 <= i < j < |props| :: props[i].0 != props[j].0
  }

  /** The names of the required properties, in declaration order. */
  function RequiredNames(props: seq<(string, PropDef)>): (r: seq<string>)
    ensures forall n :: n in r <==> exists i | 0 <= i < |props| :: props[i].0 == n && props[i].1.required
    ensures |r| <= |props|
    ensures |r| == 0 <==> forall i | 0 <= i < |props| :: !props[i].1.required
  {
    if |props| == 0 then []
    else
      var rest := RequiredNames(props[1..]);
      assert forall i | 1 <= i < |props| :: props[1..][i - 1] == props[i];
      if props[0].1.required then [props[0].0] + rest else rest
  }

  function PropertiesObject(props: seq<(string, PropDef)>): (o: Fields)
    ensures o.Keys == set i | 0 <= i < |props| :: props[i].0
  {
    if |props| == 0 then map[]
    else
      var last := props[|props| - 1];
      var init := PropertiesObject(props[..|props| - 1]);
      assert forall i | 0 <= i < |props| - 1 :: props[..|props| - 1][i] == props[i];
      init[last.0 := JObject(map["type" := JString(last.1.ptype), "description" := JString(last.1.description)])]
  }

  /** ToolDef.toJson(): "required" lists exactly the required properties and is absent when there are none. */
  function ToolDefToJson(t: ToolDef): (o: Fields)
    ensures o.Keys == {"name", "description", "inputSchema"} && o["name"] == JString(t.name)
    ensures o["inputSchema"].JObject?
    ensures "required" in o["inputSchema"].fields <==> exists i | 0 <= i < |t.properties| :: t.properties[i].1.required
    ensures "required" in o["inputSchema"].fields ==>
              o["inputSchema"].fields["required"] == JArray(StringArray(RequiredNames(t.properties)))
  {
    var required := RequiredNames(t.properties);
    var schema := map["type" := JString("object"), "properties" := JObject(PropertiesObject(t.properties))];
    if |required| > 0 then
      map["name" := JString(t.name), "description" := JString(t.description),
          "inputSchema" := JObject(schema["required" := JArray(StringArray(required))])]
    else
      map["name" := JString(t.name), "description" := JString(t.description), "inputSchema" := JObject(schema)]
  }

  /** The definitions tools/list advertises, in order. */
  const TOOL_DEFS: seq<ToolDef> := [
    ToolDef("launch_app", "Launch an Android app by package name",
            [("package", PropDef("string", "Package name of the app to launch", true))]),
    ToolDef("open_url", "Open a URL in the default browser",
            [("url", PropDef("string", "URL to open", true))]),
    ToolDef("show_notification", "Show a notification on the device",
            [("title", PropDef("string", "Notification title", true)), ("message", PropDef("string", "Notification message", true))]),
    ToolDef("get_device_info", "Get device information",
            []),
    ToolDef("set_app_proxy", "Set up VPN proxy for specific apps",
            [("proxy_host", PropDef("string", "Proxy server host", true)), ("proxy_port", PropDef("integer", "Proxy server port", true)), ("proxy_type", PropDef("string", "Proxy type: HTTP or SOCKS5", false)), ("proxy_user", PropDef("string", "Proxy username", false)), ("proxy_pass", PropDef("string", "Proxy password", false)), ("apps", PropDef("array", "List of app package names", false))]),
    ToolDef("stop_app_proxy", "Stop VPN proxy service",
            []),
    ToolDef("get_proxy_status", "Get current VPN proxy status",
            []),
    ToolDef("get_accessibility_status", "Check if accessibility service is enabled",
            []),
    ToolDef("get_screen_text", "Get all visible text on screen",
            []),
    ToolDef("get_screen_elements", "Get structured UI elements as JSON",
            [("include_invisible", PropDef("boolean", "Include invisible elements", false))]),
    ToolDef("find_element", "Find element by text content",
            [("text", PropDef("string", "Text to search for", true)), ("exact_match", PropDef("boolean", "Require exact match", false))]),
    ToolDef("click_element", "Click element by text",
            [("text", PropDef("string", "Text of element to click", true))]),
    ToolDef("click_position", "Click at specific coordinates",
            [("x", PropDef("number", "X coordinate", true)), ("y", PropDef("number", "Y coordinate", true))]),
    ToolDef("input_text", "Type text into focused input field",
            [("text", PropDef("string", "Text to type", true))]),
    ToolDef("focus_and_input", "Click element and type text",
            [("target", PropDef("string", "Text of element to click", true)), ("text", PropDef("string", "Text to type", true))]),
    ToolDef("swipe", "Perform swipe gesture",
            [("start_x", PropDef("number", "Start X coordinate", true)), ("start_y", PropDef("number", "Start Y coordinate", true)), ("end_x", PropDef("number", "End X coordinate", true)), ("end_y", PropDef("number", "End Y coordinate", true)), ("duration_ms", PropDef("integer", "Swipe duration in ms", false))]),
    ToolDef("long_press", "Long press at coordinates",
            [("x", PropDef("number", "X coordinate", true)), ("y", PropDef("number", "Y coordinate", true)), ("duration_ms", PropDef("integer", "Press duration in ms", false))]),
    ToolDef("scroll", "Scroll in a direction",
            [("direction", PropDef("string", "Direction: up or down", true))]),
    ToolDef("press_back", "Press system back button",
            []),
    ToolDef("press_home", "Press system home button",
            []),
    ToolDef("open_recents", "Open recent apps",
            []),
    ToolDef("open_notifications", "Open notification panel",
            []),
    ToolDef("wait_for_element", "Wait for element to appear",
            [("text", PropDef("string", "Text to wait for", true)), ("timeout_ms", PropDef("integer", "Timeout in milliseconds", false))]),
    ToolDef("get_current_app", "Get current foreground app package",
            []),
    ToolDef("take_screenshot", "Take a screenshot of the current screen. Returns file path.",
            []),
    ToolDef("start_audio_capture", "Start recording system audio (API 29+). Returns file path.",
            []),
    ToolDef("stop_audio_capture", "Stop audio recording and get the recorded file path.",
            []),
    ToolDef("get_capture_status", "Get screen capture service status.",
            [])]

  /** The advertised tool names, in order. */
  const LISTED_TOOLS: seq<string> := [
    "launch_app", "open_url", "show_notification", "get_device_info", "set_app_proxy",
    "stop_app_proxy", "get_proxy_status", "get_accessibility_status", "get_screen_text",
    "get_screen_elements", "find_element", "click_element", "click_position", "input_text",
    "focus_and_input", "swipe", "long_press", "scroll", "press_back", "press_home",
    "open_recents", "open_notifications", "wait_for_element", "get_current_app",
    "take_screenshot", "start_audio_capture", "stop_audio_capture", "get_capture_status"]

  /** The advertised names are the definitions' names. */
  lemma ListedNames()
    ensures |TOOL_DEFS| == |LISTED_TOOLS| == 28
    ensures forall i | 0 <= i < |TOOL_DEFS| :: TOOL_DEFS[i].name == LISTED_TOOLS[i]
  {
  }

  /** handleToolsList, given the definitions. */
  function ToolsList(defs: seq<ToolDef>): (o: Fields)
    ensures o.Keys == {"tools"} && o["tools"].JArray? && |o["tools"].items| == |defs|
    ensures forall i | 0 <= i < |defs| :: o["tools"].items[i] == JObject(ToolDefToJson(defs[i]))
  {
    map["tools" := JArray(seq(|defs|, i requires 0 <= i < |defs| => JObject(ToolDefToJson(defs[i]))))]
  }

  /**
   * Five advertised tools have no case in the agent's dispatch, so calling
   * them answers "Unknown tool: ..." and is reported as an error.
   */
  lemma AdvertisedButUndispatched(name: string)
    requires name in ["get_device_info", "take_screenshot", "start_audio_capture",
                      "stop_audio_capture", "get_capture_status"]
    ensures name in LISTED_TOOLS && Lower(name) == name && name !in Tools.DISPATCH_NAMES
  {
    LowerFixed(name);
    DeviceInfoUndispatched();
    ScreenshotUndispatched();
    StartAudioUndispatched();
    StopAudioUndispatched();
    CaptureStatusUndispatched();
  }

  // The five names are checked against the dispatch table one literal at a time.

  lemma DeviceInfoUndispatched()
    ensures "get_device_info" !in Tools.DISPATCH_NAMES
  {
  }

  lemma ScreenshotUndispatched()
    ensures "take_screenshot" !in Tools.DISPATCH_NAMES
  {
  }

  lemma StartAudioUndispatched()
    ensures "start_audio_capture" !in Tools.DISPATCH_NAMES
  {
  }

  lemma StopAudioUndispatched()
    ensures "stop_audio_capture" !in Tools.DISPATCH_NAMES
  {
  }

  lemma CaptureStatusUndispatched()
    ensures "get_capture_status" !in Tools.DISPATCH_NAMES
  {
  }

  // ---------------------------------------------------------------------
  // Requests
  // ---------------------------------------------------------------------

  function InitializeResult(): (o: Fields)
    ensures "protocolVersion" in o && o["protocolVersion"] == JString(PROTOCOL_VERSION)
  {
    map["protocolVersion" := JString(PROTOCOL_VERSION),
        "capabilities" := JObject(map["tools" := JObject(map["listChanged" := JBool(false)])]),
        "serverInfo" := JObject(map["name" := JString("Anthroid MCP Server"), "version" := JString("1.0.0")])]
  }

  /** The result of one JSON-RPC method, with the new state and any tool completion. */
  function Dispatch(s: Server, rpcMethod: string, id: Option<Json>, params: Fields, env: Env)
    : (r: (Fields, Server, Option<Completion>))
    ensures rpcMethod !in {"initialize", "initialized", "tools/list", "tools/call", "ping"} ==>
              r == (ErrorObject(id, METHOD_NOT_FOUND, "Method not found: " + rpcMethod), s, None)
    ensures rpcMethod == "initialize" ==>
              r.1.sessions == s.sessions[env.newSessionId := env.now] && r.0 == InitializeResult()
    ensures rpcMethod != "initialize" ==> r.1 == s
    ensures rpcMethod != "tools/call" ==> r.2.None?
    ensures rpcMethod in {"initialized", "ping"} ==> r.0 == map[]
    ensures rpcMethod in {"initialize", "initialized", "tools/list", "tools/call", "ping"} ==> "error" !in r.0
  {
    match rpcMethod
    case "initialize" => (InitializeResult(), Server(s.sessions[env.newSessionId := env.now]), None)
    case "initialized" => (map[], s, None)
    case "tools/list" => (ToolsList(TOOL_DEFS), s, None)
    case "tools/call" =>
      var c := ToolsCall(params, env);
      (c.0, s, c.1)
    case "ping" => (map[], s, None)
    case _ => (ErrorObject(id, METHOD_NOT_FOUND, "Method not found: " + rpcMethod), s, None)
  }

  const CORS: map<string, string> := map["Access-Control-Allow-Origin" := "*"]

  /** handlePost: a body that does not parse gets a parse error without an id. */
  function HandlePost(s: Server, request: Request, env: Env): (r: (Response, Server, Option<Completion>))
    ensures r.0.status == STATUS_OK && r.0.body.JsonBody?
    ensures request.Unparsable? ==>
              r.0.body.doc == ErrorObject(None, PARSE_ERROR, "Parse error: " + request.message.GetOr("null"))
              && r.1 == s && r.2.None?
  {
    match request
    case Unparsable(message) =>
      (Response(STATUS_OK, JsonBody(ErrorObject(None, PARSE_ERROR, "Parse error: " + message.GetOr("null"))), map[]), s, None)
    case Parsed(req) =>
      var d := Dispatch(s, OptString(req, "method", ""), Opt(req, "id"), OptObject(req, "params").GetOr(map[]), env);
      (Response(STATUS_OK, JsonBody(Wrap(OptString(req, "jsonrpc", "2.0"), Opt(req, "id"), d.0)), CORS), d.1, d.2)
  }

  /** serve(session): only `/mcp`, and only POST, DELETE and OPTIONS do anything. */
  function Serve(s: Server, uri: string, verb: HttpMethod, headers: map<string, string>,
                 request: Request, env: Env): (r: (Response, Server, Option<Completion>))
    ensures uri != MCP_PATH ==> r == (Response(STATUS_NOT_FOUND, Text("Not Found"), map[]), s, None)
    ensures uri == MCP_PATH && (verb.GET? || verb.OtherMethod?) ==>
              r.0.status == STATUS_METHOD_NOT_ALLOWED && r.1 == s && r.2.None?
    ensures uri == MCP_PATH && verb.DELETE? ==>
              r.0.status == STATUS_OK && r.2.None?
              && r.1.sessions == (if "mcp-session-id" in headers then s.sessions - {headers["mcp-session-id"]} else s.sessions)
    ensures uri == MCP_PATH && verb.OPTIONS? ==>
              r.0.status == STATUS_OK && r.1 == s && "Access-Control-Allow-Methods" in r.0.headers
              && r.0.headers["Access-Control-Allow-Methods"] == "GET, POST, DELETE, OPTIONS"
    ensures uri == MCP_PATH && verb.POST? ==> r == HandlePost(s, request, env)
  {
    if uri != MCP_PATH then (Response(STATUS_NOT_FOUND, Text("Not Found"), map[]), s, None)
    else match verb
      case POST => HandlePost(s, request, env)
      case GET => (Response(STATUS_METHOD_NOT_ALLOWED, Text("SSE streaming not supported"), map[]), s, None)
      case DELETE =>
        var s' := if "mcp-session-id" in headers then Server(s.sessions - {headers["mcp-session-id"]}) else s;
        (Response(STATUS_OK, Text(""), map[]), s', None)
      case OPTIONS =>
        (Response(STATUS_OK, Text(""),
                  map["Access-Control-Allow-Origin" := "*",
                      "Access-Control-Allow-Methods" := "GET, POST, DELETE, OPTIONS",
                      "Access-Control-Allow-Headers" := "Content-Type, Mcp-Session-Id, MCP-Protocol-Version"]), s, None)
      case OtherMethod(_) => (Response(STATUS_METHOD_NOT_ALLOWED, Text("Method Not Allowed"), map[]), s, None)
  }

  /** An unknown JSON-RPC method answers -32601 naming the method, echoing the request id. */
  lemma UnknownMethod(s: Server, req: Fields, env: Env)
    requires OptString(req, "method", "") !in {"initialize", "initialized", "tools/list", "tools/call", "ping"}
    ensures var r := Serve(s, MCP_PATH, POST, map[], Parsed(req), env);
      r.0.body.doc == ErrorObject(Opt(req, "id"), METHOD_NOT_FOUND, "Method not found: " + OptString(req, "method", ""))
      && r.1 == s
  {
  }

  /** A successful call is wrapped with the request's version (default "2.0") and its id when it had one. */
  lemma ResultWrapped(s: Server, req: Fields, env: Env)
    requires OptString(req, "method", "") in {"initialize", "initialized", "tools/list", "tools/call", "ping"}
    ensures var r := Serve(s, MCP_PATH, POST, map[], Parsed(req), env);
      var doc := r.0.body.doc;
      "result" in doc && doc["jsonrpc"] == JString(OptString(req, "jsonrpc", "2.0"))
      && ("id" in doc <==> "id" in req)
      && ("jsonrpc" !in req ==> doc["jsonrpc"] == JString("2.0"))
  {
    PostWraps(s, req, env);
  }

  /** The document a parsed request gets back is the wrapped result of its method. */
  lemma PostWraps(s: Server, req: Fields, env: Env)
    ensures var d := Dispatch(s, OptString(req, "method", ""), Opt(req, "id"), OptObject(req, "params").GetOr(map[]), env);
            Serve(s, MCP_PATH, POST, map[], Parsed(req), env).0.body.doc
            == Wrap(OptString(req, "jsonrpc", "2.0"), Opt(req, "id"), d.0)
  {
  }

  /** A session created by initialize is removed by a DELETE naming it. */
  lemma InitializeThenDelete(s: Server, req: Fields, env: Env)
    requires OptString(req, "method", "") == "initialize"
    ensures var r1 := Serve(s, MCP_PATH, POST, map[], Parsed(req), env);
      var r2 := Serve(r1.1, MCP_PATH, DELETE, map["mcp-session-id" := env.newSessionId], Unparsable(None), env);
      env.newSessionId in r1.1.sessions && env.newSessionId !in r2.1.sessions
      && r2.1.sessions == s.sessions - {env.newSessionId}
  {
  }
}

=== FILE: proxy_config_manager.dfy ===
/**
 * ProxyConfigManager: the proxy configuration stored as one JSON file, with
 * an in-memory cache, and the list edits the settings screens and the agent
 * tools apply to it (each one load, edit, save).
 *
 * The file is abstract: whether it exists, whether its text is blank, and
 * the object `JSONObject(text)` parses it to (None when parsing throws).
 * Whether a write succeeds is a parameter.
 */
module ProxyConfigManager {
  import opened Wrappers
  import opened Json
  import opened ProxyModels
  import Seqs

  datatype StoredFile = NoFile | Stored(blank: bool, doc: Option<Fields>)

  datatype Manager = Manager(cache: Option<ProxyConfig>, file: StoredFile)

  /** What reading the file gives when nothing is cached: any failure reads as the empty config. */
  function ReadFile(f: StoredFile): (c: ProxyConfig)
    ensures f.NoFile? || (f.Stored? && (f.blank || f.doc.None?)) ==> c == EmptyConfig()
    ensures f.Stored? && !f.blank && f.doc.Some? && ConfigFromJson(f.doc.value).Some?
            ==> c == ConfigFromJson(f.doc.value).value
    ensures f.Stored? && !f.blank && f.doc.Some? && ConfigFromJson(f.doc.value).None?
            ==> c == EmptyConfig()
  {
    match f
    case NoFile => EmptyConfig()
    case Stored(blank, doc) =>
      if blank then EmptyConfig()
      else match doc
        case None => EmptyConfig()
        case Some(o) => ConfigFromJson(o).GetOr(EmptyConfig())
  }

  /** loadConfig(): the cache once set, else the file's config, which is then cached. */
  function LoadConfig(m: Manager): (r: (ProxyConfig, Manager))
    ensures m.cache.Some? ==> r == (m.cache.value, m)
    ensures m.cache.None? ==> r.0 == ReadFile(m.file) && r.1 == m.(cache := Some(r.0))
    ensures r.1.cache == Some(r.0) && r.1.file == m.file
  {
    match m.cache
    case Some(c) => (c, m)
    case None =>
      var c := ReadFile(m.file);
      (c, m.(cache := Some(c)))
  }

  /** saveConfig(c): write the JSON; the cache follows only a successful write. */
  function SaveConfig(m: Manager, c: ProxyConfig, writeOk: bool): (r: Manager)
    ensures writeOk ==> r.cache == Some(c) && r.file == Stored(false, Some(ConfigToJson(c)))
    ensures !writeOk ==> r == m
  {
    if writeOk then Manager(Some(c), Stored(false, Some(ConfigToJson(c)))) else m
  }

  /** clearCache(). */
  function ClearCache(m: Manager): (r: Manager)
    ensures r.cache.None? && r.file == m.file
  {
    m.(cache := None)
  }

  /**
   * A saved configuration is what a later load returns, even after the cache
   * is dropped, unless its active id is the empty string.
   */
  lemma SaveThenReload(m: Manager, c: ProxyConfig)
    requires c.activeServerId.None? || c.activeServerId.value != ""
    ensures LoadConfig(SaveConfig(m, c, true)).0 == c
    ensures LoadConfig(ClearCache(SaveConfig(m, c, true))).0 == c
  {
    ConfigRoundTrip(c);
  }

  /** The common shape of every edit: load, edit, save; the edited config is returned either way. */
  function Edit(m: Manager, edit: ProxyConfig -> ProxyConfig, writeOk: bool): (r: (ProxyConfig, Manager))
    ensures r.0 == edit(LoadConfig(m).0)
    ensures writeOk ==> r.1.cache == Some(r.0)
    ensures !writeOk ==> r.1 == LoadConfig(m).1
  {
    var loaded := LoadConfig(m);
    var c := edit(loaded.0);
    (c, SaveConfig(loaded.1, c, writeOk))
  }

  // ---------------------------------------------------------------------
  // The edits
  // ---------------------------------------------------------------------

  /** addServer: append at the end. */
  function AddServer(c: ProxyConfig, s: ProxyServer): (r: ProxyConfig)
    ensures r.servers == c.servers + [s]
    ensures r.activeServerId == c.activeServerId && r.globalAppList == c.globalAppList
  {
    c.(servers := c.servers + [s])
  }

  /** updateServer: every server with the new server's id is replaced by it. */
  function UpdateServer(c: ProxyConfig, s: ProxyServer): (r: ProxyConfig)
    ensures |r.servers| == |c.servers|
    ensures forall i | 0 <= i < |c.servers| ::
              r.servers[i] == (if c.servers[i].id == s.id then s else c.servers[i])
    ensures r.activeServerId == c.activeServerId && r.globalAppList == c.globalAppList
  {
    c.(servers := Seqs.Map(c.servers, (x: ProxyServer) => if x.id == s.id then s else x))
  }

  /** With no server carrying that id, updateServer changes nothing. */
  lemma UpdateWithoutMatch(c: ProxyConfig, s: ProxyServer)
    requires forall i | 0 <= i < |c.servers| :: c.servers[i].id != s.id
    ensures UpdateServer(c, s) == c
  {
    assert UpdateServer(c, s).servers == c.servers;
  }

  /** The test deleteServer keeps a server by. */
  function OtherId(id: string): ProxyServer -> bool {
    (x: ProxyServer) => x.id != id
  }

  /**
   * deleteServer: drop every server with the id, keep the others in order
   * and as often as they are listed (by `Seqs.FilterUnique` the first three
   * facts leave only one possible list), and forget the id as the active one.
   */
  function DeleteServer(c: ProxyConfig, id: string): (r: ProxyConfig)
    ensures forall s :: s in r.servers <==> s in c.servers && s.id != id
    ensures Seqs.IsSubsequence(r.servers, c.servers)
    ensures |r.servers| == Seqs.Count(c.servers, OtherId(id))
    ensures r.activeServerId == (if c.activeServerId == Some(id) then None else c.activeServerId)
    ensures r.globalAppList == c.globalAppList
  {
    Seqs.FilterIsSubsequence(c.servers, OtherId(id));
    Seqs.CountIsFilterLength(c.servers, OtherId(id));
    c.(servers := Seqs.Filter(c.servers, OtherId(id)),
       activeServerId := if c.activeServerId == Some(id) then None else c.activeServerId)
  }

  /** After deleteServer, no active server can be the deleted one. */
  lemma DeletedIsNotActive(c: ProxyConfig, id: string)
    ensures ActiveServer(DeleteServer(c, id)).None? || ActiveServer(DeleteServer(c, id)).value.id != id
  {
  }

  /** setActiveServer: only the active id changes, and the id is not checked. */
  function SetActiveServer(c: ProxyConfig, id: Option<string>): (r: ProxyConfig)
    ensures r.activeServerId == id && r.servers == c.servers && r.globalAppList == c.globalAppList
  {
    c.(activeServerId := id)
  }

  function Toggle(x: ProxyServer, id: string): (y: ProxyServer)
    ensures y.id == x.id
    ensures x.id == id ==> y == x.(enabled := !x.enabled)
    ensures x.id != id ==> y == x
  {
    if x.id == id then x.(enabled := !x.enabled) else x
  }

  /** toggleServerEnabled: flip `enabled` on the servers with that id, and nothing else. */
  function ToggleServerEnabled(c: ProxyConfig, id: string): (r: ProxyConfig)
    ensures |r.servers| == |c.servers|
    ensures forall i | 0 <= i < |c.servers| :: r.servers[i] == Toggle(c.servers[i], id)
    ensures r.activeServerId == c.activeServerId && r.globalAppList == c.globalAppList
  {
    c.(servers := Seqs.Map(c.servers, (x: ProxyServer) => Toggle(x, id)))
  }

  /** Toggling twice restores the configuration. */
  lemma ToggleTwice(c: ProxyConfig, id: string)
    ensures ToggleServerEnabled(ToggleServerEnabled(c, id), id) == c
  {
    var r := ToggleServerEnabled(ToggleServerEnabled(c, id), id);
    assert r.servers == c.servers;
  }

  /** updateGlobalAppList: only the app list changes. */
  function UpdateGlobalAppList(c: ProxyConfig, apps: seq<string>): (r: ProxyConfig)
    ensures r.globalAppList == apps && r.servers == c.servers && r.activeServerId == c.activeServerId
  {
    c.(globalAppList := apps)
  }

  /** addServer on the manager: the stored list grows by exactly the new server. */
  lemma AddServerStored(m: Manager, s: ProxyServer)
    ensures Edit(m, c => AddServer(c, s), true).1.cache == Some(AddServer(LoadConfig(m).0, s))
    ensures Edit(m, c => AddServer(c, s), true).0.servers == LoadConfig(m).0.servers + [s]
  {
  }

  /** A failed save leaves the file as it was, and the cache as the load left it. */
  lemma FailedSaveKeepsFile(m: Manager, edit: ProxyConfig -> ProxyConfig)
    ensures Edit(m, edit, false).1.file == m.file
    ensures Edit(m, edit, false).1.cache == Some(LoadConfig(m).0)
  {
  }
}

=== FILE: proxy_models.dfy ===
/**
 * The proxy configuration records (ProxyServer, ProxyConfig) and their JSON
 * form. Encoding builds the org.json object the app writes; decoding follows
 * the accessors the app reads it back with, including their defaults and
 * coercions. A decode that throws is `None`.
 */
module ProxyModels {
  import opened Wrappers
  import opened Strings
  import opened Json
  import Seqs

  datatype ProxyType = SOCKS5 | HTTP

  /** The enum constant's `name`. */
  function TypeName(t: ProxyType): string {
    match t
    case SOCKS5 => "SOCKS5"
    case HTTP => "HTTP"
  }

  /** ProxyType.fromString: "HTTP" in any case, and SOCKS5 for everything else. */
  function TypeFromString(v: string): (t: ProxyType)
    ensures t == HTTP <==> Upper(v) == "HTTP"
  {
    if Upper(v) == "HTTP" then HTTP else SOCKS5
  }

  /** fromString inverts `name`. */
  lemma TypeFromName(t: ProxyType)
    ensures TypeFromString(TypeName(t)) == t
  {
    UpperFixed(TypeName(t));
  }

  /** fromString ignores case. */
  lemma TypeFromStringUpper(v: string)
    ensures TypeFromString(Upper(v)) == TypeFromString(v)
  {
    UpperIdempotent(v);
  }

  datatype ProxyServer = ProxyServer(
    id: string,
    name: string,
    host: string,
    port: int,
    ptype: ProxyType,
    username: string,
    password: string,
    enabled: bool)

  /** ProxyServer.toJson(). */
  function ServerToJson(s: ProxyServer): (o: Fields)
    ensures o.Keys == {"id", "name", "host", "port", "type", "username", "password", "enabled"}
    ensures o["port"] == JInt(s.port) && o["enabled"] == JBool(s.enabled)
    ensures o["type"] == JString(TypeName(s.ptype))
  {
    map["id" := JString(s.id), "name" := JString(s.name), "host" := JString(s.host),
        "port" := JInt(s.port), "type" := JString(TypeName(s.ptype)),
        "username" := JString(s.username), "password" := JString(s.password),
        "enabled" := JBool(s.enabled)]
  }

  /**
   * ProxyServer.fromJson(): id, name, host and port are required; the type
   * defaults to SOCKS5, the credentials to "" and `enabled` to true.
   */
  function ServerFromJson(o: Fields): (r: Option<ProxyServer>)
    ensures r.Some? <==> GetString(o, "id").Some? && GetString(o, "name").Some?
                         && GetString(o, "host").Some? && GetInt(o, "port").Some?
    ensures r.Some? && o["port"].JInt? ==> r.value.port == o["port"].n
    ensures r.Some? && o["port"].JString? ==> r.value.port == IntFromText(o["port"].s).value
    ensures r.Some? && "type" !in o ==> r.value.ptype == SOCKS5
    ensures r.Some? && "username" !in o ==> r.value.username == ""
    ensures r.Some? && "password" !in o ==> r.value.password == ""
    ensures r.Some? && "enabled" !in o ==> r.value.enabled
  {
    match (GetString(o, "id"), GetString(o, "name"), GetString(o, "host"), GetInt(o, "port"))
    case (Some(id), Some(name), Some(host), Some(port)) =>
      Some(ProxyServer(id, name, host, port,
                       TypeFromString(OptString(o, "type", "SOCKS5")),
                       OptString(o, "username", ""), OptString(o, "password", ""),
                       OptBoolean(o, "enabled", true)))
    case _ => None
  }

  /** Every server survives the trip through its JSON form. */
  lemma ServerRoundTrip(s: ProxyServer)
    ensures ServerFromJson(ServerToJson(s)) == Some(s)
  {
    TypeFromName(s.ptype);
  }

  /** A port written as its decimal text, as org.json coerces it, decodes as the number does. */
  lemma ServerPortAsText(o: Fields)
    requires "port" in o && o["port"].JInt? && INT_MIN <= o["port"].n <= INT_MAX
    ensures ServerFromJson(o["port" := JString(IntToString(o["port"].n))]) == ServerFromJson(o)
  {
    var t := o["port" := JString(IntToString(o["port"].n))];
    GetIntReadsText(o, "port", o["port"].n);
    assert GetInt(t, "port") == GetInt(o, "port");
    SameFieldsSameServer(o, t);
  }

  /** The decoding reads only its eight fields. */
  lemma SameFieldsSameServer(o: Fields, t: Fields)
    requires GetInt(t, "port") == GetInt(o, "port")
    requires forall k | k != "port" :: (k in t <==> k in o) && (k in o ==> t[k] == o[k])
    ensures ServerFromJson(t) == ServerFromJson(o)
  {
    assert GetString(t, "id") == GetString(o, "id");
    assert GetString(t, "name") == GetString(o, "name");
    assert GetString(t, "host") == GetString(o, "host");
    assert OptString(t, "type", "SOCKS5") == OptString(o, "type", "SOCKS5");
    assert OptString(t, "username", "") == OptString(o, "username", "");
    assert OptString(t, "password", "") == OptString(o, "password", "");
    assert ("enabled" in t <==> "enabled" in o) && ("enabled" in o ==> t["enabled"] == o["enabled"]);
    assert OptBoolean(t, "enabled", true) == OptBoolean(o, "enabled", true);
  }

  /** getDisplayInfo(): "host:port (TYPE)", then " (auth)" when a username is set. */
  function DisplayInfo(s: ProxyServer): (d: string)
    ensures StartsWith(d, s.host + ":" + IntToString(s.port) + " (")
    ensures d[|s.host + ":" + IntToString(s.port) + " ("|..]
            == TypeName(s.ptype) + ")" + (if s.username != "" then " (auth)" else "")
  {
    var authInfo := if s.username != "" then " (auth)" else "";
    var head := s.host + ":" + IntToString(s.port) + " (";
    var tail := TypeName(s.ptype) + ")" + authInfo;
    assert (head + tail)[..|head|] == head && (head + tail)[|head|..] == tail;
    head + tail
  }

  /** The display text never shows the password, the id, the name or the enabled flag. */
  lemma DisplayHidesSecrets(s: ProxyServer, password: string, id: string, name: string, enabled: bool)
    ensures DisplayInfo(s.(password := password, id := id, name := name, enabled := enabled)) == DisplayInfo(s)
  {
  }

  /** The "(auth)" tag appears exactly when the username is non-empty. */
  lemma DisplayAuthIff(s: ProxyServer)
    ensures EndsWith(DisplayInfo(s), " (auth)") <==> s.username != ""
  {
    var d := DisplayInfo(s);
    if s.username == "" {
      var tail := " (" + TypeName(s.ptype) + ")";
      var head := s.host + ":" + IntToString(s.port);
      assert d == head + tail;
      assert d[|d| - 2] == tail[|tail| - 2] == (if s.ptype == HTTP then 'P' else '5');
      if |d| >= 7 {
        assert d[|d| - 7..][5] == d[|d| - 2];
      }
    }
  }

  // ---------------------------------------------------------------------
  // ProxyConfig
  // ---------------------------------------------------------------------

  datatype ProxyConfig = ProxyConfig(
    servers: seq<ProxyServer>,
    activeServerId: Option<string>,
    globalAppList: seq<string>)

  /** ProxyConfig.empty(). */
  function EmptyConfig(): (c: ProxyConfig)
    ensures c.servers == [] && c.activeServerId.None? && c.globalAppList == []
  {
    ProxyConfig([], None, [])
  }

  function ServerObjects(servers: seq<ProxyServer>): (r: seq<Json>)
    ensures |r| == |servers|
    ensures forall i | 0 <= i < |servers| :: r[i] == JObject(ServerToJson(servers[i]))
  {
    Seqs.Map(servers, s => JObject(ServerToJson(s)))
  }

  /** ProxyConfig.toJson(); a null active id is written as JSON null. */
  function ConfigToJson(c: ProxyConfig): (o: Fields)
    ensures o.Keys == {"servers", "activeServerId", "globalAppList"}
    ensures IsNull(o, "activeServerId") <==> c.activeServerId.None?
  {
    map["servers" := JArray(ServerObjects(c.servers)),
        "activeServerId" := (match c.activeServerId case None => JNull case Some(id) => JString(id)),
        "globalAppList" := JArray(StringArray(c.globalAppList))]
  }

  /** The servers array: every element must be an object that decodes. */
  function ServersOf(items: seq<Json>): (r: Option<seq<ProxyServer>>)
    ensures r.Some? ==> |r.value| == |items|
    ensures r.Some? ==> forall i | 0 <= i < |items| :: items[i].JObject?
  {
    if |items| == 0 then Some([])
    else match (items[0], ServersOf(items[1..]))
      case (JObject(f), Some(rest)) =>
        (match ServerFromJson(f) case Some(s) => Some([s] + rest) case None => None)
      case _ => None
  }

  /** The active id as fromJson reads it: null or empty text both mean "none". */
  function ActiveIdOf(o: Fields): (r: Option<string>)
    ensures IsNull(o, "activeServerId") ==> r.None?
    ensures r.Some? ==> r.value != ""
    ensures "activeServerId" in o && o["activeServerId"].JString? && o["activeServerId"].s != ""
            ==> r == Some(o["activeServerId"].s)
  {
    if IsNull(o, "activeServerId") then None
    else
      var t := OptString(o, "activeServerId", "");
      if t != "" then Some(t) else None
  }

  /**
   * ProxyConfig.fromJson(): a missing or non-array `servers` or
   * `globalAppList` reads as empty; a server or app entry that cannot be read
   * makes the whole decode fail.
   */
  function ConfigFromJson(o: Fields): (r: Option<ProxyConfig>)
    ensures r.Some? && OptArray(o, "servers").None? ==> r.value.servers == []
    ensures r.Some? && OptArray(o, "globalAppList").None? ==> r.value.globalAppList == []
    ensures r.Some? ==> r.value.activeServerId == ActiveIdOf(o)
  {
    match (ServersOf(OptArray(o, "servers").GetOr([])), StringsOf(OptArray(o, "globalAppList").GetOr([])))
    case (Some(servers), Some(apps)) => Some(ProxyConfig(servers, ActiveIdOf(o), apps))
    case _ => None
  }

  lemma {:induction false} ServersRoundTrip(servers: seq<ProxyServer>)
    ensures ServersOf(ServerObjects(servers)) == Some(servers)
    decreases |servers|
  {
    if |servers| > 0 {
      assert ServerObjects(servers)[1..] == ServerObjects(servers[1..]);
      ServersRoundTrip(servers[1..]);
      ServerRoundTrip(servers[0]);
      assert [servers[0]] + servers[1..] == servers;
    }
  }

  /** A configuration survives the trip through JSON unless its active id is empty text. */
  lemma ConfigRoundTrip(c: ProxyConfig)
    requires c.activeServerId.None? || c.activeServerId.value != ""
    ensures ConfigFromJson(ConfigToJson(c)) == Some(c)
  {
    ConfigToJsonParts(c);
    ConfigFromParts(ConfigToJson(c), c.servers, c.globalAppList);
  }

  /** An empty active id comes back as no active id. */
  lemma EmptyActiveIdBecomesNull(c: ProxyConfig)
    requires c.activeServerId == Some("")
    ensures ConfigFromJson(ConfigToJson(c)) == Some(c.(activeServerId := None))
  {
    ConfigToJsonParts(c);
    ConfigFromParts(ConfigToJson(c), c.servers, c.globalAppList);
  }

  /** What fromJson looks up in the object toJson writes. */
  lemma ConfigToJsonParts(c: ProxyConfig)
    ensures OptArray(ConfigToJson(c), "servers") == Some(ServerObjects(c.servers))
    ensures OptArray(ConfigToJson(c), "globalAppList") == Some(StringArray(c.globalAppList))
    ensures ActiveIdOf(ConfigToJson(c)) == if c.activeServerId == Some("") then None else c.activeServerId
  {
  }

  /** An object whose arrays hold encoded servers and app names decodes to them. */
  lemma ConfigFromParts(o: Fields, servers: seq<ProxyServer>, apps: seq<string>)
    requires OptArray(o, "servers") == Some(ServerObjects(servers))
    requires OptArray(o, "globalAppList") == Some(StringArray(apps))
    ensures ConfigFromJson(o) == Some(ProxyConfig(servers, ActiveIdOf(o), apps))
  {
    ServersRoundTrip(servers);
    StringsOfStringArray(apps);
  }

  /** The server a server id and the enabled flag both select. */
  predicate Selected(c: ProxyConfig, s: ProxyServer) {
    c.activeServerId == Some(s.id) && s.enabled
  }

  /** getActiveServer(): the first enabled server whose id is the active id. */
  function ActiveServer(c: ProxyConfig): (r: Option<ProxyServer>)
    ensures r.Some? ==> r.value in c.servers && Selected(c, r.value)
    ensures r.None? <==> forall i | 0 <= i < |c.servers| :: !Selected(c, c.servers[i])
    ensures r.Some? ==> exists i | 0 <= i < |c.servers| :: c.servers[i] == r.value
                          && forall j | 0 <= j < i :: !Selected(c, c.servers[j])
  {
    match Seqs.IndexOfFirst(c.servers, s => Selected(c, s))
    case None => None
    case Some(i) => Some(c.servers[i])
  }

  /** A missing active id, or one naming only disabled servers, selects nothing. */
  lemma NoActiveServer(c: ProxyConfig)
    requires c.activeServerId.None?
             || forall i | 0 <= i < |c.servers| :: c.servers[i].id == c.activeServerId.value
                                                   ==> !c.servers[i].enabled
    ensures ActiveServer(c).None?
  {
  }

  predicate IsEnabled(s: ProxyServer) {
    s.enabled
  }

  /**
   * getEnabledServers(): the enabled servers, in configuration order, each
   * as often as it is listed (by `Seqs.FilterUnique` these three facts
   * leave only one possible list).
   */
  function EnabledServers(c: ProxyConfig): (r: seq<ProxyServer>)
    ensures forall s :: s in r <==> s in c.servers && s.enabled
    ensures Seqs.IsSubsequence(r, c.servers)
    ensures |r| == Seqs.Count(c.servers, IsEnabled)
  {
    Seqs.FilterIsSubsequence(c.servers, IsEnabled);
    Seqs.CountIsFilterLength(c.servers, IsEnabled);
    Seqs.Filter(c.servers, IsEnabled)
  }
}

=== FILE: proxy_vpn_service.dfy ===
/**
 * ProxyVpnService: the SOCKS5 twin of the HTTP tunnel service. It builds a
 * VPN interface for the chosen apps, writes a YAML configuration for the
 * hev-socks5-tunnel engine naming the SOCKS5 proxy, and starts the engine
 * on the interface's descriptor.
 *
 * As in the HTTP service, the platform's answers are a `Platform` value and
 * the calls the service makes are appended to an effect log.
 */
module ProxyVpnService {
  import opened Wrappers
  import opened Strings
  import Seqs

  const ACTION_START: string := "com.anthroid.vpn.START"
  const ACTION_STOP: string := "com.anthroid.vpn.STOP"
  const DEFAULT_HOST: string := "localhost"
  const DEFAULT_PORT: int := 1091
  /** The MTU the interface and the engine configuration both use. */
  const TUNNEL_MTU: int := 8500
  /** The interface address the engine configuration repeats. */
  const TUNNEL_IPV4: string := "10.0.0.2"
  const START_STICKY: int := 1

  /**
   * The descriptor of an established interface; `valid` is false once the
   * platform has closed it behind the service's back (reading fd then throws).
   */
  datatype VpnInterface = VpnInterface(fd: int, valid: bool, mtu: int, address: string,
                                       prefixLength: nat, allowedApps: seq<string>)

  datatype Effect =
    | ConfigWritten(text: string)
    | EngineStart(fd: int)
    | EngineStop
    | InterfaceClosed(fd: int)
    | Foreground(text: string)
    | ForegroundRemoved
    | SelfStopped

  datatype Platform = Platform(
    foregroundOk: bool,
    installed: set<string>,
    labels: map<string, string>,
    establishFd: Option<int>,
    configWriteOk: bool,
    engineStartOk: bool)

  datatype Service = Service(
    created: bool,
    running: bool,
    iface: Option<VpnInterface>,
    host: string,
    port: int,
    apps: seq<string>,
    currentHost: string,
    currentPort: int,
    currentApps: seq<string>,
    log: seq<Effect>)

  datatype Intent = Intent(action: Option<string>, host: Option<string>, port: Option<int>,
                           apps: Option<seq<string>>)

  function NewService(): (s: Service)
    ensures !s.created && !s.running && s.iface.None?
    ensures s.host == DEFAULT_HOST && s.port == DEFAULT_PORT && s.apps == [] && s.log == []
  {
    Service(false, false, None, DEFAULT_HOST, DEFAULT_PORT, [], "", 0, [], [])
  }

  /** A running session always has an interface (the converse does not hold). */
  predicate Consistent(s: Service) {
    s.running ==> s.iface.Some?
  }

  /**
   * The static isRunning(): false without an instance or with the flag
   * clear; a missing or unreadable interface also clears the flag. The second
   * component is the service after the query.
   */
  function IsRunning(s: Service): (r: (bool, Service))
    ensures r.0 <==> s.created && s.running && s.iface.Some? && s.iface.value.valid && s.iface.value.fd >= 0
    ensures r.1 == s || r.1 == s.(running := false)
    ensures s.created && s.running && (s.iface.None? || !s.iface.value.valid) ==> !r.1.running
  {
    if !s.created || !s.running then (false, s)
    else if s.iface.None? then (false, s.(running := false))
    else if !s.iface.value.valid then (false, s.(running := false))
    else (s.iface.value.fd >= 0, s)
  }

  /** The query is stable: asking twice gives the same answer and state. */
  lemma IsRunningStable(s: Service)
    ensures IsRunning(IsRunning(s).1) == (IsRunning(s).0, IsRunning(s).1)
  {
  }

  /** getProxyInfo(), which goes through isRunning(). */
  function ProxyInfo(s: Service): (r: (string, Service))
    ensures !IsRunning(s).0 ==> r.0 == "SOCKS5 VPN not running"
    ensures IsRunning(s).0 ==>
      r.0 == "SOCKS5 proxy at " + s.currentHost + ":" + IntToString(s.currentPort) + " for " + Join(s.currentApps, ", ")
    ensures r.1 == IsRunning(s).1
  {
    var q := IsRunning(s);
    if q.0 then
      ("SOCKS5 proxy at " + s.currentHost + ":" + IntToString(s.currentPort) + " for "
       + Join(s.currentApps, ", "), q.1)
    else ("SOCKS5 VPN not running", q.1)
  }

  /** stopVpn(): the native stop only when the flag is set; the interface is always released. */
  function StopVpn(s: Service): (r: Service)
    ensures !r.running && r.iface.None?
    ensures r == s.(running := false, iface := None, log := r.log)
    ensures |r.log| >= |s.log| + 2 && r.log[..|s.log|] == s.log
    ensures (|r.log| > |s.log| && r.log[|s.log|] == EngineStop) <==> s.running
    ensures EngineStop !in r.log[|s.log|..] <==> !s.running
  {
    var engine := if s.running then [EngineStop] else [];
    var closed := if s.iface.Some? then [InterfaceClosed(s.iface.value.fd)] else [];
    s.(running := false, iface := None, log := s.log + engine + closed + [ForegroundRemoved, SelfStopped])
  }

  /** A second stopVpn only repeats stopForeground and stopSelf. */
  lemma StopVpnTwice(s: Service)
    ensures StopVpn(StopVpn(s)) == StopVpn(s).(log := StopVpn(s).log + [ForegroundRemoved, SelfStopped])
  {
  }

  /** establishVpn(): fixed MTU, address, route and DNS; only installed target apps. */
  function EstablishVpn(apps: seq<string>, installed: set<string>, establishFd: Option<int>)
    : (r: Option<VpnInterface>)
    ensures r.Some? <==> establishFd.Some? && exists i | 0 <= i < |apps| :: apps[i] in installed
    ensures r.Some? ==> r.value.fd == establishFd.value && r.value.valid
    ensures r.Some? ==> r.value.mtu == TUNNEL_MTU && r.value.address == TUNNEL_IPV4
    ensures r.Some? ==> forall a :: a in r.value.allowedApps <==> a in apps && a in installed
  {
    var allowed := Seqs.Filter(apps, pkg => pkg in installed);
    assert forall i | 0 <= i < |apps| :: apps[i] in installed ==> apps[i] in allowed;
    if |allowed| == 0 then None
    else if establishFd.None? then None
    else
      assert allowed[0] in apps;
      Some(VpnInterface(establishFd.value, true, TUNNEL_MTU, TUNNEL_IPV4, 24, allowed))
  }

  /** The YAML text of createTProxyConfig (after trimIndent). */
  function ConfigText(host: string, port: int): (t: string)
    ensures Contains(t, "  port: " + IntToString(port) + "\n")
    ensures Contains(t, "  address: '" + host + "'")
    ensures Contains(t, "  mtu: " + IntToString(TUNNEL_MTU) + "\n")
    ensures Contains(t, "  ipv4: " + TUNNEL_IPV4 + "\n")
  {
    var head := "misc:\n  task-stack-size: 81920\n\ntunnel:\n";
    var mtu := "  mtu: " + IntToString(TUNNEL_MTU) + "\n";
    var ipv4 := "  ipv4: " + TUNNEL_IPV4 + "\n";
    var socks := "\nsocks5:\n";
    var portLine := "  port: " + IntToString(port) + "\n";
    var address := "  address: '" + host + "'";
    var udp := "\n  udp: 'udp'";
    ConfigParts(head, mtu, ipv4, socks, portLine, address, udp);
    head + mtu + ipv4 + socks + portLine + address + udp
  }

  /** The four lines the configuration must carry each occur in the assembled text. */
  lemma ConfigParts(a: string, b: string, c: string, d: string, e: string, f: string, g: string)
    ensures Contains(a + b + c + d + e + f + g, b) && Contains(a + b + c + d + e + f + g, c)
    ensures Contains(a + b + c + d + e + f + g, e) && Contains(a + b + c + d + e + f + g, f)
  {
    var t := a + b + c + d + e + f + g;
    InfixContains(a, b, c + d + e + f + g);
    assert t == a + b + (c + d + e + f + g);
    InfixContains(a + b, c, d + e + f + g);
    assert t == (a + b) + c + (d + e + f + g);
    InfixContains(a + b + c + d, e, f + g);
    assert t == (a + b + c + d) + e + (f + g);
    InfixContains(a + b + c + d + e, f, g);
  }

  /** A string occurs in any text that has it as an infix. */
  lemma InfixContains(a: string, b: string, c: string)
    ensures Contains(a + b + c, b)
  {
    assert (a + b + c)[|a|..|a| + |b|] == b;
    OccursAtContains(a + b + c, b, |a|);
  }

  /** The name shown for a package: its label, or the package name when none is known. */
  function Label(labels: map<string, string>, pkg: string): string {
    if pkg in labels then labels[pkg] else pkg
  }

  /** The getTargetApps() companion query: the published app list. */
  function TargetApps(s: Service): (r: seq<string>)
    ensures r == s.currentApps
  {
    s.currentApps
  }

  /**
   * The notification text: the labels joined by ", " (an empty label keeps
   * its separator), then " -> SOCKS5 " and the proxy; the text ends in the port.
   */
  function NotificationText(apps: seq<string>, labels: map<string, string>, host: string, port: int)
    : (t: string)
    ensures StartsWith(t, Join(Seqs.Map(apps, pkg => Label(labels, pkg)), ", ") + " -> SOCKS5 " + host + ":")
    ensures EndsWith(t, ":" + IntToString(port))
    ensures |t| == |Join(Seqs.Map(apps, pkg => Label(labels, pkg)), ", ") + " -> SOCKS5 " + host + ":"|
                   + |IntToString(port)|
  {
    var head := Join(Seqs.Map(apps, pkg => Label(labels, pkg)), ", ") + " -> SOCKS5 " + host + ":";
    var tail := IntToString(port);
    assert (head + tail)[..|head|] == head;
    assert (head + tail)[|head| - 1..] == ":" + tail;
    head + tail
  }

  /** Without any known label the notification lists the package names themselves. */
  lemma UnlabelledNotification(apps: seq<string>, host: string, port: int)
    ensures StartsWith(NotificationText(apps, map[], host, port), Join(apps, ", ") + " -> SOCKS5 " + host + ":")
  {
    var names := Seqs.Map(apps, pkg => Label(map[], pkg));
    assert names == apps;
  }

  /** startVpn(): restart if running, then the body. */
  function StartVpn(s: Service, p: Platform): (r: Service)
    ensures s.running ==> r == Begin(StopVpn(s), p)
    ensures !s.running ==> r == Begin(s, p)
  {
    Begin(if s.running then StopVpn(s) else s, p)
  }

  /**
   * startVpn after any running session has been stopped. A failure to post
   * the foreground notification is caught, and the catch is stopVpn.
   */
  function Begin(s: Service, p: Platform): (r: Service)
    ensures |r.log| > |s.log| && r.log[..|s.log|] == s.log
    ensures !s.running && r.running ==>
              |s.apps| > 0 && p.foregroundOk
              && r.log[|s.log|] == Foreground(NotificationText(s.apps, p.labels, s.host, s.port))
  {
    if |s.apps| == 0 then s.(log := s.log + [SelfStopped])
    else if !p.foregroundOk then StopVpn(s)
    else
      var s2 := s.(log := s.log + [Foreground(NotificationText(s.apps, p.labels, s.host, s.port))]);
      var r := Posted(s2, p);
      assert r.log[..|s.log|] == r.log[..|s2.log|][..|s.log|];
      r
  }

  /** The rest of startVpn once the notification is up: the interface, then the engine. */
  function Posted(s: Service, p: Platform): (r: Service)
    ensures |r.log| > |s.log| && r.log[..|s.log|] == s.log
  {
    match EstablishVpn(s.apps, p.installed, p.establishFd)
    case None => s.(iface := None, log := s.log + [SelfStopped])
    case Some(v) =>
      var t := s.(iface := Some(v));
      ConfigureKeepsLog(t, p);
      Configure(t, p)
  }

  /** Writing the engine configuration and starting the engine. */
  function Configure(s: Service, p: Platform): (r: Service)
    requires s.iface.Some?
  {
    if !p.configWriteOk then s.(log := s.log + [SelfStopped])
    else
      var t := s.(log := s.log + [ConfigWritten(ConfigText(s.host, s.port)), EngineStart(s.iface.value.fd)]);
      if p.engineStartOk then t.(running := true) else StopVpn(t)
  }

  /** startVpn with no target apps only stops the service. */
  lemma BeginNoApps(s: Service, p: Platform)
    requires |s.apps| == 0
    ensures Begin(s, p) == s.(log := s.log + [SelfStopped])
  {
  }

  /** A foreground notification that cannot be posted ends in stopVpn. */
  lemma BeginForegroundFails(s: Service, p: Platform)
    requires |s.apps| > 0 && !p.foregroundOk
    ensures Begin(s, p) == StopVpn(s)
  {
  }

  /** Otherwise the notification is posted before anything else. */
  lemma BeginPostsNotification(s: Service, p: Platform)
    requires |s.apps| > 0 && p.foregroundOk
    ensures |Begin(s, p).log| > |s.log|
    ensures Begin(s, p).log[..|s.log| + 1] == s.log + [Foreground(NotificationText(s.apps, p.labels, s.host, s.port))]
  {
    var s2 := s.(log := s.log + [Foreground(NotificationText(s.apps, p.labels, s.host, s.port))]);
    var e := EstablishVpn(s.apps, p.installed, p.establishFd);
    if e.Some? {
      ConfigureKeepsLog(s2.(iface := e), p);
      assert Begin(s, p).log[..|s2.log|] == s2.log;
      assert Begin(s, p).log[..|s.log| + 1] == s2.log[..|s.log| + 1];
    }
  }

  /** An interface that cannot be established stops the service with nothing else done. */
  lemma BeginNoInterface(s: Service, p: Platform)
    requires |s.apps| > 0 && p.foregroundOk
    requires EstablishVpn(s.apps, p.installed, p.establishFd).None?
    ensures Begin(s, p)
            == s.(iface := None, log := s.log + [Foreground(NotificationText(s.apps, p.labels, s.host, s.port)), SelfStopped])
  {
  }

  /** Configuring only appends to the log. */
  lemma ConfigureKeepsLog(s: Service, p: Platform)
    requires s.iface.Some?
    ensures |Configure(s, p).log| > |s.log| && Configure(s, p).log[..|s.log|] == s.log
  {
    if p.configWriteOk {
      var t := s.(log := s.log + [ConfigWritten(ConfigText(s.host, s.port)), EngineStart(s.iface.value.fd)]);
      if !p.engineStartOk {
        assert Configure(s, p) == StopVpn(t);
        assert StopVpn(t).log[..|t.log|] == t.log;
        assert t.log[..|s.log|] == s.log;
      }
    }
  }

  /** Every condition under which startVpn ends with a running session. */
  predicate StartSucceeds(s: Service, p: Platform) {
    p.foregroundOk
    && (exists i | 0 <= i < |s.apps| :: s.apps[i] in p.installed)
    && p.establishFd.Some? && p.configWriteOk && p.engineStartOk
  }

  /** Configuration fields startVpn never writes. */
  predicate SameSettings(s: Service, r: Service) {
    r.created == s.created && r.host == s.host && r.port == s.port && r.apps == s.apps
    && r.currentHost == s.currentHost && r.currentPort == s.currentPort && r.currentApps == s.currentApps
  }

  lemma ConfigureOutcome(s: Service, p: Platform)
    requires s.iface.Some? && !s.running
    ensures Configure(s, p).running <==> p.configWriteOk && p.engineStartOk
    ensures SameSettings(s, Configure(s, p)) && Consistent(Configure(s, p))
    ensures Configure(s, p).log[..|s.log|] == s.log && |Configure(s, p).log| > |s.log|
    ensures Configure(s, p).running ==>
      Configure(s, p).iface == s.iface
      && Configure(s, p).log[|s.log|..] == [ConfigWritten(ConfigText(s.host, s.port)), EngineStart(s.iface.value.fd)]
    ensures !p.configWriteOk ==> Configure(s, p).iface == s.iface
  {
    var r := Configure(s, p);
    if p.configWriteOk {
      var steps := [ConfigWritten(ConfigText(s.host, s.port)), EngineStart(s.iface.value.fd)];
      var t := s.(log := s.log + steps);
      assert t.log[..|s.log|] == s.log && t.log[|s.log|..] == steps;
      if !p.engineStartOk {
        assert r.log[..|t.log|] == t.log;
        assert r.log[..|s.log|] == t.log[..|s.log|];
      }
    } else {
      assert r.log[..|s.log|] == s.log;
    }
  }

  /**
   * startVpn ends with the flag set exactly when some target app is
   * installed, establish() yields a descriptor, the configuration is written
   * and the engine starts; the engine then got the configuration for the
   * service's proxy and the interface's descriptor, in that order.
   */
  lemma StartVpnOutcome(s: Service, p: Platform)
    ensures StartVpn(s, p).running <==> StartSucceeds(s, p)
    ensures SameSettings(s, StartVpn(s, p)) && Consistent(StartVpn(s, p))
    ensures StartVpn(s, p).running ==>
      var r := StartVpn(s, p);
      r.iface.Some? && r.iface.value.valid && r.iface.value.fd == p.establishFd.value && r.iface.value.mtu == TUNNEL_MTU
      && |r.log| >= 2
      && r.log[|r.log| - 2..] == [ConfigWritten(ConfigText(s.host, s.port)), EngineStart(p.establishFd.value)]
  {
    var s1 := if s.running then StopVpn(s) else s;
    assert SameSettings(s, s1) && !s1.running;
    if |s1.apps| == 0 {
      assert !StartSucceeds(s, p);
    } else if !p.foregroundOk {
      assert StartVpn(s, p) == StopVpn(s1);
    } else {
      var s2 := s1.(log := s1.log + [Foreground(NotificationText(s1.apps, p.labels, s1.host, s1.port))]);
      var e := EstablishVpn(s1.apps, p.installed, p.establishFd);
      if e.None? {
        assert StartVpn(s, p) == s2.(iface := None, log := s2.log + [SelfStopped]);
        assert !StartSucceeds(s, p);
      } else {
        var s3 := s2.(iface := e);
        assert StartVpn(s, p) == Configure(s3, p);
        ConfigureOutcome(s3, p);
      }
    }
  }

  /**
   * When the configuration cannot be written, startVpn returns with the flag
   * clear but the freshly established interface still held (stopVpn is not called).
   */
  lemma ConfigFailureKeepsInterface(s: Service, p: Platform)
    requires !s.running && |s.apps| > 0 && p.foregroundOk && p.establishFd.Some? && !p.configWriteOk
    requires exists i | 0 <= i < |s.apps| :: s.apps[i] in p.installed
    ensures !StartVpn(s, p).running
    ensures StartVpn(s, p).iface.Some? && StartVpn(s, p).iface.value.fd == p.establishFd.value
  {
    var s2 := s.(log := s.log + [Foreground(NotificationText(s.apps, p.labels, s.host, s.port))]);
    var e := EstablishVpn(s.apps, p.installed, p.establishFd);
    assert StartVpn(s, p) == Configure(s2.(iface := e), p);
  }

  /** Restarting a running session stops the old engine before anything else. */
  lemma RestartStopsEngineFirst(s: Service, p: Platform)
    requires s.running
    ensures |StartVpn(s, p).log| > |s.log| && StartVpn(s, p).log[|s.log|] == EngineStop
  {
    var s1 := StopVpn(s);
    assert s1.log[|s.log|] == EngineStop;
    if |s1.apps| > 0 && p.foregroundOk {
      var s2 := s1.(log := s1.log + [Foreground(NotificationText(s1.apps, p.labels, s1.host, s1.port))]);
      var e := EstablishVpn(s1.apps, p.installed, p.establishFd);
      if e.Some? {
        ConfigureOutcome(s2.(iface := e), p);
        assert StartVpn(s, p).log[..|s2.log|] == s2.log;
      }
    }
  }

  function OnCreate(s: Service): (r: Service)
    ensures r.created && r.running == s.running && r.iface == s.iface
  {
    s.(created := true)
  }

  /** The START branch's field updates, before startVpn. */
  function ApplyExtras(s: Service, i: Intent): (r: Service)
    ensures r.host == i.host.GetOr(DEFAULT_HOST) && r.port == i.port.GetOr(DEFAULT_PORT)
    ensures r.apps == i.apps.GetOr([])
    ensures r.currentHost == r.host && r.currentPort == r.port && r.currentApps == r.apps
    ensures r == s.(host := r.host, port := r.port, apps := r.apps,
                    currentHost := r.host, currentPort := r.port, currentApps := r.apps)
  {
    var host := i.host.GetOr(DEFAULT_HOST);
    var port := i.port.GetOr(DEFAULT_PORT);
    var apps := i.apps.GetOr([]);
    s.(host := host, port := port, apps := apps, currentHost := host, currentPort := port, currentApps := apps)
  }

  /** onStartCommand: START applies the extras and starts, STOP stops, anything else is ignored. */
  function OnStartCommand(s: Service, intent: Option<Intent>, p: Platform): (r: (Service, int))
    ensures r.1 == START_STICKY
    ensures (intent.None? || (intent.value.action != Some(ACTION_START)
                              && intent.value.action != Some(ACTION_STOP))) ==> r.0 == s
    ensures intent.Some? && intent.value.action == Some(ACTION_STOP) ==> r.0 == StopVpn(s)
    ensures intent.Some? && intent.value.action == Some(ACTION_START) ==>
      r.0.currentHost == intent.value.host.GetOr(DEFAULT_HOST)
      && r.0.currentPort == intent.value.port.GetOr(DEFAULT_PORT)
      && r.0.currentApps == intent.value.apps.GetOr([])
  {
    match intent
    case None => (s, START_STICKY)
    case Some(i) =>
      if i.action == Some(ACTION_START) then
        StartVpnOutcome(ApplyExtras(s, i), p);
        (StartVpn(ApplyExtras(s, i), p), START_STICKY)
      else if i.action == Some(ACTION_STOP) then (StopVpn(s), START_STICKY)
      else (s, START_STICKY)
  }

  /** onDestroy(): stopVpn, then drop the instance and the published app list. */
  function OnDestroy(s: Service): (r: Service)
    ensures !r.created && !r.running && r.iface.None? && r.currentApps == []
    ensures ProxyInfo(r).0 == "SOCKS5 VPN not running"
  {
    StopVpn(s).(created := false, currentApps := [])
  }

  function OnRevoke(s: Service): (r: Service)
    ensures !r.running && r.iface.None?
  {
    StopVpn(s)
  }

  /** Every entry point keeps a set flag tied to an interface. */
  lemma ConsistentPreserved(s: Service, i: Option<Intent>, p: Platform)
    requires Consistent(s)
    ensures Consistent(OnCreate(s)) && Consistent(OnDestroy(s)) && Consistent(OnRevoke(s))
    ensures Consistent(OnStartCommand(s, i, p).0)
    ensures Consistent(IsRunning(s).1)
  {
    if i.Some? && i.value.action == Some(ACTION_START) {
      StartVpnOutcome(ApplyExtras(s, i.value), p);
    }
  }

  /** START publishes the intent's settings, and the flag follows the start's outcome. */
  lemma StartPublishes(s: Service, i: Intent, p: Platform)
    requires i.action == Some(ACTION_START)
    ensures var r := OnStartCommand(s, Some(i), p).0;
      r.currentHost == i.host.GetOr(DEFAULT_HOST) && r.currentPort == i.port.GetOr(DEFAULT_PORT)
      && r.currentApps == i.apps.GetOr([]) && r.created == s.created
      && (r.running <==> StartSucceeds(ApplyExtras(s, i), p))
      && (r.running ==> r.iface.Some? && r.iface.value.valid && r.iface.value.fd == p.establishFd.value)
  {
    StartVpnOutcome(ApplyExtras(s, i), p);
  }

  /**
   * After a START on a created service, getTargetApps gives the intent's apps,
   * and getProxyInfo describes the intent's proxy exactly when the start
   * succeeded with a readable descriptor.
   */
  lemma QueriesReportStart(s: Service, i: Intent, p: Platform)
    requires s.created
    requires i.action == Some(ACTION_START)
    ensures var r := OnStartCommand(s, Some(i), p).0;
      && TargetApps(r) == i.apps.GetOr([])
      && (StartSucceeds(ApplyExtras(s, i), p) && p.establishFd.value >= 0 ==>
            ProxyInfo(r).0 == "SOCKS5 proxy at " + i.host.GetOr(DEFAULT_HOST) + ":" + IntToString(i.port.GetOr(DEFAULT_PORT))
                              + " for " + Join(i.apps.GetOr([]), ", "))
      && (!StartSucceeds(ApplyExtras(s, i), p) ==> ProxyInfo(r).0 == "SOCKS5 VPN not running")
  {
    StartPublishes(s, i, p);
  }
}

=== FILE: quick_send_manager.dfy ===
/**
 * QuickSendManager: counts how often each short message is sent and offers
 * the most frequent ones as quick-send candidates.
 *
 * The statistics are a Kotlin `mutableMapOf`, whose iteration order is the
 * order in which keys were first added; they are modelled as a list of
 * entries in that order. Persisting them to SharedPreferences is left out.
 */
module QuickSendManager {
  import opened Wrappers
  import opened Strings
  import Seqs

  const MAX_MESSAGE_LENGTH: nat := 16
  const MIN_COUNT_THRESHOLD: int := 5
  const MAX_CANDIDATES: nat := 5
  /**
   * The prefix put in front of dictated messages: the microphone emoji's
   * UTF-8 bytes read as Windows-1252 (U+00F0 U+0178 U+017D U+00A4), then a
   * space. The source file spells the literal this way, and so does the
   * chat screen that adds it, so the two agree.
   */
  const VOICE_INPUT_PREFIX: string := "\U{F0}\U{178}\U{17D}\U{A4} "

  /** One counted message; also the QuickSendCandidate data class. */
  datatype Entry = Entry(text: string, count: int)

  /** No message is counted twice. */
  predicate Distinct(stats: seq<Entry>) {
    forall i, j | 0 <= i < j < |stats| :: stats[i].text != stats[j].text
  }

  /** What tracking from an empty table guarantees of every entry. */
  predicate Wf(stats: seq<Entry>) {
    Distinct(stats) && forall i | 0 <= i < |stats| :: Countable(stats[i].text) && stats[i].count >= 1
  }

  function HasText(key: string): Entry -> bool {
    (e: Entry) => e.text == key
  }

  /** `stats[key] ?: 0`. */
  function CountOf(stats: seq<Entry>, key: string): (n: int)
    ensures (forall i | 0 <= i < |stats| :: stats[i].text != key) ==> n == 0
    ensures forall i | 0 <= i < |stats| && stats[i].text == key ::
              Distinct(stats) ==> n == stats[i].count
  {
    match Seqs.IndexOfFirst(stats, HasText(key))
    case None => 0
    case Some(i) => stats[i].count
  }

  function Texts(stats: seq<Entry>): set<string> {
    set i | 0 <= i < |stats| :: stats[i].text
  }

  /** No whitespace at either end. */
  predicate Trimmed(s: string) {
    |s| > 0 ==> !IsWhitespace(s[0]) && !IsWhitespace(s[|s| - 1])
  }

  /** The message as counted: trimmed, then one voice prefix removed and trimmed again. */
  function Clean(message: string): (r: string)
    ensures var t := KotlinTrim(message); r == t || (StartsWith(t, VOICE_INPUT_PREFIX) && r == KotlinTrim(t[|VOICE_INPUT_PREFIX|..]))
  {
    var t := KotlinTrim(message);
    if StartsWith(t, VOICE_INPUT_PREFIX) then KotlinTrim(t[|VOICE_INPUT_PREFIX|..]) else t
  }

  /** What is counted never has whitespace at either end. */
  lemma CleanIsTrimmed(message: string)
    ensures Trimmed(Clean(message))
  {
  }

  /** A trimmed string is its own trim. */
  lemma TrimmedFixed(s: string)
    requires Trimmed(s)
    ensures KotlinTrim(s) == s
  {
    if |s| > 0 {
      assert TrimStart(s, IsWhitespace) == s;
    }
  }

  /** A dictated message is counted as what was said. */
  lemma VoicePrefixStripped(m: string)
    requires m != "" && Trimmed(m)
    ensures Clean(VOICE_INPUT_PREFIX + m) == m
  {
    var s := VOICE_INPUT_PREFIX + m;
    assert s[0] == '\U{F0}' && s[|s| - 1] == m[|m| - 1];
    TrimmedFixed(s);
    assert s[..|VOICE_INPUT_PREFIX|] == VOICE_INPUT_PREFIX;
    assert s[|VOICE_INPUT_PREFIX|..] == m;
    TrimmedFixed(m);
  }

  /** Only one prefix is removed: a doubly prefixed message keeps the second. */
  lemma OnePrefixOnly(m: string)
    requires m != "" && Trimmed(m)
    ensures Clean(VOICE_INPUT_PREFIX + VOICE_INPUT_PREFIX + m) == VOICE_INPUT_PREFIX + m
  {
    var inner := VOICE_INPUT_PREFIX + m;
    assert inner[0] == '\U{F0}' && inner[|inner| - 1] == m[|m| - 1];
    VoicePrefixStripped(inner);
    assert VOICE_INPUT_PREFIX + VOICE_INPUT_PREFIX + m == VOICE_INPUT_PREFIX + inner;
  }

  /**
   * Whether a cleaned message is non-empty and short enough to count; the
   * length is the String's, in UTF-16 code units.
   */
  predicate Countable(c: string) {
    0 < Utf16Length(c) < MAX_MESSAGE_LENGTH
  }

  /** One more use of `key`: its entry's count goes up by one, or a new entry is added at the end. */
  function Bump(stats: seq<Entry>, key: string): (r: seq<Entry>)
    ensures CountOf(r, key) == CountOf(stats, key) + 1
    ensures forall k | k != key :: CountOf(r, k) == CountOf(stats, k)
    ensures Texts(r) == Texts(stats) + {key}
    ensures Distinct(stats) ==> Distinct(r)
    ensures key !in Texts(stats) ==> r == stats + [Entry(key, 1)]
    ensures key in Texts(stats) ==> |r| == |stats| && forall i | 0 <= i < |r| :: r[i].text == stats[i].text
  {
    match Seqs.IndexOfFirst(stats, HasText(key))
    case None =>
      BumpNew(stats, key);
      stats + [Entry(key, 1)]
    case Some(i) =>
      BumpExisting(stats, key, i);
      stats[i := Entry(key, stats[i].count + 1)]
  }

  /** A key not yet tracked gets a new entry at the end. */
  lemma BumpNew(stats: seq<Entry>, key: string)
    requires Seqs.IndexOfFirst(stats, HasText(key)).None?
    ensures var r := stats + [Entry(key, 1)];
            && key !in Texts(stats)
            && CountOf(r, key) == CountOf(stats, key) + 1
            && (forall k | k != key :: CountOf(r, k) == CountOf(stats, k))
            && Texts(r) == Texts(stats) + {key}
  {
    var r := stats + [Entry(key, 1)];
    assert r[|stats|].text == key;
    assert key !in Texts(stats) by {
      forall j | 0 <= j < |stats| ensures stats[j].text != key {
        assert !HasText(key)(stats[j]);
      }
    }
    assert forall k | k != key :: CountOf(r, k) == CountOf(stats, k) by {
      forall k | k != key
        ensures CountOf(r, k) == CountOf(stats, k)
      {
        Seqs.IndexOfFirstAppend(stats, Entry(key, 1), HasText(k));
      }
    }
    Seqs.IndexOfFirstAppend(stats, Entry(key, 1), HasText(key));
    assert Texts(r) == Texts(stats) + {key} by {
      forall t | t in Texts(r) ensures t in Texts(stats) + {key} {
        var i :| 0 <= i < |r| && r[i].text == t;
        if i < |stats| { assert stats[i].text == t; }
      }
      forall t | t in Texts(stats) ensures t in Texts(r) {
        var i :| 0 <= i < |stats| && stats[i].text == t;
        assert r[i].text == t;
      }
    }
  }

  /** A tracked key has its first entry's count raised in place. */
  lemma BumpExisting(stats: seq<Entry>, key: string, i: nat)
    requires Seqs.IndexOfFirst(stats, HasText(key)) == Some(i)
    ensures var r := stats[i := Entry(key, stats[i].count + 1)];
            && key in Texts(stats)
            && (forall j | 0 <= j < |r| :: r[j].text == stats[j].text)
            && (forall k :: Seqs.IndexOfFirst(r, HasText(k)) == Seqs.IndexOfFirst(stats, HasText(k)))
            && Texts(r) == Texts(stats)
  {
    var r := stats[i := Entry(key, stats[i].count + 1)];
    assert stats[i].text == key && key in Texts(stats);
    assert forall j | 0 <= j < |r| :: r[j].text == stats[j].text;
    forall k ensures Seqs.IndexOfFirst(r, HasText(k)) == Seqs.IndexOfFirst(stats, HasText(k)) {
      Seqs.IndexOfFirstAgree(stats, r, HasText(k));
    }
    assert Texts(r) == Texts(stats) by {
      forall t | t in Texts(r) ensures t in Texts(stats) {
        var j :| 0 <= j < |r| && r[j].text == t;
        assert stats[j].text == t;
      }
      forall t | t in Texts(stats) ensures t in Texts(r) {
        var j :| 0 <= j < |stats| && stats[j].text == t;
        assert r[j].text == t;
      }
    }
  }

  /** trackMessage(message). */
  function Track(stats: seq<Entry>, message: string): (r: seq<Entry>)
    ensures !Countable(Clean(message)) ==> r == stats
    ensures Countable(Clean(message)) ==> CountOf(r, Clean(message)) == CountOf(stats, Clean(message)) + 1
    ensures forall k | k != Clean(message) :: CountOf(r, k) == CountOf(stats, k)
    ensures Wf(stats) ==> Wf(r)
    ensures Countable(Clean(message)) && Clean(message) !in Texts(stats) ==> r == stats + [Entry(Clean(message), 1)]
    ensures Countable(Clean(message)) && Clean(message) in Texts(stats) ==>
              |r| == |stats| && forall i | 0 <= i < |r| :: r[i].text == stats[i].text
  {
    var c := Clean(message);
    if !Countable(c) then stats
    else
      var r := Bump(stats, c);
      TrackKeepsWf(stats, c, r);
      r
  }

  lemma TrackKeepsWf(stats: seq<Entry>, c: string, r: seq<Entry>)
    requires Countable(c) && r == Bump(stats, c)
    ensures Wf(stats) ==> Wf(r)
  {
    if Wf(stats) {
      forall i | 0 <= i < |r|
        ensures Countable(r[i].text) && r[i].count >= 1
      {
        assert r[i].text in Texts(r);
        if r[i].text != c {
          var j :| 0 <= j < |stats| && stats[j].text == r[i].text;
          assert CountOf(r, r[i].text) == r[i].count;
          assert CountOf(stats, r[i].text) == stats[j].count;
        } else {
          assert CountOf(r, c) == r[i].count;
          assert CountOf(stats, c) >= 0;
        }
      }
    }
  }

  /** The table after a run of sends, starting from `stats`. */
  function TrackAll(stats: seq<Entry>, messages: seq<string>): (r: seq<Entry>)
    decreases |messages|
  {
    if |messages| == 0 then stats else TrackAll(Track(stats, messages[0]), messages[1..])
  }

  /** Tracking alone never produces a long, empty or zero-count entry. */
  lemma {:induction false} TrackAllKeepsWf(stats: seq<Entry>, messages: seq<string>)
    requires Wf(stats)
    ensures Wf(TrackAll(stats, messages))
    decreases |messages|
  {
    if |messages| > 0 {
      TrackAllKeepsWf(Track(stats, messages[0]), messages[1..]);
    }
  }

  function CountKey(e: Entry): int {
    e.count
  }

  predicate Qualifies(e: Entry) {
    e.count >= MIN_COUNT_THRESHOLD
  }

  /**
   * getCandidates(): the entries used at least five times, most used first,
   * at most five of them; an entry left out is used no more than any kept.
   */
  function GetCandidates(stats: seq<Entry>): (r: seq<Entry>)
    ensures |r| == if Seqs.Count(stats, Qualifies) < MAX_CANDIDATES then Seqs.Count(stats, Qualifies) else MAX_CANDIDATES
    ensures Seqs.SortedDesc(r, CountKey)
    ensures forall e | e in r :: e in stats && e.count >= MIN_COUNT_THRESHOLD
    ensures forall e | e in stats && e.count >= MIN_COUNT_THRESHOLD ::
              e in r || (|r| == MAX_CANDIDATES && forall c | c in r :: c.count >= e.count)
  {
    var sorted := Seqs.SortDesc(Seqs.Filter(stats, Qualifies), CountKey);
    var r := Take(sorted, MAX_CANDIDATES);
    CandidatesSized(stats, sorted, r);
    CandidatesChosen(stats, sorted, r);
    r
  }

  lemma CandidatesSized(stats: seq<Entry>, sorted: seq<Entry>, r: seq<Entry>)
    requires sorted == Seqs.SortDesc(Seqs.Filter(stats, Qualifies), CountKey)
    requires r == Take(sorted, MAX_CANDIDATES)
    ensures |r| == if Seqs.Count(stats, Qualifies) < MAX_CANDIDATES then Seqs.Count(stats, Qualifies) else MAX_CANDIDATES
  {
    assert |sorted| == |multiset(sorted)|;
    Seqs.CountIsFilterLength(stats, Qualifies);
  }

  lemma CandidatesChosen(stats: seq<Entry>, sorted: seq<Entry>, r: seq<Entry>)
    requires sorted == Seqs.SortDesc(Seqs.Filter(stats, Qualifies), CountKey)
    requires r == Take(sorted, MAX_CANDIDATES)
    ensures Seqs.SortedDesc(r, CountKey)
    ensures forall e | e in r :: e in stats && e.count >= MIN_COUNT_THRESHOLD
    ensures forall e | e in stats && e.count >= MIN_COUNT_THRESHOLD ::
              e in r || (|r| == MAX_CANDIDATES && forall c | c in r :: c.count >= e.count)
  {
    TopOfSorted(sorted, r);
    forall e | e in r ensures e in stats && e.count >= MIN_COUNT_THRESHOLD {
      assert e in multiset(sorted);
    }
    forall e | e in stats && e.count >= MIN_COUNT_THRESHOLD
      ensures e in r || (|r| == MAX_CANDIDATES && forall c | c in r :: c.count >= e.count)
    {
      assert e in multiset(Seqs.Filter(stats, Qualifies));
    }
  }

  /** The first few of a sorted list are sorted and outrank the rest. */
  lemma TopOfSorted(sorted: seq<Entry>, r: seq<Entry>)
    requires Seqs.SortedDesc(sorted, CountKey) && r == Take(sorted, MAX_CANDIDATES)
    ensures Seqs.SortedDesc(r, CountKey)
    ensures forall e | e in sorted :: e in r || (|r| == MAX_CANDIDATES && forall c | c in r :: c.count >= e.count)
  {
    forall e | e in sorted
      ensures e in r || (|r| == MAX_CANDIDATES && forall c | c in r :: c.count >= e.count)
    {
      var j :| 0 <= j < |sorted| && sorted[j] == e;
      if j < |r| {
        assert r[j] == e;
      } else {
        forall c | c in r ensures c.count >= e.count {
          var i :| 0 <= i < |r| && r[i] == c;
          assert sorted[i] == c;
        }
      }
    }
  }

  /**
   * The candidates are qualifying entries, none offered more often than it
   * qualifies, and the sort is stable: candidates used equally often keep
   * the order in which their messages were first tracked.
   */
  lemma CandidatesKeepTrackOrder(stats: seq<Entry>, k: int)
    ensures multiset(GetCandidates(stats)) <= multiset(Seqs.Filter(stats, Qualifies))
    ensures Seqs.Filter(GetCandidates(stats), Seqs.KeyIs(CountKey, k))
            <= Seqs.Filter(Seqs.Filter(stats, Qualifies), Seqs.KeyIs(CountKey, k))
  {
    var q := Seqs.Filter(stats, Qualifies);
    var sorted := Seqs.SortDesc(q, CountKey);
    var r := GetCandidates(stats);
    assert r == sorted[..|r|];
    assert sorted == r + sorted[|r|..];
    assert multiset(sorted) == multiset(r) + multiset(sorted[|r|..]);
    Seqs.SortDescStable(q, CountKey, k);
    Seqs.FilterPrefix(sorted, |r|, Seqs.KeyIs(CountKey, k));
  }

  /**
   * Every offered text is one a user could have sent: non-empty and shorter
   * than sixteen UTF-16 code units, so in particular shorter than sixteen characters.
   */
  lemma CandidatesAreShort(stats: seq<Entry>)
    requires Wf(stats)
    ensures forall e | e in GetCandidates(stats) :: Countable(e.text) && 0 < |e.text| < MAX_MESSAGE_LENGTH
  {
  }

  /** Sending a countable message again adds one to its entry. */
  lemma TrackAgain(message: string, n: int)
    requires Countable(Clean(message))
    ensures Track([Entry(Clean(message), n)], message) == [Entry(Clean(message), n + 1)]
  {
    assert Seqs.IndexOfFirst([Entry(Clean(message), n)], HasText(Clean(message))) == Some(0);
  }

  /**
   * A table holding one entry used at least five times offers exactly that
   * entry: the threshold is "at least five", not "more than five".
   */
  lemma LoneEntryOffered(e: Entry)
    requires e.count >= MIN_COUNT_THRESHOLD
    ensures GetCandidates([e]) == [e]
  {
    assert Seqs.Count([e], Qualifies) == 1;
    var r := GetCandidates([e]);
    assert r[0] in [e];
  }

  /** clearStats(): nothing is counted and nothing is offered. */
  function ClearStats(stats: seq<Entry>): (r: seq<Entry>)
    ensures forall k :: CountOf(r, k) == 0
    ensures GetCandidates(r) == []
    ensures Wf(r)
  {
    []
  }
}

=== FILE: screen_capture_service.dfy ===
/**
 * ScreenCaptureService: the WAV header written in front of recorded audio.
 * Kotlin `Int` arithmetic wraps at 32 bits and `/` truncates toward zero;
 * both are written out. `intToByteArray` and `shortToByteArray` take the
 * low 8 bits of arithmetic right shifts, which is the value's two's
 * complement taken modulo 2^32 (resp. 2^16), byte by byte from the low end.
 * Screen capture, audio recording and file output are left out.
 */
module ScreenCaptureService {
  import opened Wrappers
  import opened Bytes
  import opened KotlinInt

  const TWO_16: int := 0x1_0000

  /** 256 to the n. */
  function Pow256(n: nat): (p: nat)
    ensures p >= 1
  {
    if n == 0 then 1 else 256 * Pow256(n - 1)
  }

  /** The n low bytes of v's two's complement, least significant first. */
  function LittleEndian(v: int, n: nat): (r: seq<Byte>)
    ensures |r| == n
    decreases n
  {
    if n == 0 then [] else [v % 256] + LittleEndian(v / 256, n - 1)
  }

  /** Reading bytes back, least significant first. */
  function DecodeLittleEndian(bs: seq<Byte>): (v: nat)
    ensures v < Pow256(|bs|)
  {
    if |bs| == 0 then 0 else bs[0] + 256 * DecodeLittleEndian(bs[1..])
  }

  /** A positive multiple of a positive number is at least that number. */
  lemma MulAtLeast(d: int, k: int)
    requires d > 0 && k >= 1
    ensures d * k >= d
  {
    assert d * k == d + d * (k - 1);
  }

  /** Euclidean remainder is unique. */
  lemma ModUnique(v: int, d: int, q: int, r: int)
    requires d > 0 && v == d * q + r && 0 <= r < d
    ensures v % d == r && v / d == q
  {
    var q' := v / d;
    var r' := v % d;
    assert d * q + r == d * q' + r';
    assert d * (q - q') == r' - r;
    if q - q' >= 1 {
      MulAtLeast(d, q - q');
    } else if q' - q >= 1 {
      MulAtLeast(d, q' - q);
    }
  }

  /** Two steps of Euclidean division combine: the low byte, then the rest modulo p. */
  lemma CombineMod(v: int, p: int, r0: int, r1: int)
    requires p >= 1 && 0 <= r0 < 256 && 0 <= r1 < p
    requires v % 256 == r0 && (v / 256) % p == r1
    ensures v % (256 * p) == 256 * r1 + r0
  {
    var q := v / 256;
    var q2 := q / p;
    assert v == 256 * q + r0;
    assert q == p * q2 + r1;
    assert v == (256 * p) * q2 + (256 * r1 + r0) by {
      assert 256 * q == 256 * (p * q2) + 256 * r1;
      assert 256 * (p * q2) == (256 * p) * q2;
    }
    assert 256 * r1 + r0 < 256 * p by {
      assert 256 * r1 <= 256 * (p - 1);
    }
    ModUnique(v, 256 * p, q2, 256 * r1 + r0);
  }

  /** Decoding the n-byte encoding gives the value modulo 256^n. */
  lemma {:induction false} LittleEndianRoundTrip(v: int, n: nat)
    ensures DecodeLittleEndian(LittleEndian(v, n)) == v % Pow256(n)
    decreases n
  {
    if n == 0 {
      ModUnique(v, 1, v, 0);
    } else {
      var bs := LittleEndian(v, n);
      LittleEndianRoundTrip(v / 256, n - 1);
      assert bs[1..] == LittleEndian(v / 256, n - 1);
      assert DecodeLittleEndian(bs) == v % 256 + 256 * ((v / 256) % Pow256(n - 1));
      CombineMod(v, Pow256(n - 1), v % 256, (v / 256) % Pow256(n - 1));
    }
  }

  /** intToByteArray(value). */
  function IntToBytes(value: int): (r: seq<Byte>)
    ensures |r| == 4 && DecodeLittleEndian(r) == value % TWO_32
  {
    LittleEndianRoundTrip(value, 4);
    LittleEndian(value, 4)
  }

  /** shortToByteArray(value.toShort()): the low 16 bits. */
  function ShortToBytes(value: int): (r: seq<Byte>)
    ensures |r| == 2 && DecodeLittleEndian(r) == value % TWO_16
  {
    LittleEndianRoundTrip(value, 2);
    LittleEndian(value, 2)
  }

  /** Two Ints with the same bytes are the same Int. */
  lemma IntBytesInjective(a: int, b: int)
    requires IsInt32(a) && IsInt32(b) && IntToBytes(a) == IntToBytes(b)
    ensures a == b
  {
    assert a % TWO_32 == b % TWO_32;
    if a < 0 { ModUnique(a, TWO_32, -1, a + TWO_32); } else { ModUnique(a, TWO_32, 0, a); }
    if b < 0 { ModUnique(b, TWO_32, -1, b + TWO_32); } else { ModUnique(b, TWO_32, 0, b); }
  }

  /** The bytes of a four-character ASCII tag. */
  function Tag(s: string): (r: seq<Byte>)
    requires |s| == 4 && forall i | 0 <= i < 4 :: s[i] as int < 128
    ensures |r| == 4 && forall i | 0 <= i < 4 :: r[i] == s[i] as int
  {
    [s[0] as int, s[1] as int, s[2] as int, s[3] as int]
  }

  /** byteRate = sampleRate * channels * bitsPerSample / 8, in Int arithmetic. */
  function ByteRate(sampleRate: int, channels: int, bitsPerSample: int): (r: int)
    ensures IsInt32(r)
  {
    Wrap32(Quot(Wrap32(Wrap32(sampleRate * channels) * bitsPerSample), 8))
  }

  /** blockAlign = channels * bitsPerSample / 8, in Int arithmetic. */
  function BlockAlign(channels: int, bitsPerSample: int): (r: int)
    ensures IsInt32(r)
  {
    Wrap32(Quot(Wrap32(channels * bitsPerSample), 8))
  }

  /** When nothing overflows, the rates are the plain quotients. */
  lemma RatesWithoutOverflow(sampleRate: int, channels: int, bitsPerSample: int)
    requires 0 <= sampleRate && 0 <= channels && 0 <= bitsPerSample
    requires sampleRate * channels < 0x8000_0000 && channels * bitsPerSample < 0x8000_0000
    requires sampleRate * channels * bitsPerSample < 0x8000_0000
    ensures ByteRate(sampleRate, channels, bitsPerSample) == sampleRate * channels * bitsPerSample / 8
    ensures BlockAlign(channels, bitsPerSample) == channels * bitsPerSample / 8
  {
    var a := sampleRate * channels;
    assert 0 <= a;
    assert 0 <= a * bitsPerSample;
    assert 0 <= channels * bitsPerSample;
  }

  /** The CD-quality stereo recording the service makes: 176400 bytes a second, 4 bytes a frame. */
  lemma RecordingRates()
    ensures ByteRate(44100, 2, 16) == 176400 && BlockAlign(2, 16) == 4
  {
  }

  const RIFF: seq<Byte> := [0x52, 0x49, 0x46, 0x46]
  const WAVE: seq<Byte> := [0x57, 0x41, 0x56, 0x45]
  const FMT: seq<Byte> := [0x66, 0x6D, 0x74, 0x20]
  const DATA: seq<Byte> := [0x64, 0x61, 0x74, 0x61]

  /** The tags are the ASCII bytes of "RIFF", "WAVE", "fmt " and "data". */
  lemma TagsAreAscii()
    ensures RIFF == Tag("RIFF") && WAVE == Tag("WAVE") && FMT == Tag("fmt ") && DATA == Tag("data")
  {
  }

  /** The RIFF chunk header: the tag, the length of everything after it, and the form type. */
  function RiffHeader(audioLength: int): (h: seq<Byte>)
    ensures |h| == 12 && h[..4] == RIFF && h[8..] == WAVE
    ensures DecodeLittleEndian(h[4..8]) == (36 + audioLength) % TWO_32
  {
    var total := Wrap32(36 + audioLength);
    assert total % TWO_32 == (36 + audioLength) % TWO_32 by {
      var k := (total - (36 + audioLength)) / TWO_32;
      assert total == (36 + audioLength) + TWO_32 * k;
    }
    var h := RIFF + IntToBytes(total) + WAVE;
    assert h[4..8] == IntToBytes(total);
    h
  }

  /** The first half of the "fmt " chunk: tag, chunk size 16, format 1 (PCM), channel count. */
  function FormatHead(channels: int): (h: seq<Byte>)
    ensures |h| == 12 && h[..4] == FMT
    ensures DecodeLittleEndian(h[4..8]) == 16 && DecodeLittleEndian(h[8..10]) == 1
    ensures DecodeLittleEndian(h[10..]) == channels % TWO_16
  {
    var h := FMT + IntToBytes(16) + ShortToBytes(1) + ShortToBytes(channels);
    assert h[4..8] == IntToBytes(16) && h[8..10] == ShortToBytes(1) && h[10..] == ShortToBytes(channels);
    h
  }

  /** The second half of the "fmt " chunk: sample rate, byte rate, block alignment, sample width. */
  function FormatRates(sampleRate: int, channels: int, bitsPerSample: int): (h: seq<Byte>)
    ensures |h| == 12
    ensures DecodeLittleEndian(h[..4]) == sampleRate % TWO_32
    ensures DecodeLittleEndian(h[4..8]) == ByteRate(sampleRate, channels, bitsPerSample) % TWO_32
    ensures DecodeLittleEndian(h[8..10]) == BlockAlign(channels, bitsPerSample) % TWO_16
    ensures DecodeLittleEndian(h[10..]) == bitsPerSample % TWO_16
  {
    var rate := IntToBytes(sampleRate);
    var bytes := IntToBytes(ByteRate(sampleRate, channels, bitsPerSample));
    var align := ShortToBytes(BlockAlign(channels, bitsPerSample));
    var width := ShortToBytes(bitsPerSample);
    var h := rate + bytes + align + width;
    assert h[..4] == rate && h[4..8] == bytes && h[8..10] == align && h[10..] == width;
    h
  }

  /** The "fmt " chunk: 16 bytes of PCM format description after its tag and size. */
  function FormatChunk(sampleRate: int, channels: int, bitsPerSample: int): (h: seq<Byte>)
    ensures |h| == 24
    ensures h[..12] == FormatHead(channels) && h[12..] == FormatRates(sampleRate, channels, bitsPerSample)
  {
    FormatHead(channels) + FormatRates(sampleRate, channels, bitsPerSample)
  }

  /** The "data" chunk header: the tag and the number of audio bytes that follow. */
  function DataHeader(audioLength: int): (h: seq<Byte>)
    ensures |h| == 8 && h[..4] == DATA
    ensures DecodeLittleEndian(h[4..]) == audioLength % TWO_32
  {
    DATA + IntToBytes(audioLength)
  }

  /** writeWavHeader(out, audioLength, sampleRate, channels, bitsPerSample): the 44 bytes written. */
  function WavHeader(audioLength: int, sampleRate: int, channels: int, bitsPerSample: int): (h: seq<Byte>)
    ensures |h| == 44
    ensures h[..12] == RiffHeader(audioLength)
    ensures h[12..36] == FormatChunk(sampleRate, channels, bitsPerSample)
    ensures h[36..] == DataHeader(audioLength)
  {
    RiffHeader(audioLength) + FormatChunk(sampleRate, channels, bitsPerSample) + DataHeader(audioLength)
  }

  /** The values a WAV header carries, as a reader sees them (unsigned). */
  datatype WavFields = WavFields(
    riffLength: nat, formatSize: nat, audioFormat: nat, channels: nat, sampleRate: nat,
    byteRate: nat, blockAlign: nat, bitsPerSample: nat, dataLength: nat)

  /** A reader of the canonical 44-byte header: the tags must be in place. */
  function ParseWavHeader(h: seq<Byte>): (r: Option<WavFields>)
    ensures r.Some? <==> |h| == 44 && h[..4] == RIFF && h[8..12] == WAVE && h[12..16] == FMT && h[36..40] == DATA
  {
    if |h| != 44 || h[..4] != RIFF || h[8..12] != WAVE || h[12..16] != FMT || h[36..40] != DATA then None
    else Some(WavFields(
      DecodeLittleEndian(h[4..8]), DecodeLittleEndian(h[16..20]), DecodeLittleEndian(h[20..22]),
      DecodeLittleEndian(h[22..24]), DecodeLittleEndian(h[24..28]), DecodeLittleEndian(h[28..32]),
      DecodeLittleEndian(h[32..34]), DecodeLittleEndian(h[34..36]), DecodeLittleEndian(h[40..44])))
  }

  /** Reading a header assembled from its four parts, with the tags in place, reads each part's fields. */
  lemma ParseParts(riff: seq<Byte>, head: seq<Byte>, rates: seq<Byte>, data: seq<Byte>)
    requires |riff| == 12 && |head| == 12 && |rates| == 12 && |data| == 8
    requires riff[..4] == RIFF && riff[8..] == WAVE && head[..4] == FMT && data[..4] == DATA
    ensures ParseWavHeader(riff + head + rates + data) == Some(WavFields(
      DecodeLittleEndian(riff[4..8]), DecodeLittleEndian(head[4..8]), DecodeLittleEndian(head[8..10]),
      DecodeLittleEndian(head[10..]), DecodeLittleEndian(rates[..4]), DecodeLittleEndian(rates[4..8]),
      DecodeLittleEndian(rates[8..10]), DecodeLittleEndian(rates[10..]), DecodeLittleEndian(data[4..])))
  {
    var h := riff + head + rates + data;
    assert h[..4] == riff[..4] && h[4..8] == riff[4..8] && h[8..12] == riff[8..];
    assert h[12..16] == head[..4] && h[16..20] == head[4..8] && h[20..22] == head[8..10] && h[22..24] == head[10..];
    assert h[24..36] == rates;
    assert h[24..28] == rates[..4] && h[28..32] == rates[4..8] && h[32..34] == rates[8..10];
    assert h[34..36] == rates[10..];
    assert h[36..40] == data[..4] && h[40..44] == data[4..];
  }

  /** Reading the written header gives back every field, modulo the width it was written in. */
  lemma WavHeaderRoundTrip(audioLength: int, sampleRate: int, channels: int, bitsPerSample: int)
    ensures ParseWavHeader(WavHeader(audioLength, sampleRate, channels, bitsPerSample)) == Some(WavFields(
      (36 + audioLength) % TWO_32, 16, 1, channels % TWO_16, sampleRate % TWO_32,
      ByteRate(sampleRate, channels, bitsPerSample) % TWO_32, BlockAlign(channels, bitsPerSample) % TWO_16,
      bitsPerSample % TWO_16, audioLength % TWO_32))
  {
    var riff := RiffHeader(audioLength);
    var head := FormatHead(channels);
    var rates := FormatRates(sampleRate, channels, bitsPerSample);
    var data := DataHeader(audioLength);
    assert WavHeader(audioLength, sampleRate, channels, bitsPerSample) == riff + head + rates + data;
    ParseParts(riff, head, rates, data);
  }
}

=== FILE: seqs.dfy ===
/**
 * Order-preserving filtering and related list helpers (Kotlin's `filter`,
 * `count`, `any`, `indexOfFirst`).
 */
module Seqs {
  import opened Wrappers

  /** Kotlin `filter`: the elements satisfying `p`, in their original order. */
  function Filter<T(!new)>(xs: seq<T>, p: T -> bool): (r: seq<T>)
    ensures |r| <= |xs|
    ensures forall x :: x in r <==> x in xs && p(x)
    ensures forall i | 0 <= i < |r| :: p(r[i])
    decreases |xs|
  {
    if |xs| == 0 then []
    else if p(xs[0]) then [xs[0]] + Filter(xs[1..], p)
    else Filter(xs[1..], p)
  }

  /** The first element kept is the first element satisfying `p`. */
  lemma {:induction false} FilterHead<T(!new)>(xs: seq<T>, p: T -> bool)
    requires |Filter(xs, p)| > 0
    ensures exists k | 0 <= k < |xs| :: xs[k] == Filter(xs, p)[0] && p(xs[k])
                                         && forall j | 0 <= j < k :: !p(xs[j])
    decreases |xs|
  {
    if !p(xs[0]) {
      FilterHead(xs[1..], p);
      var k :| 0 <= k < |xs[1..]| && xs[1..][k] == Filter(xs[1..], p)[0] && p(xs[1..][k])
               && forall j | 0 <= j < k :: !p(xs[1..][j]);
      assert xs[k + 1] == xs[1..][k];
      assert forall j | 1 <= j < k + 1 :: xs[j] == xs[1..][j - 1];
    } else {
      assert xs[0] == Filter(xs, p)[0];
    }
  }

  /** Mapping distributes over concatenation. */
  lemma MapConcat<T, U>(xs: seq<T>, ys: seq<T>, f: T -> U)
    ensures Map(xs + ys, f) == Map(xs, f) + Map(ys, f)
  {
    assert forall i | 0 <= i < |xs| :: (xs + ys)[i] == xs[i];
    assert forall i | |xs| <= i < |xs| + |ys| :: (xs + ys)[i] == ys[i - |xs|];
  }

  /** Filtering by a predicate every element satisfies changes nothing. */
  lemma {:induction false} FilterAll<T(!new)>(xs: seq<T>, p: T -> bool)
    requires forall i | 0 <= i < |xs| :: p(xs[i])
    ensures Filter(xs, p) == xs
    decreases |xs|
  {
    if |xs| > 0 {
      FilterAll(xs[1..], p);
    }
  }

  /** Filtering distributes over concatenation. */
  lemma {:induction false} FilterConcat<T(!new)>(xs: seq<T>, ys: seq<T>, p: T -> bool)
    ensures Filter(xs + ys, p) == Filter(xs, p) + Filter(ys, p)
    decreases |xs|
  {
    if |xs| == 0 {
      assert xs + ys == ys;
    } else {
      assert (xs + ys)[0] == xs[0] && (xs + ys)[1..] == xs[1..] + ys;
      FilterConcat(xs[1..], ys, p);
    }
  }

  /** `sub` can be obtained from `xs` by deleting elements. */
  predicate IsSubsequence<T(==)>(sub: seq<T>, xs: seq<T>)
    decreases |xs|
  {
    if |sub| == 0 then true
    else if |xs| == 0 then false
    else if sub[0] == xs[0] then IsSubsequence(sub[1..], xs[1..])
    else IsSubsequence(sub, xs[1..])
  }

  /** A subsequence is no longer than the sequence it comes from. */
  lemma {:induction false} SubsequenceLength<T>(sub: seq<T>, xs: seq<T>)
    requires IsSubsequence(sub, xs)
    ensures |sub| <= |xs|
    decreases |xs|
  {
    if |sub| > 0 {
      if sub[0] == xs[0] {
        SubsequenceLength(sub[1..], xs[1..]);
      } else {
        SubsequenceLength(sub, xs[1..]);
      }
    }
  }

  /** Every sequence is a subsequence of itself. */
  lemma {:induction false} SubsequenceRefl<T>(xs: seq<T>)
    ensures IsSubsequence(xs, xs)
    decreases |xs|
  {
    if |xs| > 0 {
      SubsequenceRefl(xs[1..]);
    }
  }

  /** Filtering keeps the surviving elements in their original order. */
  lemma {:induction false} FilterIsSubsequence<T(!new)>(xs: seq<T>, p: T -> bool)
    ensures IsSubsequence(Filter(xs, p), xs)
    decreases |xs|
  {
    if |xs| > 0 {
      FilterIsSubsequence(xs[1..], p);
      if !p(xs[0]) {
        SubsequenceOfTail(Filter(xs[1..], p), xs);
      }
    }
  }

  /** A subsequence of the tail is a subsequence of the whole. */
  lemma {:induction false} SubsequenceOfTail<T>(sub: seq<T>, xs: seq<T>)
    requires |xs| > 0 && IsSubsequence(sub, xs[1..])
    ensures IsSubsequence(sub, xs)
    decreases |xs|, |sub|
  {
    if |sub| > 0 && sub[0] == xs[0] {
      DropHead(sub, xs[1..]);
    }
  }

  /** Dropping the head of a subsequence leaves a subsequence. */
  lemma {:induction false} DropHead<T>(sub: seq<T>, xs: seq<T>)
    requires |sub| > 0 && IsSubsequence(sub, xs)
    ensures IsSubsequence(sub[1..], xs)
    decreases |xs|, |sub|
  {
    if sub[0] == xs[0] {
      SubsequenceOfTail(sub[1..], xs);
    } else {
      DropHead(sub, xs[1..]);
      SubsequenceOfTail(sub[1..], xs);
    }
  }

  /**
   * A subsequence whose elements all satisfy `p` has no more elements than
   * `xs` has elements satisfying `p`.
   */
  lemma {:induction false} SubsequenceCountBound<T>(sub: seq<T>, xs: seq<T>, p: T -> bool)
    requires IsSubsequence(sub, xs)
    requires forall i | 0 <= i < |sub| :: p(sub[i])
    ensures |sub| <= Count(xs, p)
    decreases |xs|
  {
    if |sub| > 0 {
      if sub[0] == xs[0] {
        SubsequenceCountBound(sub[1..], xs[1..], p);
      } else {
        SubsequenceCountBound(sub, xs[1..], p);
      }
    }
  }

  /**
   * Filtering is the only way to keep every element satisfying `p` in order:
   * a subsequence of `xs` whose elements all satisfy `p`, and which has as
   * many elements as `xs` has satisfying ones, is `Filter(xs, p)`.
   */
  lemma {:induction false} FilterUnique<T(!new)>(r: seq<T>, xs: seq<T>, p: T -> bool)
    requires IsSubsequence(r, xs)
    requires forall i | 0 <= i < |r| :: p(r[i])
    requires |r| == Count(xs, p)
    ensures r == Filter(xs, p)
    decreases |xs|
  {
    if |xs| == 0 {
    } else if |r| == 0 {
      CountIsFilterLength(xs, p);
    } else if r[0] == xs[0] {
      FilterUnique(r[1..], xs[1..], p);
    } else {
      SubsequenceCountBound(r, xs[1..], p);
      FilterUnique(r, xs[1..], p);
    }
  }

  /** Kotlin `count { p }`. */
  function Count<T>(xs: seq<T>, p: T -> bool): (n: nat)
    ensures n <= |xs|
    ensures n == 0 <==> forall i | 0 <= i < |xs| :: !p(xs[i])
    decreases |xs|
  {
    if |xs| == 0 then 0 else (if p(xs[0]) then 1 else 0) + Count(xs[1..], p)
  }

  /** Counting is the length of the filtered list. */
  lemma {:induction false} CountIsFilterLength<T(!new)>(xs: seq<T>, p: T -> bool)
    ensures Count(xs, p) == |Filter(xs, p)|
    decreases |xs|
  {
    if |xs| > 0 {
      CountIsFilterLength(xs[1..], p);
    }
  }

  /** Counting an extended list counts the new element once. */
  lemma {:induction false} CountAppend<T>(xs: seq<T>, x: T, p: T -> bool)
    ensures Count(xs + [x], p) == Count(xs, p) + (if p(x) then 1 else 0)
    decreases |xs|
  {
    if |xs| == 0 {
      assert (xs + [x])[1..] == [];
    } else {
      assert (xs + [x])[1..] == xs[1..] + [x];
      CountAppend(xs[1..], x, p);
    }
  }

  /** Filtering an extended list keeps the new element at the end when it passes. */
  lemma {:induction false} FilterAppend<T(!new)>(xs: seq<T>, x: T, p: T -> bool)
    ensures Filter(xs + [x], p) == Filter(xs, p) + (if p(x) then [x] else [])
    decreases |xs|
  {
    if |xs| == 0 {
      assert (xs + [x])[1..] == [];
    } else {
      assert (xs + [x])[1..] == xs[1..] + [x];
      FilterAppend(xs[1..], x, p);
    }
  }

  /** Kotlin `indexOfFirst { p }`, or None for Kotlin's -1. */
  function IndexOfFirst<T>(xs: seq<T>, p: T -> bool): (r: Option<nat>)
    ensures r.Some? ==> r.value < |xs| && p(xs[r.value])
    ensures r.Some? ==> forall j | 0 <= j < r.value :: !p(xs[j])
    ensures r.None? ==> forall j | 0 <= j < |xs| :: !p(xs[j])
    decreases |xs|
  {
    if |xs| == 0 then None
    else if p(xs[0]) then Some(0)
    else match IndexOfFirst(xs[1..], p)
      case None => None
      case Some(k) => Some(k + 1)
  }

  /** Index of the last element satisfying `p` (Kotlin `indexOfLast`). */
  function IndexOfLast<T>(xs: seq<T>, p: T -> bool): (r: Option<nat>)
    ensures r.Some? ==> r.value < |xs| && p(xs[r.value])
    ensures r.Some? ==> forall j | r.value < j < |xs| :: !p(xs[j])
    ensures r.None? ==> forall j | 0 <= j < |xs| :: !p(xs[j])
    decreases |xs|
  {
    if |xs| == 0 then None
    else if p(xs[|xs| - 1]) then Some(|xs| - 1)
    else
      var r := IndexOfLast(xs[..|xs| - 1], p);
      assert forall j | 0 <= j < |xs| - 1 :: xs[..|xs| - 1][j] == xs[j];
      r
  }

  /** Appending an element leaves an earlier first match where it was. */
  lemma {:induction false} IndexOfFirstAppend<T>(xs: seq<T>, x: T, p: T -> bool)
    ensures IndexOfFirst(xs + [x], p) ==
              match IndexOfFirst(xs, p)
              case Some(i) => Some(i)
              case None => if p(x) then Some(|xs|) else None
    decreases |xs|
  {
    if |xs| == 0 {
      assert xs + [x] == [x];
    } else {
      assert (xs + [x])[1..] == xs[1..] + [x];
      IndexOfFirstAppend(xs[1..], x, p);
    }
  }

  /** Lists whose elements agree on `p` have the same first match. */
  lemma {:induction false} IndexOfFirstAgree<T>(xs: seq<T>, ys: seq<T>, p: T -> bool)
    requires |xs| == |ys| && forall j | 0 <= j < |xs| :: p(xs[j]) == p(ys[j])
    ensures IndexOfFirst(xs, p) == IndexOfFirst(ys, p)
    decreases |xs|
  {
    if |xs| > 0 {
      IndexOfFirstAgree(xs[1..], ys[1..], p);
    }
  }

  /** Kotlin `map`. */
  function Map<T, U>(xs: seq<T>, f: T -> U): (r: seq<U>)
    ensures |r| == |xs| && forall i | 0 <= i < |xs| :: r[i] == f(xs[i])
  {
    seq(|xs|, i requires 0 <= i < |xs| => f(xs[i]))
  }

  /** Filtering then mapping a non-empty list, one element at a time. */
  lemma MapFilterCons<T(!new), U>(xs: seq<T>, p: T -> bool, f: T -> U)
    requires |xs| > 0
    ensures Map(Filter(xs, p), f) == (if p(xs[0]) then [f(xs[0])] else []) + Map(Filter(xs[1..], p), f)
  {
    if p(xs[0]) {
      assert Filter(xs, p) == [xs[0]] + Filter(xs[1..], p);
      MapConcat([xs[0]], Filter(xs[1..], p), f);
      assert Map([xs[0]], f) == [f(xs[0])];
    } else {
      assert Filter(xs, p) == Filter(xs[1..], p);
    }
  }

  /** Kotlin `mapNotNull`: the defined results of `f`, in order. */
  function Collect<T, U>(xs: seq<T>, f: T -> Option<U>): (r: seq<U>)
    ensures |r| <= |xs|
    decreases |xs|
  {
    if |xs| == 0 then []
    else (match f(xs[0]) case Some(y) => [y] case None => []) + Collect(xs[1..], f)
  }

  /** Whether `f` is defined at an element. */
  function IsDefined<T, U>(f: T -> Option<U>): T -> bool {
    x => f(x).Some?
  }

  /** The `i`-th collected result is `f`'s value at the `i`-th element where `f` is defined. */
  lemma {:induction false} CollectIsFilterMap<T(!new), U>(xs: seq<T>, f: T -> Option<U>)
    ensures var q := Filter(xs, IsDefined(f));
            |Collect(xs, f)| == |q| && forall i | 0 <= i < |q| :: f(q[i]) == Some(Collect(xs, f)[i])
    decreases |xs|
  {
    if |xs| > 0 {
      CollectIsFilterMap(xs[1..], f);
      var q := Filter(xs, IsDefined(f));
      var q1 := Filter(xs[1..], IsDefined(f));
      var r := Collect(xs, f);
      var r1 := Collect(xs[1..], f);
      match f(xs[0])
      case Some(y) =>
        assert q == [xs[0]] + q1 && r == [y] + r1;
        assert forall i | 1 <= i < |q| :: q[i] == q1[i - 1] && r[i] == r1[i - 1];
      case None =>
        assert q == q1 && r == r1;
    }
  }

  /** Non-increasing by `key`. */
  predicate SortedDesc<T>(xs: seq<T>, key: T -> int) {
    forall i, j | 0 <= i < j < |xs| :: key(xs[i]) >= key(xs[j])
  }

  /** Insertion after every element whose key is at least as large, which keeps the sort stable. */
  function InsertDesc<T(!new)>(x: T, sorted: seq<T>, key: T -> int): (r: seq<T>)
    requires SortedDesc(sorted, key)
    ensures SortedDesc(r, key)
    ensures multiset(r) == multiset(sorted) + multiset{x}
    ensures forall y :: y in r <==> y in sorted || y == x
    decreases |sorted|
  {
    if |sorted| == 0 then [x]
    else if key(sorted[0]) >= key(x) then
      var rest := InsertDesc(x, sorted[1..], key);
      assert sorted == [sorted[0]] + sorted[1..];
      ConsSorted(sorted[0], rest, key);
      [sorted[0]] + rest
    else [x] + sorted
  }

  /** An element whose key is at least every key of a sorted list can go in front of it. */
  lemma ConsSorted<T>(h: T, rest: seq<T>, key: T -> int)
    requires SortedDesc(rest, key)
    requires forall y | y in rest :: key(h) >= key(y)
    ensures SortedDesc([h] + rest, key)
  {
    var r := [h] + rest;
    assert forall j | 0 < j < |r| :: r[j] == rest[j - 1];
  }

  /** Kotlin `sortedByDescending(key)`. */
  function SortDesc<T(!new)>(xs: seq<T>, key: T -> int): (r: seq<T>)
    ensures SortedDesc(r, key)
    ensures multiset(r) == multiset(xs)
    decreases |xs|
  {
    if |xs| == 0 then []
    else
      assert xs == xs[..|xs| - 1] + [xs[|xs| - 1]];
      InsertDesc(xs[|xs| - 1], SortDesc(xs[..|xs| - 1], key), key)
  }

  /** The elements whose key is `k`. */
  function KeyIs<T>(key: T -> int, k: int): T -> bool {
    (y: T) => key(y) == k
  }

  /** Filtering by a predicate no element satisfies leaves nothing. */
  lemma {:induction false} FilterNone<T(!new)>(xs: seq<T>, p: T -> bool)
    requires forall i | 0 <= i < |xs| :: !p(xs[i])
    ensures Filter(xs, p) == []
    decreases |xs|
  {
    if |xs| > 0 {
      FilterNone(xs[1..], p);
    }
  }

  /** Filtering a prefix gives a prefix of the filtered list. */
  lemma FilterPrefix<T(!new)>(xs: seq<T>, m: nat, p: T -> bool)
    requires m <= |xs|
    ensures Filter(xs[..m], p) <= Filter(xs, p)
  {
    assert xs == xs[..m] + xs[m..];
    FilterConcat(xs[..m], xs[m..], p);
  }

  /** Inserting keeps the elements of each key in order, the new one after the old. */
  lemma {:induction false} InsertDescStable<T(!new)>(x: T, sorted: seq<T>, key: T -> int, k: int)
    requires SortedDesc(sorted, key)
    ensures Filter(InsertDesc(x, sorted, key), KeyIs(key, k))
            == Filter(sorted, KeyIs(key, k)) + (if key(x) == k then [x] else [])
    decreases |sorted|
  {
    if |sorted| == 0 {
      assert [x][1..] == [];
    } else if key(sorted[0]) >= key(x) {
      var rest := sorted[1..];
      InsertDescStable(x, rest, key, k);
      assert InsertDesc(x, sorted, key) == [sorted[0]] + InsertDesc(x, rest, key);
      assert sorted == [sorted[0]] + rest;
      FilterConsStep(sorted[0], InsertDesc(x, rest, key), rest, if key(x) == k then [x] else [], KeyIs(key, k));
    } else {
      InsertInFront(x, sorted, key, k);
    }
  }

  /** Putting the same element in front of two lists keeps a relation between their filtered forms. */
  lemma FilterConsStep<T(!new)>(y: T, a: seq<T>, b: seq<T>, tail: seq<T>, p: T -> bool)
    requires Filter(a, p) == Filter(b, p) + tail
    ensures Filter([y] + a, p) == Filter([y] + b, p) + tail
  {
    FilterCons(y, a, p);
    FilterCons(y, b, p);
    AppendAssoc(if p(y) then [y] else [], Filter(b, p), tail);
  }

  /** Concatenation is associative. */
  lemma AppendAssoc<T>(a: seq<T>, b: seq<T>, c: seq<T>)
    ensures a + (b + c) == (a + b) + c
  {
  }

  /** Filtering a list with a given first element. */
  lemma FilterCons<T(!new)>(y: T, ys: seq<T>, p: T -> bool)
    ensures Filter([y] + ys, p) == (if p(y) then [y] else []) + Filter(ys, p)
  {
    assert ([y] + ys)[1..] == ys;
  }

  /** The step of InsertDescStable where the new element goes in front: no old element has its key. */
  lemma InsertInFront<T(!new)>(x: T, sorted: seq<T>, key: T -> int, k: int)
    requires SortedDesc(sorted, key)
    requires |sorted| > 0 && key(sorted[0]) < key(x)
    ensures Filter(InsertDesc(x, sorted, key), KeyIs(key, k))
            == Filter(sorted, KeyIs(key, k)) + (if key(x) == k then [x] else [])
  {
    var p := KeyIs(key, k);
    assert InsertDesc(x, sorted, key) == [x] + sorted;
    FilterConcat([x], sorted, p);
    assert [x][1..] == [];
    if key(x) == k {
      forall i | 0 <= i < |sorted| ensures !p(sorted[i]) {
        if i > 0 {
          assert key(sorted[0]) >= key(sorted[i]);
        }
      }
      FilterNone(sorted, p);
    }
  }

  /** One step of the sort: the last element is inserted into the sorted rest. */
  lemma SortDescStep<T(!new)>(xs: seq<T>, key: T -> int)
    requires |xs| > 0
    ensures SortDesc(xs, key) == InsertDesc(xs[|xs| - 1], SortDesc(xs[..|xs| - 1], key), key)
  {
  }

  /** The sort is stable: the elements of each key keep their original order. */
  lemma {:induction false} SortDescStable<T(!new)>(xs: seq<T>, key: T -> int, k: int)
    ensures Filter(SortDesc(xs, key), KeyIs(key, k)) == Filter(xs, KeyIs(key, k))
    decreases |xs|
  {
    if |xs| > 0 {
      var init := xs[..|xs| - 1];
      var last := xs[|xs| - 1];
      assert xs == init + [last];
      var p := KeyIs(key, k);
      var sortedInit := SortDesc(init, key);
      assert p(last) == (key(last) == k);
      SortDescStep(xs, key);
      SortDescStable(init, key, k);
      InsertDescStable(last, sortedInit, key, k);
      FilterAppend(init, last, p);
    }
  }
}

=== FILE: strings.dfy ===
/**
 * Text helpers shared by the whole model: the subset of java.lang.String,
 * kotlin.text and Python `str` behaviour the application relies on, written
 * once so that every component uses the same definition.
 */
module Strings {
  import opened Wrappers

  // ---------------------------------------------------------------------
  // Prefixes, suffixes and searching
  // ---------------------------------------------------------------------

  predicate StartsWith(s: string, p: string) {
    |p| <= |s| && s[..|p|] == p
  }

  predicate EndsWith(s: string, p: string) {
    |p| <= |s| && s[|s| - |p|..] == p
  }

  /** `p` occurs in `s` at position `i`. */
  predicate OccursAt(s: string, p: string, i: int) {
    0 <= i && i + |p| <= |s| && s[i..i + |p|] == p
  }

  /** Index of the first occurrence of `p` in `s` (String.indexOf). */
  function IndexOf(s: string, p: string): (r: Option<nat>)
    ensures r.Some? ==> OccursAt(s, p, r.value)
    ensures r.Some? ==> forall j | 0 <= j < r.value :: !OccursAt(s, p, j)
    ensures r.None? ==> forall j :: !OccursAt(s, p, j)
    decreases |s|
  {
    if |s| < |p| then None
    else if s[..|p|] == p then Some(0)
    else
      match IndexOf(s[1..], p)
      case None =>
        assert forall j | 1 <= j :: OccursAt(s, p, j) ==> OccursAt(s[1..], p, j - 1);
        None
      case Some(k) =>
        assert forall j | 1 <= j :: OccursAt(s, p, j) ==> OccursAt(s[1..], p, j - 1);
        assert OccursAt(s[1..], p, k) ==> OccursAt(s, p, k + 1);
        Some(k + 1)
  }

  /** String.contains / `in` on Python strings. */
  predicate Contains(s: string, p: string) {
    IndexOf(s, p).Some?
  }

  lemma ContainsIff(s: string, p: string)
    ensures Contains(s, p) <==> exists i :: OccursAt(s, p, i)
  {
  }

  lemma OccursAtContains(s: string, p: string, i: int)
    requires OccursAt(s, p, i)
    ensures Contains(s, p)
  {
  }

  lemma StartsWithContains(s: string, p: string)
    requires StartsWith(s, p)
    ensures Contains(s, p)
  {
    assert OccursAt(s, p, 0);
  }

  /** Kotlin `substringBefore`: the text before the first occurrence, or all of `s`. */
  function SubstringBefore(s: string, p: string): string {
    match IndexOf(s, p)
    case Some(k) => s[..k]
    case None => s
  }

  // ---------------------------------------------------------------------
  // Whitespace and trimming
  // ---------------------------------------------------------------------

  /** Characters java.lang.String.trim() removes: every code point up to U+0020. */
  predicate IsJavaTrimmable(c: char) {
    c as int <= 0x20
  }

  /** Kotlin Char.isWhitespace(): Character.isWhitespace or Character.isSpaceChar. */
  predicate IsWhitespace(c: char) {
    var n := c as int;
    (0x09 <= n <= 0x0D) || (0x1C <= n <= 0x20) || n == 0xA0 || n == 0x1680
    || (0x2000 <= n <= 0x200A) || n == 0x2028 || n == 0x2029 || n == 0x202F
    || n == 0x205F || n == 0x3000
  }

  /** Python str.isspace() for one character: Kotlin's set plus U+0085. */
  predicate IsPySpace(c: char) {
    IsWhitespace(c) || c as int == 0x85
  }

  function TrimStart(s: string, ws: char -> bool): (r: string)
    ensures |r| <= |s| && r == s[|s| - |r|..]
    ensures |r| > 0 ==> !ws(r[0])
    ensures forall i | 0 <= i < |s| - |r| :: ws(s[i])
    decreases |s|
  {
    if |s| > 0 && ws(s[0]) then TrimStart(s[1..], ws) else s
  }

  function TrimEnd(s: string, ws: char -> bool): (r: string)
    ensures |r| <= |s| && r == s[..|r|]
    ensures |r| > 0 ==> !ws(r[|r| - 1])
    ensures forall i | |r| <= i < |s| :: ws(s[i])
    decreases |s|
  {
    if |s| > 0 && ws(s[|s| - 1]) then TrimEnd(s[..|s| - 1], ws) else s
  }

  /** Strip `ws` characters from both ends. */
  function TrimBy(s: string, ws: char -> bool): (r: string)
    ensures |r| <= |s|
    ensures |r| > 0 ==> !ws(r[0]) && !ws(r[|r| - 1])
    ensures r == "" <==> forall i | 0 <= i < |s| :: ws(s[i])
  {
    var t := TrimStart(s, ws);
    assert |t| > 0 ==> t[0] == s[|s| - |t|];
    TrimEnd(t, ws)
  }

  /** Trimming twice is trimming once. */
  lemma TrimByIdempotent(s: string, ws: char -> bool)
    ensures TrimBy(TrimBy(s, ws), ws) == TrimBy(s, ws)
  {
  }

  /** java.lang.String.trim(). */
  function JavaTrim(s: string): string {
    TrimBy(s, IsJavaTrimmable)
  }

  /** Kotlin String.trim(). */
  function KotlinTrim(s: string): string {
    TrimBy(s, IsWhitespace)
  }

  /** Python str.strip() with no argument. */
  function PyStrip(s: string): string {
    TrimBy(s, IsPySpace)
  }

  /** Kotlin CharSequence.isBlank(). */
  predicate IsBlank(s: string) {
    forall i | 0 <= i < |s| :: IsWhitespace(s[i])
  }

  lemma BlankIffTrimEmpty(s: string)
    ensures IsBlank(s) <==> KotlinTrim(s) == ""
  {
    var t := TrimStart(s, IsWhitespace);
    if !IsBlank(s) {
      assert |t| > 0;
    }
  }

  // ---------------------------------------------------------------------
  // Case mapping
  // ---------------------------------------------------------------------

  /**
   * Lower-case mapping for comparisons with ASCII text: ASCII letters and
   * the Kelvin sign (which Kotlin's lowercase() maps to 'k').
   */
  function LowerChar(c: char): char {
    if 'A' <= c <= 'Z' then (c as int + 32) as char
    else if c == '\U{212A}' then 'k'
    else c
  }

  /**
   * Upper-case mapping for comparisons with ASCII text: ASCII letters, and
   * the dotless i and long s, which Kotlin's uppercase() maps to 'I' and 'S'.
   */
  function UpperChar(c: char): char {
    if 'a' <= c <= 'z' then (c as int - 32) as char
    else if c == '\U{0131}' then 'I'
    else if c == '\U{017F}' then 'S'
    else c
  }

  function Lower(s: string): (r: string)
    ensures |r| == |s| && forall i | 0 <= i < |s| :: r[i] == LowerChar(s[i])
  {
    seq(|s|, i requires 0 <= i < |s| => LowerChar(s[i]))
  }

  function Upper(s: string): (r: string)
    ensures |r| == |s| && forall i | 0 <= i < |s| :: r[i] == UpperChar(s[i])
  {
    seq(|s|, i requires 0 <= i < |s| => UpperChar(s[i]))
  }

  /** Text the mapping leaves alone is its own upper-case form. */
  lemma UpperFixed(s: string)
    requires forall i | 0 <= i < |s| :: UpperChar(s[i]) == s[i]
    ensures Upper(s) == s
  {
  }

  /** Text the mapping leaves alone is its own lower-case form. */
  lemma LowerFixed(s: string)
    requires forall i | 0 <= i < |s| :: LowerChar(s[i]) == s[i]
    ensures Lower(s) == s
  {
  }

  /** Upper-casing twice is upper-casing once. */
  lemma UpperIdempotent(s: string)
    ensures Upper(Upper(s)) == Upper(s)
  {
  }

  /** Kotlin `contains(other, ignoreCase = true)` over the modelled case mapping. */
  predicate ContainsIgnoreCase(s: string, p: string) {
    Contains(Lower(s), Lower(p))
  }

  // ---------------------------------------------------------------------
  // Joining, splitting and replacing
  // ---------------------------------------------------------------------

  /** Kotlin joinToString(sep) / Java String.join. */
  function Join(parts: seq<string>, sep: string): string
    decreases |parts|
  {
    if |parts| == 0 then ""
    else if |parts| == 1 then parts[0]
    else parts[0] + sep + Join(parts[1..], sep)
  }

  /** Index of the first `c` in `s`. */
  function CharIndex(s: string, c: char): (r: Option<nat>)
    ensures r.Some? ==> r.value < |s| && s[r.value] == c && c !in s[..r.value]
    ensures r.None? <==> c !in s
    decreases |s|
  {
    if |s| == 0 then None
    else if s[0] == c then Some(0)
    else
      match CharIndex(s[1..], c)
      case None => None
      case Some(k) =>
        assert s[..k + 1] == [s[0]] + s[1..][..k];
        Some(k + 1)
  }

  lemma JoinCons(head: string, tail: seq<string>, sep: string)
    requires |tail| >= 1
    ensures Join([head] + tail, sep) == head + sep + Join(tail, sep)
  {
    assert ([head] + tail)[1..] == tail;
  }

  /** Split on every occurrence of `c`, keeping empty pieces (Python str.split(c)). */
  function SplitOn(s: string, c: char): (r: seq<string>)
    ensures |r| >= 1
    ensures forall i | 0 <= i < |r| :: c !in r[i]
    decreases |s|
  {
    match CharIndex(s, c)
    case None => [s]
    case Some(k) => [s[..k]] + SplitOn(s[k + 1..], c)
  }

  /** Joining the pieces back with `c` restores the input. */
  lemma {:induction false} SplitOnJoin(s: string, c: char)
    ensures Join(SplitOn(s, c), [c]) == s
    decreases |s|
  {
    match CharIndex(s, c)
    case None =>
    case Some(k) =>
      var rest := SplitOn(s[k + 1..], c);
      assert SplitOn(s, c) == [s[..k]] + rest;
      SplitOnJoin(s[k + 1..], c);
      JoinCons(s[..k], rest, [c]);
      assert Join(SplitOn(s, c), [c]) == s[..k] + [c] + s[k + 1..];
      assert s == s[..k] + [c] + s[k + 1..];
  }

  function DropTrailingEmpty(parts: seq<string>): (r: seq<string>)
    ensures |r| <= |parts| && r == parts[..|r|]
    ensures |r| > 0 ==> r[|r| - 1] != ""
    ensures forall i | |r| <= i < |parts| :: parts[i] == ""
    decreases |parts|
  {
    if |parts| > 0 && parts[|parts| - 1] == "" then DropTrailingEmpty(parts[..|parts| - 1]) else parts
  }

  /** java.lang.String.split(sep) with a one-character literal separator and limit 0. */
  function JavaSplit(s: string, c: char): seq<string> {
    if c !in s then [s] else DropTrailingEmpty(SplitOn(s, c))
  }

  /** Replace every non-overlapping occurrence of `p`, left to right (String.replace). */
  function ReplaceAll(s: string, p: string, r: string): string
    requires |p| > 0
    decreases |s|
  {
    if |s| < |p| then s
    else if s[..|p|] == p then r + ReplaceAll(s[|p|..], p, r)
    else [s[0]] + ReplaceAll(s[1..], p, r)
  }

  /** Text without an occurrence of the pattern comes back unchanged. */
  lemma {:induction false} ReplaceAllAbsent(s: string, p: string, r: string)
    requires |p| > 0 && !Contains(s, p)
    ensures ReplaceAll(s, p, r) == s
    decreases |s|
  {
    if |s| >= |p| {
      assert !OccursAt(s, p, 0);
      assert forall j :: OccursAt(s[1..], p, j) ==> OccursAt(s, p, j + 1);
      ReplaceAllAbsent(s[1..], p, r);
    }
  }

  /**
   * A Java/Kotlin String's `length`: UTF-16 code units, two for a character
   * outside the Basic Multilingual Plane.
   */
  function Utf16Length(s: string): (n: nat)
    ensures |s| <= n <= 2 * |s|
    ensures n == |s| <==> forall i | 0 <= i < |s| :: s[i] as int <= 0xFFFF
  {
    if |s| == 0 then 0
    else
      var n := Utf16Length(s[..|s| - 1]) + (if s[|s| - 1] as int > 0xFFFF then 2 else 1);
      assert forall i | 0 <= i < |s| - 1 :: s[..|s| - 1][i] == s[i];
      n
  }

  /** Code units add up over concatenation. */
  lemma {:induction false} Utf16LengthAppend(a: string, b: string)
    ensures Utf16Length(a + b) == Utf16Length(a) + Utf16Length(b)
    decreases |b|
  {
    if |b| == 0 {
      assert a + b == a;
    } else {
      var b' := b[..|b| - 1];
      assert (a + b)[..|a + b| - 1] == a + b';
      Utf16LengthAppend(a, b');
    }
  }

  /** Kotlin `take(n)`: the first n characters, or all of them. */
  function Take<T>(s: seq<T>, n: int): (r: seq<T>)
    ensures |r| == if n <= 0 then 0 else if n < |s| then n else |s|
    ensures r == s[..|r|]
  {
    if n <= 0 then [] else if n < |s| then s[..n] else s
  }

  /** Kotlin `takeLast(n)`. */
  function TakeLast<T>(s: seq<T>, n: nat): (r: seq<T>)
    ensures |r| == if n < |s| then n else |s|
    ensures r == s[|s| - |r|..]
  {
    if n < |s| then s[|s| - n..] else s
  }

  // ---------------------------------------------------------------------
  // Kotlin lines(): split on CRLF, LF or CR
  // ---------------------------------------------------------------------

  predicate IsLineBreak(c: char) {
    c == '\n' || c == '\r'
  }

  predicate NoLineBreak(s: string) {
    forall i | 0 <= i < |s| :: !IsLineBreak(s[i])
  }

  /** Position of the first line break at or after `i`. */
  function FirstBreak(s: string, i: nat): (r: Option<nat>)
    requires i <= |s|
    ensures r.Some? ==> i <= r.value < |s| && IsLineBreak(s[r.value])
    ensures r.Some? ==> forall j | i <= j < r.value :: !IsLineBreak(s[j])
    ensures r.None? ==> forall j | i <= j < |s| :: !IsLineBreak(s[j])
    decreases |s| - i
  {
    if i == |s| then None
    else if IsLineBreak(s[i]) then Some(i)
    else FirstBreak(s, i + 1)
  }

  /** Kotlin CharSequence.lines(). */
  function Lines(s: string): (r: seq<string>)
    ensures |r| >= 1
    ensures forall i | 0 <= i < |r| :: NoLineBreak(r[i])
    decreases |s|
  {
    match FirstBreak(s, 0)
    case None => [s]
    case Some(k) =>
      var n := if s[k] == '\r' && k + 1 < |s| && s[k + 1] == '\n' then 2 else 1;
      [s[..k]] + Lines(s[k + n..])
  }

  /** Joining break-free lines with LF and splitting again gives the same lines. */
  lemma {:induction false} LinesOfJoin(ls: seq<string>)
    requires |ls| >= 1
    requires forall i | 0 <= i < |ls| :: NoLineBreak(ls[i])
    ensures Lines(Join(ls, "\n")) == ls
    decreases |ls|
  {
    if |ls| == 1 {
      assert FirstBreak(ls[0], 0).None?;
    } else {
      assert Join(ls, "\n") == ls[0] + "\n" + Join(ls[1..], "\n");
      LinesCons(ls[0], Join(ls[1..], "\n"));
      LinesOfJoin(ls[1..]);
      assert ls == [ls[0]] + ls[1..];
    }
  }

  /** A break-free line followed by LF splits off as the first line. */
  lemma LinesCons(head: string, tail: string)
    requires NoLineBreak(head)
    ensures Lines(head + "\n" + tail) == [head] + Lines(tail)
  {
    var s := head + "\n" + tail;
    assert s[|head|] == '\n';
    assert forall j | 0 <= j < |head| :: s[j] == head[j];
    assert FirstBreak(s, 0) == Some(|head|) by {
      FirstBreakAt(s, |head|);
    }
    assert s[..|head|] == head;
    assert s[|head| + 1..] == tail;
  }

  lemma FirstBreakAt(s: string, k: nat)
    requires k < |s| && IsLineBreak(s[k])
    requires forall j | 0 <= j < k :: !IsLineBreak(s[j])
    ensures FirstBreak(s, 0) == Some(k)
  {
    var r := FirstBreak(s, 0);
    assert r.Some?;
  }

  // ---------------------------------------------------------------------
  // Decimal rendering of integers (Kotlin string templates)
  // ---------------------------------------------------------------------

  function DigitChar(d: nat): (c: char)
    requires d < 10
    ensures '0' <= c <= '9'
  {
    ('0' as int + d) as char
  }

  function NatToString(n: nat): (r: string)
    ensures |r| >= 1
    ensures forall i | 0 <= i < |r| :: '0' <= r[i] <= '9'
    decreases n
  {
    if n < 10 then [DigitChar(n)] else NatToString(n / 10) + [DigitChar(n % 10)]
  }

  function IntToString(i: int): (r: string)
    ensures |r| >= 1 && '0' <= r[|r| - 1] <= '9'
  {
    if i < 0 then "-" + NatToString(-i) else NatToString(i)
  }

  /** Reads a run of decimal digits back. */
  function ParseDigits(s: string): nat
    requires forall i | 0 <= i < |s| :: '0' <= s[i] <= '9'
    decreases |s|
  {
    if |s| == 0 then 0 else 10 * ParseDigits(s[..|s| - 1]) + (s[|s| - 1] as int - '0' as int)
  }

  /** The decimal rendering is read back to the same number. */
  lemma {:induction false} ParseNatToString(n: nat)
    ensures ParseDigits(NatToString(n)) == n
    decreases n
  {
    if n >= 10 {
      var r := NatToString(n);
      assert r[..|r| - 1] == NatToString(n / 10);
      ParseNatToString(n / 10);
    }
  }
}

=== FILE: terminal_command_bridge.dfy ===
/**
 * TerminalCommandBridge: runs a command in a terminal session by typing it
 * followed by an `echo` of a unique marker, then polling the transcript
 * until the marker shows up; also reads a session's transcript.
 *
 * The terminal service is a value (None while no activity has registered
 * it). The transcript text at each poll, the UUID the marker is cut from
 * and the current session are parameters; the 100 ms delay and the clock
 * become the list of polls made before the timeout.
 */
module TerminalCommandBridge {
  import opened Wrappers
  import opened Strings
  import Seqs

  const MARKER_START: string := "===ANTHROID_END_"
  const MARKER_END: string := "==="

  /** A terminal session; `handle` stands for its object identity. */
  datatype Session = Session(handle: nat, name: Option<string>, title: Option<string>, running: bool, hasEmulator: bool)

  /** A TermuxSession, whose terminal session may be missing. */
  datatype TermuxSession = TermuxSession(terminal: Option<Session>)

  datatype CommandResult = CommandResult(success: bool, output: string, exitCode: int, sessionId: string)

  /** CommandResult.error(message, sessionId). */
  function Failure(message: string, sessionId: string): (r: CommandResult)
    ensures !r.success && r.exitCode == -1 && r.output == message && r.sessionId == sessionId
  {
    CommandResult(false, message, -1, sessionId)
  }

  /** toToolResult(): the session line, then the output or the error. */
  function ToToolResult(r: CommandResult): (text: string)
    ensures StartsWith(text, "Session: " + r.sessionId + "\n")
    ensures r.success ==> text == "Session: " + r.sessionId + "\n" + "Output:\n" + r.output
    ensures !r.success ==> text == "Session: " + r.sessionId + "\n" + "Error: " + r.output
  {
    var head := "Session: " + r.sessionId + "\n";
    var text := head + (if r.success then "Output:\n" + r.output else "Error: " + r.output);
    assert text[..|head|] == head;
    text
  }

  // ---------------------------------------------------------------------
  // Sessions
  // ---------------------------------------------------------------------

  /** getDefaultSessionId(service). */
  function DefaultSessionId(sessions: seq<TermuxSession>): (id: string)
    ensures |sessions| == 0 ==> id == "none"
    ensures |sessions| > 0 && sessions[0].terminal.Some? && sessions[0].terminal.value.name.Some? ==>
              id == sessions[0].terminal.value.name.value
    ensures |sessions| > 0 && !(sessions[0].terminal.Some? && sessions[0].terminal.value.name.Some?) ==>
              id == "session-0"
  {
    if |sessions| == 0 then "none"
    else match sessions[0].terminal
      case Some(Session(_, Some(name), _, _, _)) => name
      case _ => "session-0"
  }

  predicate Named(ts: TermuxSession, name: string) {
    ts.terminal.Some? && ts.terminal.value.name == Some(name)
  }

  /** The `k`-th session is the first one with that name. */
  predicate FirstNamed(sessions: seq<TermuxSession>, name: string, k: int) {
    0 <= k < |sessions| && Named(sessions[k], name) && forall j | 0 <= j < k :: !Named(sessions[j], name)
  }

  /** findSessionByName(service, name)?.terminalSession. */
  function FindByName(sessions: seq<TermuxSession>, name: string): (r: Option<Session>)
    ensures r.Some? ==> r.value.name == Some(name) && Some(r.value) in Seqs.Map(sessions, (ts: TermuxSession) => ts.terminal)
    ensures r.Some? <==> exists i | 0 <= i < |sessions| :: Named(sessions[i], name)
    ensures forall k | FirstNamed(sessions, name, k) :: r == sessions[k].terminal
  {
    match Seqs.IndexOfFirst(sessions, (ts: TermuxSession) => Named(ts, name))
    case None => None
    case Some(k) =>
      assert Seqs.Map(sessions, (ts: TermuxSession) => ts.terminal)[k] == sessions[k].terminal;
      sessions[k].terminal
  }

  /** The session a call addresses, and the id it reports. */
  function Target(sessions: seq<TermuxSession>, current: Option<Session>, sessionId: Option<string>)
    : (r: (Option<Session>, string))
    ensures sessionId.Some? ==> r.1 == sessionId.value && r.0 == FindByName(sessions, sessionId.value)
    ensures sessionId.None? ==> r.0 == current
    ensures sessionId.None? && current.Some? && current.value.name.Some? ==> r.1 == current.value.name.value
    ensures sessionId.None? && !(current.Some? && current.value.name.Some?) ==> r.1 == DefaultSessionId(sessions)
  {
    match sessionId
    case Some(id) => (FindByName(sessions, id), id)
    case None =>
      match current
      case Some(Session(_, Some(name), _, _, _)) => (current, name)
      case _ => (current, DefaultSessionId(sessions))
  }

  datatype SessionInfo = SessionInfo(id: string, name: string, isRunning: bool, isCurrent: bool)

  function Handle(s: Option<Session>): Option<nat> {
    match s case Some(t) => Some(t.handle) case None => None
  }

  /** listSessions(). */
  function ListSessions(service: Option<seq<TermuxSession>>, current: Option<Session>): (r: seq<SessionInfo>)
    ensures service.None? ==> r == []
    ensures service.Some? ==> |r| == |service.value|
    ensures service.Some? ==> forall i | 0 <= i < |r| ::
              (service.value[i].terminal.None? ==>
                 r[i].id == "session-" + NatToString(i) && r[i].name == "Terminal " + NatToString(i) && !r[i].isRunning)
              && (service.value[i].terminal.Some? ==>
                    var t := service.value[i].terminal.value;
                    r[i].id == t.name.GetOr("session-" + NatToString(i))
                    && r[i].name == t.title.GetOr("Terminal " + NatToString(i))
                    && r[i].isRunning == t.running)
              && (r[i].isCurrent <==> Handle(service.value[i].terminal) == Handle(current))
  {
    match service
    case None => []
    case Some(sessions) =>
      seq(|sessions|, i requires 0 <= i < |sessions| =>
        var t := sessions[i].terminal;
        SessionInfo(
          match t case Some(Session(_, Some(n), _, _, _)) => n case _ => "session-" + NatToString(i),
          match t case Some(Session(_, _, Some(title), _, _)) => title case _ => "Terminal " + NatToString(i),
          t.Some? && t.value.running,
          Handle(t) == Handle(current)))
  }

  // ---------------------------------------------------------------------
  // executeCommand
  // ---------------------------------------------------------------------

  /** The marker: fixed ends around the first 8 characters of a UUID. */
  function Marker(uuid: string): (m: string)
    ensures StartsWith(m, MARKER_START) && EndsWith(m, MARKER_END)
    ensures |uuid| >= 8 ==> |m| == |MARKER_START| + 8 + |MARKER_END|
    ensures |m| == |MARKER_START| + |Take(uuid, 8)| + |MARKER_END|
    ensures m[|MARKER_START|..|m| - |MARKER_END|] == Take(uuid, 8)
    ensures |uuid| >= 8 ==> m[|MARKER_START|..|m| - |MARKER_END|] == uuid[..8]
    ensures |uuid| < 8 ==> m[|MARKER_START|..|m| - |MARKER_END|] == uuid
  {
    var m := MARKER_START + Take(uuid, 8) + MARKER_END;
    assert m[..|MARKER_START|] == MARKER_START;
    assert m[|m| - |MARKER_END|..] == MARKER_END;
    assert m[|MARKER_START|..|m| - |MARKER_END|] == Take(uuid, 8);
    m
  }

  /** Two commands get the same marker exactly when their ids share the first 8 characters. */
  lemma MarkerInjective(u1: string, u2: string)
    requires |u1| >= 8 && |u2| >= 8
    ensures Marker(u1) == Marker(u2) <==> u1[..8] == u2[..8]
  {
    var m1, m2 := Marker(u1), Marker(u2);
    if m1 == m2 {
      assert m1[|MARKER_START|..|m1| - |MARKER_END|] == m2[|MARKER_START|..|m2| - |MARKER_END|];
    }
  }

  /** The text written to the terminal. */
  function FullCommand(command: string, marker: string): (t: string)
    ensures StartsWith(t, command) && EndsWith(t, "'\n")
    ensures t == command + "; echo '" + marker + "'\n"
  {
    var t := command + "; echo '" + marker + "'\n";
    assert t[..|command|] == command;
    assert t[|t| - 2..] == "'\n";
    t
  }

  /** The transcript text after the starting length. */
  function NewContent(now: string, startPos: nat): (r: string)
    ensures |now| > startPos ==> r == now[startPos..]
    ensures |now| <= startPos ==> r == ""
  {
    if |now| > startPos then now[startPos..] else ""
  }

  /** A line that is neither the echoed command nor the echo of the marker. */
  function IsOutputLine(cmdLine: string, marker: string): string -> bool {
    line => !Contains(line, cmdLine) && !Contains(line, "echo '" + marker + "'")
  }

  /**
   * The output once the marker is seen: the text before it, trimmed, with
   * the leading echo lines dropped.
   */
  function ExtractOutput(newContent: string, command: string, marker: string): (r: string)
    ensures var output := KotlinTrim(SubstringBefore(newContent, marker));
      var lines := Lines(output);
      match Seqs.IndexOfFirst(lines, IsOutputLine(KotlinTrim(command), marker))
      case None => r == "" && forall i | 0 <= i < |lines| :: !IsOutputLine(KotlinTrim(command), marker)(lines[i])
      case Some(k) =>
        (k == 0 ==> r == output)
        && (k > 0 ==> r == KotlinTrim(Join(lines[k..], "\n"))
                      && forall i | 0 <= i < k :: !IsOutputLine(KotlinTrim(command), marker)(lines[i]))
  {
    var output := KotlinTrim(SubstringBefore(newContent, marker));
    var lines := Lines(output);
    match Seqs.IndexOfFirst(lines, IsOutputLine(KotlinTrim(command), marker))
    case None => ""
    case Some(k) => if k > 0 then KotlinTrim(Join(lines[k..], "\n")) else output
  }

  /** Whatever is reported carries no surrounding whitespace. */
  lemma ExtractedIsTrimmed(newContent: string, command: string, marker: string)
    ensures var r := ExtractOutput(newContent, command, marker);
      |r| > 0 ==> !IsWhitespace(r[0]) && !IsWhitespace(r[|r| - 1])
  {
    var output := KotlinTrim(SubstringBefore(newContent, marker));
    var lines := Lines(output);
    match Seqs.IndexOfFirst(lines, IsOutputLine(KotlinTrim(command), marker))
    case None =>
    case Some(k) =>
      if k > 0 {
        assert ExtractOutput(newContent, command, marker) == KotlinTrim(Join(lines[k..], "\n"));
      } else {
        assert ExtractOutput(newContent, command, marker) == output;
      }
  }

  /** A blank command is contained in every line, so nothing is reported. */
  lemma BlankCommandReportsNothing(newContent: string, command: string, marker: string)
    requires KotlinTrim(command) == ""
    ensures ExtractOutput(newContent, command, marker) == ""
  {
    var lines := Lines(KotlinTrim(SubstringBefore(newContent, marker)));
    forall i | 0 <= i < |lines|
      ensures !IsOutputLine("", marker)(lines[i])
    {
      assert OccursAt(lines[i], "", 0);
    }
  }

  /** A poll whose new text shows the marker; a failed read counts as empty text. */
  predicate Shows(poll: Option<string>, startPos: nat, marker: string) {
    Contains(NewContent(poll.GetOr(""), startPos), marker)
  }

  /** The `k`-th poll is the first to show the marker. */
  predicate FirstShows(polls: seq<Option<string>>, startPos: nat, marker: string, k: int) {
    0 <= k < |polls| && Shows(polls[k], startPos, marker)
    && forall j | 0 <= j < k :: !Shows(polls[j], startPos, marker)
  }

  /** The wait loop's outcome: the output at the first poll that shows the marker. */
  function Await(polls: seq<Option<string>>, startPos: nat, command: string, marker: string): (r: Option<string>)
    ensures r.None? <==> forall i | 0 <= i < |polls| :: !Contains(NewContent(polls[i].GetOr(""), startPos), marker)
    decreases |polls|
  {
    if |polls| == 0 then None
    else
      var seen := NewContent(polls[0].GetOr(""), startPos);
      if Contains(seen, marker) then Some(ExtractOutput(seen, command, marker))
      else
        var rest := Await(polls[1..], startPos, command, marker);
        assert forall i | 1 <= i < |polls| :: polls[i] == polls[1..][i - 1];
        rest
  }

  /** When the `k`-th poll is the first to show the marker, its text is what the wait reports. */
  lemma {:induction false} AwaitAt(polls: seq<Option<string>>, startPos: nat, command: string, marker: string, k: nat)
    requires FirstShows(polls, startPos, marker, k)
    ensures Await(polls, startPos, command, marker)
            == Some(ExtractOutput(NewContent(polls[k].GetOr(""), startPos), command, marker))
    decreases k
  {
    if k > 0 {
      assert polls[1..][k - 1] == polls[k];
      assert forall j | 0 <= j < k - 1 :: polls[1..][j] == polls[j + 1];
      AwaitAt(polls[1..], startPos, command, marker, k - 1);
    }
  }

  lemma AwaitFirst(polls: seq<Option<string>>, startPos: nat, command: string, marker: string)
    ensures forall k | FirstShows(polls, startPos, marker, k) ::
              Await(polls, startPos, command, marker)
              == Some(ExtractOutput(NewContent(polls[k].GetOr(""), startPos), command, marker))
  {
    forall k | FirstShows(polls, startPos, marker, k)
      ensures Await(polls, startPos, command, marker)
              == Some(ExtractOutput(NewContent(polls[k].GetOr(""), startPos), command, marker))
    {
      AwaitAt(polls, startPos, command, marker, k);
    }
  }

  /**
   * executeCommand(command, sessionId, timeout): the result, and the text
   * written to the terminal when it got that far. `before` is the transcript
   * before writing; `polls` are the transcripts read before the timeout.
   */
  function ExecuteCommand(service: Option<seq<TermuxSession>>, current: Option<Session>, command: string,
                          sessionId: Option<string>, timeout: int, uuid: string,
                          before: Option<string>, polls: seq<Option<string>>): (r: (CommandResult, Option<string>))
    ensures service.None? ==> r == (Failure("Termux service not available", ""), None)
    ensures r.1.Some? <==>
              (service.Some? && var t := Target(service.value, current, sessionId).0;
               t.Some? && t.value.running && t.value.hasEmulator)
    ensures r.1.Some? ==> r.1.value == FullCommand(command, Marker(uuid))
    ensures r.0.success <==> r.0.exitCode == 0
    ensures !r.0.success ==> r.0.exitCode == -1
    ensures r.0.success ==> r.1.Some?
    ensures r.1.Some? ==>
              (r.0.success <==> exists k | 0 <= k < |polls| :: Shows(polls[k], |before.GetOr("")|, Marker(uuid)))
    ensures r.1.Some? && !r.0.success ==> r.0.output == "Command timed out after " + IntToString(timeout) + "ms"
    ensures service.Some? ==> r.0.sessionId == Target(service.value, current, sessionId).1
    ensures r.1.Some? ==>
              forall k | FirstShows(polls, |before.GetOr("")|, Marker(uuid), k) ::
                r.0.success
                && r.0.output == ExtractOutput(NewContent(polls[k].GetOr(""), |before.GetOr("")|), command, Marker(uuid))
  {
    match service
    case None => (Failure("Termux service not available", ""), None)
    case Some(sessions) =>
      var (session, id) := Target(sessions, current, sessionId);
      if session.None? || !session.value.running then (Failure("No active terminal session", id), None)
      else if !session.value.hasEmulator then
        (Failure("Terminal emulator not initialized. Please open Termux first.", id), None)
      else
        var marker := Marker(uuid);
        var startPos := |before.GetOr("")|;
        AwaitFirst(polls, startPos, command, marker);
        match Await(polls, startPos, command, marker)
        case None => (CommandResult(false, "Command timed out after " + IntToString(timeout) + "ms", -1, id),
                      Some(FullCommand(command, marker)))
        case Some(output) => (CommandResult(true, output, 0, id), Some(FullCommand(command, marker)))
  }

  // ---------------------------------------------------------------------
  // readTerminalSession
  // ---------------------------------------------------------------------

  /** The line limit: the last maxLines lines when there are more, else the text unchanged. */
  function LimitLines(transcript: string, maxLines: int): (r: string)
    ensures maxLines <= 0 || |Lines(transcript)| <= maxLines ==> r == transcript
    ensures maxLines > 0 && |Lines(transcript)| > maxLines ==>
              Lines(r) == TakeLast(Lines(transcript), maxLines) && |Lines(r)| == maxLines
    ensures maxLines > 0 && |Lines(transcript)| > maxLines ==> Join(Lines(r), "\n") == r
  {
    var lines := Lines(transcript);
    if maxLines > 0 && |lines| > maxLines then
      var kept := TakeLast(lines, maxLines);
      assert forall i | 0 <= i < |kept| :: kept[i] == lines[|lines| - maxLines + i];
      LinesOfJoin(kept);
      Join(kept, "\n")
    else transcript
  }

  /** readTerminalSession(sessionId, maxLines). `transcript` is the session's text, if it could be read. */
  function ReadTerminalSession(service: Option<seq<TermuxSession>>, current: Option<Session>,
                               sessionId: Option<string>, maxLines: int, transcript: Option<string>)
    : (r: CommandResult)
    ensures r.success <==>
              (service.Some? && transcript.Some?
               && var t := Target(service.value, current, sessionId).0; t.Some? && t.value.hasEmulator)
    ensures r.success ==> r.exitCode == 0 && r.output == LimitLines(transcript.value, maxLines)
    ensures !r.success ==> r.exitCode == -1
    ensures service.Some? ==> r.sessionId == Target(service.value, current, sessionId).1
  {
    match service
    case None => Failure("Termux service not available", "")
    case Some(sessions) =>
      var (session, id) := Target(sessions, current, sessionId);
      if session.None? then Failure("No terminal session found", id)
      else if !session.value.hasEmulator then Failure("Terminal emulator not initialized", id)
      else match transcript
        case None => Failure("Failed to read terminal transcript", id)
        case Some(text) => CommandResult(true, LimitLines(text, maxLines), 0, id)
  }

  /**
   * Unlike executeCommand, reading does not need the session to be running:
   * on a stopped session with an emulator a read succeeds, while a command
   * is never written and never succeeds, whatever the polls would show.
   */
  lemma ReadingIgnoresRunning(sessions: seq<TermuxSession>, s: Session, maxLines: int, text: string,
                              command: string, timeout: int, uuid: string, before: Option<string>,
                              polls: seq<Option<string>>)
    requires s.hasEmulator && !s.running
    ensures ReadTerminalSession(Some(sessions), Some(s), None, maxLines, Some(text)).success
    ensures var r := ExecuteCommand(Some(sessions), Some(s), command, None, timeout, uuid, before, polls);
            !r.0.success && r.1.None?
  {
  }
}

=== FILE: termux_installer.dfy ===
/**
 * TermuxInstaller: the decisions made while the bootstrap archive is
 * unpacked into the staging prefix. Which entries are text, how text files
 * are re-pointed from the com.termux package to com.anthroid, which files
 * become executable, how SYMLINKS.txt is read, when installation is skipped,
 * and how the first-boot hook is added to `.bashrc`. File-system calls,
 * threads and dialogs are left out: the archive is a list of entries, the
 * state of the prefix is a set of flags, and the staging path is a parameter.
 */
module TermuxInstaller {
  import opened Wrappers
  import opened Strings
  import opened Bytes
  import Seqs

  // ---------------------------------------------------------------------
  // Byte patterns
  // ---------------------------------------------------------------------

  /** `e_ident[EI_MAG0..EI_MAG3]` of the ELF format: 0x7f 'E' 'L' 'F'. */
  const ELF_MAGIC: seq<Byte> := [0x7f, 0x45, 0x4c, 0x46]

  /** The UTF-8 bytes of "com.termux". */
  const TERMUX_PACKAGE: seq<Byte> := [0x63, 0x6f, 0x6d, 0x2e, 0x74, 0x65, 0x72, 0x6d, 0x75, 0x78]

  /** The UTF-8 bytes of "com.anthroid". */
  const ANTHROID_PACKAGE: seq<Byte> := [0x63, 0x6f, 0x6d, 0x2e, 0x61, 0x6e, 0x74, 0x68, 0x72, 0x6f, 0x69, 0x64]

  /** The files above 64 KiB in `bin/` are never treated as text. */
  const MAX_TEXT_BIN_SIZE: int := 65536

  /** The package names are the UTF-8 encodings of their Java string literals. */
  lemma PackageNamesAreUtf8()
    ensures TERMUX_PACKAGE == Utf8("com.termux")
    ensures ANTHROID_PACKAGE == Utf8("com.anthroid")
  {
    TermuxPackageUtf8();
    AnthroidPackageUtf8();
  }

  lemma TermuxPackageUtf8()
    ensures TERMUX_PACKAGE == Utf8("com.termux")
  {
    AsciiBytes("com.termux", TERMUX_PACKAGE);
  }

  lemma AnthroidPackageUtf8()
    ensures ANTHROID_PACKAGE == Utf8("com.anthroid")
  {
    AsciiBytes("com.anthroid", ANTHROID_PACKAGE);
  }

  lemma AsciiBytes(s: string, bs: seq<Byte>)
    requires |s| == |bs| && forall i | 0 <= i < |s| :: s[i] as int == bs[i] && bs[i] < 0x80
    ensures Utf8(s) == bs
  {
    Utf8Ascii(s);
  }

  /** `p` occurs in `s` at position `i`. */
  predicate HasAt(s: seq<Byte>, p: seq<Byte>, i: int) {
    0 <= i && i + |p| <= |s| && s[i..i + |p|] == p
  }

  predicate ContainsBytes(s: seq<Byte>, p: seq<Byte>) {
    exists i | 0 <= i && i + |p| <= |s| :: HasAt(s, p, i)
  }

  /** String.replace on the decoded text, done on its bytes: every occurrence, left to right. */
  function ReplaceBytes(s: seq<Byte>, p: seq<Byte>, r: seq<Byte>): seq<Byte>
    requires |p| > 0
    decreases |s|
  {
    if |s| < |p| then s
    else if s[..|p|] == p then r + ReplaceBytes(s[|p|..], p, r)
    else [s[0]] + ReplaceBytes(s[1..], p, r)
  }

  // ---------------------------------------------------------------------
  // Classifying an entry
  // ---------------------------------------------------------------------

  /** isElfBinary(data): at least four bytes, starting with the ELF magic number. */
  function IsElfBinary(data: seq<Byte>): (r: bool)
    ensures r <==> |data| >= 4 && data[..4] == ELF_MAGIC
  {
    |data| >= 4 && data[0] == 0x7f && data[1] == 'E' as int && data[2] == 'L' as int && data[3] == 'F' as int
  }

  predicate HasShebang(data: seq<Byte>) {
    |data| > 2 && data[0] == '#' as int && data[1] == '!' as int
  }

  /**
   * Whether an unpacked file is a script or configuration file whose text is
   * rewritten: a shebang script, anything under `etc/`, or a small file
   * under `bin/` that is not an ELF executable.
   */
  function IsTextFile(name: string, data: seq<Byte>): (r: bool)
    ensures r <==> (
              || HasShebang(data)
              || StartsWith(name, "etc/")
              || (StartsWith(name, "bin/") && |data| < MAX_TEXT_BIN_SIZE && !IsElfBinary(data)))
  {
    if HasShebang(data) then true
    else StartsWith(name, "etc/") || (StartsWith(name, "bin/") && |data| < MAX_TEXT_BIN_SIZE && !IsElfBinary(data))
  }

  /** An ELF program is never text: its first byte is not '#', and outside `etc/` nothing else makes it text. */
  lemma ElfBinaryIsNotText(name: string, data: seq<Byte>)
    requires IsElfBinary(data) && !StartsWith(name, "etc/")
    ensures !IsTextFile(name, data)
  {
  }

  /** A shebang script is text wherever it lies in the archive. */
  lemma ScriptIsText(name: string, data: seq<Byte>)
    requires HasShebang(data)
    ensures IsTextFile(name, data)
  {
  }

  /** The content written for a file entry: text files have every com.termux replaced by com.anthroid. */
  function RewriteContent(name: string, data: seq<Byte>): (r: seq<Byte>)
    ensures !IsTextFile(name, data) ==> r == data
    ensures !ContainsBytes(data, TERMUX_PACKAGE) ==> r == data
    ensures IsTextFile(name, data) ==> r == ReplaceBytes(data, TERMUX_PACKAGE, ANTHROID_PACKAGE)
  {
    if IsTextFile(name, data) && ContainsBytes(data, TERMUX_PACKAGE) then
      ReplaceBytes(data, TERMUX_PACKAGE, ANTHROID_PACKAGE)
    else
      ReplaceAbsent(data, TERMUX_PACKAGE, ANTHROID_PACKAGE);
      data
  }

  /** Bytes without the pattern are not changed by a replacement. */
  lemma {:induction false} ReplaceAbsent(s: seq<Byte>, p: seq<Byte>, r: seq<Byte>)
    requires |p| > 0
    ensures !ContainsBytes(s, p) ==> ReplaceBytes(s, p, r) == s
    decreases |s|
  {
    if !ContainsBytes(s, p) && |s| >= |p| {
      assert !HasAt(s, p, 0);
      forall j | 0 <= j && j + |p| <= |s[1..]|
        ensures !HasAt(s[1..], p, j)
      {
        assert !HasAt(s, p, j + 1);
        assert s[1..][j..j + |p|] == s[j + 1..j + 1 + |p|];
      }
      ReplaceAbsent(s[1..], p, r);
    }
  }

  /** A rewritten text file no longer mentions com.termux anywhere. */
  lemma {:induction false} RewriteIsComplete(s: seq<Byte>)
    ensures !ContainsBytes(ReplaceBytes(s, TERMUX_PACKAGE, ANTHROID_PACKAGE), TERMUX_PACKAGE)
    decreases |s|
  {
    var t := ReplaceBytes(s, TERMUX_PACKAGE, ANTHROID_PACKAGE);
    if |s| < 10 {
    } else if s[..10] == TERMUX_PACKAGE {
      var rest := ReplaceBytes(s[10..], TERMUX_PACKAGE, ANTHROID_PACKAGE);
      RewriteIsComplete(s[10..]);
      assert t == ANTHROID_PACKAGE + rest;
      forall i | 0 <= i && i + 10 <= |t|
        ensures !HasAt(t, TERMUX_PACKAGE, i)
      {
        NotAfterReplacement(rest, i);
      }
    } else {
      var rest := ReplaceBytes(s[1..], TERMUX_PACKAGE, ANTHROID_PACKAGE);
      RewriteIsComplete(s[1..]);
      assert t == [s[0]] + rest;
      forall i | 0 <= i && i + 10 <= |t|
        ensures !HasAt(t, TERMUX_PACKAGE, i)
      {
        if i >= 1 {
          assert t[i..i + 10] == rest[i - 1..i + 9];
          assert !HasAt(rest, TERMUX_PACKAGE, i - 1);
        } else if HasAt(t, TERMUX_PACKAGE, 0) {
          assert rest[..9] == TERMUX_PACKAGE[1..];
          PlainPrefix(s[1..], TERMUX_PACKAGE[1..]);
        }
      }
    }
  }

  /** Behind a replacement, com.termux can only start where it starts in the rest. */
  lemma NotAfterReplacement(rest: seq<Byte>, i: int)
    requires !ContainsBytes(rest, TERMUX_PACKAGE)
    requires 0 <= i && i + 10 <= |ANTHROID_PACKAGE + rest|
    ensures !HasAt(ANTHROID_PACKAGE + rest, TERMUX_PACKAGE, i)
  {
    var t := ANTHROID_PACKAGE + rest;
    if i >= 12 {
      assert t[i..i + 10] == rest[i - 12..i - 2];
      assert !HasAt(rest, TERMUX_PACKAGE, i - 12);
    } else if i == 0 {
      assert t[i..i + 10][4] == 0x61;
    } else {
      assert t[i..i + 10][0] == ANTHROID_PACKAGE[i];
    }
  }

  /**
   * When the rewritten bytes start with a run holding no 'c', the original
   * started with the same run: every replacement starts with 'c'.
   */
  lemma {:induction false} PlainPrefix(s: seq<Byte>, q: seq<Byte>)
    requires forall j | 0 <= j < |q| :: q[j] != 0x63
    requires |q| <= |ReplaceBytes(s, TERMUX_PACKAGE, ANTHROID_PACKAGE)|
    requires ReplaceBytes(s, TERMUX_PACKAGE, ANTHROID_PACKAGE)[..|q|] == q
    ensures |q| <= |s| && s[..|q|] == q
    decreases |s|
  {
    if |q| > 0 && |s| >= 10 {
      FirstByte(s);
      assert ReplaceBytes(s, TERMUX_PACKAGE, ANTHROID_PACKAGE)[0] == q[0];
      var rest := ReplaceBytes(s[1..], TERMUX_PACKAGE, ANTHROID_PACKAGE);
      assert ReplaceBytes(s, TERMUX_PACKAGE, ANTHROID_PACKAGE) == [s[0]] + rest;
      assert rest[..|q| - 1] == q[1..];
      PlainPrefix(s[1..], q[1..]);
      assert s[..|q|] == [s[0]] + s[1..][..|q| - 1];
    }
  }

  /** The rewritten bytes start with 'c' where a replacement starts, and with the original byte elsewhere. */
  lemma FirstByte(s: seq<Byte>)
    requires |s| >= 10
    ensures ReplaceBytes(s, TERMUX_PACKAGE, ANTHROID_PACKAGE)[0] == if s[..10] == TERMUX_PACKAGE then 0x63 else s[0]
  {
  }

  /** A rewritten file is not rewritten again. */
  lemma RewriteIdempotent(name: string, data: seq<Byte>)
    ensures RewriteContent(name, RewriteContent(name, data)) == RewriteContent(name, data)
  {
    if IsTextFile(name, data) {
      RewriteIsComplete(data);
    }
  }

  /** Whether the unpacked file is made executable (mode 0700). */
  function NeedsExec(name: string): (r: bool)
    ensures r <==> (
              || StartsWith(name, "bin/") || StartsWith(name, "libexec")
              || StartsWith(name, "lib/apt/apt-helper") || StartsWith(name, "lib/apt/methods"))
  {
    exists p | p in EXEC_PREFIXES :: StartsWith(name, p)
  }

  const EXEC_PREFIXES: seq<string> := ["bin/", "libexec", "lib/apt/apt-helper", "lib/apt/methods"]

  /** Configuration under `etc/` is rewritten but never made executable. */
  lemma ConfigIsNotExecutable(name: string)
    requires StartsWith(name, "etc/")
    ensures !NeedsExec(name)
  {
    assert name[0] == 'e';
  }

  // ---------------------------------------------------------------------
  // SYMLINKS.txt
  // ---------------------------------------------------------------------

  const SYMLINKS_ENTRY: string := "SYMLINKS.txt"

  const SYMLINK_SEPARATOR: char := '←'

  /** A link to create: `newPath` will point at `oldPath`. */
  datatype Symlink = Symlink(oldPath: string, newPath: string)

  datatype Result<T> = Ok(value: T) | Failed(message: string)

  /**
   * One line of SYMLINKS.txt, `target←name`. String.split drops trailing
   * empty pieces, so the line must then have exactly two pieces; the link
   * is placed under the staging prefix.
   */
  function ParseSymlinkLine(line: string, staging: string): (r: Result<Symlink>)
    ensures r.Ok? <==> !Malformed(line)
    ensures r.Failed? ==> r.message == "Malformed symlink line: " + line
    ensures r.Ok? ==> StartsWith(r.value.newPath, staging + "/") && SYMLINK_SEPARATOR !in r.value.oldPath
  {
    var parts := JavaSplit(line, SYMLINK_SEPARATOR);
    if |parts| != 2 then Failed("Malformed symlink line: " + line)
    else
      assert SYMLINK_SEPARATOR !in parts[0] by {
        if SYMLINK_SEPARATOR in line {
          assert parts[0] == SplitOn(line, SYMLINK_SEPARATOR)[0];
        }
      }
      Ok(Symlink(parts[0], staging + "/" + parts[1]))
  }

  /** A line that String.split does not cut into exactly two pieces. */
  function Malformed(line: string): bool {
    |JavaSplit(line, SYMLINK_SEPARATOR)| != 2
  }

  /** Writing a link as `target←name` and reading it back gives the same link, placed under the staging prefix. */
  lemma SymlinkLineRoundTrip(target: string, name: string, staging: string)
    requires SYMLINK_SEPARATOR !in target && SYMLINK_SEPARATOR !in name && name != ""
    ensures ParseSymlinkLine(target + [SYMLINK_SEPARATOR] + name, staging) == Ok(Symlink(target, staging + "/" + name))
  {
    var line := target + [SYMLINK_SEPARATOR] + name;
    var k := CharIndex(line, SYMLINK_SEPARATOR);
    assert line[|target|] == SYMLINK_SEPARATOR;
    assert line[..|target|] == target && line[|target| + 1..] == name;
    assert k == Some(|target|);
    assert SplitOn(line, SYMLINK_SEPARATOR) == [target, name];
  }

  /** A trailing separator is dropped by String.split, so such a line is still accepted. */
  lemma TrailingSeparatorAccepted(staging: string)
    ensures ParseSymlinkLine("a←b←", staging) == Ok(Symlink("a", staging + "/b"))
  {
    assert "a←b←" == ['a', SYMLINK_SEPARATOR, 'b', SYMLINK_SEPARATOR];
    SplitTwoTrailing('a', 'b', SYMLINK_SEPARATOR);
    assert staging + "/" + "b" == staging + "/b";
  }

  /** Two one-character pieces, each followed by the separator, split into the two pieces. */
  lemma SplitTwoTrailing(a: char, b: char, c: char)
    requires a != c && b != c
    ensures JavaSplit([a, c, b, c], c) == [[a], [b]]
  {
    var s := [a, c, b, c];
    assert CharIndex(s, c) == Some(1);
    assert CharIndex(s[2..], c) == Some(1);
    assert s[..1] == [a] && s[2..][..1] == [b] && s[2..][2..] == [];
    assert SplitOn([], c) == [[]];
    assert SplitOn(s[2..], c) == [[b], []];
    assert SplitOn(s, c) == [[a], [b], []];
    assert DropTrailingEmpty([[a], [b], []]) == [[a], [b]];
  }

  /** A line with nothing after the separator has one piece and is rejected. */
  lemma EmptyNameRejected(staging: string)
    ensures ParseSymlinkLine("a←", staging) == Failed("Malformed symlink line: a←")
  {
    var line := "a←";
    assert CharIndex(line, SYMLINK_SEPARATOR) == Some(1);
    assert line[..1] == "a" && line[2..] == "";
    assert SplitOn("", SYMLINK_SEPARATOR) == [""];
    assert SplitOn(line, SYMLINK_SEPARATOR) == ["a", ""];
  }

  /** Every line of SYMLINKS.txt in order; the first malformed one ends the installation. */
  function ParseSymlinks(lines: seq<string>, staging: string): (r: Result<seq<Symlink>>)
    ensures match Seqs.IndexOfFirst(lines, Malformed)
            case Some(k) => r == Failed("Malformed symlink line: " + lines[k])
            case None =>
              && r.Ok? && |r.value| == |lines|
              && forall i | 0 <= i < |lines| :: Ok(r.value[i]) == ParseSymlinkLine(lines[i], staging)
    decreases |lines|
  {
    if |lines| == 0 then Ok([])
    else
      match ParseSymlinkLine(lines[0], staging)
      case Failed(m) => Failed(m)
      case Ok(link) =>
        match ParseSymlinks(lines[1..], staging)
        case Failed(m) => Failed(m)
        case Ok(links) => Ok([link] + links)
  }

  // ---------------------------------------------------------------------
  // Unpacking the archive
  // ---------------------------------------------------------------------

  datatype ZipEntry = ZipEntry(name: string, isDirectory: bool, data: seq<Byte>)

  /** A file written into the staging prefix, and whether it was made executable. */
  datatype Written = Written(name: string, data: seq<Byte>, executable: bool)

  datatype Extraction = Extraction(directories: seq<string>, files: seq<Written>, symlinks: seq<Symlink>)

  function IsSymlinkList(e: ZipEntry): bool {
    e.name == SYMLINKS_ENTRY
  }

  function IsFileEntry(e: ZipEntry): bool {
    e.name != SYMLINKS_ENTRY && !e.isDirectory
  }

  /** What is written for a file entry. */
  function WrittenOf(e: ZipEntry): Written {
    Written(e.name, RewriteContent(e.name, e.data), NeedsExec(e.name))
  }

  /**
   * The loop over the archive's entries. `linesOf` stands for reading an
   * entry's bytes line by line with a BufferedReader.
   */
  function ExtractEntries(entries: seq<ZipEntry>, linesOf: seq<Byte> -> seq<string>, staging: string): (r: Result<Extraction>)
    ensures r.Ok? <==> SymlinkListsParse(entries, linesOf, staging)
    ensures r.Ok? ==> r.value.files == Seqs.Map(Seqs.Filter(entries, IsFileEntry), WrittenOf)
    ensures r.Ok? ==> forall l | l in r.value.symlinks :: StartsWith(l.newPath, staging + "/")
    ensures r.Ok? && |r.value.symlinks| > 0 ==> exists e | e in entries :: IsSymlinkList(e)
    decreases |entries|
  {
    if |entries| == 0 then Ok(Extraction([], [], []))
    else
      var e := entries[0];
      var rest := ExtractEntries(entries[1..], linesOf, staging);
      SymlinkListsCons(entries, linesOf, staging);
      Seqs.MapFilterCons(entries, IsFileEntry, WrittenOf);
      if IsSymlinkList(e) then
        match ParseSymlinks(linesOf(e.data), staging)
        case Failed(m) => Failed(m)
        case Ok(links) =>
          match rest
          case Failed(m) => Failed(m)
          case Ok(x) =>
            LinksUnderStaging(linesOf(e.data), staging);
            Ok(x.(symlinks := links + x.symlinks))
      else
        match rest
        case Failed(m) => Failed(m)
        case Ok(x) =>
          if e.isDirectory then Ok(x.(directories := [e.name] + x.directories))
          else Ok(x.(files := [WrittenOf(e)] + x.files))
  }

  /** Every symbolic-link list in `entries` parses. */
  predicate SymlinkListsParse(entries: seq<ZipEntry>, linesOf: seq<Byte> -> seq<string>, staging: string) {
    forall e | e in entries && IsSymlinkList(e) :: ParseSymlinks(linesOf(e.data), staging).Ok?
  }

  /** Splitting off the first entry of the condition above, and of "some entry is a list". */
  lemma SymlinkListsCons(entries: seq<ZipEntry>, linesOf: seq<Byte> -> seq<string>, staging: string)
    requires |entries| > 0
    ensures SymlinkListsParse(entries, linesOf, staging) <==>
              (IsSymlinkList(entries[0]) ==> ParseSymlinks(linesOf(entries[0].data), staging).Ok?)
              && SymlinkListsParse(entries[1..], linesOf, staging)
    ensures (exists e | e in entries :: IsSymlinkList(e)) <==>
              IsSymlinkList(entries[0]) || exists e | e in entries[1..] :: IsSymlinkList(e)
  {
    assert entries == [entries[0]] + entries[1..];
  }

  /** Every link parsed from a list lies under the staging prefix. */
  lemma LinksUnderStaging(lines: seq<string>, staging: string)
    requires ParseSymlinks(lines, staging).Ok?
    ensures forall l | l in ParseSymlinks(lines, staging).value :: StartsWith(l.newPath, staging + "/")
  {
    var links := ParseSymlinks(lines, staging).value;
    forall l | l in links ensures StartsWith(l.newPath, staging + "/") {
      var i :| 0 <= i < |links| && links[i] == l;
      SymlinkAt(lines, staging, i);
    }
  }

  /** Each parsed link comes from its line. */
  lemma SymlinkAt(lines: seq<string>, staging: string, i: int)
    requires ParseSymlinks(lines, staging).Ok? && 0 <= i < |ParseSymlinks(lines, staging).value|
    ensures StartsWith(ParseSymlinks(lines, staging).value[i].newPath, staging + "/")
  {
    match Seqs.IndexOfFirst(lines, Malformed)
    case Some(k) =>
    case None =>
      assert Ok(ParseSymlinks(lines, staging).value[i]) == ParseSymlinkLine(lines[i], staging);
  }

  /**
   * Unpacking the bootstrap: the entries are extracted, and an archive that
   * yielded no links at all is rejected before anything is moved into place.
   */
  function InstallBootstrap(entries: seq<ZipEntry>, linesOf: seq<Byte> -> seq<string>, staging: string): (r: Result<Extraction>)
    ensures r.Ok? ==> |r.value.symlinks| > 0 && r == ExtractEntries(entries, linesOf, staging)
    ensures ExtractEntries(entries, linesOf, staging).Failed? ==> r == ExtractEntries(entries, linesOf, staging)
    ensures (forall e | e in entries :: !IsSymlinkList(e)) ==> r == Failed("No SYMLINKS.txt encountered")
    ensures ExtractEntries(entries, linesOf, staging).Ok? ==>
              r == (if |ExtractEntries(entries, linesOf, staging).value.symlinks| == 0
                    then Failed("No SYMLINKS.txt encountered") else ExtractEntries(entries, linesOf, staging))
  {
    match ExtractEntries(entries, linesOf, staging)
    case Failed(m) =>
      assert !(forall e | e in entries && IsSymlinkList(e) :: ParseSymlinks(linesOf(e.data), staging).Ok?);
      Failed(m)
    case Ok(x) => if |x.symlinks| == 0 then Failed("No SYMLINKS.txt encountered") else Ok(x)
  }

  // ---------------------------------------------------------------------
  // Deciding whether to install
  // ---------------------------------------------------------------------

  /** What is known about `$PREFIX` before installing. */
  datatype PrefixState = PrefixState(isDirectory: bool, isEmpty: bool, hasBin: bool, hasBash: bool)

  datatype Setup = NotPrimaryUser | FilesDirectoryInaccessible | AlreadyInstalled | Install

  /**
   * setupBootstrapIfNeeded: a secondary user on Android 7 or later and an
   * inaccessible files directory are errors; an existing, non-empty prefix
   * with `bin/bash` is kept; anything else is (re)installed.
   */
  function SetupBootstrapIfNeeded(atLeastNougat: bool, isPrimaryUser: bool, filesDirectoryAccessible: bool,
                                  prefix: PrefixState): (r: Setup)
    ensures r == NotPrimaryUser <==> atLeastNougat && !isPrimaryUser
    ensures r == FilesDirectoryInaccessible <==> (atLeastNougat ==> isPrimaryUser) && !filesDirectoryAccessible
    ensures r == AlreadyInstalled <==>
              (atLeastNougat ==> isPrimaryUser) && filesDirectoryAccessible
              && prefix.isDirectory && !prefix.isEmpty && prefix.hasBin && prefix.hasBash
  {
    if atLeastNougat && !isPrimaryUser then NotPrimaryUser
    else if !filesDirectoryAccessible then FilesDirectoryInaccessible
    else if prefix.isDirectory then
      if prefix.isEmpty then Install
      else if !(prefix.hasBin && prefix.hasBash) then Install
      else AlreadyInstalled
    else Install
  }

  /** A prefix that lost `bin/bash` is extracted again rather than trusted. */
  lemma MissingShellReinstalls(prefix: PrefixState)
    requires prefix.isDirectory && !prefix.hasBash
    ensures SetupBootstrapIfNeeded(false, true, true, prefix) == Install
  {
  }

  // ---------------------------------------------------------------------
  // The first-boot hook in .bashrc
  // ---------------------------------------------------------------------

  const FIRST_BOOT_SCRIPT: string := ".first_boot.sh"

  const HOOK_START: string := "\n# Run first-boot script if exists\n[ -f ~/"

  const FIRST_BOOT_HOOK: string := HOOK_START + FIRST_BOOT_SCRIPT + " ] && ~/" + FIRST_BOOT_SCRIPT + "\n"

  lemma HookMentionsScript(before: string)
    ensures Contains(before + FIRST_BOOT_HOOK, FIRST_BOOT_SCRIPT)
  {
    var s := before + FIRST_BOOT_HOOK;
    var at := |before| + |HOOK_START|;
    assert s[at..at + |FIRST_BOOT_SCRIPT|] == FIRST_BOOT_SCRIPT;
    OccursAtContains(s, FIRST_BOOT_SCRIPT, at);
  }

  /**
   * The new contents of `.bashrc` (None when the file does not exist): the
   * hook is appended unless the file already mentions the script.
   */
  function AddFirstBootHook(bashrc: Option<string>): (r: string)
    ensures Contains(r, FIRST_BOOT_SCRIPT)
    ensures Contains(bashrc.GetOr(""), FIRST_BOOT_SCRIPT) ==> r == bashrc.GetOr("")
    ensures !Contains(bashrc.GetOr(""), FIRST_BOOT_SCRIPT) ==> r == bashrc.GetOr("") + FIRST_BOOT_HOOK
  {
    var content := bashrc.GetOr("");
    if Contains(content, FIRST_BOOT_SCRIPT) then content
    else
      HookMentionsScript(content);
      content + FIRST_BOOT_HOOK
  }

  /** Adding the hook a second time changes nothing. */
  lemma FirstBootHookIdempotent(bashrc: Option<string>)
    ensures AddFirstBootHook(Some(AddFirstBootHook(bashrc))) == AddFirstBootHook(bashrc)
  {
  }
}

=== FILE: tun2http_vpn_service.dfy ===
/**
 * Tun2HttpVpnService: the Android VpnService that routes the traffic of a
 * chosen set of apps into the native tun2http engine, which forwards it to
 * an HTTP proxy. When the proxy wants credentials the engine is pointed at a
 * local AuthProxyForwarder on 127.0.0.1:8888 instead, so the engine itself
 * never sees a username or password.
 *
 * Android and the native engine are outside the model: what they answer
 * (whether posting the foreground notification succeeds, the engine's MTU,
 * which packages are installed, whether establish() yields a descriptor,
 * whether the forwarder can bind, whether jni_start throws) is a `Platform`
 * value, and what the service asks of them is
 * appended to an effect log.
 */
module Tun2HttpVpnService {
  import opened Wrappers
  import opened Strings
  import Seqs
  import APF = AuthProxyForwarder

  const LOCAL_PROXY_PORT: int := 8888
  const ACTION_START: string := "tun.proxy.service.START"
  const ACTION_STOP: string := "tun.proxy.service.STOP"
  const DEFAULT_HOST: string := "localhost"
  const DEFAULT_PORT: int := 1091
  const DEFAULT_MTU: int := 1500
  /** Service.START_STICKY, returned by every onStartCommand. */
  const START_STICKY: int := 1
  /** tun2http's rcode argument: the value the service always passes. */
  const ENGINE_RCODE: int := 3

  /** The interface built by VpnService.Builder in establishVpn. */
  datatype VpnInterface = VpnInterface(
    fd: int,
    mtu: int,
    address: string,
    prefixLength: nat,
    route: string,
    routePrefixLength: nat,
    dns: string,
    allowedApps: seq<string>)

  /** What the service asks of the platform, in order. */
  datatype Effect =
    | EngineInit
    | EngineDone
    | EngineStart(fd: int, forwardDns: bool, rcode: int, proxyHost: string, proxyPort: int)
    | EngineStop(fd: int)
    | ForwarderStopped(forwarder: APF.Forwarder)
    | InterfaceClosed(fd: int)
    | Foreground(text: string)
    | ForegroundRemoved
    | SelfStopped

  /** The platform's answers during one startVpn. */
  datatype Platform = Platform(
    foregroundOk: bool,
    engineMtu: int,
    installed: set<string>,
    labels: map<string, string>,
    establishFd: Option<int>,
    bindOk: bool,
    engineStartOk: bool)

  /**
   * The service object's fields, and the statics it publishes
   * (`instance` as `created`, currentProxyHost/Port, currentTargetApps).
   */
  datatype Service = Service(
    created: bool,
    running: bool,
    iface: Option<VpnInterface>,
    forwarder: Option<APF.Forwarder>,
    host: string,
    port: int,
    user: string,
    pass: string,
    apps: seq<string>,
    currentHost: string,
    currentPort: int,
    currentApps: seq<string>,
    log: seq<Effect>)

  /** The extras of an Intent; None where the extra is missing (or the intent has no action). */
  datatype Intent = Intent(
    action: Option<string>,
    host: Option<string>,
    port: Option<int>,
    user: Option<string>,
    pass: Option<string>,
    apps: Option<seq<string>>)

  /** Field initialisers and static initialisers. */
  function NewService(): (s: Service)
    ensures !s.created && !s.running && s.iface.None? && s.forwarder.None?
    ensures s.host == DEFAULT_HOST && s.port == DEFAULT_PORT && s.user == "" && s.pass == ""
    ensures s.apps == [] && s.currentApps == [] && s.log == []
  {
    Service(false, false, None, None, DEFAULT_HOST, DEFAULT_PORT, "", "", [], "", 0, [], [])
  }

  /** No interface or forwarder outlives a session, and a session has an interface. */
  predicate Consistent(s: Service) {
    (s.running ==> s.iface.Some?) && (!s.running ==> s.iface.None? && s.forwarder.None?)
  }

  /** The static isRunning(): an instance exists and it is running. */
  predicate IsRunning(s: Service) {
    s.created && s.running
  }

  // ---------------------------------------------------------------------
  // stopVpn
  // ---------------------------------------------------------------------

  /** stopVpn(): stop the engine if a session runs, then release the forwarder and the interface. */
  function StopVpn(s: Service): (r: Service)
    ensures !r.running && r.iface.None? && r.forwarder.None?
    ensures Consistent(r)
    ensures r == s.(running := false, iface := None, forwarder := None, log := r.log)
    ensures |r.log| >= |s.log| + 2 && r.log[..|s.log|] == s.log
    ensures s.running && s.iface.Some? ==> r.log[|s.log|] == EngineStop(s.iface.value.fd)
    ensures EngineStop?(r.log, |s.log|) <==> s.running && s.iface.Some?
    ensures r.log[|r.log| - 2..] == [ForegroundRemoved, SelfStopped]
  {
    var engine := if s.running && s.iface.Some? then [EngineStop(s.iface.value.fd)] else [];
    var fwd := if s.forwarder.Some? then [ForwarderStopped(APF.Stop(s.forwarder.value))] else [];
    var closed := if s.iface.Some? then [InterfaceClosed(s.iface.value.fd)] else [];
    s.(running := false, iface := None, forwarder := None,
       log := s.log + engine + fwd + closed + [ForegroundRemoved, SelfStopped])
  }

  /** The log holds an EngineStop call at position i. */
  predicate EngineStop?(log: seq<Effect>, i: nat) {
    i < |log| && log[i].EngineStop?
  }

  /** A second stopVpn only repeats stopForeground and stopSelf. */
  lemma StopVpnTwice(s: Service)
    ensures StopVpn(StopVpn(s)) == StopVpn(s).(log := StopVpn(s).log + [ForegroundRemoved, SelfStopped])
  {
  }

  // ---------------------------------------------------------------------
  // establishVpn
  // ---------------------------------------------------------------------

  /** jni_get_mtu() with the fallback for a non-positive answer. */
  function EffectiveMtu(engineMtu: int): (m: int)
    ensures m > 0
    ensures engineMtu > 0 ==> m == engineMtu
    ensures engineMtu <= 0 ==> m == DEFAULT_MTU
  {
    if engineMtu <= 0 then DEFAULT_MTU else engineMtu
  }

  /** The target apps that resolve to an installed package, in the order given. */
  function AllowedApps(apps: seq<string>, installed: set<string>): (r: seq<string>)
    ensures forall a :: a in r <==> a in apps && a in installed
  {
    Seqs.Filter(apps, pkg => pkg in installed)
  }

  /**
   * establishVpn(mtu): a /32 address, a default route, one DNS server, and
   * only the resolvable target apps; null when none resolves or establish() fails.
   */
  function EstablishVpn(mtu: int, apps: seq<string>, installed: set<string>, establishFd: Option<int>)
    : (r: Option<VpnInterface>)
    ensures r.Some? <==> establishFd.Some? && exists i | 0 <= i < |apps| :: apps[i] in installed
    ensures r.Some? ==> r.value.fd == establishFd.value && r.value.mtu == mtu
    ensures r.Some? ==> forall a :: a in r.value.allowedApps <==> a in apps && a in installed
    ensures r.Some? ==> r.value.address == "10.1.10.1" && r.value.prefixLength == 32
    ensures r.Some? ==> r.value.route == "0.0.0.0" && r.value.routePrefixLength == 0
  {
    var allowed := AllowedApps(apps, installed);
    assert forall i | 0 <= i < |apps| :: apps[i] in installed ==> apps[i] in allowed;
    if |allowed| == 0 then None
    else if establishFd.None? then None
    else
      assert allowed[0] in apps;
      Some(VpnInterface(establishFd.value, mtu, "10.1.10.1", 32, "0.0.0.0", 0, "8.8.8.8", allowed))
  }

  // ---------------------------------------------------------------------
  // createNotification
  // ---------------------------------------------------------------------

  /** The label Android reports for a package, or the package name when the lookup throws. */
  function Label(labels: map<string, string>, pkg: string): string {
    if pkg in labels then labels[pkg] else pkg
  }

  /** One append to the StringBuilder: a separator only when something is already there. */
  function AppendName(acc: string, name: string): (r: string)
    ensures |acc| > 0 ==> r == acc + ", " + name
    ensures |acc| == 0 ==> r == name
  {
    if |acc| > 0 then acc + ", " + name else acc + name
  }

  function AppendNames(acc: string, names: seq<string>): string
    decreases |names|
  {
    if |names| == 0 then acc else AppendNames(AppendName(acc, names[0]), names[1..])
  }

  /** The builder loop over the target apps' labels. */
  function AppNames(apps: seq<string>, labels: map<string, string>): string {
    AppendNames("", Seqs.Map(apps, pkg => Label(labels, pkg)))
  }

  /** With no empty label, the builder loop is a plain ", "-join. */
  lemma {:induction false} AppendNamesJoin(acc: string, names: seq<string>)
    requires forall i | 0 <= i < |names| :: |names[i]| > 0
    ensures |acc| > 0 && |names| > 0 ==> AppendNames(acc, names) == acc + ", " + Join(names, ", ")
    ensures |acc| > 0 && |names| == 0 ==> AppendNames(acc, names) == acc
    ensures |acc| == 0 ==> AppendNames(acc, names) == Join(names, ", ")
    decreases |names|
  {
    if |names| > 0 {
      var next := AppendName(acc, names[0]);
      AppendNamesJoin(next, names[1..]);
      if |names| > 1 {
        JoinCons(names[0], names[1..], ", ");
        assert [names[0]] + names[1..] == names;
      }
    }
  }

  /** Example: an empty label swallows the separator before the next name. */
  lemma EmptyLabelSkipsSeparator(names: seq<string>)
    requires names == ["", "B"]
    ensures AppendNames("", names) == "B"
    ensures Join(names, ", ") == ", B"
  {
    assert names[1..] == ["B"];
    assert AppendNames("", names) == AppendNames("", ["B"]);
  }

  /** The marker for a proxy with a username. */
  function AuthTag(user: string): string {
    if user != "" then " (auth)" else ""
  }

  /** The notification text: "<apps> -> HTTP host:port", then " (auth)" when a username is set. */
  function NotificationText(apps: seq<string>, labels: map<string, string>,
                            host: string, port: int, user: string): (t: string)
    ensures StartsWith(t, AppNames(apps, labels) + " -> HTTP " + host + ":")
    ensures EndsWith(t, IntToString(port) + AuthTag(user))
    ensures |t| == |AppNames(apps, labels) + " -> HTTP " + host + ":"| + |IntToString(port) + AuthTag(user)|
  {
    var head := AppNames(apps, labels) + " -> HTTP " + host + ":";
    var tail := IntToString(port) + AuthTag(user);
    assert (head + tail)[..|head|] == head && (head + tail)[|head|..] == tail;
    head + tail
  }

  /**
   * With every label non-empty, the notification names the apps' labels
   * (the package name where none is known) joined by ", ", then the
   * proxy, then the auth marker.
   */
  lemma NotificationTextJoin(apps: seq<string>, labels: map<string, string>, host: string, port: int, user: string)
    requires forall i | 0 <= i < |apps| :: |Label(labels, apps[i])| > 0
    ensures NotificationText(apps, labels, host, port, user)
            == Join(Seqs.Map(apps, pkg => Label(labels, pkg)), ", ") + " -> HTTP " + host + ":"
               + IntToString(port) + AuthTag(user)
  {
    AppendNamesJoin("", Seqs.Map(apps, pkg => Label(labels, pkg)));
  }

  /** The "(auth)" tag depends on the username alone, not on the password. */
  lemma AuthTagIff(apps: seq<string>, labels: map<string, string>, host: string, port: int, user: string)
    ensures EndsWith(NotificationText(apps, labels, host, port, user), " (auth)") <==> user != ""
  {
    var t := NotificationText(apps, labels, host, port, user);
    if user == "" {
      assert t[|t| - 1] == IntToString(port)[|IntToString(port)| - 1];
      if |t| >= 7 {
        assert t[|t| - 7..][6] == t[|t| - 1];
      }
    }
  }

  // ---------------------------------------------------------------------
  // startVpn
  // ---------------------------------------------------------------------

  /** Both credentials present: traffic goes through the local forwarder. */
  predicate UsesForwarder(s: Service) {
    s.user != "" && s.pass != ""
  }

  /** The proxy endpoint handed to the engine. */
  function Endpoint(s: Service): (e: (string, int))
    ensures UsesForwarder(s) ==> e == (APF.LOOPBACK, LOCAL_PROXY_PORT)
    ensures !UsesForwarder(s) ==> e == (s.host, s.port)
  {
    if UsesForwarder(s) then (APF.LOOPBACK, LOCAL_PROXY_PORT) else (s.host, s.port)
  }

  /** jni_start, then isRunning = true; a throwing jni_start ends in stopVpn. */
  function Launch(s: Service, host: string, port: int, engineStartOk: bool): (r: Service)
    requires s.iface.Some?
    ensures |r.log| > |s.log| && r.log[..|s.log| + 1] == s.log + [EngineStart(s.iface.value.fd, false, ENGINE_RCODE, host, port)]
    ensures r.running <==> engineStartOk
    ensures engineStartOk ==> r == s.(running := true, log := s.log + [EngineStart(s.iface.value.fd, false, ENGINE_RCODE, host, port)])
    ensures !engineStartOk ==> r.iface.None? && r.forwarder.None? && |r.log| >= 2
                               && r.log[|r.log| - 2..] == [ForegroundRemoved, SelfStopped]
  {
    var t := s.(log := s.log + [EngineStart(s.iface.value.fd, false, ENGINE_RCODE, host, port)]);
    if engineStartOk then t.(running := true) else StopVpn(t)
  }

  /**
   * startVpn() after the interface is up: pick the endpoint, starting the
   * forwarder if needed; a forwarder that cannot bind ends in stopVpn
   * before the engine is touched.
   */
  function Connect(s: Service, p: Platform): (r: Service)
    requires s.iface.Some?
    ensures UsesForwarder(s) && !p.bindOk ==> !r.running && r.iface.None? && r.forwarder.None?
    ensures UsesForwarder(s) && !p.bindOk ==> forall i | |s.log| <= i < |r.log| :: !r.log[i].EngineStart?
    ensures !UsesForwarder(s) ==> r == Launch(s, s.host, s.port, p.engineStartOk)
  {
    if UsesForwarder(s) then
      var started := APF.Start(APF.NewForwarder(s.host, s.port, s.user, s.pass, LOCAL_PROXY_PORT), p.bindOk);
      var t := s.(forwarder := Some(started.0));
      if started.1 then StopVpn(t) else Launch(t, APF.LOOPBACK, LOCAL_PROXY_PORT, p.engineStartOk)
    else Launch(s, s.host, s.port, p.engineStartOk)
  }

  /** startVpn(): restart if running; refuse an empty app list; build the interface; connect. */
  function StartVpn(s: Service, p: Platform): (r: Service)
    ensures s.running ==> r == Begin(StopVpn(s), p)
    ensures !s.running ==> r == Begin(s, p)
  {
    Begin(if s.running then StopVpn(s) else s, p)
  }

  /**
   * The body of startVpn once any running session is stopped. A failure to
   * post the foreground notification is caught and ends in stopVpn.
   */
  function Begin(s: Service, p: Platform): (r: Service)
    ensures |r.log| > |s.log| && r.log[..|s.log|] == s.log
    ensures !s.running && r.running ==>
              |s.apps| > 0 && p.foregroundOk
              && r.log[|s.log|] == Foreground(NotificationText(s.apps, p.labels, s.host, s.port, s.user))
  {
    if |s.apps| == 0 then s.(log := s.log + [SelfStopped])
    else if !p.foregroundOk then StopVpn(s)
    else
      var s2 := s.(log := s.log + [Foreground(NotificationText(s.apps, p.labels, s.host, s.port, s.user))]);
      var r := Posted(s2, p);
      assert r.log[..|s.log|] == r.log[..|s2.log|][..|s.log|];
      r
  }

  /** The rest of startVpn once the notification is up: the interface, then the connection. */
  function Posted(s: Service, p: Platform): (r: Service)
    ensures |r.log| > |s.log| && r.log[..|s.log|] == s.log
  {
    match EstablishVpn(EffectiveMtu(p.engineMtu), s.apps, p.installed, p.establishFd)
    case None => s.(iface := None, log := s.log + [SelfStopped])
    case Some(v) =>
      var t := s.(iface := Some(v));
      ConnectKeepsLog(t, p);
      Connect(t, p)
  }

  /** startVpn with no target apps only stops the service. */
  lemma BeginNoApps(s: Service, p: Platform)
    requires |s.apps| == 0
    ensures Begin(s, p) == s.(log := s.log + [SelfStopped])
  {
  }

  /** A foreground notification that cannot be posted is caught, and the catch is stopVpn. */
  lemma BeginForegroundFails(s: Service, p: Platform)
    requires |s.apps| > 0 && !p.foregroundOk
    ensures Begin(s, p) == StopVpn(s)
  {
  }

  /** Otherwise the notification is posted before anything else. */
  lemma BeginPostsNotification(s: Service, p: Platform)
    requires |s.apps| > 0 && p.foregroundOk
    ensures |Begin(s, p).log| > |s.log|
    ensures Begin(s, p).log[..|s.log| + 1]
            == s.log + [Foreground(NotificationText(s.apps, p.labels, s.host, s.port, s.user))]
  {
    var text := NotificationText(s.apps, p.labels, s.host, s.port, s.user);
    if EstablishVpn(EffectiveMtu(p.engineMtu), s.apps, p.installed, p.establishFd).Some? {
      var r := Interfaced(s, p);
      ConnectKeepsLog(r, p);
      assert Begin(s, p).log[..|r.log|] == r.log;
      assert Begin(s, p).log[..|s.log| + 1] == r.log[..|s.log| + 1];
    } else {
      assert Begin(s, p).log == s.log + [Foreground(text), SelfStopped];
    }
  }

  /** An interface that cannot be established stops the service with nothing else done. */
  lemma BeginNoInterface(s: Service, p: Platform)
    requires |s.apps| > 0 && p.foregroundOk
    requires EstablishVpn(EffectiveMtu(p.engineMtu), s.apps, p.installed, p.establishFd).None?
    ensures Begin(s, p)
            == s.(iface := None, log := s.log + [Foreground(NotificationText(s.apps, p.labels, s.host, s.port, s.user)),
                                                  SelfStopped])
  {
  }

  /** Connecting only appends to the log. */
  lemma ConnectKeepsLog(s: Service, p: Platform)
    requires s.iface.Some?
    ensures |Connect(s, p).log| > |s.log| && Connect(s, p).log[..|s.log|] == s.log
  {
  }

  /** Every condition under which startVpn ends with a running session. */
  predicate StartSucceeds(s: Service, p: Platform) {
    p.foregroundOk
    && (exists i | 0 <= i < |s.apps| :: s.apps[i] in p.installed)
    && p.establishFd.Some?
    && (UsesForwarder(s) ==> p.bindOk)
    && p.engineStartOk
  }

  /** The state startVpn leaves behind when it does succeed. */
  ghost predicate Started(s: Service, p: Platform, r: Service) {
    && r.running
    && r.iface.Some?
    && p.establishFd.Some?
    && r.iface.value.fd == p.establishFd.value
    && r.iface.value.mtu == EffectiveMtu(p.engineMtu)
    && (forall a :: a in r.iface.value.allowedApps <==> a in s.apps && a in p.installed)
    && |r.log| > 0
    && r.log[|r.log| - 1] == EngineStart(p.establishFd.value, false, ENGINE_RCODE, Endpoint(s).0, Endpoint(s).1)
    && (r.forwarder.Some? <==> UsesForwarder(s))
    && (r.forwarder.Some? ==> r.forwarder.value.running
                              && r.forwarder.value.listener == APF.Bound(LOCAL_PROXY_PORT)
                              && r.forwarder.value.upstreamHost == s.host
                              && r.forwarder.value.upstreamPort == s.port
                              && r.forwarder.value.username == s.user
                              && r.forwarder.value.password == s.pass)
  }

  /** Configuration fields startVpn never writes. */
  predicate SameSettings(s: Service, r: Service) {
    r.created == s.created && r.host == s.host && r.port == s.port && r.user == s.user
    && r.pass == s.pass && r.apps == s.apps && r.currentHost == s.currentHost
    && r.currentPort == s.currentPort && r.currentApps == s.currentApps
  }

  lemma ConnectOutcome(s: Service, p: Platform)
    requires s.iface.Some? && s.forwarder.None?
    ensures Connect(s, p).running <==> (UsesForwarder(s) ==> p.bindOk) && p.engineStartOk
    ensures SameSettings(s, Connect(s, p))
    ensures Consistent(Connect(s, p))
    ensures |Connect(s, p).log| > |s.log| && Connect(s, p).log[..|s.log|] == s.log
    ensures Connect(s, p).running ==>
      Connect(s, p).iface == s.iface
      && Connect(s, p).log[|Connect(s, p).log| - 1]
         == EngineStart(s.iface.value.fd, false, ENGINE_RCODE, Endpoint(s).0, Endpoint(s).1)
      && (Connect(s, p).forwarder.Some? <==> UsesForwarder(s))
    ensures Connect(s, p).forwarder.Some? ==>
      var f := Connect(s, p).forwarder.value;
      f.running && f.listener == APF.Bound(LOCAL_PROXY_PORT) && f.upstreamHost == s.host
      && f.upstreamPort == s.port && f.username == s.user && f.password == s.pass
  {
  }

  lemma BeginOutcome(s: Service, p: Platform)
    requires !s.running && s.iface.None? && s.forwarder.None?
    ensures Begin(s, p).running <==> StartSucceeds(s, p)
    ensures Begin(s, p).running ==> Started(s, p, Begin(s, p))
    ensures SameSettings(s, Begin(s, p))
    ensures Consistent(Begin(s, p))
    ensures |Begin(s, p).log| > |s.log| && Begin(s, p).log[..|s.log|] == s.log
  {
    if |s.apps| > 0 && p.foregroundOk {
      var e := EstablishVpn(EffectiveMtu(p.engineMtu), s.apps, p.installed, p.establishFd);
      if e.Some? {
        BeginConnects(s, p);
      }
    }
  }

  /** Once the interface is up, startVpn's outcome is the outcome of connecting it. */
  lemma BeginConnects(s: Service, p: Platform)
    requires !s.running && s.iface.None? && s.forwarder.None? && |s.apps| > 0 && p.foregroundOk
    requires EstablishVpn(EffectiveMtu(p.engineMtu), s.apps, p.installed, p.establishFd).Some?
    ensures Begin(s, p).running <==> StartSucceeds(s, p)
    ensures Begin(s, p).running ==> Started(s, p, Begin(s, p))
    ensures SameSettings(s, Begin(s, p))
    ensures Consistent(Begin(s, p))
    ensures |Begin(s, p).log| > |s.log| && Begin(s, p).log[..|s.log|] == s.log
  {
    var s3 := Interfaced(s, p);
    ConnectOutcome(s3, p);
    ConnectedStarted(s, p, s3);
  }

  /** The service just before connecting: the notification is up and the interface established. */
  function Interfaced(s: Service, p: Platform): (r: Service)
    requires |s.apps| > 0 && p.foregroundOk
    requires EstablishVpn(EffectiveMtu(p.engineMtu), s.apps, p.installed, p.establishFd).Some?
    ensures r.iface.Some? && r.forwarder == s.forwarder && r.running == s.running
    ensures SameSettings(s, r) && Endpoint(r) == Endpoint(s)
    ensures |r.log| > |s.log| && r.log[..|s.log|] == s.log
    ensures r.log == s.log + [Foreground(NotificationText(s.apps, p.labels, s.host, s.port, s.user))]
    ensures r.iface == EstablishVpn(EffectiveMtu(p.engineMtu), s.apps, p.installed, p.establishFd)
    ensures Begin(s, p) == Connect(r, p)
  {
    var text := NotificationText(s.apps, p.labels, s.host, s.port, s.user);
    var e := EstablishVpn(EffectiveMtu(p.engineMtu), s.apps, p.installed, p.establishFd);
    var r := s.(log := s.log + [Foreground(text)], iface := e);
    assert r.log[..|s.log|] == s.log;
    r
  }

  /** A connection that runs leaves startVpn in the `Started` shape. */
  lemma ConnectedStarted(s: Service, p: Platform, s3: Service)
    requires |s.apps| > 0 && p.foregroundOk
    requires EstablishVpn(EffectiveMtu(p.engineMtu), s.apps, p.installed, p.establishFd).Some?
    requires s3.iface == EstablishVpn(EffectiveMtu(p.engineMtu), s.apps, p.installed, p.establishFd)
    requires Endpoint(s3) == Endpoint(s) && SameSettings(s, s3)
    requires Connect(s3, p).running <==> (UsesForwarder(s3) ==> p.bindOk) && p.engineStartOk
    requires Connect(s3, p).running ==>
      Connect(s3, p).iface == s3.iface
      && Connect(s3, p).log[|Connect(s3, p).log| - 1]
         == EngineStart(s3.iface.value.fd, false, ENGINE_RCODE, Endpoint(s3).0, Endpoint(s3).1)
      && (Connect(s3, p).forwarder.Some? <==> UsesForwarder(s3))
    requires Connect(s3, p).forwarder.Some? ==>
      var f := Connect(s3, p).forwarder.value;
      f.running && f.listener == APF.Bound(LOCAL_PROXY_PORT) && f.upstreamHost == s3.host
      && f.upstreamPort == s3.port && f.username == s3.user && f.password == s3.pass
    ensures Connect(s3, p).running <==> StartSucceeds(s, p)
    ensures Connect(s3, p).running ==> Started(s, p, Connect(s3, p))
  {
  }

  /**
   * startVpn ends with a running session exactly when some target app is
   * installed, establish() yields a descriptor, the forwarder (if one is
   * needed) binds, and jni_start returns; the session then has the shape
   * `Started` describes.
   */
  lemma StartVpnOutcome(s: Service, p: Platform)
    requires Consistent(s)
    ensures StartVpn(s, p).running <==> StartSucceeds(s, p)
    ensures StartVpn(s, p).running ==> Started(s, p, StartVpn(s, p))
    ensures SameSettings(s, StartVpn(s, p))
    ensures Consistent(StartVpn(s, p))
  {
    var s1 := if s.running then StopVpn(s) else s;
    BeginOutcome(s1, p);
    SettingsDecide(s, s1, p, StartVpn(s, p));
  }

  /** Success and the started shape depend only on the fields startVpn never writes. */
  lemma SettingsDecide(s: Service, s1: Service, p: Platform, r: Service)
    requires SameSettings(s, s1)
    ensures StartSucceeds(s, p) == StartSucceeds(s1, p)
    ensures Started(s1, p, r) ==> Started(s, p, r)
    ensures SameSettings(s1, r) ==> SameSettings(s, r)
  {
    assert Endpoint(s) == Endpoint(s1);
  }

  /** Restarting a running session stops the old engine before anything else happens. */
  lemma RestartStopsEngineFirst(s: Service, p: Platform)
    requires s.running && s.iface.Some?
    ensures |StartVpn(s, p).log| > |s.log|
    ensures StartVpn(s, p).log[|s.log|] == EngineStop(s.iface.value.fd)
  {
    var s1 := StopVpn(s);
    BeginOutcome(s1, p);
    assert StartVpn(s, p).log[..|s1.log|] == s1.log;
  }

  // ---------------------------------------------------------------------
  // Lifecycle and the static queries
  // ---------------------------------------------------------------------

  /** onCreate(): publish the instance and initialise the engine. */
  function OnCreate(s: Service): (r: Service)
    ensures r.created && r.running == s.running
    ensures r.log == s.log + [EngineInit]
  {
    s.(created := true, log := s.log + [EngineInit])
  }

  /** onStartCommand(intent): START applies the extras with their defaults and starts; STOP stops. */
  function OnStartCommand(s: Service, intent: Option<Intent>, p: Platform): (r: (Service, int))
    ensures r.1 == START_STICKY
    ensures intent.None? ==> r.0 == s
    ensures (intent.Some? && intent.value.action != Some(ACTION_START)
             && intent.value.action != Some(ACTION_STOP)) ==> r.0 == s
    ensures intent.Some? && intent.value.action == Some(ACTION_STOP) ==> r.0 == StopVpn(s)
  {
    match intent
    case None => (s, START_STICKY)
    case Some(i) =>
      if i.action == Some(ACTION_START) then
        (StartVpn(ApplyExtras(s, i), p), START_STICKY)
      else if i.action == Some(ACTION_STOP) then (StopVpn(s), START_STICKY)
      else (s, START_STICKY)
  }

  /** The START branch's field updates, before startVpn. */
  function ApplyExtras(s: Service, i: Intent): (r: Service)
    ensures r.host == i.host.GetOr(DEFAULT_HOST) && r.port == i.port.GetOr(DEFAULT_PORT)
    ensures r.user == i.user.GetOr("") && r.pass == i.pass.GetOr("") && r.apps == i.apps.GetOr([])
    ensures r.currentHost == r.host && r.currentPort == r.port && r.currentApps == r.apps
    ensures r == s.(host := r.host, port := r.port, user := r.user, pass := r.pass, apps := r.apps,
                    currentHost := r.host, currentPort := r.port, currentApps := r.apps)
  {
    var host := i.host.GetOr(DEFAULT_HOST);
    var port := i.port.GetOr(DEFAULT_PORT);
    var apps := i.apps.GetOr([]);
    s.(host := host, port := port, user := i.user.GetOr(""), pass := i.pass.GetOr(""), apps := apps,
       currentHost := host, currentPort := port, currentApps := apps)
  }

  /** A START intent publishes its settings, which a later getProxyInfo reports. */
  lemma StartPublishes(s: Service, i: Intent, p: Platform)
    requires Consistent(s)
    requires i.action == Some(ACTION_START)
    ensures var r := OnStartCommand(s, Some(i), p).0;
      r.currentHost == i.host.GetOr(DEFAULT_HOST) && r.currentPort == i.port.GetOr(DEFAULT_PORT)
      && r.currentApps == i.apps.GetOr([]) && r.created == s.created
      && (r.running <==> StartSucceeds(ApplyExtras(s, i), p))
  {
    StartVpnOutcome(ApplyExtras(s, i), p);
  }

  /** onDestroy(): stopVpn, jni_done, drop the instance and the published app list. */
  function OnDestroy(s: Service): (r: Service)
    ensures !IsRunning(r) && !r.created && r.currentApps == []
    ensures r.iface.None? && r.forwarder.None?
    ensures |r.log| > 0 && r.log[|r.log| - 1] == EngineDone
  {
    var t := StopVpn(s);
    t.(created := false, currentApps := [], log := t.log + [EngineDone])
  }

  /** onRevoke(): the user withdrew VPN permission. */
  function OnRevoke(s: Service): (r: Service)
    ensures !r.running && r.iface.None? && r.forwarder.None?
  {
    StopVpn(s)
  }

  /** The static getTargetApps(): a copy of the published list, whether or not an instance exists. */
  function TargetApps(s: Service): (r: seq<string>)
    ensures r == s.currentApps
  {
    s.currentApps
  }

  /** The static getProxyInfo(). */
  function ProxyInfo(s: Service): (r: string)
    ensures !IsRunning(s) ==> r == "HTTP VPN not running"
    ensures IsRunning(s) ==>
      r == "HTTP proxy at " + s.currentHost + ":" + IntToString(s.currentPort) + " for " + Join(s.currentApps, ", ")
  {
    if IsRunning(s) then
      "HTTP proxy at " + s.currentHost + ":" + IntToString(s.currentPort) + " for " + Join(s.currentApps, ", ")
    else "HTTP VPN not running"
  }

  /** Every entry point keeps interface and forwarder tied to a running session. */
  lemma ConsistentPreserved(s: Service, i: Option<Intent>, p: Platform)
    requires Consistent(s)
    ensures Consistent(OnCreate(s))
    ensures Consistent(OnStartCommand(s, i, p).0)
    ensures Consistent(OnDestroy(s))
    ensures Consistent(OnRevoke(s))
  {
    if i.Some? && i.value.action == Some(ACTION_START) {
      StartVpnOutcome(ApplyExtras(s, i.value), p);
    }
  }

  /**
   * A START intent's settings are what the static queries report: the
   * target apps at once, whether or not the start succeeds, and the proxy
   * description once the session runs.
   */
  lemma QueriesReportStart(s: Service, i: Intent, p: Platform)
    requires Consistent(s) && s.created
    requires i.action == Some(ACTION_START)
    ensures var r := OnStartCommand(s, Some(i), p).0;
      && TargetApps(r) == i.apps.GetOr([])
      && (StartSucceeds(ApplyExtras(s, i), p) ==>
            ProxyInfo(r) == "HTTP proxy at " + i.host.GetOr(DEFAULT_HOST) + ":" + IntToString(i.port.GetOr(DEFAULT_PORT))
                            + " for " + Join(i.apps.GetOr([]), ", "))
      && (!StartSucceeds(ApplyExtras(s, i), p) ==> ProxyInfo(r) == "HTTP VPN not running")
  {
    var r := OnStartCommand(s, Some(i), p).0;
    StartPublishes(s, i, p);
    assert IsRunning(r) <==> StartSucceeds(ApplyExtras(s, i), p);
  }

  /** After onDestroy the service reports itself stopped, whatever it was doing. */
  lemma DestroyReportsStopped(s: Service)
    ensures ProxyInfo(OnDestroy(s)) == "HTTP VPN not running"
    ensures TargetApps(OnDestroy(s)) == []
  {
  }
}

=== FILE: wrappers.dfy ===
/**
 * Optional values, standing in for Java/Kotlin `null` throughout the model.
 */
module Wrappers {

  datatype Option<+T> = None | Some(value: T) {

    /** The value, or `default` when absent (Kotlin's `?:`). */
    function GetOr(default: T): T {
      match this
      case Some(v) => v
      case None => default
    }
  }
}
